=== FILE: README.md ===
# drone-tomography coordination core in Dafny

This project models the radio coordination and mission delivery logic of
drone-tomography. In that system a small fleet of ground vehicles (robots
on a line grid) and a ground station carry radio sensors. The vehicles
take turns broadcasting, report each link's signal strength (RSSI) to the
ground station for tomographic reconstruction, and receive their waypoint
missions over the same radio.

Every operation is a pure function or a small method over immutable
datatypes. Time, randomness, sockets, serial ports and callbacks are
parameters. Raised Python exceptions are `Result` errors that name the
exception class (`Wrappers.Error`).

The modules follow the repository's files:

- **Channel access and packets.**
  - `Tdma`: the TDMA scheduler's slot arithmetic.
  - `Packets` and `PacketCodec`: the key/value packet with its specification registry, the `$`-prefixed serialisation and the dump import/export.
  - `Octets`, `Decimal` and `Text`: byte, number and string helpers.
  - `Ntp`: the four-timestamp clock offset exchange.
- **Sensor runtimes.**
  - `RfSensor`: the base runtime.
  - `XBeeSensor`: the older XBee base.
  - `PhysicalXBee`: the physical XBee driver.
  - `TexasInstruments` and `Uart`: the Texas Instruments driver and its UART frames.
  - `Cc2530`: the XBee CC2530 driver.
  - `Simulator`: the simulated sensor.
- **Delivery protocols.**
  - `MissionRfSensor`: the mission receiver.
  - `Sender`: the control panel's sender.
  - `Delivery`: the two sides together.
  - `SettingsReceiver` and `MissionXBee`: the sibling protocols.
- **Rendezvous gating.**
  - `Environment`: the valid-measurement map.
  - `MissionAuto` and `Mission`: the waypoint missions.
  - `RobotVehicle` and `ArduinoFull`: the grid robot and its Arduino serial protocol.
  - `Vehicle`: the attribute listeners.
- **Planning and control panel.**
  - `Greedy` and `Grid`: the greedy pair assignment and its grid directions.
  - `WaypointsView`: the waypoint table helpers.
  - `Controller`: the callback and view-data registry.
- **Reconstruction input.**
  - `Buffers`, `DatasetBuffer`, `DumpBuffer` and `StreamBuffer`: the measurement buffers.
  - `Coordinator`: the link de-duplication in front of the weight matrix.

## Model

| member | source | states |
|---|---|---|
| Tdma.New | zigbee/TDMA_Scheduler.py:5-20 | Without settings the constructor raises TypeError, and zero sensors raise ZeroDivisionError. Otherwise the scheduler starts at timestamp 0 with the given id, and its slot time multiplied by the number of sensors is the sweep delay. |
| Tdma.SetId | zigbee/TDMA_Scheduler.py:30-36 | The id setter changes the id, keeps the timestamp, and keeps the slot time consistent with the sweep. |
| Tdma.SetTimestamp | zigbee/TDMA_Scheduler.py:46-58 | The timestamp setter stores its value verbatim, keeps the id and slot time, and keeps the slot time consistent with the sweep. |
| Tdma.Update | zigbee/TDMA_Scheduler.py:73-82 | From timestamp 0 the next slot starts at now plus id slots. From any other timestamp the slot moves exactly one sweep later. |
| Tdma.Synchronize | zigbee/TDMA_Scheduler.py:84-104 | The timestamp never decreases. It changes exactly when the proposal is strictly later, and then it becomes the proposal. Nothing but the timestamp changes. |
| Tdma.ProposalIsSlotDistance | zigbee/TDMA_Scheduler.py:92-100 | A packet from a lower id proposes the sender's timestamp plus the id difference in slots. A packet carrying the scheduler's own id proposes exactly one sweep later. In every case the proposal is the id difference in slots, or that plus one sweep. |
| Tdma.SlotOffset | zigbee/TDMA_Scheduler.py:79-80 | The first-slot offset (id / N) · sweep delay equals id slot times. |
| Tdma.SynchronizedSlotsDisjoint | zigbee/TDMA_Scheduler.py:92-100 | For one received packet, the proposals computed by two sensors with different ids in 1..N are at least one slot apart, so their slots do not overlap. |
| Tdma.FirstSlotsDisjoint | zigbee/TDMA_Scheduler.py:73-82 | Two sensors updated from timestamp 0 at the same instant start exactly (b − a) slots apart. |
| Tdma.Shift | zigbee/TDMA_Scheduler.py:106-115 | Shifting moves the timestamp by exactly the given seconds and changes nothing else. |
| Packets.NewPacket | zigbee/Packet.py:10-28 | A new packet is private and has no contents. |
| Packets.Get | zigbee/Packet.py:48-56 | A key that was never set reads as None. |
| Packets.Set | zigbee/Packet.py:30-38 | Any key can be set, and it then reads back as the new value while every other key is unchanged. Setting the specification to a registered name takes the privacy flag from the registry. Any other set leaves the privacy flag alone. |
| Packets.Unset | zigbee/Packet.py:40-46 | The key reads as None afterwards, every other key and the privacy flag are unchanged, and unsetting an absent key changes nothing. |
| Packets.ConsistentPreserved | zigbee/Packet.py:21-46 | A new packet, and every `set` or `unset` applied to a packet whose privacy matches its registered specification, keeps privacy matching the registry. |
| Packets.GetDump | zigbee/Packet.py:65-85 | A packet that is not `rssi_ground_station` raises ValueError. Otherwise the dump lists the values of the specification's fields other than the id, in registry order. |
| Packets.SetDump | zigbee/Packet.py:87-105 | A packet that is not `rssi_ground_station` raises ValueError, and a dump with fewer than eight values raises IndexError. Otherwise the eight dump fields take the dump's values in order, and every other key and the privacy flag are unchanged. |
| Packets.DumpRoundTrip | zigbee/Packet.py:65-105 | For the ground station layout, `set_dump` of a packet's own dump leaves every field as it was, and `get_dump` after `set_dump` returns the eight values that were set. |
| Packets.DumpIsRestored | zigbee/Packet.py:65-105 | `set_dump` of a packet's own dump changes no field. |
| Packets.DumpReadsBack | zigbee/Packet.py:65-105 | `get_dump` after `set_dump` of eight values returns those values. |
| PacketCodec.ReadFormat | zigbee/Packet.py:232-255 | Reading a field consumes at least one byte and never reads past the end of the message. |
| PacketCodec.PackField | zigbee/Packet.py:155-184 | A packed field is at least one byte. `?` packs exactly the bools, `B`, `b` and `i` exactly the integers in their ranges (`i` in four bytes), and `d` exactly the floats. `$` packs a byte string shorter than 256 behind its length byte. `@` starts with flag 1 for a value with a type code and flag 0 for a compressed object. Anything else is a struct error. |
| PacketCodec.FieldRoundTrip | zigbee/Packet.py:155-184 | A packed field of any format, read back at its offset inside any surrounding bytes, gives the value and ends exactly where the packed span ends. |
| PacketCodec.ScalarRoundTrip | zigbee/Packet.py:181-182 | The plain `struct` formats read back what they packed and consume exactly the packed span. |
| PacketCodec.OneByteRoundTrip | zigbee/Packet.py:181-182 | `?`, `B` and `b` fields are one byte each and read back as the packed value. |
| PacketCodec.IntRoundTrip | zigbee/Packet.py:181-182 | An `i` field is four little-endian two's-complement bytes that read back as the packed integer. |
| PacketCodec.DoubleRoundTrip | zigbee/Packet.py:181-182 | A `d` field reads back as the packed real. |
| PacketCodec.TextRoundTrip | zigbee/Packet.py:156-162 | A `$` field is one length byte followed by exactly that many bytes, and reading it consumes exactly that span and returns the string. |
| PacketCodec.ObjectRoundTrip | zigbee/Packet.py:163-179 | An `@` field reads back as the packed value, whichever branch packed it. |
| PacketCodec.TaggedRoundTrip | zigbee/Packet.py:170-174 | A bool, int, float or string in an `@` field is tagged with its type code and reads back through that code's format. |
| PacketCodec.BlobRoundTrip | zigbee/Packet.py:175-179 | Any other value in an `@` field is a length-prefixed compressed blob, and it reads back as the same value. |
| PacketCodec.PackFields | zigbee/Packet.py:137-151 | A missing field raises KeyError, and a value whose `struct` packing fails raises ValueError. A successful pack had a value for every declared field, either fixed or from the contents. |
| PacketCodec.Serialize | zigbee/Packet.py:107-153 | A packet with no specification, or with an unregistered one, raises KeyError. A successful result packs the registered specification's fields in registry order. |
| PacketCodec.SerializeStartsWithId | zigbee/Packet.py:139-153 | In a well-formed registry the first serialized byte is the specification's id, taken from the fixed value of its first field. |
| PacketCodec.FindById | zigbee/Packet.py:196-203 | The specification found carries the id byte as the fixed value of its first field. |
| PacketCodec.FindByIdFinds | zigbee/Packet.py:196-203 | In a well-formed registry, every specification's id finds that specification. |
| PacketCodec.UnknownIdIsKeyError | zigbee/Packet.py:196-206 | An id byte that no specification carries makes `unserialize` raise KeyError. |
| PacketCodec.Unserialize | zigbee/Packet.py:186-230 | An empty message raises a struct error. A successful result takes its privacy flag from the specification whose id is the first byte. |
| PacketCodec.SerializeRoundTrip | zigbee/Packet.py:107-230 | In a well-formed registry, unserializing a serialized packet into any packet restores the specification name, the privacy flag and every declared field. Keys the specification does not declare keep the target packet's values. |
| PacketCodec.UnserializeSerialized | zigbee/Packet.py:186-230 | Unserializing a serialized packet writes exactly the specification name and the declared fields over the target's contents, and sets the specification's privacy. |
| RfSensor.New | zigbee/RF_Sensor.py:117-145 | Any uncallable callback raises TypeError, and a missing `Arguments` object then raises ValueError. A new sensor has the configured id and sensor count, a scheduler with the same id at timestamp 0, no connection or address, is not joined, activated or started, and has both queues empty. |
| RfSensor.Activate | zigbee/RF_Sensor.py:203-218 | Afterwards the sensor is activated. Activating an activated sensor changes nothing. Otherwise one loop is spawned and the setup runs only when there is no connection. |
| RfSensor.ActivateIdempotent | zigbee/RF_Sensor.py:203-218 | Activating twice is activating once. |
| RfSensor.Deactivate | zigbee/RF_Sensor.py:220-236 | Afterwards the sensor is neither activated nor connected, and nothing else changes. |
| RfSensor.Start | zigbee/RF_Sensor.py:238-247 | The scheduler is updated, the relay queue is emptied and the sensor is started; nothing else changes. |
| RfSensor.Stop | zigbee/RF_Sensor.py:249-258 | The sensor is no longer started and the scheduler's timestamp is 0, so the next start resynchronises; nothing else changes. |
| RfSensor.Targets | zigbee/RF_Sensor.py:274-281 | The broadcast destinations are exactly the ids 1..N other than the sensor's own, in ascending order. |
| RfSensor.EnqueueFrames | zigbee/RF_Sensor.py:260-286 | A non-packet raises TypeError and a private packet raises ValueError. With a destination exactly one frame is queued. Without one, a copy is queued for every other id 1..N in ascending order. |
| RfSensor.Enqueue | zigbee/RF_Sensor.py:260-286 | The sensor's custom queue grows exactly as `enqueue` queues, and nothing else changes. |
| RfSensor.CheckDiscover | zigbee/RF_Sensor.py:288-306 | An uncallable callback raises TypeError, and so does a required-sensors value that is neither a set nor None. A set is accepted exactly when every id in it is in 1..N. |
| RfSensor.RequiredIds | zigbee/RF_Sensor.py:288-306 | The sensors to discover are the given set, or all of 1..N by default. |
| RfSensor.CheckTxFrame | zigbee/RF_Sensor.py:378-396 | Without a connection a frame raises DisabledException, and a missing packet or destination raises TypeError. A frame is sent exactly when a connection, a packet and a destination are all present. |
| RfSensor.LoopEndOf | zigbee/RF_Sensor.py:311-322 | The loop ends silently exactly on DisabledException; any other exception interrupts the program. |
| RfSensor.SendCustomPackets | zigbee/RF_Sensor.py:369-376 | With a connection, every custom frame is sent in queue order and the queue is emptied. Without one, the first frame is taken and raises DisabledException. |
| RfSensor.Broadcasts | zigbee/RF_Sensor.py:353-360 | Every broadcast frame carries the broadcast packet made for its destination. |
| RfSensor.Relayed | zigbee/RF_Sensor.py:362-367 | The number of relayed packets is at most the queue length. It is none while the slot does not outlast the broadcasts, and all of them when the slot outlasts every send; a partial relay means the slot ended. |
| RfSensor.Send | zigbee/RF_Sensor.py:345-367 | `_send` sends the slot-limited broadcasts, then relays the oldest queued packets to id 0, and exactly those leave the queue. |
| RfSensor.BroadcastAll | zigbee/RF_Sensor.py:353-360 | The broadcast loop sends to every other id in ascending order while the slot lasts, and reports how many slot checks remain for the relay loop. The physical XBee driver uses the same loop (zigbee/RF_Sensor_Physical_XBee.py:186-195). |
| RfSensor.RelayAll | zigbee/RF_Sensor.py:362-367 | The relay loop sends the oldest queued packets to id 0, one slot check each, as many as the remaining checks allow. |
| RfSensor.BroadcastsStep | zigbee/RF_Sensor.py:353-360 | One more slot check adds a broadcast to the next id, unless that id is the sensor's own. |
| RfSensor.LoopBody | zigbee/RF_Sensor.py:324-386 | A sensor that is not started drains its custom queue. A started vehicle in its slot broadcasts and relays, then updates its scheduler. Any other sensor sends nothing and changes nothing. Without a connection the first frame raises DisabledException. If that frame is a relay, its packet has already left the queue and is lost. If there is no frame to send, only the scheduler moves on. |
| RfSensor.CreateBroadcast | zigbee/RF_Sensor.py:401-421 | The broadcast carries the sensor's id, location, validity, pair validity, waypoint index and send time. |
| RfSensor.CreateGroundStation | zigbee/RF_Sensor.py:423-459 | The ground station packet copies the broadcast's latitude, longitude and validity into its `from_*` fields, and takes its own id, location and validity for the rest; its rssi is left unset. |
| RfSensor.GroundStationReportsLink | zigbee/RF_Sensor.py:401-459 | The ground station packet made from a broadcast reports the sender's location as the source and the receiver's location as the destination. |
| RfSensor.SynchronizeWith | zigbee/TDMA_Scheduler.py:92-104 | A sender id or send time that Python cannot convert raises that conversion's error. Otherwise the schedule moves only forward, and only to the proposal for that sender. |
| XBeeSensor.New | zigbee/XBee_Sensor.py:53-65 | Any uncallable callback raises TypeError, and a missing `Arguments` object then raises ValueError. A new sensor has the configured id and sensor count and a consistent scheduler, is neither active, joined nor started, and has an empty queue. |
| XBeeSensor.SetStarted | zigbee/XBee_Sensor.py:116-128 | `start` and `stop` set the started flag and change nothing else. |
| XBeeSensor.Enqueue | zigbee/XBee_Sensor.py:133-160 | A non-packet raises TypeError and a private packet raises ValueError. With a destination exactly one frame is queued. Without one, a copy is queued for every other id 1..N in ascending order. |
| XBeeSensor.CheckTxFrame | zigbee/XBee_Sensor.py:177-186 | A frame is sent exactly when both a packet and a destination are given; otherwise it raises ValueError. |
| XBeeSensor.CheckReceive | zigbee/XBee_Sensor.py:194-207 | A non-private packet goes to the receive callback and the result is True. A private packet calls nothing and the result is False. |
| XBeeSensor.MakeBroadcast | zigbee/XBee_Sensor.py:209-228 | The broadcast carries the sensor's id, location, validity, waypoint index and send time, and no pair validity. |
| XBeeSensor.MakeGroundStation | zigbee/XBee_Sensor.py:230-262 | The ground station packet copies the broadcast's latitude, longitude and validity into its `from_*` fields and takes its own id, location and validity for the rest; its rssi is left unset. |
| PhysicalXBee.Find | zigbee/RF_Sensor_Physical_XBee.py:269-270 | A frame id finds a pending packet stored under it, or finds nothing when no entry has that id. |
| PhysicalXBee.Store | zigbee/RF_Sensor_Physical_XBee.py:256-257 | After storing, the frame id finds the new packet and every other frame id finds what it found before. A new id is appended, and a known id is overwritten in place. |
| PhysicalXBee.FindsEveryId | zigbee/RF_Sensor_Physical_XBee.py:269-270 | Every stored frame id can be found. |
| PhysicalXBee.StoreKeepsIdsDistinct | zigbee/RF_Sensor_Physical_XBee.py:256-257 | The pending map keeps one entry per frame id. |
| PhysicalXBee.SetRssiEffect | zigbee/RF_Sensor_Physical_XBee.py:267-271 | A DB response sets rssi to minus the byte value on the entry with the matching frame id and leaves every other entry alone. An unknown frame id changes nothing. |
| PhysicalXBee.FindSetRssi | zigbee/RF_Sensor_Physical_XBee.py:267-271 | After a DB response, the frame id finds its packet with the rssi set. |
| PhysicalXBee.StoredThenCompleted | zigbee/RF_Sensor_Physical_XBee.py:246-271 | A broadcast stored under a frame id, followed by the DB response for that id, leaves the ground station packet with that rssi. |
| PhysicalXBee.ReportsPartition | zigbee/RF_Sensor_Physical_XBee.py:197-208 | The packets sent to id 0 are exactly the pending packets that have an rssi. The ones that stay are exactly those without one, and together they account for every visited entry. |
| PhysicalXBee.RemainingOfIncomplete | zigbee/RF_Sensor_Physical_XBee.py:199-208 | Pending packets without an rssi are never sent and all stay, whatever order the map is visited in. |
| PhysicalXBee.Start | zigbee/RF_Sensor_Physical_XBee.py:99-106 | `start` does what the base sensor's start does and empties the pending-packet map. |
| PhysicalXBee.Visited | zigbee/RF_Sensor_Physical_XBee.py:199-201 | How many pending entries are visited before the slot ends. None are visited while the slot does not outlast the broadcasts. All are visited when it outlasts every check, and only a full visit leaves checks unused. |
| PhysicalXBee.Keep | zigbee/RF_Sensor_Physical_XBee.py:199-208 | After `_send` the map holds exactly the entries that were not both visited and complete. Each entry keeps its place. |
| PhysicalXBee.VisitPending | zigbee/RF_Sensor_Physical_XBee.py:197-208 | The relay loop visits entries in the order given until the slot ends. It sends the completed ones to id 0 and keeps the incomplete ones. |
| PhysicalXBee.Send | zigbee/RF_Sensor_Physical_XBee.py:180-208 | The corrected `_send` broadcasts to the other vehicles. It then visits the pending map in its iteration order, which is a parameter (any order of the entries). It sends to id 0, and pops, only the visited packets that have an rssi. Every other entry stays. Without a connection only DisabledException can result and the state is unchanged. |
| PhysicalXBee.LoopBody | zigbee/RF_Sensor_Physical_XBee.py:165-178 | A device that has not joined the network does nothing. Otherwise it behaves as the base loop body with the corrected `_send`, for any iteration order of the pending map. |
| PhysicalXBee.CallCreateBroadcast | zigbee/RF_Sensor_Physical_XBee.py:187 | Calling the base class's `_create_rssi_broadcast_packet` succeeds only with its one destination argument; any other count raises TypeError. |
| PhysicalXBee.SendAsWritten | zigbee/RF_Sensor_Physical_XBee.py:180-195 | `_send` as written always raises TypeError, because it calls `_create_rssi_broadcast_packet` without the destination argument. |
| PhysicalXBee.High | zigbee/RF_Sensor_Physical_XBee.py:272-278 | The first part received becomes the address. An SH part already in the address is not added again. A new SH part goes in front and marks the address set. |
| PhysicalXBee.Low | zigbee/RF_Sensor_Physical_XBee.py:279-285 | The first part received becomes the address. An SL part already in the address is not added again. A new SL part goes at the end and marks the address set. |
| PhysicalXBee.AddressAssembly | zigbee/RF_Sensor_Physical_XBee.py:272-285 | Whichever of SH and SL arrives first, the address is high followed by low and is marked set. Repeated responses change nothing. |
| PhysicalXBee.FormatAddress | zigbee/RF_Sensor_Physical_XBee.py:303-312 | No address formats as "-". An 8-byte address formats as 23 characters. Any other length raises a struct error. |
| PhysicalXBee.HexByteRoundTrip | zigbee/RF_Sensor_Physical_XBee.py:311-312 | Each byte becomes two uppercase hex digits, high nibble first. |
| PhysicalXBee.JoinHexRoundTrip | zigbee/RF_Sensor_Physical_XBee.py:311-312 | Colon-joined hex groups parse back to the bytes. |
| PhysicalXBee.FormatAddressRoundTrip | zigbee/RF_Sensor_Physical_XBee.py:303-312 | An 8-byte address formats as eight uppercase two-digit hex groups joined by ":", which parse back to the address. |
| PhysicalXBee.SetNodeIdentifier | zigbee/RF_Sensor_Physical_XBee.py:286-290 | A node identifier that is not a decimal integer raises ValueError. Otherwise the sensor's id and the scheduler's id both become that integer, the identifier is marked set, and nothing else changes. |
| PhysicalXBee.ReportNode | zigbee/RF_Sensor_Physical_XBee.py:295-301 | A discovery report carries the node identifier as an integer and the formatted source address; a non-integer identifier raises ValueError. |
| PhysicalXBee.ProcessAtResponse | zigbee/RF_Sensor_Physical_XBee.py:262-301 | DB sets the matching frame's rssi. SH and SL assemble the address. NI sets both ids. AI marks the device joined only for parameter "\x00". ND reports a discovery and changes nothing. Any other command changes nothing. |
| PhysicalXBee.Receive | zigbee/RF_Sensor_Physical_XBee.py:220-260 | No frame raises TypeError. An "rx" frame is unserialized, and a broadcast stores its ground station packet under the frame id of a DB request. An "at_response" frame goes to the AT response handler. Any other frame is ignored. |
| Uart.Fit | zigbee/RF_Sensor_Physical_Texas_Instruments.py:207-209 | The `{n}s` field holds exactly n bytes: the data cut to n bytes, or the data followed by zero bytes. |
| Uart.TxFrame | zigbee/RF_Sensor_Physical_Texas_Instruments.py:197-211 | A destination or length that does not fit a byte raises a struct error. Otherwise the frame is the byte 2, the destination, the serialized length, and the serialized bytes fitted to the packet length. |
| Uart.ReadFrame | zigbee/RF_Sensor_Physical_Texas_Instruments.py:213-226 | Nothing is read until packet_length + 2 bytes are waiting. Then the frame is a length byte, the data cut to that length, and a trailing signed rssi byte, and exactly those bytes are consumed. |
| Uart.FrameRoundTrip | zigbee/RF_Sensor_Physical_Texas_Instruments.py:197-226 | A TX frame as the other device receives it (without the command and destination bytes, with an rssi byte appended) reads back as the data, cut to the packet length, and that rssi. |
| TexasInstruments.LastField | zigbee/RF_Sensor_Physical_Texas_Instruments.py:83 | The last "-"-separated field of a host name is the suffix after its last dash, or the whole name when there is no dash. |
| TexasInstruments.Identify | zigbee/RF_Sensor_Physical_Texas_Instruments.py:72-86 | Only a sensor with id 0 is changed. A host name whose last field is an integer gives the sensor and the scheduler that id. Otherwise nothing changes. |
| TexasInstruments.IdentifyFromHostName | zigbee/RF_Sensor_Physical_Texas_Instruments.py:72-86 | On a sensor with id 0, a host name ending in "-n" gives both the sensor and the scheduler the id n. |
| TexasInstruments.LastFieldOfSuffix | zigbee/RF_Sensor_Physical_Texas_Instruments.py:83 | The last field after a dash is exactly the dash-free suffix. |
| TexasInstruments.New | zigbee/RF_Sensor_Physical_Texas_Instruments.py:36-58 | The constructor identifies the sensor, uses its id as the address, marks it joined, and starts the polling time at 0. |
| TexasInstruments.Start | zigbee/RF_Sensor_Physical_Texas_Instruments.py:112-115 | `start` notes the polling time and does what the base sensor's start does. |
| TexasInstruments.PingPong | zigbee/RF_Sensor_Physical_Texas_Instruments.py:134-137 | A discovery packet is a ping_pong carrying the sensor id it is sent to. |
| TexasInstruments.Discover | zigbee/RF_Sensor_Physical_Texas_Instruments.py:117-139 | The base checks come first. Then each required sensor, all of 1..N by default, gets exactly one ping_pong carrying its own id. Without a connection any send raises DisabledException. |
| TexasInstruments.Poll | zigbee/RF_Sensor_Physical_Texas_Instruments.py:190-193 | Only a started vehicle that has heard nothing for longer than the polling delay shifts its schedule, updates it, and resets the polling time. Otherwise nothing changes. |
| TexasInstruments.ProcessBroadcast | zigbee/RF_Sensor_Physical_Texas_Instruments.py:267-279 | A missing rssi raises TypeError. Otherwise the ground station packet, carrying the given rssi, is queued for relaying. |
| TexasInstruments.Process | zigbee/RF_Sensor_Physical_Texas_Instruments.py:239-265 | A missing rssi raises TypeError. At the ground station a ping_pong reports discovery with the id and its text. A vehicle echoes a ping_pong to id 0. Other packets go to broadcast processing, and the polling time is untouched. |
| TexasInstruments.Receive | zigbee/RF_Sensor_Physical_Texas_Instruments.py:213-237 | Nothing happens until a whole frame is waiting. A frame that does not unserialize raises. Otherwise the polling time is noted and the packet is processed with the frame's rssi; a ValueError from processing is swallowed. |
| TexasInstruments.ReceiveSuppressesShift | zigbee/RF_Sensor_Physical_Texas_Instruments.py:184-193 | A packet received in the same loop iteration keeps the schedule from being shifted. |
| TexasInstruments.LoopBody | zigbee/RF_Sensor_Physical_Texas_Instruments.py:176-195 | A loop iteration receives first, then polls, then runs the base loop body. A receive error ends the iteration unchanged, and a sensor that is not started drains its custom queue. |
| Cc2530.New | zigbee/XBee_CC2530_Sensor_Physical.py:34-58 | The constructor uses the id as the address, marks the sensor joined, and starts with no collected data, no serial connection, no buffer and no clock synchronisation. |
| Cc2530.Payload | zigbee/XBee_CC2530_Sensor_Physical.py:212-226 | A packet that cannot serialize raises its error, and a closed connection raises AttributeError. Otherwise the frame is the byte 2, the destination, the serialized length, and the serialized bytes fitted to the packet length. |
| Cc2530.LinkDelivers | zigbee/XBee_CC2530_Sensor_Physical.py:212-245 | A frame written by one device and received by another, with an rssi byte appended, unserializes to the same specification, privacy flag and declared fields. |
| Cc2530.WriteAll | zigbee/XBee_CC2530_Sensor_Physical.py:199-208 | Frames are written in order until the first one that fails, and that failure is the error reported. |
| Cc2530.PingPongs | zigbee/XBee_CC2530_Sensor_Physical.py:183-189 | Discovery sends one cc2530_ping_pong to each id 1..N, carrying that id. |
| Cc2530.Discover | zigbee/XBee_CC2530_Sensor_Physical.py:171-189 | Every id 1..N in turn gets its ping_pong frame, and a failed write stops the loop with its error. |
| Cc2530.SendPlan | zigbee/XBee_CC2530_Sensor_Physical.py:191-210 | `_send` sends one broadcast to every other vehicle in ascending order, then every collected packet to id 0 in collection order. |
| Cc2530.Send | zigbee/XBee_CC2530_Sensor_Physical.py:191-210 | The frames of the plan are written in order. After a complete send the collection is empty, and after a failed write nothing changes. |
| Cc2530.ProcessBroadcast | zigbee/XBee_CC2530_Sensor_Physical.py:280-294 | The scheduler is synchronised with the packet first. A missing rssi then raises ValueError. Otherwise the ground station packet with that rssi is collected. |
| Cc2530.Destination | zigbee/XBee_CC2530_Sensor_Physical.py:212-224 | A missing destination raises ValueError. An integer or a bool is used as it is, and a float is truncated toward zero as Python 2.7's `struct` converts it. A string or an object raises a struct error. |
| Cc2530.Dispatch | zigbee/XBee_CC2530_Sensor_Physical.py:249-278 | A non-private packet goes to the callback before anything else. An ntp packet goes to the clock synchronisation. At the ground station a ping_pong reports discovery, and any other packet is buffered if a buffer is set. A vehicle echoes a ping_pong to id 0 and processes any other packet as a broadcast. |
| Cc2530.Receive | zigbee/XBee_CC2530_Sensor_Physical.py:228-278 | Without a serial connection it raises AttributeError. Nothing is read until a whole frame is waiting. Then the frame's data, cut to its length byte, is unserialized and dispatched with the frame's rssi. |
| Simulator.Address | zigbee/RF_Sensor_Simulator.py:31-38 | The address is the IP, a colon, and the port in decimal. |
| Simulator.New | zigbee/RF_Sensor_Simulator.py:15-44 | The simulator is joined at construction and its address is "ip:(port + id)". |
| Simulator.ListeningPort | zigbee/RF_Sensor_Simulator.py:121-128 | Sensor id listens on the base port plus id. |
| Simulator.Discover | zigbee/RF_Sensor_Simulator.py:54-86 | After the base checks, exactly those required sensors (1..N by default) whose port is in use are reported, each with its address. |
| Simulator.SendTxFrame | zigbee/RF_Sensor_Simulator.py:121-128 | The base checks come first. The datagram carries the serialized packet to the sender's IP at port + to. |
| Simulator.FrameReachesAddressee | zigbee/RF_Sensor_Simulator.py:121-150 | A frame reaches exactly the simulator whose id is its destination, and that simulator reads back the same specification and declared fields. |
| Simulator.Receive | zigbee/RF_Sensor_Simulator.py:130-150 | No packet raises TypeError, and every packet, private or not, goes to the receive callback. A vehicle synchronises its scheduler only when started, and queues a ground station packet with an rssi in [−70, −30]. At the ground station the packet is buffered if a buffer is set, and no relay packet is made. |
| Simulator.Disabling | zigbee/RF_Sensor_Simulator.py:98-119 | An AttributeError on a closed socket becomes DisabledException, and every other error is kept. |
| Simulator.Listen | zigbee/RF_Sensor_Simulator.py:98-119 | A closed socket disables the loop. No data waiting changes nothing. Received data is unserialized and handled as `_receive` handles it. |
| Simulator.LoopBody | zigbee/RF_Sensor_Simulator.py:98-119 | The loop body listens, then runs the base loop body. A closed socket ends it with DisabledException, and an AttributeError never escapes. |
| Ntp.Start | zigbee/NTP.py:15-31 | The ntp packet goes to id 0 with the sensor's id, timestamp_1 = now, and the other three timestamps 0. |
| Ntp.Finish | zigbee/NTP.py:49-73 | The offset is ((t2 − t1) + (t3 − t4)) / 2, the clock is set to now plus the offset, and the sensor is marked synchronised. A non-numeric timestamp raises TypeError. |
| Ntp.Process | zigbee/NTP.py:33-47 | A packet with timestamp_2 = 0 is answered to its sensor with t2 and t3 set to now and every other field unchanged. Any other packet gets t4 = now and finishes the exchange. |
| Ntp.OffsetExample | zigbee/NTP.py:59-62 | The timestamps (100, 150, 160, 120) give an offset of 45. |
| Ntp.OffsetMeasuresSkew | zigbee/NTP.py:59-62 | When the server's clock is ahead by θ, the computed offset is θ plus half the difference of the two transit times, so it is exactly θ when the transit times are equal. |
| Ntp.ExchangeFinishes | zigbee/NTP.py:15-73 | A start, answered by the ground station and processed back at the client, finishes with the NTP offset and marks the client synchronised. |
| Ntp.AnswerFinishes | zigbee/NTP.py:33-73 | An answer carrying t1, and the server time as t2 and t3, finishes the exchange with the NTP offset. |
| MissionRfSensor.Reset | mission/Mission_RF_Sensor.py:28-41 | `reset` leaves no accepted entries, next index 0, and the mission not complete. |
| MissionRfSensor.AddWaypointAsWritten | mission/Mission_RF_Sensor.py:170-219 | As written, the entry is always recorded. A missing key raises KeyError. A waypoint with at least one position raises TypeError at the `add_waypoint` call, because mission/Mission_Auto.py:69 takes no `wait` or `wait_waypoint` keyword. Either error comes before the index moves. Only a waypoint without positions raises the index by 1. |
| MissionRfSensor.AddWaypoint | mission/Mission_RF_Sensor.py:170-219 | The corrected `_add_waypoint`, with the positions passed as the AUTO mission accepts them. The entry is always recorded. An entry missing a waypoint key raises KeyError before the index moves. Otherwise the next index rises by exactly 1. |
| MissionRfSensor.AckFrame | mission/Mission_RF_Sensor.py:109-123 | An ack is a `waypoint_ack` to id 0 carrying the next index and the sensor's own id. |
| MissionRfSensor.Clear | mission/Mission_RF_Sensor.py:125-144 | A clear for another vehicle changes nothing and is not acked. Otherwise the dump is removed (a missing one is fine), the state is reset, and 0 is acked. |
| MissionRfSensor.ReceiveWaypoint | mission/Mission_RF_Sensor.py:146-168 | With the corrected add: an add for another vehicle changes nothing and is not acked. An add whose index is not the next index changes nothing and acks the current next index. An add with the next index appends the packet's data, raises the next index by exactly 1, and acks the new value. |
| MissionRfSensor.ReceiveWaypointAsWritten | mission/Mission_RF_Sensor.py:146-168 | With the add as written: a foreign or out-of-order add is handled as in the corrected version. The expected add is appended. It is counted and acked only when it has all keys and no positions. Otherwise the error escapes with no ack and the index unchanged. |
| MissionRfSensor.UnackedAdd | mission/Mission_RF_Sensor.py:163-168 | The input that shows it: the expected add of a complete waypoint with a position. As written it raises TypeError, is not acked, and a retransmission appends the same entry a second time. Corrected, it is acked with the next index, and the retransmission is only re-acked. |
| MissionRfSensor.Complete | mission/Mission_RF_Sensor.py:65-81 | A done for another vehicle changes nothing. Otherwise the mission is complete, the next index rises by 1 on every receipt and is acked, and the whole accepted list is written as the dump. |
| MissionRfSensor.Replay | mission/Mission_RF_Sensor.py:46-49 | With the corrected add: replaying dump entries can only fail with KeyError, and it does not change the complete flag. |
| MissionRfSensor.ReplayAppends | mission/Mission_RF_Sensor.py:46-49 | With the corrected add: replaying well-formed entries appends them all in order and raises the next index by their count. |
| MissionRfSensor.LoadDump | mission/Mission_RF_Sensor.py:43-54 | With the corrected add: an unreadable dump leaves the state as it was. A dump read in full marks the mission complete. A failing entry raises KeyError after the entries before it were added. |
| MissionRfSensor.LoadDumpReplays | mission/Mission_RF_Sensor.py:43-54 | With the corrected add: loading a well-formed dump adds every entry, makes the next index the entry count plus its old value, and marks the mission complete. |
| MissionRfSensor.ReplayAsWritten | mission/Mission_RF_Sensor.py:46-48 | With the add as written: the replay succeeds exactly when every entry has all keys and no position. Only KeyError or TypeError escapes, and only TypeError when every entry has its keys. A full replay appends the entries and raises the index by their count. |
| MissionRfSensor.ReplayAsWrittenStops | mission/Mission_RF_Sensor.py:46-48 | The replay as written stops at the first entry it does not accept. That entry is already appended, the index counts only the entries before it, and its KeyError or TypeError escapes. |
| MissionRfSensor.LoadDumpAsWritten | mission/Mission_RF_Sensor.py:43-54 | With the add as written: an unreadable dump changes nothing. A readable one completes the mission exactly when every entry has all keys and no position. Otherwise the KeyError or TypeError escapes, since line 52 catches neither, and the complete flag is unchanged. |
| MissionRfSensor.RestartWithPositionLosesMission | mission/Mission_RF_Sensor.py:24-54 | The input that shows it: a restart after a done, with a dump holding a waypoint with a position. As written, the TypeError escapes and the mission stays incomplete, so the vehicle may not arm. With the corrected add, the restart restores the complete mission. |
| MissionRfSensor.IndexCountsEntries | mission/Mission_RF_Sensor.py:28-41 | A clear sets both the next index and the entry count to 0. An accepted add moves both together. A done moves the index alone. So from a clear or reset until the next done, the next index is the number of accepted entries. |
| MissionRfSensor.InOrderDelivery | mission/Mission_RF_Sensor.py:146-171 | With the corrected add: adds numbered from the next index onwards are all accepted in order, and each is acked with the following number. |
| MissionRfSensor.AcceptStep | mission/Mission_RF_Sensor.py:159-168 | With the corrected add: an add for this vehicle with the next index and every waypoint key is appended and acked with the next index plus one. |
| MissionRfSensor.Contents | mission/Mission_RF_Sensor.py:166 | One data entry per packet. |
| MissionRfSensor.Deliver | mission/Mission_RF_Sensor.py:146-168 | A sequence of adds yields at most one ack per packet. |
| MissionRfSensor.DuplicateAddIgnored | mission/Mission_RF_Sensor.py:159-164 | A retransmitted add that was already accepted changes nothing and repeats the same ack. |
| MissionRfSensor.RestartAfterDone | mission/Mission_RF_Sensor.py:43-81 | With the corrected add: after a done, a restart that loads the written dump gets back the complete mission with the same entries, and its next index is the entry count. |
| Sender.New | control_panel/Control_Panel_RF_Sensor_Sender.py:10-40 | Every vehicle starts at index −1 with max_retries retries, and nothing is sent yet. |
| Sender.Progress | control_panel/Control_Panel_RF_Sensor_Sender.py:144-145 | The progress value is the sum of the indexes clamped to [0, total]. |
| Sender.SumAfterUpdate | control_panel/Control_Panel_RF_Sensor_Sender.py:144-145 | Changing one vehicle's index changes the sum by exactly the difference. |
| Sender.SumUnrelated | control_panel/Control_Panel_RF_Sensor_Sender.py:144-145 | Indexes of unknown vehicles do not count towards the progress. |
| Sender.Message | control_panel/Control_Panel_RF_Sensor_Sender.py:63-66 | A clear or done message carries only its specification and the vehicle's id. |
| Sender.SendClear | control_panel/Control_Panel_RF_Sensor_Sender.py:63-71 | A clear message is sent to the vehicle and its timer starts; a private message raises ValueError and changes nothing. |
| Sender.SendDone | control_panel/Control_Panel_RF_Sensor_Sender.py:76-89 | A done message is sent to a finished vehicle and the progress is updated. The dialog is accepted once every vehicle is done. |
| Sender.SendStep | control_panel/Control_Panel_RF_Sensor_Sender.py:91-99 | The add packet for `data[index]` is sent to the vehicle and its timer starts. An index outside the data raises IndexError. |
| Sender.SendOne | control_panel/Control_Panel_RF_Sensor_Sender.py:76-99 | A vehicle whose index reached its item count gets the done message; any other gets its next add packet. |
| Sender.Start | control_panel/Control_Panel_RF_Sensor_Sender.py:45-61 | The ack callback is registered, and every vehicle gets a clear message in order and a running timer. |
| Sender.ClearSent | control_panel/Control_Panel_RF_Sensor_Sender.py:60-61 | One more clear message extends the sent frames by the next vehicle's clear and starts its timer. |
| Sender.EnumeratedCovered | control_panel/Control_Panel_RF_Sensor_Sender.py:52-61 | Running a timer for every listed vehicle runs one for every vehicle with data. |
| Sender.PrivacyIgnoresVehicle | control_panel/Control_Panel_RF_Sensor_Sender.py:63-66 | Whether a message is private depends on its specification, not on the vehicle. |
| Sender.ReceiveAck | control_panel/Control_Panel_RF_Sensor_Sender.py:101-109 | An ack from an unknown vehicle is ignored. Otherwise the vehicle's index becomes the acked next index and its retry counter becomes max_retries + 1. |
| Sender.Cancel | control_panel/Control_Panel_RF_Sensor_Sender.py:147-159 | Cancelling unregisters the ack callback, stops every timer and records the failure. |
| Sender.Retry | control_panel/Control_Panel_RF_Sensor_Sender.py:111-124 | The retry counter drops by one. While it stays positive, the clear message (index −1) or the current step is resent. At 0 the transfer is cancelled with that vehicle's failure. |
| Sender.Timeouts | control_panel/Control_Panel_RF_Sensor_Sender.py:111-124 | Repeated timeouts keep the sender's invariant and its setup. |
| Sender.TimeoutsExhaust | control_panel/Control_Panel_RF_Sensor_Sender.py:111-124 | After k timeouts without an ack, the counter has dropped by k, and the transfer is cancelled exactly when all retries are used up. |
| Sender.AckRefills | control_panel/Control_Panel_RF_Sensor_Sender.py:101-117 | After an ack the next timeout resends instead of cancelling, and leaves max_retries retries. |
| Delivery.ClearInStep | control_panel/Control_Panel_RF_Sensor_Sender.py:63-109 | A clear sent by the ground station empties the vehicle's mission, and the vehicle's ack sets the sender's index for it to 0 with a full retry counter. |
| Delivery.AddInStep | control_panel/Control_Panel_RF_Sensor_Sender.py:76-109 | With the corrected vehicle add: an add sent at the vehicle's next index is appended by the vehicle, and its ack moves the sender's index on by one, in step with the vehicle. |
| Delivery.DoneInStep | control_panel/Control_Panel_RF_Sensor_Sender.py:76-109 | The done sent after the last item completes the vehicle's mission, and its ack leaves the vehicle done at the sender. |
| SettingsReceiver.New | zigbee/Settings_Receiver.py:10-19 | A new receiver has no pending settings and has not interrupted the sensor. |
| SettingsReceiver.Cleanup | zigbee/Settings_Receiver.py:21-24 | The pending settings, settings files and cached groups are emptied, and nothing else changes. |
| SettingsReceiver.Successor | zigbee/Settings_Receiver.py:29 | The acked next index is the index plus one; a value that is not a number raises TypeError. |
| SettingsReceiver.AckPacket | zigbee/Settings_Receiver.py:26-30 | An ack is a `setting_ack` with the next index and the sensor's own id. |
| SettingsReceiver.SendAck | zigbee/Settings_Receiver.py:26-32 | The ack carries index + 1 and goes to id 0. |
| SettingsReceiver.Clear | zigbee/Settings_Receiver.py:34-40 | A clear for another sensor is ignored without an ack. Otherwise everything is cleaned up and 0 is acked. |
| SettingsReceiver.Add | zigbee/Settings_Receiver.py:42-53 | An add for another sensor is ignored. Otherwise the value is stored under its key, overwriting any earlier value, and index + 1 is acked with no ordering check. |
| SettingsReceiver.Done | zigbee/Settings_Receiver.py:55-66 | A done for this sensor writes the pending map, cleans up and interrupts the sensor thread. No done is acked. |
| SettingsReceiver.AddAll | zigbee/Settings_Receiver.py:42-53 | Adds never change the receiver's id, its written file or the interrupt. |
| SettingsReceiver.LastValue | zigbee/Settings_Receiver.py:51 | The last value added for a key is one of the added entries, and there is none exactly when no entry has that key. |
| SettingsReceiver.StoreKeepsLast | zigbee/Settings_Receiver.py:51 | After several adds a key holds its last added value, and a key never added keeps its earlier value. |
| SettingsReceiver.StoreSnoc | zigbee/Settings_Receiver.py:51 | One more add overwrites that key only. |
| SettingsReceiver.AddAllStores | zigbee/Settings_Receiver.py:42-53 | The pending map after a run of adds for this sensor is the entries stored in order. |
| SettingsReceiver.SessionWritesLastValues | zigbee/Settings_Receiver.py:34-66 | A clear, a run of adds and a done write exactly the keys that were added, each with its last value, and interrupt the sensor. |
| MissionXBee.Setup | mission/Mission_XBee.py:7-14 | Setup fails with KeyError exactly when one of the three waypoint actions already has a callback. Otherwise it registers all three, starts an empty, incomplete upload at index 0, and leaves every other action alone. |
| MissionXBee.Complete | mission/Mission_XBee.py:23-31 | A done for another vehicle changes nothing. A done for this vehicle marks the waypoints complete. Neither is acked. |
| MissionXBee.ClearAsWritten | mission/Mission_XBee.py:77-91 | A clear for this vehicle empties the waypoints, resets the index and acks 0, but keeps the required sensors of the old mission. |
| MissionXBee.Clear | mission/Mission_XBee.py:77-91 | A clear for this vehicle empties the waypoints and the required sensors, adds the takeoff, resets the index and acks 0. A clear for another vehicle changes nothing and is not acked. |
| MissionXBee.WaitRequired | mission/Mission_XBee.py:117-122 | A wait id names a required sensor exactly when it is a positive integer, and then it is the only one. |
| MissionXBee.Add | mission/Mission_XBee.py:93-125 | An add for another vehicle is ignored. An add out of order only acks the current index. An add in order adds the waypoint with its wait requirement, raises the index by one and acks the new index. |
| MissionXBee.Dispatch | mission/Mission_XBee.py:7-14 | A packet whose specification has no registered action reaches no handler and changes nothing. |
| MissionXBee.SetupRoutesUploads | mission/Mission_XBee.py:7-14 | After setup, clear, add and done packets reach the clear handler as written, the add handler and the done handler respectively. |
| MissionXBee.ArmAndTakeoff | mission/Mission_XBee.py:16-21 | Arming waits until the waypoints are complete. It then arms as the base mission does and adds no waypoints of its own. |
| MissionXBee.Upload | mission/Mission_XBee.py:93-125 | A run of adds never changes the vehicle's id or its completion. |
| MissionXBee.UploadRecords | mission/Mission_XBee.py:93-125 | Adds numbered in order from the next index are all accepted. The index rises by their count, and each add's wait requirement is recorded in order when synchronization is on. |
| MissionXBee.UploadStep | mission/Mission_XBee.py:107-125 | The first in-order add moves the index on by one and leaves the rest of the run still numbered in order. |
| MissionXBee.AcceptedAdd | mission/Mission_XBee.py:107-125 | An add with the next index appends exactly its wait requirement and keeps the settings. |
| MissionXBee.ClearedUploadAligns | mission/Mission_XBee.py:77-125 | With the corrected clear: after a clear and an in-order upload, the n-th requirement belongs to the n-th uploaded waypoint, and the index is the upload's length. |
| MissionXBee.ClearedUploadAsWritten | mission/Mission_XBee.py:77-125 | With the clear as written: after a clear and an in-order upload, the requirements are the old mission's followed by the upload's. Waypoint n therefore reads an old entry whenever the old mission had more than n. The index is the upload's length. |
| MissionXBee.StaleRequiredSensors | mission/Mission_XBee.py:87-91 | As written, a new mission after a clear inherits the old mission's required sensors, so its first wait consults the old list. After the corrected clear, the first wait's requirement is the new one. |
| Environment.AddPacketAction | environment/Environment.py:212-227 | An uncallable callback raises TypeError. An action that already has a callback raises KeyError. Otherwise exactly that action is registered. |
| Environment.ReceivePacket | environment/Environment.py:229-240 | A packet calls the callback of its specification exactly when one is registered, and no other callback. |
| Environment.ActionReceivesItsPackets | environment/Environment.py:212-240 | After an action is added, its packets reach the new callback, and every other packet reaches what it reached before. |
| Environment.LocationValid | environment/Environment.py:273-296 | The returned validity is the vehicle's own. The vehicle's own next waypoint and a valid other vehicle's index are recorded. No other entry changes. |
| Environment.IsMeasurementValid | environment/Environment.py:298-316 | Without an RF sensor there is no own id to look up, so the result is AttributeError. Otherwise the measurement is valid exactly when this vehicle and every required sensor reached the current index. |
| Environment.InvalidateMeasurement | environment/Environment.py:318-339 | All recorded validity is dropped. The required sensors become the given ones, or all sensors 1..n when none are given, or none without an RF sensor. |
| Environment.ReportAll | environment/Environment.py:273-296 | A run of location reports never changes the RF sensor or the required set. |
| Environment.ReportAllRecords | environment/Environment.py:273-296 | After any report, the vehicle itself has an entry. Every other sensor has an entry exactly when some report validly named it. Every entry is at least k when every valid report is. |
| Environment.RendezvousValidates | environment/Environment.py:273-339 | After an invalidation with given required sensors and a run of reports, the measurement is valid exactly when every required sensor other than the vehicle itself was validly reported. |
| Environment.ValidAtEarlierIndex | environment/Environment.py:298-316 | A measurement valid at an index is valid at every earlier one. |
| MissionAuto.Setup | mission/Mission_Auto.py:11-18 | Setup empties the waypoints and the required sensors, sets the first waypoint to 1, and changes nothing else of the mission. |
| MissionAuto.AddTakeoff | mission/Mission_Auto.py:39-49 | When the vehicle adds a takeoff command nothing changes. Otherwise the altitude becomes 0, the first waypoint becomes 0, and nothing else changes. |
| MissionAuto.AddWaypoint | mission/Mission_Auto.py:69-83 | The point is appended. With synchronization it is followed by a wait, and its required sensors are appended. Nothing else changes. |
| MissionAuto.AddAll | mission/Mission_Auto.py:96-98 | Adding points never changes the settings or the first waypoint. |
| MissionAuto.EntriesLayout | mission/Mission_Auto.py:96-98 | The k-th point sits at position k, or at 2k followed by a wait at 2k + 1 with synchronization. |
| MissionAuto.AddAllAppends | mission/Mission_Auto.py:85-98 | Adding all points appends their entries. With synchronization each point gets an empty requirement, and nothing else changes. |
| MissionAuto.AddCommands | mission/Mission_Auto.py:85-102 | Adding the commands has the takeoff's effect on the settings and the first waypoint. |
| MissionAuto.CommandsLayout | mission/Mission_Auto.py:85-98 | On a cleared vehicle the commands hold exactly one entry per point, or a point and a wait per point with synchronization, at the positions of the layout. |
| MissionAuto.ArmAndTakeoff | mission/Mission_Auto.py:20-22 | The commands are added first, and then the vehicle is armed as the base mission arms it. |
| MissionAuto.CommandsBeforeArming | mission/Mission_Auto.py:20-22 | When the arming check fails, the commands are still added, and RuntimeError is raised. |
| MissionAuto.AsSet | mission/Mission_Auto.py:124-129 | A required sensor list is turned into the same set, and no list stays none. |
| MissionAuto.Approach | mission/Mission_Auto.py:133-151 | The vehicle skips to the next waypoint exactly when its distance is known, it is past the first waypoint, and it is within both farness and closeness. The mission goes on while no distance is known or commands remain. |
| MissionAuto.CheckWaypoint | mission/Mission_Auto.py:113-151 | A non-wait command is approached. A wait without synchronization, or with invalid measurements, keeps waiting. A wait with valid measurements moves past the wait, invalidates the measurement with the next point's required sensors, and then approaches. |
| MissionAuto.WaitAdvancesToNextPoint | mission/Mission_Auto.py:113-129 | At the k-th wait with valid measurements, the vehicle moves on, the validity is cleared, and the required set becomes that of the (k+1)-th point, or all sensors when it has none. |
| MissionAuto.WaitHoldsUntilValid | mission/Mission_Auto.py:114-131 | A wait without synchronization, or with an invalid measurement, changes nothing and goes on. |
| Mission.DistanceToCurrentWaypoint | mission/Mission.py:45-58 | The distance is unknown exactly when the current command has no location, and it is otherwise the distance to that location. |
| Mission.WaitHasNoDistance | mission/Mission.py:45-58 | A wait command has no distance. |
| Mission.ArmAndTakeoff | mission/Mission.py:154-187 | A failed arming check raises RuntimeError and changes nothing. Otherwise the vehicle is armed at the mission's speed, and the result says whether it took off. |
| Mission.RobotArmsWithoutTakeoff | mission/Mission.py:154-175 | A ground robot arms at the mission speed and does not take off. |
| Mission.Stop | mission/Mission.py:196-201 | Stopping only disarms the vehicle. |
| Mission.CheckSensorDistance | mission/Mission.py:210-233 | A distance of 0 exits the program. A distance up to the closeness switches to GUIDED with speed 0 and raises RuntimeError. Any larger distance is relevant exactly when it is below the farness. |
| Mission.TooCloseStandsStill | mission/Mission.py:223-233 | A distance that is too close leaves the vehicle standing still. A relevant distance stays relevant when it gets closer without becoming too close. |
| Mission.CheckWaypoint | mission/Mission.py:235-243 | The base mission always goes on. |
| RobotVehicle.New | vehicle/Robot_Vehicle.py:40-103 | A new robot stands unarmed and unhalted at its home intersection, facing its home direction, with no waypoints, at index −1 and with speed 0. |
| RobotVehicle.AddWaypoint | vehicle/Robot_Vehicle.py:290-291 | The point is appended, and nothing else changes. |
| RobotVehicle.AddWait | vehicle/Robot_Vehicle.py:293-294 | A wait entry is appended, and nothing else changes. |
| RobotVehicle.ClearWaypoints | vehicle/Robot_Vehicle.py:302-303 | The waypoint list is emptied, and the index is kept. |
| RobotVehicle.GetWaypoint | vehicle/Robot_Vehicle.py:305-316 | Index −1 means the current index. The result is the stored point exactly when the index is in range and not at a wait. |
| RobotVehicle.SetNextWaypoint | vehicle/Robot_Vehicle.py:321-325 | Index −1 advances the current index by one. Any other index becomes current. |
| RobotVehicle.SimpleGoto | vehicle/Robot_Vehicle.py:330-333 | The list becomes the one point, and the index becomes −1. |
| RobotVehicle.Pause | vehicle/Robot_Vehicle.py:273-276 | The old mode is remembered, the mode becomes HALT, and the vehicle halts, so it no longer reads as armed. |
| RobotVehicle.SetMode | vehicle/Robot_Vehicle.py:230-240 | HALT pauses. Any other mode unpauses a halted vehicle. RTL replaces the route with the home location at index −1. |
| RobotVehicle.Unpause | vehicle/Robot_Vehicle.py:278-288 | Unpausing a vehicle that is not halted raises RuntimeError. Otherwise the halt ends, and the mode remembered before HALT comes back. |
| RobotVehicle.PauseUnpauseRestores | vehicle/Robot_Vehicle.py:273-288 | Pausing and unpausing gives back the same mode and arming. |
| RobotVehicle.HaltModeOutlastsUnpause | vehicle/Robot_Vehicle.py:230-288 | After HALT was set as a mode, unpausing restores HALT, so the vehicle stays halted. Setting any other mode re-arms it as before. |
| RobotVehicle.SetArmed | vehicle/Robot_Vehicle.py:243-251 | The vehicle reads as armed exactly when it was armed and is not halted. |
| RobotVehicle.ArmWhilePaused | vehicle/Robot_Vehicle.py:243-288 | Arming a paused vehicle takes effect only once it is unpaused. |
| RobotVehicle.Advance | vehicle/Robot_Vehicle.py:321-325 | Advancing never changes the route. |
| RobotVehicle.AdvanceCounts | vehicle/Robot_Vehicle.py:321-325 | k advances move the current index by k. |
| RobotVehicle.RouteVisitsInOrder | vehicle/Robot_Vehicle.py:296-325 | From index −1, the k-th advance lands on the k-th entry. A wait reads as a wait, and past the end nothing is current. |
| RobotVehicle.GotoIsNext | vehicle/Robot_Vehicle.py:230-240 | After a goto or RTL, the next waypoint is the goto target or the home location. |
| RobotVehicle.SetSpeed | vehicle/Robot_Vehicle.py:356-366 | The speed stored is the magnitude. The motors are commanded, forward exactly when the value is not negative, only while moving and not diverged. |
| RobotVehicle.CurrentDirection | vehicle/Robot_Vehicle.py:396-408 | Outside a rotation the current direction is the heading. |
| RobotVehicle.Velocity | vehicle/Robot_Vehicle.py:368-384 | The velocity has the move speed on the axis of the current direction, signed toward that direction, and 0 elsewhere. |
| RobotVehicle.SetVelocity | vehicle/Robot_Vehicle.py:386-394 | Two nonzero horizontal components raise ValueError. Otherwise the speed is set to the one nonzero component, or to 0. |
| RobotVehicle.VelocityRoundTrip | vehicle/Robot_Vehicle.py:356-394 | Setting the velocity that was read leaves the robot as it was. |
| RobotVehicle.NextDirectionAsWritten | vehicle/Robot_Vehicle.py:511-536 | As written: a heading toward the target is kept. A robot facing sideways, or one in the target's column, turns north or south when the target is off its row. On the target's row it keeps its heading, even when the target is behind it. A robot facing north or south turns east or west toward a target off its column. |
| RobotVehicle.NextDirectionTurnsAway | vehicle/Robot_Vehicle.py:523-536 | The input that shows it: at (0, 0) facing right, with the target at (0, −1), the written rule keeps facing right, away from the target. |
| RobotVehicle.NextDirection | vehicle/Robot_Vehicle.py:511-536 | The next direction always points toward a target that is not here. The heading is kept when it already does, or at the target. A vertical turn is taken when the target is off the row and the robot faces sideways or the target is in the same column. |
| RobotVehicle.NextDirectionDiffers | vehicle/Robot_Vehicle.py:520-536 | The written rule and the corrected rule differ exactly for a sideways robot whose target lies straight behind it on its row. |
| RobotVehicle.SetDirection | vehicle/Robot_Vehicle.py:447-470 | Rotating to the current heading does nothing. Otherwise the robot enters a rotation from its heading to the target, and the motors turn at rotate speed in the chosen sense. |
| RobotVehicle.GotoWaypoint | vehicle/Robot_Vehicle.py:495-536 | With `_next_direction` as written: a wait entry counts as reached. If the rule keeps the current heading, the robot starts moving at move speed and is on its way. Otherwise it rotates toward the rule's direction and is not yet on its way. |
| RobotVehicle.GotoDrivesAway | vehicle/Robot_Vehicle.py:495-536 | The input that shows it: a robot at (0, 0) facing right, sent to (0, −1), drives off right, away from the target, and counts as on its way. |
| RobotVehicle.GotoWaypointCorrected | vehicle/Robot_Vehicle.py:495-509 | The same goto with the corrected direction rule. |
| RobotVehicle.GotosAgree | vehicle/Robot_Vehicle.py:495-536 | The written and the corrected goto differ exactly when the target lies behind a robot facing sideways on its own row. |
| RobotVehicle.GotoHeadsForTarget | vehicle/Robot_Vehicle.py:495-536 | With the corrected rule, for a point elsewhere, the robot either moves along a heading toward it or rotates to a heading toward it. By GotosAgree, the goto as written does the same except in the one case that GotoDrivesAway shows. |
| RobotVehicle.MoveWaypoint | vehicle/Robot_Vehicle.py:475-493 | Through the goto as written. Outside the route, the robot stops only if it is at a current waypoint. Otherwise the index becomes the target's only once it is on its way. |
| RobotVehicle.IntersectionDecision | vehicle/Robot_Vehicle.py:154-170 | Only at an intersection is anything decided. At the current waypoint, AUTO moves to the next index and other modes stop. Elsewhere, AUTO or GUIDED heads for the current index, or for index 0. |
| RobotVehicle.CheckState | vehicle/Robot_Vehicle.py:136-170 | A finished rotation takes the target heading and stands still at the intersection. An unfinished one waits. A move only restores the speed once a divergence is over. The intersection rule, through the goto as written, keeps heading and route. |
| RobotVehicle.AutoDrivesOn | vehicle/Robot_Vehicle.py:154-161 | In AUTO at the current waypoint, a next waypoint straight ahead is driven to and made current. Without a next waypoint, the robot stops. |
| ArduinoFull.ZumoDirection | vehicle/Robot_Vehicle_Arduino_Full.py:85-95 | Every direction has a one-letter code without spaces. |
| ArduinoFull.DirectionOf | vehicle/Robot_Vehicle_Arduino_Full.py:73-83 | A code that is not a direction raises ValueError. |
| ArduinoFull.ZumoDirectionsInverse | vehicle/Robot_Vehicle_Arduino_Full.py:73-95 | The letter codec is a bijection between N/E/S/W and the four directions, and every other text raises ValueError. |
| ArduinoFull.NextLocation | vehicle/Robot_Vehicle_Arduino_Full.py:97-107 | The next location is exactly one grid cell away in the facing direction. |
| ArduinoFull.PassReverses | vehicle/Robot_Vehicle_Arduino_Full.py:97-107 | A pass one way and one pass back return to the same cell. |
| ArduinoFull.Line | vehicle/Robot_Vehicle_Arduino_Full.py:53 | A command line ends with a newline. |
| ArduinoFull.Parts | vehicle/Robot_Vehicle_Arduino_Full.py:122 | Splitting a line always gives at least one part. |
| ArduinoFull.ReadOther | vehicle/Robot_Vehicle_Arduino_Full.py:129-137 | ACKG starts moving. PASS moves one cell. A complete GDIR sets the heading, or fails with ValueError and changes nothing. An incomplete GDIR and unknown words are ignored. |
| ArduinoFull.ReadMessageAsWritten | vehicle/Robot_Vehicle_Arduino_Full.py:120-137 | As written: a line other than LOCA goes to the other branches. Only ValueError escapes. An incomplete LOCA keeps the heading, state and route. A LOCA with two valid numbers sets the location even when the direction is missing. A complete valid LOCA also sets the heading and the intersection state. |
| ArduinoFull.ReadMessage | vehicle/Robot_Vehicle_Arduino_Full.py:120-137 | A location report with fields missing is ignored without any state change. |
| ArduinoFull.ReadMessageDiffers | vehicle/Robot_Vehicle_Arduino_Full.py:124-137 | The written and the corrected reader differ exactly on a location report with two valid numbers and no direction, naming a cell other than the current one. |
| ArduinoFull.IncompleteLocationMoves | vehicle/Robot_Vehicle_Arduino_Full.py:124-137 | The input that shows it: "LOCA n e" moves the robot as written, and leaves it in place when corrected. |
| ArduinoFull.GotoWaypoint | vehicle/Robot_Vehicle_Arduino_Full.py:146-156 | A wait entry writes nothing. A point writes one command and puts the robot in the wait state. Both count as on its way. |
| ArduinoFull.NumberIsWord | vehicle/Robot_Vehicle_Arduino_Full.py:151 | A formatted integer is one word without spaces. |
| ArduinoFull.LineParts | vehicle/Robot_Vehicle_Arduino_Full.py:122-151 | Splitting a command line formatted from words gives back the words. |
| ArduinoFull.GotoCommandParses | vehicle/Robot_Vehicle_Arduino_Full.py:146-156 | The GOTO command parses back into its two truncated coordinates. |
| ArduinoFull.DirsCommandParses | vehicle/Robot_Vehicle_Arduino_Full.py:139-144 | The DIRS command parses back into the target direction and the rotation direction. |
| ArduinoFull.SetHomeLocation | vehicle/Robot_Vehicle_Arduino_Full.py:68-71 | Setting the home location stores it and writes a HOME command that parses back into the truncated new home and the home direction. |
| ArduinoFull.HomeCommandParses | vehicle/Robot_Vehicle_Arduino_Full.py:47-53 | The HOME command parses back into the truncated home cell and the home direction. |
| ArduinoFull.LocationReportApplies | vehicle/Robot_Vehicle_Arduino_Full.py:124-128 | A complete location report places the robot at the cell, facing the direction, at an intersection, in both readers. |
| ArduinoFull.MoveWaypoint | vehicle/Robot_Vehicle.py:475-493 | Outside the route nothing is written, and the motors are stopped exactly when the current index is a waypoint. A route index becomes current, and a point writes a GOTO and waits for its acknowledgement. |
| ArduinoFull.CheckState | vehicle/Robot_Vehicle_Arduino_Full.py:109-110 | Only the intersection rule runs: holding writes nothing, stopping commands zero speeds, and any command written leaves the robot waiting. |
| ArduinoFull.AutoSendsNextGoto | vehicle/Robot_Vehicle.py:154-161 | In AUTO at the current waypoint, the robot sends a GOTO that parses back into the next point, makes it current, and moves once it is acknowledged. |
| ArduinoFull.AckgStartsMoving | vehicle/Robot_Vehicle_Arduino_Full.py:131-132 | ACKG only puts the robot in the move state. |
| Vehicle.IsLocationValid | vehicle/Vehicle.py:296-314 | A local location is valid exactly when north is set. A global one is valid exactly when latitude and altitude are set. Any other object raises TypeError. |
| Vehicle.New | vehicle/Vehicle.py:41-54 | A new vehicle has no home location, servos or listeners. |
| Vehicle.AddListenerAsWritten | vehicle/Vehicle.py:424-432 | The listener is always appended, even when it is already there, because the guard looks it up among the attribute names. |
| Vehicle.ReaddedListenerCalledTwice | vehicle/Vehicle.py:429-456 | The input that shows it: adding the same listener twice makes each notification call it twice. |
| Vehicle.AddListener | vehicle/Vehicle.py:424-432 | A listener already registered is not added again. A new one is appended. Other attributes, the home location and the servos are unchanged. |
| Vehicle.RemoveListener | vehicle/Vehicle.py:434-448 | An attribute without listeners raises KeyError, and an absent listener raises ValueError. Otherwise its first occurrence is removed, and the entry goes once its list is empty. |
| Vehicle.ListenerOpsKeepInvariant | vehicle/Vehicle.py:424-448 | Adding and removing keep every stored list non-empty and free of duplicates. |
| Vehicle.AddThenRemove | vehicle/Vehicle.py:424-448 | Removing a listener just added restores the registry. |
| Vehicle.Notify | vehicle/Vehicle.py:450-456 | Each listener of the attribute is called once, in order of registration, with the attribute and the value. |
| Vehicle.SetHome | vehicle/Vehicle.py:82-96 | The home location is stored and its listeners are notified with it. |
| Vehicle.SetServos | vehicle/Vehicle.py:458-469 | New pin values overlay the old ones, other pins are kept, and the listeners get the merged map. |
| Buffers.New | reconstruction/Buffer.py:5-18 | Missing settings raise ValueError. Otherwise the buffer is empty, has no sensors and no calibration, and its origin and size are (0, 0). |
| Buffers.Get | reconstruction/Buffer.py:20-28 | An empty buffer gives nothing and stays as it is. Otherwise exactly one item leaves the queue, and nothing else changes. |
| Buffers.Enqueue | reconstruction/Buffer.py:38 | Queueing adds exactly one item, and nothing else changes. |
| Buffers.Put | reconstruction/Buffer.py:30-38 | Anything that is not a packet raises ValueError. A packet is queued. |
| Buffers.EnqueueAll | reconstruction/Buffer.py:38 | Queueing n items raises the count by n, and nothing else changes. |
| Buffers.Drain | reconstruction/Buffer.py:20-28 | Getting until the buffer is empty yields as many items as it counted. |
| Buffers.FirstInFirstOut | reconstruction/Buffer.py:20-38 | Items come out in the order they were put, after those already queued. |
| Buffers.QueuedInOrder | reconstruction/Buffer.py:30-38 | Queued items are appended in order. |
| Buffers.DrainIsQueue | reconstruction/Buffer.py:20-28 | Draining returns the queue's items from the front. |
| Buffers.GetBeforePut | reconstruction/Buffer.py:20-38 | On a non-empty buffer, a put does not change which item the next get returns. |
| Buffers.Number | reconstruction/Dump_Buffer.py:66 | Exactly integers, booleans and reals have a numeric value. |
| Buffers.Minus | reconstruction/Dump_Buffer.py:66 | A difference of two numbers is their numeric difference. It is a real exactly when one operand is. Any other operand raises TypeError. |
| Buffers.Integer | reconstruction/Dataset_Buffer.py:40 | An integer or boolean converts to its own value. |
| Buffers.Calibrated | reconstruction/Stream_Buffer.py:62-64 | A link without a calibration value raises KeyError. Otherwise the result is the RSSI minus that value. |
| DatasetBuffer.PositionsDistinct | reconstruction/Dataset_Buffer.py:18-24 | There are 28 sensor positions, all distinct. |
| DatasetBuffer.Row | reconstruction/Dataset_Buffer.py:33-42 | A line too short for a field it reaches raises IndexError. |
| DatasetBuffer.LineMeasurements | reconstruction/Dataset_Buffer.py:30-42 | Reading one line fails only with IndexError, for a destination id or field out of range. |
| DatasetBuffer.RowSkipsSelf | reconstruction/Dataset_Buffer.py:33-42 | Every source except the destination gives one measurement, in source order, with the RSSI from column source + 1. |
| DatasetBuffer.NoSelfLink | reconstruction/Dataset_Buffer.py:33-42 | A complete line gives n − 1 measurements, and none of them links a sensor to itself. |
| DatasetBuffer.AllMeasurements | reconstruction/Dataset_Buffer.py:28-58 | Reading the lines fails only with IndexError. |
| DatasetBuffer.CalibrationOf | reconstruction/Dataset_Buffer.py:42 | The calibration has an entry for exactly the links measured, plus those it had. |
| DatasetBuffer.LastMeasurementWins | reconstruction/Dataset_Buffer.py:28-42 | A link's calibration is the RSSI of its last measurement. |
| DatasetBuffer.Untouched | reconstruction/Dataset_Buffer.py:28-42 | A link never measured keeps its calibration. |
| DatasetBuffer.Put | reconstruction/Dataset_Buffer.py:93-107 | Anything but a list of three entries raises ValueError. Such a list is queued. |
| DatasetBuffer.Entries | reconstruction/Dataset_Buffer.py:58 | One queue entry per measurement: source, destination and RSSI. |
| DatasetBuffer.New | reconstruction/Dataset_Buffer.py:6-58 | Missing settings raise ValueError, and an unreadable line IndexError. Otherwise the buffer has the 28 positions and size 21×21, calibrates with the calibration lines' measurements, and queues the data lines' measurements in order. |
| DatasetBuffer.IndexOf | reconstruction/Dataset_Buffer.py:75 | The result is the first position equal to the location, or none when no position is. |
| DatasetBuffer.Get | reconstruction/Dataset_Buffer.py:60-91 | An empty buffer gives nothing. Otherwise the front entry leaves the queue and becomes a ground station packet, with sensor id = destination index + 1, returned with its calibrated RSSI. A destination that is not a sensor position raises ValueError. |
| DatasetBuffer.GetEntry | reconstruction/Dataset_Buffer.py:73-91 | An entry converts to its packet and calibrated RSSI exactly when it is well-typed, its destination is a position and its link is calibrated. |
| DatasetBuffer.GetMeasurement | reconstruction/Dataset_Buffer.py:60-91 | A queued measurement between sensors s and t comes out as the packet for sensor t + 1, with its RSSI minus the link's calibration. |
| DatasetBuffer.IndexOfPosition | reconstruction/Dataset_Buffer.py:75 | With distinct positions, the index of the t-th position is t. |
| DumpBuffer.CalibrateOne | reconstruction/Dump_Buffer.py:20-27 | A dump entry with both locations valid and an uncalibrated link adds its RSSI. Any other complete entry changes nothing. An entry too short raises IndexError. |
| DumpBuffer.Calibrate | reconstruction/Dump_Buffer.py:16-27 | Calibrating from complete entries always succeeds, and it fails only with IndexError. |
| DumpBuffer.CalibrationIsFirstValid | reconstruction/Dump_Buffer.py:20-27 | A link's calibration is kept when present. Otherwise it is the RSSI of the first valid entry for that link, and a link has one exactly when such an entry exists. |
| DumpBuffer.Put | reconstruction/Dump_Buffer.py:70-84 | Anything but a list of eight entries raises ValueError. Such a list is queued. |
| DumpBuffer.PutAll | reconstruction/Dump_Buffer.py:44-45 | Putting several entries fails with ValueError exactly when one is invalid. Otherwise all are appended in order. |
| DumpBuffer.New | reconstruction/Dump_Buffer.py:6-45 | Missing settings raise ValueError. A built buffer takes its calibration, sensor count, origin and size from the files, and queues every dump entry in order. Well-formed files always build. |
| DumpBuffer.Get | reconstruction/Dump_Buffer.py:47-68 | An empty buffer gives nothing. Otherwise the front entry leaves the queue. An entry that is too short raises IndexError. Otherwise it is restored into a ground station packet with its eight fields, returned with its calibrated RSSI, or with the calibration's error. |
| DumpBuffer.GetReturnsDump | reconstruction/Dump_Buffer.py:58-68 | Dumping the returned packet gives back the queued entry. |
| StreamBuffer.New | reconstruction/Stream_Buffer.py:5-33 | Missing settings raise ValueError, and so does leaving calibration mode off without a calibration file. Calibration mode starts uncalibrated. Otherwise the calibration file is read as the dump buffer reads it. |
| StreamBuffer.RegisterRfSensor | reconstruction/Stream_Buffer.py:35-42 | Only the sensor count changes, to the RF sensor's. |
| StreamBuffer.Get | reconstruction/Stream_Buffer.py:44-66 | An empty buffer gives nothing. Otherwise the front packet leaves the queue. In calibration mode it comes with its raw RSSI, and otherwise with its calibrated RSSI, or the calibration's error. |
| StreamBuffer.AgreesWithDump | reconstruction/Stream_Buffer.py:44-66 | A streamed packet and the same measurement from a dump give the same result under the same calibration. |
| Coordinator.Accepted | reconstruction/Coordinator.py:52-55 | The weight matrix holds at most one row per link offered. |
| Coordinator.New | reconstruction/Coordinator.py:5-15 | A new coordinator has no links and no RSSI values, and keeps its invariant for any weight matrix. |
| Coordinator.IndexOf | reconstruction/Coordinator.py:47 | The result is the first position of the link. |
| Coordinator.Update | reconstruction/Coordinator.py:31-57 | A known link has only its RSSI replaced. A new link is appended when the weight matrix accepts it, and otherwise dropped. The result says whether the value was taken, and the invariant is kept. |
| Coordinator.GetRssiVector | reconstruction/Coordinator.py:24-29 | There is one RSSI value per row of the weight matrix. |
| Coordinator.Run | reconstruction/Coordinator.py:31-57 | Any sequence of updates keeps the invariant: one value per distinct link, in the weight matrix's row order. |
| Coordinator.RssiIsLatest | reconstruction/Coordinator.py:31-57 | Every RSSI entry is the last value measured on its link. |
| Coordinator.EndpointsMeasured | reconstruction/Coordinator.py:31-57 | Every link with an entry was measured. |
| Controller.New | control_panel/Control_Panel_Controller.py:27-60 | A new controller has no packet callbacks and an empty store for each of the six views. |
| Controller.GetArguments | control_panel/Control_Panel_Controller.py:69-83 | Every argument with a long option, the help flag or a non-option program name is kept, and only those are kept. |
| Controller.ArgumentsInOrder | control_panel/Control_Panel_Controller.py:69-83 | The kept arguments keep the command line's order. |
| Controller.AddPacketCallback | control_panel/Control_Panel_Controller.py:125-134 | An uncallable callback raises TypeError. Otherwise the callback is registered, replacing any earlier one, and other registrations are kept. |
| Controller.RemovePacketCallback | control_panel/Control_Panel_Controller.py:136-145 | The specification's callback is gone afterwards, and others are kept. Removing an absent one changes nothing. |
| Controller.Receive | control_panel/Control_Panel_Controller.py:112-120 | A packet calls the callback of its specification exactly when one is registered. |
| Controller.AddedCallbackReceives | control_panel/Control_Panel_Controller.py:112-134 | After an add, that specification's packets reach the new callback, and other packets reach what they reached before. |
| Controller.RemovedCallbackSilent | control_panel/Control_Panel_Controller.py:112-145 | After a remove, that specification's packets reach nothing, and other packets reach what they reached before. |
| Controller.AddThenRemove | control_panel/Control_Panel_Controller.py:125-145 | Removing a callback just added restores the registry, and removing twice is removing once. |
| Controller.GetViewData | control_panel/Control_Panel_Controller.py:147-159 | An unknown view or an unset variable raises KeyError. Otherwise the result is the stored value. |
| Controller.SetViewData | control_panel/Control_Panel_Controller.py:161-170 | An unknown view raises KeyError. Otherwise the callbacks and the set of views are kept. |
| Controller.SetThenGet | control_panel/Control_Panel_Controller.py:147-170 | A value set is what a later get returns, and every other variable is unchanged. |
| Controller.ViewsOfNew | control_panel/Control_Panel_Controller.py:27-60 | A new controller accepts data for exactly the six views, and nothing can be read from it. |
| WaypointsView.Defaults | control_panel/Control_Panel_Waypoints_View.py:17-103 | There is one default per column. |
| WaypointsView.FormatRowData | control_panel/Control_Panel_Waypoints_View.py:187-247 | An empty row with only defaults before it is dropped. Without errors, formatting always succeeds. With errors, it raises ValueError exactly for a missing value, an uncastable cell, a value below its minimum, or HOME after the first row. Otherwise every column takes its filled, repeated or default value. |
| WaypointsView.RepeatedColumns | control_panel/Control_Panel_Waypoints_View.py:221-233 | With repeat on, empty north, east, altitude and wait-vehicle cells repeat the previous row. The type, wait count and wait waypoint take their defaults. With repeat off, every empty cell takes its default. |
| WaypointsView.FormattedRowIsValid | control_panel/Control_Panel_Waypoints_View.py:211-245 | A row that formatted with errors on meets every minimum and is HOME only in the first row. With repeat on, every column has a value. |
| WaypointsView.WaitId | control_panel/Control_Panel_Waypoints_View.py:249-273 | A waypoint that is not a wait waits for nobody (0). With two sensors, the default names the other vehicle. Otherwise the stated vehicle is used. |
| WaypointsView.DefaultWaitsPair | control_panel/Control_Panel_Waypoints_View.py:267-271 | With two vehicles, a default wait names the other vehicle, whose default wait names this one back. |
| WaypointsView.WaitSlotsConcat | control_panel/Control_Panel_Waypoints_View.py:300-314 | Wait slots add up over concatenated rows. |
| WaypointsView.SliceEnd | control_panel/Control_Panel_Waypoints_View.py:312 | A Python slice stop is clamped into the list, and a negative stop counts from the end. |
| WaypointsView.CountWaitWaypoints | control_panel/Control_Panel_Waypoints_View.py:300-314 | The count is the wait slots of the rows before the index, or of all rows. |
| WaypointsView.SumFrom | control_panel/Control_Panel_Waypoints_View.py:311-314 | The generator's sum from a row on, plus the slots before it, is the total. |
| WaypointsView.WaitSlotsGrow | control_panel/Control_Panel_Waypoints_View.py:300-314 | A later row has at least the slots of an earlier wait row added to that row's own slots. |
| WaypointsView.GetWaitWaypoint | control_panel/Control_Panel_Waypoints_View.py:275-298 | An index outside the list raises IndexError. A row that is not a wait gives −1. The default gives the wait slots before the row, and any other value is kept. |
| WaypointsView.FindWaitRow | control_panel/Control_Panel_Waypoints_View.py:594-601 | The search finds the first wait row whose slot range holds the wait index, or shows that none does. |
| WaypointsView.WaitRowFound | control_panel/Control_Panel_Waypoints_View.py:300-314 | With wait counts of at least one, every wait index below the total lies in some wait row's slots. |
| WaypointsView.WaitRangesDisjoint | control_panel/Control_Panel_Waypoints_View.py:594-601 | No wait index lies in the slots of two wait rows. |
| WaypointsView.ValidateWaitWaypoint | control_panel/Control_Panel_Waypoints_View.py:542-601 | The reasons are, in the code's order: a partner without waypoints, a nonexistent wait waypoint (a too negative one raises IndexError), a partner wait for another vehicle, an index outside this row's slots, or an earlier partner wait that waits later here. Consistency holds exactly when none of these applies. |
| WaypointsView.DeadlockRejected | control_panel/Control_Panel_Waypoints_View.py:580-586 | A wait is rejected when an earlier wait of its partner waits for a later wait of this vehicle. |
| WaypointsView.ValidateRows | control_panel/Control_Panel_Waypoints_View.py:528-540 | A vehicle's rows pass exactly when every row passes at its running wait index. |
| WaypointsView.ValidateWaypoints | control_panel/Control_Panel_Waypoints_View.py:518-540 | The assignment is consistent exactly when every row of every vehicle passes at the wait slots before it. |
| WaypointsView.DefaultIsOwnWaitIndex | control_panel/Control_Panel_Waypoints_View.py:290-296 | A wait row with the default wait waypoint waits at its own wait index. |
| WaypointsView.Item | control_panel/Control_Panel_Waypoints_View.py:674-678 | Indexing a JSON value fails only with IndexError, KeyError or TypeError. |
| WaypointsView.Column | control_panel/Control_Panel_Waypoints_View.py:674-675 | A column of pairs succeeds exactly when every item does, and holds them in order. |
| WaypointsView.ConvertWaypoints | control_panel/Control_Panel_Waypoints_View.py:647-682 | A dict is kept. A list of pairs becomes the vehicles "1" and "2", one entry per pair, and a short pair raises ValueError. Any other value raises ValueError. |
| WaypointsView.ConvertIdempotent | control_panel/Control_Panel_Waypoints_View.py:647-682 | Converted waypoints convert to themselves. |
| WaypointsView.SplitPairsZip | control_panel/Control_Panel_Waypoints_View.py:673-676 | The two vehicles' lists zip back into the imported pairs. |
| WaypointsView.MakeAddWaypointPacket | control_panel/Control_Panel_Waypoints_View.py:919-939 | The packet is a waypoint_add carrying the row's seven columns, the index and the vehicle. A short row raises IndexError. |
| WaypointsView.AddPackets | control_panel/Control_Panel_Waypoints_View.py:906-917 | There is one add packet per row, numbered on from the start index. |
| WaypointsView.RowsArrive | control_panel/Control_Panel_Waypoints_View.py:889-939 | The add packets of a vehicle's rows, sent in order, are all stored by the vehicle under the keys it reads. The vehicle ends at the index after the last, and every packet is acked with the next index. |
| WaypointsView.ContentsAt | control_panel/Control_Panel_Waypoints_View.py:919-939 | The vehicle reads each packet's contents. |
| Greedy.ExportWaypoint | planning/Greedy_Assignment.py:48-70 | An exported waypoint has altitude 0 and keeps its type, wait count and wait waypoint. |
| Greedy.HomeSlotHoldsDirection | planning/Greedy_Assignment.py:62-70 | A HOME entry's shared wait-id slot gives back the home direction. A wait entry keeps its partner and its wait waypoint there. |
| Greedy.RowPairsFacts | planning/Greedy_Assignment.py:35-37 | The pairs with first vehicle a are exactly (a, b) for b ≠ a in the range, ascending. |
| Greedy.PairsFromFacts | planning/Greedy_Assignment.py:35-37 | The rows from the first vehicle lo on hold exactly the ordered distinct pairs, ascending. |
| Greedy.VehiclePairs | planning/Greedy_Assignment.py:35-37 | The vehicle pairs are every ordered pair of distinct ids 1..n, once each, in lexicographic order, n(n−1) in all. |
| Greedy.VehiclePairsDistinct | planning/Greedy_Assignment.py:35-37 | No vehicle pair appears twice. |
| Greedy.NewDirection | planning/Greedy_Assignment.py:104-128 | Without movement the heading is kept. Otherwise the new heading points toward the target, and with movement on both axes it ends on the axis that the turning rule gives. |
| Greedy.NewDirectionIsLastLeg | planning/Greedy_Assignment.py:104-128 | The new heading is fully determined by where the target lies relative to the current heading. |
| Greedy.Passes | planning/Greedy_Assignment.py:181-182 | A detour becomes one PASS waypoint per point. |
| Greedy.VehicleStep | planning/Greedy_Assignment.py:155-196 | Each avoider request is recorded. An infinite avoider distance stops the planner. Otherwise the distance only grows, and the vehicle's list gains the detour and then a wait for its partner. The vehicle moves to the target, its wait count rises by one, and its heading is the avoider's or the turning rule's. |
| Greedy.AssignPair | planning/Greedy_Assignment.py:148-198 | Both vehicles of the pair move to their positions, each waiting for the other at the wait count the partner had before. An avoider that always reports a conflict ends the pair as a conflict. |
| Greedy.PairCost | planning/Greedy_Assignment.py:138-141 | A pair's cost is the larger of the two vehicles' travel costs. |
| Greedy.Scan | planning/Greedy_Assignment.py:130-146 | The scan returns a least cost, and it is the first one in row-major order. |
| Greedy.Closest | planning/Greedy_Assignment.py:130-146 | The chosen vehicle pair and position pair have the least cost, and among equal costs they come first in row-major order. |
| Greedy.NextRound | planning/Greedy_Assignment.py:236-250 | One round assigns the closest pair with distinct vehicles and removes exactly its two positions from the pairs left. |
| Greedy.Plan | planning/Greedy_Assignment.py:236-252 | Without vehicle pairs, pairs left raise ValueError. An avoider that never reports a conflict completes, and one that always does ends in a conflict. A completed plan only extends the lists, keeps every wait matched, and adds each remaining position as exactly one wait. |
| Greedy.Start | planning/Greedy_Assignment.py:218-232 | Every vehicle starts at home with its home direction. |
| Greedy.Assign | planning/Greedy_Assignment.py:200-252 | An unknown home direction raises ValueError, and fewer directions than homes IndexError. Otherwise the result fails exactly when fewer than two vehicles face pairs to visit (ValueError). |
| Greedy.WaitsSkipPasses | planning/Greedy_Assignment.py:181-182 | PASS waypoints add no waits. |
| Greedy.WaitsOfAppended | planning/Greedy_Assignment.py:181-196 | A detour and a wait add exactly that wait. |
| Greedy.MatchedAfterPair | planning/Greedy_Assignment.py:151-196 | Two waits that name each other's counts from before keep every wait matched. |
| Greedy.PairSpotsRemove | planning/Greedy_Assignment.py:250 | Deleting a pair removes exactly its two positions. |
| Greedy.PairExtendsWaits | planning/Greedy_Assignment.py:155-196 | After a pair, each vehicle has exactly one new wait, naming the partner and the partner's old wait count. Other lists are unchanged, and all lists only grow. |
| Greedy.PairExtendsCounted | planning/Greedy_Assignment.py:190 | Each vehicle's wait count stays the number of its waits. |
| Greedy.PairExtendsMatched | planning/Greedy_Assignment.py:151-196 | A pair keeps every wait matched. |
| Greedy.PairExtendsSpots | planning/Greedy_Assignment.py:161-196 | A pair adds exactly its two positions to the wait positions. |
| Greedy.PairExtendsKeeps | planning/Greedy_Assignment.py:148-198 | One assigned pair keeps the counts and the matching, adds exactly its two positions, and only extends the lists. |
| Greedy.StartConsistent | planning/Greedy_Assignment.py:218-232 | The start has no waits, so its counts are right and nothing is unmatched. |
| Greedy.AssignmentSynchronises | planning/Greedy_Assignment.py:200-252 | A completed assignment has one list per vehicle, starting with its HOME waypoint. Every wait has its partner's, and the waits visit every position of every pair exactly once. |
| Greedy.NoPairsOnlyHome | planning/Greedy_Assignment.py:230-252 | With no pairs, each vehicle gets only its HOME waypoint, and the total is 0. |
| Grid.Opposite | planning/Greedy_Assignment.py:128 | The inverted direction differs from the original and lies on the same axis. |
| Grid.FromCode | planning/Greedy_Assignment.py:220-222 | Exactly the values 0 to 3 are directions, and each code round-trips. |

## Left out

- Threads, `time.sleep` polling loops and `Threadable.interrupt` are left out. One loop body is modelled, with the current time as a parameter. A thread spawned by `activate` is counted in the state.
- Sockets, serial and USB ports, the XBee library, WiringPi pins and `date -s` are left out because they are I/O. Sent frames and written lines are returned as sequences.
- Mission dumps, settings JSON, dataset CSV and dump JSON files are left out because they are file I/O. A file is an `Option` of its decoded entries.
- zigbee/specifications.json is not part of this model. The registry is a parameter, a sequence of specifications in a fixed order; lookups are by name or by id byte.
- zlib and JSON compression of `@` packet fields are left out. A compressed value is carried as an opaque blob. Python's int-to-float coercion in struct packing is not modelled.
- PacketCodec.PackFields: three Python 2 packing behaviours are not modelled; the model gives a struct error, and so ValueError, in each case. A `$` field holding an int, float, bool or None raises TypeError from `len` at zigbee/Packet.py:160, which `serialize` does not turn into ValueError. An `@` field holding None is JSON-compressed and packs. `struct` packs any value under `?` by its truth, and a bool or a float under `B`, `b` or `i` (the float truncated).
- Python floats are exact reals in the model, with no IEEE rounding. Equalities that involve real arithmetic therefore hold in the program only up to rounding. This covers Tdma.Valid's `slotTime * N == sweepDelay`, the slot starts of Tdma.Update, Tdma.SlotOffset and Tdma.ProposalIsSlotDistance, the NTP offset, RSSI calibration and speeds. For example, `(1.0/49)*49` is 0.9999999999999999, and `3*(1.0/5)` is 0.6000000000000001 while `(3.0/5)*1.0` is 0.6.
- MissionXBee: the model assumes an environment that supplies the XBee sensor. mission/Mission_XBee.py:24, 68, 82 and 102 call `environment.get_xbee_sensor()`, which environment/Environment.py and environment/Environment_Simulator.py do not define. With those environments, `setup` and every handler raise AttributeError at their first line.
- PacketCodec.Unserialize: the fields a packet received before a ValueError are not modelled. Only the error is returned.
- Packets.SetDump: the fields set before an IndexError on a short dump are not modelled either. Only the error is returned, and the packet is not changed.
- Sender.ReceiveAck: only acks whose `sensor_id` and `next_index` are integers act. Python 2 would also accept a float or a bool `sensor_id` that hashes like a known key and store a float index; the model ignores such acks.
- Python 2 value semantics: keys and searches compare `Value`s structurally, while Python equates `1`, `1.0` and `True` by hash and `==`. This affects SettingsReceiver.Store, DatasetBuffer.IndexOf, Buffers.Calibrated and Coordinator.IndexOf. MissionXBee.WaitRequired accepts only a positive integer, while Python 2 `wait_id > 0` also holds for floats and for every string. Decimal.ParseInt rejects surrounding whitespace, which Python's `int()` strips.
- MissionRfSensor.AddWaypoint: the positions and waits are handed to the AUTO mission as a count, not as Waypoint objects, because the waypoint classes are not part of this model. A ValueError from an unknown waypoint type is not modelled; during `_load_dump` line 52 would swallow it and leave the mission incomplete.
- ArduinoFull.SetHomeLocation: the geometry conversion of the new home before truncation is left out, as float geometry. The notification of `home_location` listeners by the base setter is not modelled here, because this robot state keeps no listener registry; Vehicle.SetHome models that notification on the base vehicle. The home direction is a parameter, because the robot state keeps no `_home_direction` field; a caller must pass the one the robot was created with.
- zigbee/RF_Sensor_Physical.py is not part of this model. The results of its `_process` and `_process_rssi_broadcast_packet` are parameters of the drivers that call them.
- waypoint/Waypoint.py and Line_Follower.py are not part of this model. The numeric codes of the waypoint types are a parameter (`TypeCodes`), and the grid directions are the enumeration `Grid.Direction`.
- The weight matrix, the truncated SVD reconstructor and every numpy or scipy computation are left out because they are floating-point linear algebra. The weight matrix's acceptance of a link is an oracle.
- Greedy: the numpy distance matrix is left out as floating-point numerics. Collision avoidance is an oracle over every request made so far.
- The Qt user interface is left out because it is presentation. This covers views, dialogs, labels, table widgets and the compress/uncompress geometry of the waypoints view. A partner's wait entries are a parameter (`PartnerWaits`).
- WaypointsView.ConvertWaypoints: the reassignment branch that calls the planner on a dict of lists is not modelled. Waypoint rows are typed values, not free Python lists.
- Control_Panel_View.py is not part of this model. The controller's `show_view`, `load_settings` and `setup_rf_sensor` are left out because they only drive the interface.
- Mission.py's setup, display, yaw and velocity commands are left out, as are the float geometry of distances and the MAVLink commands. A distance is a parameter.
- Environment.setup and its geometry getters are left out because they construct collaborators and compute float geometry.
- MissionRfSensor: `get_points` (always empty) and `add_commands` (always RuntimeError) are not modelled because they hold no state. `arm_and_takeoff`'s gate is the predicate `MissionRfSensor.MayArm`.
- Tdma.InSlot, RobotVehicle.IsWaypoint, RobotVehicle.IsWait and MissionRfSensor.MayArm are predicates. Their definitions are the source's conditions, and the lemmas and contracts above use them.
- Robot_Vehicle_Arduino_Full.py's pause and unpause serial writes (`\x03` and `CONT`), its `NETW` network dimension line and its `_reset` are left out because they are serial I/O. The underlying mode changes are modelled in `RobotVehicle`.
- Robot_Vehicle.py's `line_follower_callback` and `set_servo` are left out because they are hardware events. Their effect on the state is the `divergenceOver` parameter of `RobotVehicle.CheckState`.
- Mission.CheckSensorDistance: the program exit on a distance of 0 is an `Exit` error, not a process exit.
- Python 2 integer division in `check_waypoint` is modelled on non-negative indices only, where it agrees with Dafny's division.
- The legacy trajectory code, the entry scripts, the stale XBee_Sensor_Physical.py and XBee_Sensor_Simulator.py drivers, and the simulated distance sensor and environment are left out because they fall outside the coordination logic.

## Where the code and the specification differ

The model follows the code in each case.

- Packets: the specification describes typed packets that reject undeclared fields (`SchemaError`) and unset reads (`NotSetError`). zigbee/Packet.py:30-56 stores any key, `get` of an unset key returns None, and only `serialize` checks the declared fields.
- TDMA: the specification describes N+1 slots, one of them the ground station's, chosen by a floor/mod rule. zigbee/TDMA_Scheduler.py:18-20 and 73-100 have N slots of `sweep_delay/N`. Vehicle i's first slot starts `(i/N)*sweep_delay` after the update, later updates add one sweep, and synchronisation only ever moves the timestamp forward.
- Mission delivery: the specification says `waypoint_done` makes `next_index` jump to the final count. mission/Mission_RF_Sensor.py:65-81 raises it by one on every done packet and acks. A dump replay then gives the entry count, one less than before the restart. The repository's own test expects no ack on done; the code sends one.
- Validity callback: RF_Sensor passes a request object and unpacks a pair, while Environment.location_valid takes keyword arguments and returns one boolean. Each module keeps its own file's contract.
- The spelled-out `add_waypoint` keywords in mission/Mission_RF_Sensor.py:212-214 are not accepted by mission/Mission_Auto.py:69. The model keeps both versions: `MissionRfSensor.AddWaypointAsWritten` raises the TypeError, and `MissionRfSensor.AddWaypoint` is the corrected call (see Findings).

## Findings

| source | as written | input that shows it | evidently intended | confidence | as-written member | corrected member |
|---|---|---|---|---|---|---|
| zigbee/RF_Sensor_Physical_XBee.py:187 | `_send` calls `_create_rssi_broadcast_packet()` with no argument, but zigbee/RF_Sensor.py:401 requires `to_id` | any `_send` of a started vehicle in its slot | one broadcast packet per destination, as in the base runtime | high, not executed | PhysicalXBee.SendAsWritten | PhysicalXBee.Send |
| vehicle/Robot_Vehicle.py:523-536 | a vehicle facing east or west with the target straight behind it on its row keeps its heading | location (0, 0) facing Right, target (0, -1): the result is Right, away from the target | turn toward the target along the row | medium, not executed | RobotVehicle.NextDirectionAsWritten (see RobotVehicle.NextDirectionTurnsAway) | RobotVehicle.NextDirection |
| vehicle/Robot_Vehicle_Arduino_Full.py:124-137 | an incomplete `LOCA` line sets the location before `parts[3]` raises IndexError, so the "ignored" message moves the vehicle | the line "LOCA 1 2" | an incomplete message changes nothing | medium, not executed | ArduinoFull.ReadMessageAsWritten (see ArduinoFull.IncompleteLocationMoves) | ArduinoFull.ReadMessage |
| vehicle/Vehicle.py:431 | the duplicate guard tests the listener against the dict's keys (attribute names), so it never fires | adding the same listener twice: each notification calls it twice | test the attribute's own list | high, not executed | Vehicle.AddListenerAsWritten (see Vehicle.ReaddedListenerCalledTwice) | Vehicle.AddListener |
| mission/Mission_XBee.py:87-91 | `_clear_waypoints` clears the mission but keeps `_required_waypoint_sensors`, so new waits read the old entries | required [[2], [3]], then clear, then add waypoint 0 with no wait id: its wait requires vehicle 3 | clear the required sensors with the mission | medium, not executed; reachable only with an environment that provides `get_xbee_sensor`, which the repository's environments do not define | MissionXBee.ClearAsWritten (see MissionXBee.StaleRequiredSensors) | MissionXBee.Clear |
| mission/Mission_RF_Sensor.py:212-214 | `_add_waypoint` calls `add_waypoint` with `wait` and `wait_waypoint` keywords that mission/Mission_Auto.py:69 does not take, so the TypeError comes after the append and before `_next_index += 1`: the add is neither counted nor acked, and its retransmission is appended again; replaying a dump that holds such an entry raises the same TypeError out of `setup` and leaves the mission incomplete | the expected add of a complete waypoint with at least one position | count and ack the add, so a retransmission is only re-acked | medium, not executed | MissionRfSensor.AddWaypointAsWritten (see MissionRfSensor.UnackedAdd, MissionRfSensor.LoadDumpAsWritten, MissionRfSensor.RestartWithPositionLosesMission) | MissionRfSensor.AddWaypoint (see MissionRfSensor.LoadDump) |

=== FILE: arduino_full.dfy ===
/** A robot vehicle whose grid driving is done by an Arduino over a serial
    line (vehicle/Robot_Vehicle_Arduino_Full.py). The vehicle writes
    HOME, DIRS and GOTO commands and reads LOCA, GDIR, ACKG and PASS
    status lines. Commands are modelled as the text written; the serial
    port, its threads and the console echo are left out. */
module ArduinoFull {
  import opened Wrappers
  import opened Grid
  import Decimal
  import Text
  import RobotVehicle

  type Robot = RobotVehicle.Robot
  type Point = RobotVehicle.Point

  /** `_get_zumo_direction`: the compass letter the Arduino program uses. */
  function ZumoDirection(d: Direction): (s: string)
    ensures |s| == 1 && s[0] != ' ' && s[0] != '\0' && !Text.IsSpace(s[0])
  {
    match d
    case Up => "N"
    case Right => "E"
    case Down => "S"
    case Left => "W"
  }

  /** `_get_direction`: any text other than the four letters is a
      ValueError. */
  function DirectionOf(s: string): (r: Result<Direction>)
    ensures r.Err? ==> r.error == ValueError
  {
    if s == "N" then Ok(Up)
    else if s == "E" then Ok(Right)
    else if s == "S" then Ok(Down)
    else if s == "W" then Ok(Left)
    else Err(ValueError)
  }

  /** The two conversions are inverse: every direction has a letter that
      converts back to it, and exactly the four letters convert. */
  lemma ZumoDirectionsInverse(d: Direction, s: string)
    ensures DirectionOf(ZumoDirection(d)) == Ok(d)
    ensures DirectionOf(s).Ok? <==> s == "N" || s == "E" || s == "S" || s == "W"
    ensures DirectionOf(s).Ok? ==> ZumoDirection(DirectionOf(s).value) == s
  {
  }

  /** `_get_next_location`: the neighbouring intersection in direction `d`. */
  function NextLocation(location: Point, d: Direction): (p: Point)
    ensures Toward(d, p.north - location.north, p.east - location.east)
    ensures Vertical(d) ==> p.east == location.east && (p.north - location.north == 1.0 || location.north - p.north == 1.0)
    ensures !Vertical(d) ==> p.north == location.north && (p.east - location.east == 1.0 || location.east - p.east == 1.0)
  {
    match d
    case Up => RobotVehicle.Point(location.north + 1.0, location.east)
    case Right => RobotVehicle.Point(location.north, location.east + 1.0)
    case Down => RobotVehicle.Point(location.north - 1.0, location.east)
    case Left => RobotVehicle.Point(location.north, location.east - 1.0)
  }

  /** Passing one intersection and then one in the opposite direction
      comes back to the start. */
  lemma PassReverses(location: Point, d: Direction)
    ensures NextLocation(NextLocation(location, d), Opposite(d)) == location
  {
  }

  /** A command line: the fields separated by single spaces, then a
      newline. */
  function Line(fields: seq<string>): (s: string)
    requires |fields| >= 1
    ensures |s| >= 1 && s[|s| - 1] == '\n'
  {
    Text.Join(fields, ' ') + "\n"
  }

  /** `_update_home_location`: the home position truncated to integers and
      the home direction's letter. */
  function HomeCommand(home: Point, d: Direction): (s: string)
  {
    Line(["HOME", Decimal.DecimalString(Decimal.Truncate(home.north)),
          Decimal.DecimalString(Decimal.Truncate(home.east)), ZumoDirection(d)])
  }

  /** `_set_direction`: the target's letter and the rotation direction. */
  function DirsCommand(target: Direction, rotateDirection: int): (s: string)
  {
    Line(["DIRS", ZumoDirection(target), Decimal.DecimalString(rotateDirection)])
  }

  /** The `home_location` setter: the base class stores the position, and
      this class writes the HOME command for it at once, with the home
      direction it already had. */
  function SetHomeLocation(r: Robot, home: Point, homeDirection: Direction): (e: (Robot, string))
    ensures e.0 == r.(home := home)
    ensures var parts := Parts(e.1);
            parts[0] == "HOME" && |parts| == 4
            && Decimal.ParseInt(parts[1]) == Some(Decimal.Truncate(home.north))
            && Decimal.ParseInt(parts[2]) == Some(Decimal.Truncate(home.east))
            && DirectionOf(parts[3]) == Ok(homeDirection)
  {
    HomeCommandParses(home, homeDirection);
    (r.(home := home), HomeCommand(home, homeDirection))
  }

  /** The fields of a line read from the Arduino: leading NUL bytes and
      trailing white space are dropped and the rest is split on spaces. */
  function Parts(line: string): (parts: seq<string>)
    ensures |parts| >= 1
  {
    Text.Split(Text.StripRight(Text.StripLeft(line, '\0')), ' ')
  }

  /** The outcome of a step: the new state and the exception that escaped,
      if any; the serial loop interrupts the vehicle on an exception. */
  datatype Step = Step(r: Robot, err: Option<Error>)

  /** `_read_serial_message` as written. Only an IndexError, a missing
      field, is ignored; a malformed number or letter escapes as a
      ValueError. A LOCA line is applied field by field, so one that lacks
      only its direction has already moved the vehicle when the missing
      field is found. */
  function ReadMessageAsWritten(r: Robot, line: string): (s: Step)
    ensures var parts := Parts(line);
            (parts[0] != "LOCA" ==> s == ReadOther(r, parts))
            && (s.err.Some? ==> s.err.value == ValueError)
            && (parts[0] == "LOCA" && |parts| < 4 ==>
                  s.r.direction == r.direction && s.r.state == r.state && s.r.waypoints == r.waypoints)
            && (parts[0] == "LOCA" && |parts| >= 3
                && Decimal.ParseInt(parts[1]).Some? && Decimal.ParseInt(parts[2]).Some? ==>
                  s.r.location == RobotVehicle.Point(Decimal.ParseInt(parts[1]).value as real,
                                                     Decimal.ParseInt(parts[2]).value as real))
            && (parts[0] == "LOCA" && |parts| >= 4 && Decimal.ParseInt(parts[1]).Some?
                && Decimal.ParseInt(parts[2]).Some? && DirectionOf(parts[3]).Ok? ==>
                  s.err.None? && s.r.direction == DirectionOf(parts[3]).value && s.r.state == RobotVehicle.Intersection)
  {
    var parts := Parts(line);
    if parts[0] == "LOCA" then
      if |parts| < 2 then Step(r, None)
      else match Decimal.ParseInt(parts[1])
        case None => Step(r, Some(ValueError))
        case Some(north) =>
          if |parts| < 3 then Step(r, None)
          else match Decimal.ParseInt(parts[2])
            case None => Step(r, Some(ValueError))
            case Some(east) =>
              var located := r.(location := RobotVehicle.Point(north as real, east as real));
              if |parts| < 4 then Step(located, None)
              else match DirectionOf(parts[3])
                case Err(e) => Step(located, Some(e))
                case Ok(d) => Step(located.(direction := d, state := RobotVehicle.Intersection), None)
    else ReadOther(r, parts)
  }

  /** The GDIR, ACKG and PASS lines, and any other line, which changes
      nothing. */
  function ReadOther(r: Robot, parts: seq<string>): (s: Step)
    requires |parts| >= 1
    ensures parts[0] == "ACKG" ==> s == Step(r.(state := RobotVehicle.Move), None)
    ensures parts[0] == "PASS" ==> s == Step(r.(location := NextLocation(r.location, r.direction)), None)
    ensures parts[0] == "GDIR" && |parts| < 2 ==> s == Step(r, None)
    ensures parts[0] == "GDIR" && |parts| >= 2 ==>
      (s.err.None? <==> DirectionOf(parts[1]).Ok?)
      && (s.err.None? ==> s.r == r.(direction := DirectionOf(parts[1]).value))
      && (s.err.Some? ==> s.r == r)
    ensures parts[0] != "GDIR" && parts[0] != "ACKG" && parts[0] != "PASS" ==> s == Step(r, None)
  {
    if parts[0] == "GDIR" then
      if |parts| < 2 then Step(r, None)
      else match DirectionOf(parts[1])
        case Err(e) => Step(r, Some(e))
        case Ok(d) => Step(r.(direction := d), None)
    else if parts[0] == "ACKG" then Step(r.(state := RobotVehicle.Move), None)
    else if parts[0] == "PASS" then Step(r.(location := NextLocation(r.location, r.direction)), None)
    else Step(r, None)
  }

  /** `_read_serial_message` with the LOCA fields all read before the
      vehicle is changed, so that an incomplete line is ignored as a whole
      as the comment in `_read_serial_message` says. */
  function ReadMessage(r: Robot, line: string): (s: Step)
    ensures Parts(line)[0] == "LOCA" && |Parts(line)| < 4 ==> s.r == r
  {
    var parts := Parts(line);
    if parts[0] == "LOCA" && 2 <= |parts| < 4 then
      match Decimal.ParseInt(parts[1])
      case None => Step(r, Some(ValueError))
      case Some(_) =>
        if |parts| == 3 && Decimal.ParseInt(parts[2]).None? then Step(r, Some(ValueError))
        else Step(r, None)
    else ReadMessageAsWritten(r, line)
  }

  /** The two versions differ exactly on a LOCA line with a valid north and
      east but no direction, which the version as written applies halfway. */
  lemma ReadMessageDiffers(r: Robot, line: string)
    ensures var parts := Parts(line);
            ReadMessageAsWritten(r, line) != ReadMessage(r, line)
            <==> parts[0] == "LOCA" && |parts| == 3
                 && Decimal.ParseInt(parts[1]).Some? && Decimal.ParseInt(parts[2]).Some?
                 && r.location != RobotVehicle.Point(Decimal.ParseInt(parts[1]).value as real, Decimal.ParseInt(parts[2]).value as real)
  {
  }

  /** A LOCA line with a valid north and east but no direction, such as
      "LOCA 1 2", moves the vehicle in the version as written, although
      the line is incomplete and no error is raised; the corrected version
      leaves the vehicle as it was. */
  lemma IncompleteLocationMoves(r: Robot, north: int, east: int)
    ensures var line := Line(["LOCA", Decimal.DecimalString(north), Decimal.DecimalString(east)]);
            ReadMessageAsWritten(r, line) == Step(r.(location := RobotVehicle.Point(north as real, east as real)), None)
            && ReadMessage(r, line) == Step(r, None)
  {
    var fields := ["LOCA", Decimal.DecimalString(north), Decimal.DecimalString(east)];
    NumberIsWord(north);
    NumberIsWord(east);
    LineParts(fields);
    Decimal.ParseRoundTrip(north);
    Decimal.ParseRoundTrip(east);
    assert Parts(Line(fields)) == fields;
  }

  /** `_goto_waypoint`: a wait entry writes nothing; a position is sent as
      a GOTO with its coordinates truncated to integers, after which the
      vehicle waits for the acknowledgement. Either way the waypoint counts
      as reached. */
  function GotoWaypoint(r: Robot, next: Option<Point>): (g: (Robot, seq<string>, bool))
    ensures g.2
    ensures next.None? ==> g.0 == r && g.1 == []
    ensures next.Some? ==> g.0 == r.(state := RobotVehicle.Wait) && |g.1| == 1
  {
    match next
    case None => (r, [], true)
    case Some(p) =>
      var command := Line(["GOTO", Decimal.DecimalString(Decimal.Truncate(p.north)),
                           Decimal.DecimalString(Decimal.Truncate(p.east))]);
      (r.(state := RobotVehicle.Wait), [command], true)
  }

  /** Text without spaces that cannot end in white space, such as a
      number. */
  predicate Word(s: string) {
    |s| >= 1 && !Text.IsSpace(s[|s| - 1]) && s[0] != '\0'
    && forall k :: 0 <= k < |s| ==> s[k] != ' '
  }

  lemma NumberIsWord(i: int)
    ensures Word(Decimal.DecimalString(i))
  {
    var s := Decimal.DecimalString(i);
    assert Decimal.IsInteger(s);
    if s[0] == '-' || s[0] == '+' {
      assert Decimal.AllDigits(s[1..]);
      assert forall k :: 1 <= k < |s| ==> s[k] == s[1..][k - 1];
    }
  }

  /** The Arduino reads back the fields of a command line. */
  lemma {:induction false} LineParts(fields: seq<string>)
    requires |fields| >= 1
    requires forall i :: 0 <= i < |fields| ==> Word(fields[i])
    ensures Parts(Line(fields)) == fields
  {
    var joined := Text.Join(fields, ' ');
    JoinedWord(fields);
    assert Text.StripLeft(Line(fields), '\0') == Line(fields);
    assert Line(fields)[..|Line(fields)| - 1] == joined;
    assert Text.StripRight(Line(fields)) == Text.StripRight(joined);
    assert Text.StripRight(joined) == joined;
    forall i, k | 0 <= i < |fields| && 0 <= k < |fields[i]|
      ensures fields[i][k] != ' '
    {
      assert Word(fields[i]);
    }
    Text.SplitJoin(fields, ' ');
  }

  /** Joined words start with the first word's first character and end
      with the last word's last character. */
  lemma {:induction false} JoinedWord(fields: seq<string>)
    requires |fields| >= 1
    requires forall i :: 0 <= i < |fields| ==> Word(fields[i])
    ensures var s := Text.Join(fields, ' ');
            var first := fields[0];
            var last := fields[|fields| - 1];
            |first| >= 1 && |last| >= 1 && |s| >= 1 && s[0] == first[0] && s[|s| - 1] == last[|last| - 1]
    decreases |fields|
  {
    if |fields| > 1 {
      JoinedWord(fields[1..]);
      assert fields[1..][|fields[1..]| - 1] == fields[|fields| - 1];
      assert Word(fields[0]);
    } else {
      assert Word(fields[0]);
    }
  }

  /** A GOTO line carries the truncated coordinates, which the Arduino
      parses back. */
  lemma GotoCommandParses(r: Robot, p: Point)
    ensures var parts := Parts(GotoWaypoint(r, Some(p)).1[0]);
            parts[0] == "GOTO" && |parts| == 3
            && Decimal.ParseInt(parts[1]) == Some(Decimal.Truncate(p.north))
            && Decimal.ParseInt(parts[2]) == Some(Decimal.Truncate(p.east))
  {
    var fields := ["GOTO", Decimal.DecimalString(Decimal.Truncate(p.north)),
                   Decimal.DecimalString(Decimal.Truncate(p.east))];
    NumberIsWord(Decimal.Truncate(p.north));
    NumberIsWord(Decimal.Truncate(p.east));
    LineParts(fields);
    Decimal.ParseRoundTrip(Decimal.Truncate(p.north));
    Decimal.ParseRoundTrip(Decimal.Truncate(p.east));
  }

  /** A DIRS line carries the target direction's letter and the rotation
      direction, both of which read back. */
  lemma DirsCommandParses(target: Direction, rotateDirection: int)
    ensures var parts := Parts(DirsCommand(target, rotateDirection));
            parts[0] == "DIRS" && |parts| == 3
            && DirectionOf(parts[1]) == Ok(target)
            && Decimal.ParseInt(parts[2]) == Some(rotateDirection)
  {
    var fields := ["DIRS", ZumoDirection(target), Decimal.DecimalString(rotateDirection)];
    NumberIsWord(rotateDirection);
    LineParts(fields);
    assert Parts(DirsCommand(target, rotateDirection)) == fields;
    Decimal.ParseRoundTrip(rotateDirection);
    ZumoDirectionsInverse(target, fields[1]);
  }

  /** A HOME line carries the truncated home position and the home
      direction's letter, both of which read back. */
  lemma HomeCommandParses(home: Point, d: Direction)
    ensures var parts := Parts(HomeCommand(home, d));
            parts[0] == "HOME" && |parts| == 4
            && Decimal.ParseInt(parts[1]) == Some(Decimal.Truncate(home.north))
            && Decimal.ParseInt(parts[2]) == Some(Decimal.Truncate(home.east))
            && DirectionOf(parts[3]) == Ok(d)
  {
    var north := Decimal.Truncate(home.north);
    var east := Decimal.Truncate(home.east);
    var fields := ["HOME", Decimal.DecimalString(north), Decimal.DecimalString(east), ZumoDirection(d)];
    NumberIsWord(north);
    NumberIsWord(east);
    LineParts(fields);
    assert Parts(HomeCommand(home, d)) == fields;
    Decimal.ParseRoundTrip(north);
    Decimal.ParseRoundTrip(east);
    ZumoDirectionsInverse(d, fields[3]);
  }

  /** A complete LOCA line places the vehicle at that intersection, facing
      that direction, standing still. */
  lemma LocationReportApplies(r: Robot, north: int, east: int, d: Direction)
    ensures var line := Line(["LOCA", Decimal.DecimalString(north), Decimal.DecimalString(east), ZumoDirection(d)]);
            ReadMessage(r, line) == ReadMessageAsWritten(r, line)
            == Step(r.(location := RobotVehicle.Point(north as real, east as real), direction := d,
                       state := RobotVehicle.Intersection), None)
  {
    var fields := ["LOCA", Decimal.DecimalString(north), Decimal.DecimalString(east), ZumoDirection(d)];
    NumberIsWord(north);
    NumberIsWord(east);
    LineParts(fields);
    Decimal.ParseRoundTrip(north);
    Decimal.ParseRoundTrip(east);
    ZumoDirectionsInverse(d, fields[3]);
    assert Parts(Line(fields)) == fields;
  }

  /** What a state check does: the new state, the lines written to the
      Arduino, and the motor command (whose SPDS formatting is not part of
      this model). */
  datatype Effect = Effect(r: Robot, lines: seq<string>, speeds: Option<RobotVehicle.Speeds>)

  /** `_move_waypoint` with this class's `_goto_waypoint`: past the list
      the motors stop if the vehicle was at a waypoint; otherwise the
      waypoint is sent and becomes the current index at once. */
  function MoveWaypoint(r: Robot, w: int): (e: Effect)
    ensures !RobotVehicle.IsWaypoint(r, w) ==> e.r == r && e.lines == []
    ensures !RobotVehicle.IsWaypoint(r, w) ==>
      (e.speeds.Some? <==> RobotVehicle.IsWaypoint(r, r.current))
      && (e.speeds.Some? ==> e.speeds.value == RobotVehicle.Speeds(0.0, 0.0, true, true))
    ensures RobotVehicle.IsWaypoint(r, w) ==>
      e.r.current == w && e.speeds.None? && e.r.waypoints == r.waypoints
      && (r.waypoints[w].Some? <==> e.r.state == RobotVehicle.Wait && |e.lines| == 1)
  {
    if !RobotVehicle.IsWaypoint(r, w) then
      Effect(r, [], if RobotVehicle.IsWaypoint(r, r.current) then Some(RobotVehicle.Speeds(0.0, 0.0, true, true)) else None)
    else
      var g := GotoWaypoint(r, r.waypoints[w]);
      Effect(g.0.(current := w), g.1, None)
  }

  /** `_check_state`: this class only checks intersections, carrying out
      the robot vehicle's decision with its own way of going to a
      waypoint. */
  function CheckState(r: Robot): (e: Effect)
    ensures RobotVehicle.IntersectionDecision(r).Hold? ==> e == Effect(r, [], None)
    ensures RobotVehicle.IntersectionDecision(r).StopMotors? ==> e == Effect(r, [], Some(RobotVehicle.Speeds(0.0, 0.0, true, true)))
    ensures e.lines != [] ==> e.r.state == RobotVehicle.Wait
  {
    match RobotVehicle.IntersectionDecision(r)
    case Hold => Effect(r, [], None)
    case StopMotors => Effect(r, [], Some(RobotVehicle.Speeds(0.0, 0.0, true, true)))
    case MoveTo(w) => MoveWaypoint(r, w)
  }

  /** In AUTO mode, on reaching the current waypoint the vehicle sends the
      next position as a GOTO the Arduino reads back, and an ACKG then sets
      it moving. */
  lemma AutoSendsNextGoto(r: Robot, p: Point)
    requires r.state == RobotVehicle.Intersection && r.mode == "AUTO" && RobotVehicle.AtCurrentWaypoint(r)
    requires r.current + 1 < |r.waypoints| && r.waypoints[r.current + 1] == Some(p)
    ensures CheckState(r).r == r.(current := r.current + 1, state := RobotVehicle.Wait)
    ensures CheckState(r).lines == GotoWaypoint(r, Some(p)).1
    ensures var line := CheckState(r).lines[0];
            Parts(line)[0] == "GOTO" && |Parts(line)| == 3
            && Decimal.ParseInt(Parts(line)[1]) == Some(Decimal.Truncate(p.north))
            && Decimal.ParseInt(Parts(line)[2]) == Some(Decimal.Truncate(p.east))
    ensures ReadMessage(CheckState(r).r, Line(["ACKG"])).r == CheckState(r).r.(state := RobotVehicle.Move)
  {
    assert RobotVehicle.IntersectionDecision(r) == RobotVehicle.MoveTo(r.current + 1);
    assert CheckState(r) == MoveWaypoint(r, r.current + 1);
    GotoCommandParses(r, p);
    AckgStartsMoving(CheckState(r).r);
  }

  /** An ACKG line sets the vehicle moving. */
  lemma AckgStartsMoving(r: Robot)
    ensures ReadMessage(r, Line(["ACKG"])).r == r.(state := RobotVehicle.Move)
  {
    LineParts(["ACKG"]);
    assert Parts(Line(["ACKG"])) == ["ACKG"];
  }
}

=== FILE: buffer.dfy ===
/** The reconstruction buffer (reconstruction/Buffer.py): a first-in
    first-out queue of measurements with the network's number of sensors,
    origin and size, and a calibration table that the concrete buffers
    fill. A buffer is a value; `Get` returns the buffer after the call
    together with what the call returns. The arithmetic and truthiness of
    Python values that the concrete buffers rely on is defined here too. */
module Buffers {
  import opened Wrappers
  import opened Packets

  /** A sensor location: latitude and longitude, as stored in a packet. */
  type Location = (Value, Value)

  /** A link from a source location to a destination location. */
  type Link = (Location, Location)

  datatype Buffer<T> = Buffer(
    numberOfSensors: int,
    origin: seq<Value>,
    size: seq<Value>,
    /** The queued measurements, oldest first. */
    queue: seq<T>,
    /** The RSSI of every link in the empty network. */
    calibration: map<Link, Value>)

  /** An object handed to `put`: one of the kind the buffer stores, or an
      object of any other type. */
  datatype Offered<T> = Accepted(item: T) | Foreign

  /** The constructor: without settings it raises ValueError; otherwise the
      buffer is empty, has no sensors, and the origin and size are (0, 0). */
  function New<T>(hasSettings: bool): (r: Result<Buffer<T>>)
    ensures r.Err? <==> !hasSettings
    ensures r.Err? ==> r.error == ValueError
    ensures r.Ok? ==> Count(r.value) == 0 && r.value.numberOfSensors == 0 && |r.value.calibration| == 0
    ensures r.Ok? ==> r.value.origin == [VInt(0), VInt(0)] && r.value.size == [VInt(0), VInt(0)]
  {
    if !hasSettings then Err(ValueError)
    else Ok(Buffer(0, [VInt(0), VInt(0)], [VInt(0), VInt(0)], [], map[]))
  }

  /** `count`: the number of queued measurements. */
  function Count<T>(b: Buffer<T>): nat {
    |b.queue|
  }

  /** `get`: None when the queue is empty, otherwise the oldest
      measurement, which leaves the queue. */
  function Get<T>(b: Buffer<T>): (r: (Buffer<T>, Option<T>))
    ensures r.1.None? <==> Count(b) == 0
    ensures r.1.None? ==> r.0 == b
    ensures r.1.Some? ==> Count(r.0) == Count(b) - 1 && r.0 == b.(queue := r.0.queue)
  {
    if |b.queue| == 0 then (b, None) else (b.(queue := b.queue[1..]), Some(b.queue[0]))
  }

  /** Appends a measurement to the queue. */
  function Enqueue<T>(b: Buffer<T>, x: T): (r: Buffer<T>)
    ensures Count(r) == Count(b) + 1 && r == b.(queue := r.queue)
  {
    b.(queue := b.queue + [x])
  }

  /** `put` of the base buffer: only a packet is queued; any other object
      raises ValueError. */
  function Put(b: Buffer<Packet>, o: Offered<Packet>): (r: Result<Buffer<Packet>>)
    ensures r.Err? <==> o.Foreign?
    ensures r.Err? ==> r.error == ValueError
    ensures r.Ok? ==> r.value == Enqueue(b, o.item)
  {
    match o
    case Foreign => Err(ValueError)
    case Accepted(p) => Ok(Enqueue(b, p))
  }

  /** Puts every measurement in turn. */
  function EnqueueAll<T>(b: Buffer<T>, xs: seq<T>): (r: Buffer<T>)
    ensures Count(r) == Count(b) + |xs| && r == b.(queue := r.queue)
    decreases |xs|
  {
    if |xs| == 0 then b else EnqueueAll(Enqueue(b, xs[0]), xs[1..])
  }

  /** Calls `get` until it returns None and collects what it returned. */
  function Drain<T>(b: Buffer<T>): (r: seq<T>)
    ensures |r| == Count(b)
    decreases Count(b)
  {
    var (b', x) := Get(b);
    if x.None? then [] else [x.value] + Drain(b')
  }

  /** The queue is first in, first out: putting measurements and then
      getting until the buffer is empty returns what was queued before,
      followed by the new measurements in the order they were put. */
  lemma {:induction false} FirstInFirstOut<T>(b: Buffer<T>, xs: seq<T>)
    ensures Drain(EnqueueAll(b, xs)) == b.queue + xs
  {
    QueuedInOrder(b, xs);
    DrainIsQueue(EnqueueAll(b, xs));
  }

  lemma {:induction false} QueuedInOrder<T>(b: Buffer<T>, xs: seq<T>)
    ensures EnqueueAll(b, xs).queue == b.queue + xs
    decreases |xs|
  {
    if |xs| > 0 {
      QueuedInOrder(Enqueue(b, xs[0]), xs[1..]);
      assert b.queue + [xs[0]] + xs[1..] == b.queue + xs;
    }
  }

  lemma {:induction false} DrainIsQueue<T>(b: Buffer<T>)
    ensures Drain(b) == b.queue
    decreases Count(b)
  {
    if Count(b) > 0 {
      DrainIsQueue(Get(b).0);
    }
  }

  /** Getting from a nonempty buffer commutes with putting: the oldest
      measurement comes out whatever is put behind it. */
  lemma GetBeforePut<T>(b: Buffer<T>, x: T)
    requires Count(b) > 0
    ensures Get(Enqueue(b, x)) == (Enqueue(Get(b).0, x), Get(b).1)
  {
    assert (b.queue + [x])[1..] == b.queue[1..] + [x];
  }

  /** Python truthiness of a packet value. */
  predicate Truthy(v: Value) {
    match v
    case VNone => false
    case VBool(b) => b
    case VInt(i) => i != 0
    case VReal(x) => x != 0.0
    case VStr(s) => s != ""
    case VObject(_) => true
  }

  /** The number a value stands for in arithmetic: a bool is 0 or 1. */
  function Number(v: Value): (r: Option<real>)
    ensures r.Some? <==> v.VInt? || v.VBool? || v.VReal?
  {
    match v
    case VInt(i) => Some(i as real)
    case VBool(b) => Some(if b then 1.0 else 0.0)
    case VReal(x) => Some(x)
    case _ => None
  }

  /** Python's `a - b` on packet values: integers (and bools) give an
      integer, a float on either side gives a float, and anything that is
      not a number raises TypeError. */
  function Minus(a: Value, b: Value): (r: Result<Value>)
    ensures r.Err? <==> Number(a).None? || Number(b).None?
    ensures r.Err? ==> r.error == TypeError
    ensures r.Ok? ==> Number(r.value) == Some(Number(a).value - Number(b).value)
    ensures r.Ok? ==> (r.value.VReal? <==> a.VReal? || b.VReal?)
  {
    if Number(a).None? || Number(b).None? then Err(TypeError)
    else if a.VReal? || b.VReal? then Ok(VReal(Number(a).value - Number(b).value))
    else Ok(VInt(Integer(a) - Integer(b)))
  }

  /** The integer an int or a bool stands for. */
  function Integer(v: Value): (i: int)
    ensures v.VInt? || v.VBool? ==> Number(v) == Some(i as real)
  {
    match v
    case VInt(i) => i
    case VBool(b) => if b then 1 else 0
    case _ => 0
  }

  /** The link a ground station packet reports. */
  function LinkOf(p: Packet): Link {
    ((Packets.Get(p, "from_latitude"), Packets.Get(p, "from_longitude")), (Packets.Get(p, "to_latitude"), Packets.Get(p, "to_longitude")))
  }

  /** `rssi - calibration[link]` for a packet: KeyError when the link has
      no calibration value. */
  function Calibrated(calibration: map<Link, Value>, link: Link, rssi: Value): (r: Result<Value>)
    ensures link !in calibration ==> r == Err(KeyError)
    ensures link in calibration ==> r == Minus(rssi, calibration[link])
  {
    if link in calibration then Minus(rssi, calibration[link]) else Err(KeyError)
  }
}

=== FILE: cc2530.dfy ===
/** The CC2530 sensor on the older XBee base
    (zigbee/XBee_CC2530_Sensor_Physical.py). Packets travel in the UART
    frames of module Uart. A vehicle broadcasts to every other vehicle and
    relays the ground-station packets it collected; a received packet is
    dispatched to the receive callback, the NTP exchange, discovery, the
    buffer, a ping/pong echo or the measurement of a broadcast. Pins, the
    serial device and the clock are left out or passed in; the serial
    connection is a flag, and writing to a missing one raises
    AttributeError. */
module Cc2530 {
  import opened Wrappers
  import opened Octets
  import opened Packets
  import Tdma
  import Decimal
  import PacketCodec
  import Uart
  import Ntp
  import RfSensor
  import XBeeSensor

  const PING_PONG := "cc2530_ping_pong"

  datatype Sensor = Sensor(
    base: XBeeSensor.XBee,
    connected: bool,
    address: string,
    data: seq<Packet>,
    packetLength: nat,
    synchronized: bool,
    hasBuffer: bool)

  /** The constructor's own part after the base constructor: the address
      is the id in decimal, the sensor counts as joined, nothing is
      collected and the clock is not yet synchronised. */
  function New(x: XBeeSensor.XBee, packetLength: nat): (r: Sensor)
    ensures Decimal.ParseInt(r.address) == Some(x.id)
    ensures r.base == x.(joined := true)
    ensures r.data == [] && !r.connected && !r.synchronized && !r.hasBuffer
    ensures r.packetLength == packetLength
  {
    Decimal.ParseRoundTrip(x.id);
    Sensor(x.(joined := true), false, Decimal.DecimalString(x.id), [], packetLength, false, false)
  }

  /** `_send_tx_frame` for a present packet and destination: serialize the
      packet, lay out the UART frame, and write it. */
  function Payload(reg: Registry, c: Sensor, p: Packet, to: int): (r: Result<seq<Octet>>)
    ensures PacketCodec.Serialize(reg, p).Err? ==> r == Err(PacketCodec.Serialize(reg, p).error)
    ensures r.Ok? <==> PacketCodec.Serialize(reg, p).Ok? && 0 <= to < 256
                       && |PacketCodec.Serialize(reg, p).value| < 256 && c.connected
    ensures (PacketCodec.Serialize(reg, p).Ok? && !c.connected && 0 <= to < 256
             && |PacketCodec.Serialize(reg, p).value| < 256) ==> r == Err(AttributeError)
    ensures r.Ok? ==>
      var bytes := PacketCodec.Serialize(reg, p).value;
      |r.value| == c.packetLength + 3
      && r.value[0] == Byte(Uart.TX) && r.value[1] == Byte(to as byte)
      && r.value[2] == Byte(|bytes| as byte) && r.value[3..] == Uart.Fit(bytes, c.packetLength)
  {
    match PacketCodec.Serialize(reg, p)
    case Err(e) => Err(e)
    case Ok(bytes) =>
      match Uart.TxFrame(to, bytes, c.packetLength)
      case Err(e) => Err(e)
      case Ok(frame) => if c.connected then Ok(frame) else Err(AttributeError)
  }

  /** What one CC2530 writes, another reads: the receiver's frame carries
      the serialized packet, which unserializes to a packet of the same
      specification and privacy with the same declared fields. */
  lemma LinkDelivers(reg: Registry, c: Sensor, p: Packet, to: int, rssi: int, rest: seq<Octet>)
    requires PacketCodec.WellFormed(reg)
    requires Payload(reg, c, p, to).Ok?
    requires |PacketCodec.Serialize(reg, p).value| <= c.packetLength
    requires -128 <= rssi < 128
    ensures var spec := RegisteredSpec(reg, p).value;
            var read := Uart.ReadFrame(Payload(reg, c, p, to).value[2..] + [Byte(SignedPattern(rssi, 1) as byte)] + rest,
                                       c.packetLength);
            read.Ok? && read.value.Some?
            && read.value.value.0.data == PacketCodec.Serialize(reg, p).value
            && read.value.value.0.rssi == rssi && read.value.value.1 == rest
            && var q := PacketCodec.Unserialize(reg, NewPacket(), read.value.value.0.data);
               q.Ok? && Get(q.value, SPECIFICATION) == VStr(spec.name) && q.value.private == spec.isPrivate
               && forall k :: 1 <= k < |spec.fields| ==> Get(q.value, spec.fields[k].name) == Get(p, spec.fields[k].name)
  {
    var bytes := PacketCodec.Serialize(reg, p).value;
    assert Payload(reg, c, p, to).value == Uart.TxFrame(to, bytes, c.packetLength).value;
    Uart.FrameRoundTrip(to, bytes, c.packetLength, rssi, rest);
    PacketCodec.SerializeRoundTrip(reg, p, NewPacket());
  }

  /** Writes frames in order until one fails; the frames written before
      the failure stay written. */
  method WriteAll(reg: Registry, c: Sensor, frames: seq<RfSensor.Frame>)
    returns (written: seq<seq<Octet>>, err: Option<Error>)
    ensures |written| <= |frames|
    ensures forall i :: 0 <= i < |written| ==> Payload(reg, c, frames[i].packet, frames[i].to) == Ok(written[i])
    ensures |written| < |frames| ==>
      Payload(reg, c, frames[|written|].packet, frames[|written|].to).Err?
      && err == Some(Payload(reg, c, frames[|written|].packet, frames[|written|].to).error)
    ensures |written| == |frames| ==> err.None?
  {
    written := [];
    var i := 0;
    while i < |frames|
      invariant i == |written| <= |frames|
      invariant forall k :: 0 <= k < i ==> Payload(reg, c, frames[k].packet, frames[k].to) == Ok(written[k])
    {
      match Payload(reg, c, frames[i].packet, frames[i].to)
      case Err(e) =>
        return written, Some(e);
      case Ok(bytes) =>
        written := written + [bytes];
      i := i + 1;
    }
    err := None;
  }

  /** The ping/pong packet `discover` sends to sensor `index`. */
  function PingPong(reg: Registry, index: int): (p: Packet)
    ensures Get(p, SPECIFICATION) == VStr(PING_PONG) && Get(p, "sensor_id") == VInt(index)
  {
    Build(reg, PING_PONG, map["sensor_id" := VInt(index)])
  }

  /** The frames of `discover`: a ping/pong to each vehicle 1..N in
      ascending order, each carrying its destination's id. */
  function PingPongs(reg: Registry, n: int): (r: seq<RfSensor.Frame>)
    ensures |r| == RfSensor.Count(n)
    ensures forall i :: 0 <= i < |r| ==> r[i] == RfSensor.Frame(PingPong(reg, i + 1), i + 1)
    decreases RfSensor.Count(n)
  {
    if n <= 0 then [] else PingPongs(reg, n - 1) + [RfSensor.Frame(PingPong(reg, n), n)]
  }

  /** `discover`: the callback is registered and a ping/pong goes to every
      vehicle. There is no argument checking in this variant. */
  method Discover(reg: Registry, c: Sensor) returns (written: seq<seq<Octet>>, err: Option<Error>)
    ensures |written| <= RfSensor.Count(c.base.numberOfSensors)
    ensures forall i :: 0 <= i < |written| ==> Payload(reg, c, PingPong(reg, i + 1), i + 1) == Ok(written[i])
    ensures err.None? <==> |written| == RfSensor.Count(c.base.numberOfSensors)
    ensures err.Some? ==>
      Payload(reg, c, PingPong(reg, |written| + 1), |written| + 1).Err?
      && err == Some(Payload(reg, c, PingPong(reg, |written| + 1), |written| + 1).error)
  {
    written, err := WriteAll(reg, c, PingPongs(reg, c.base.numberOfSensors));
  }

  /** The frames of one `_send`: the broadcast to each other vehicle in
      ascending order, then every collected packet to the ground station. */
  function SendPlan(c: Sensor, broadcast: Packet): (r: seq<RfSensor.Frame>)
    ensures |r| == |RfSensor.Targets(c.base.numberOfSensors, c.base.id)| + |c.data|
    ensures forall i :: 0 <= i < |r| ==>
      (r[i].to == 0 <==> i >= |RfSensor.Targets(c.base.numberOfSensors, c.base.id)|)
    ensures forall i :: 0 <= i < |r| && r[i].to != 0 ==>
      r[i].packet == broadcast && 1 <= r[i].to <= c.base.numberOfSensors && r[i].to != c.base.id
    ensures forall i :: |r| - |c.data| <= i < |r| ==> r[i].packet == c.data[i - (|r| - |c.data|)]
  {
    var ts := RfSensor.Targets(c.base.numberOfSensors, c.base.id);
    var r := RfSensor.Copies(broadcast, ts) + RfSensor.Copies0(c.data);
    assert forall i :: 0 <= i < |ts| ==> r[i] == RfSensor.Frame(broadcast, ts[i]) && ts[i] in ts;
    assert forall i :: |ts| <= i < |r| ==> r[i] == RfSensor.Frame(c.data[i - |ts|], 0);
    r
  }

  /** `_send`: write the plan; only when every frame was written is the
      collection emptied. */
  method Send(reg: Registry, c: Sensor, broadcast: Packet)
    returns (r: Sensor, written: seq<seq<Octet>>, err: Option<Error>)
    ensures |written| <= |SendPlan(c, broadcast)|
    ensures forall i :: 0 <= i < |written| ==>
      Payload(reg, c, SendPlan(c, broadcast)[i].packet, SendPlan(c, broadcast)[i].to) == Ok(written[i])
    ensures err.None? <==> |written| == |SendPlan(c, broadcast)|
    ensures err.None? ==> r == c.(data := [])
    ensures err.Some? ==> r == c
  {
    written, err := WriteAll(reg, c, SendPlan(c, broadcast));
    r := if err.None? then c.(data := []) else c;
  }

  /** `_process_rssi_broadcast_packet`: the schedule is synchronised from
      the broadcast first; then an RSSI is required (ValueError), and the
      ground-station packet carrying it is collected for the next send. */
  function ProcessBroadcast(reg: Registry, c: Sensor, p: Packet, rssi: Option<int>,
                            latitude: Value, longitude: Value, toValid: Value): (r: Result<Sensor>)
    ensures RfSensor.SynchronizeWith(c.base.scheduler, p).Err? ==>
      r == Err(RfSensor.SynchronizeWith(c.base.scheduler, p).error)
    ensures RfSensor.SynchronizeWith(c.base.scheduler, p).Ok? && rssi.None? ==> r == Err(ValueError)
    ensures r.Ok? <==> RfSensor.SynchronizeWith(c.base.scheduler, p).Ok? && rssi.Some?
    ensures r.Ok? ==>
      var g := XBeeSensor.MakeGroundStation(reg, c.base, p, latitude, longitude, toValid);
      r.value == c.(base := c.base.(scheduler := RfSensor.SynchronizeWith(c.base.scheduler, p).value),
                    data := c.data + [Set(reg, g, "rssi", VInt(rssi.value))])
      && Get(r.value.data[|c.data|], "rssi") == VInt(rssi.value)
  {
    match RfSensor.SynchronizeWith(c.base.scheduler, p)
    case Err(e) => Err(e)
    case Ok(scheduler) =>
      if rssi.None? then Err(ValueError)
      else
        var g := XBeeSensor.MakeGroundStation(reg, c.base, p, latitude, longitude, toValid);
        Ok(c.(base := c.base.(scheduler := scheduler), data := c.data + [Set(reg, g, "rssi", VInt(rssi.value))]))
  }

  /** `_send_tx_frame`'s destination taken from a packet value: None fails
      the base check; an int (or bool) is used; a float is truncated
      toward zero, as Python 2.7's `struct` converts it with a
      DeprecationWarning; a string or an object fails to pack. */
  function Destination(v: Value): (r: Result<int>)
    ensures v.VInt? ==> r == Ok(v.i)
    ensures v.VBool? ==> r == Ok(if v.b then 1 else 0)
    ensures v.VReal? && v.r >= 0.0 ==> r.Ok? && 0 <= r.value && r.value as real <= v.r < r.value as real + 1.0
    ensures v.VReal? && v.r < 0.0 ==> r.Ok? && r.value <= 0 && r.value as real - 1.0 < v.r <= r.value as real
    ensures v.VNone? ==> r == Err(ValueError)
    ensures v.VStr? || v.VObject? ==> r == Err(StructError)
  {
    match v
    case VInt(i) => Ok(i)
    case VBool(b) => Ok(if b then 1 else 0)
    case VReal(x) => Ok(Decimal.Truncate(x))
    case VNone => Err(ValueError)
    case _ => Err(StructError)
  }

  /** How a received frame was handled. */
  datatype Handling =
    | Waiting
    | ToCallback(packet: Packet)
    | NtpReply(payload: seq<Octet>)
    | NtpFinished(offset: real, clock: real)
    | Discovered(id: Value, address: Option<string>)
    | Buffered(packet: Packet)
    | Dropped
    | Echoed(payload: seq<Octet>)
    | Measured

  /** The dispatch of `_receive` once a packet is unserialized. */
  function Dispatch(reg: Registry, c: Sensor, p: Packet, rssi: int, now: real,
                    latitude: Value, longitude: Value, toValid: Value): (r: Result<(Sensor, Handling)>)
    ensures !p.private ==> r == Ok((c, ToCallback(p)))
    ensures r.Ok? && r.value.1.ToCallback? ==> !p.private
    ensures r.Ok? && (r.value.1.Discovered? || r.value.1.Buffered? || r.value.1.Dropped?) ==>
      c.base.id == 0 && r.value.0 == c
    ensures r.Ok? && (r.value.1.Echoed? || r.value.1.Measured?) ==> c.base.id != 0
    ensures p.private && Get(p, SPECIFICATION) == VStr(PING_PONG) && c.base.id == 0 ==>
      r == Ok((c, Discovered(Get(p, "sensor_id"), RfSensor.AddressOf(Get(p, "sensor_id")))))
    ensures p.private && Get(p, SPECIFICATION) != VStr(Ntp.NTP) && Get(p, SPECIFICATION) != VStr(PING_PONG)
            && c.base.id == 0 ==>
      r == Ok((c, if c.hasBuffer then Buffered(p) else Dropped))
    ensures p.private && Get(p, SPECIFICATION) == VStr(PING_PONG) && c.base.id != 0 ==>
      (r.Ok? <==> Payload(reg, c, p, 0).Ok?)
      && (r.Ok? ==> r.value == (c, Echoed(Payload(reg, c, p, 0).value)))
    ensures p.private && Get(p, SPECIFICATION) != VStr(Ntp.NTP) && Get(p, SPECIFICATION) != VStr(PING_PONG)
            && c.base.id != 0 ==>
      (r.Ok? <==> ProcessBroadcast(reg, c, p, Some(rssi), latitude, longitude, toValid).Ok?)
      && (r.Ok? ==> r.value == (ProcessBroadcast(reg, c, p, Some(rssi), latitude, longitude, toValid).value, Measured))
    ensures p.private && Get(p, SPECIFICATION) == VStr(Ntp.NTP) && r.Ok? ==>
      (r.value.1.NtpReply? && r.value.0 == c) || (r.value.1.NtpFinished? && r.value.0 == c.(synchronized := true))
  {
    if !p.private then Ok((c, ToCallback(p)))
    else if Get(p, SPECIFICATION) == VStr(Ntp.NTP) then
      match Ntp.Process(reg, Ntp.Client(c.base.id, c.synchronized), p, now)
      case Err(e) => Err(e)
      case Ok(Reply(tx)) =>
        (match Destination(tx.to)
         case Err(e) => Err(e)
         case Ok(to) =>
           match Payload(reg, c, tx.packet, to)
           case Err(e) => Err(e)
           case Ok(bytes) => Ok((c, NtpReply(bytes))))
      case Ok(Finished(client, offset, clock)) => Ok((c.(synchronized := client.synchronized), NtpFinished(offset, clock)))
    else if c.base.id == 0 then
      if Get(p, SPECIFICATION) == VStr(PING_PONG) then
        Ok((c, Discovered(Get(p, "sensor_id"), RfSensor.AddressOf(Get(p, "sensor_id")))))
      else Ok((c, if c.hasBuffer then Buffered(p) else Dropped))
    else if Get(p, SPECIFICATION) == VStr(PING_PONG) then
      match Payload(reg, c, p, 0)
      case Err(e) => Err(e)
      case Ok(bytes) => Ok((c, Echoed(bytes)))
    else
      match ProcessBroadcast(reg, c, p, Some(rssi), latitude, longitude, toValid)
      case Err(e) => Err(e)
      case Ok(c') => Ok((c', Measured))
  }

  /** `_receive`: with no serial connection the read raises
      AttributeError; otherwise nothing happens until a whole frame is
      waiting, and then the frame is taken, unserialized and dispatched. */
  function Receive(reg: Registry, c: Sensor, waiting: seq<Octet>, now: real,
                   latitude: Value, longitude: Value, toValid: Value): (r: Result<(Sensor, seq<Octet>, Handling)>)
    ensures !c.connected ==> r == Err(AttributeError)
    ensures c.connected && |waiting| < c.packetLength + 2 ==> r == Ok((c, waiting, Waiting))
    ensures c.connected && Uart.ReadFrame(waiting, c.packetLength).Ok?
            && Uart.ReadFrame(waiting, c.packetLength).value.Some? ==>
      var (frame, rest) := Uart.ReadFrame(waiting, c.packetLength).value.value;
      var p := PacketCodec.Unserialize(reg, NewPacket(), frame.data);
      (p.Err? ==> r == Err(p.error))
      && (p.Ok? ==>
            var d := Dispatch(reg, c, p.value, frame.rssi, now, latitude, longitude, toValid);
            (d.Err? ==> r == Err(d.error)) && (d.Ok? ==> r == Ok((d.value.0, rest, d.value.1))))
  {
    if !c.connected then Err(AttributeError)
    else match Uart.ReadFrame(waiting, c.packetLength)
      case Err(e) => Err(e)
      case Ok(None) => Ok((c, waiting, Waiting))
      case Ok(Some((frame, rest))) =>
        match PacketCodec.Unserialize(reg, NewPacket(), frame.data)
        case Err(e) => Err(e)
        case Ok(p) =>
          match Dispatch(reg, c, p, frame.rssi, now, latitude, longitude, toValid)
          case Err(e) => Err(e)
          case Ok((c', handling)) => Ok((c', rest, handling))
  }
}

=== FILE: controller.dfy ===
/** The control panel controller (control_panel/Control_Panel_Controller.py):
    the filter that picks the settings arguments out of the application's
    command line, the registry of packet callbacks by specification, and
    the per-view data store the views share. Callbacks and stored values
    are values of type parameters; calling a callback is returning it. */
module Controller {
  import opened Wrappers
  import opened Packets
  import Text

  /** A view name: one of the six members of the view name enumeration,
      or any other object handed to the view data accessors. */
  datatype View = Loading | Devices | Planning | Reconstruction | Waypoints | Settings
                | Other(name: string)

  /** The views the controller keeps data for. */
  const VIEWS: set<View> := {Loading, Devices, Planning, Reconstruction, Waypoints, Settings}

  datatype Controller<C, V> = Controller(
    /** `_packet_callbacks`: the callback by specification name. */
    callbacks: map<string, C>,
    /** `_view_data`: the stored variables of every view. */
    viewData: map<View, map<string, V>>)

  /** The controller keeps data for exactly the six views. */
  predicate Valid<C, V>(c: Controller<C, V>) {
    c.viewData.Keys == VIEWS
  }

  /** The constructor's state: no packet callbacks, and an empty store for
      every view. */
  function New<C, V>(): (c: Controller<C, V>)
    ensures Valid(c)
    ensures |c.callbacks| == 0
    ensures forall v | v in c.viewData :: |c.viewData[v]| == 0
  {
    Controller(map[], map v | v in VIEWS :: map[])
  }

  /** Whether `_get_arguments` keeps the argument at position `i`: an
      option with a long name, the help flag, or the program name when it
      does not look like an option. */
  predicate Kept(i: nat, arg: string) {
    Text.StartsWith(arg, "--") || arg == "-h" || (i == 0 && !Text.StartsWith(arg, "-"))
  }

  /** `_get_arguments`: the arguments that belong to the settings, in the
      order of the command line; Qt's own single-dash options are
      dropped. */
  function GetArguments(args: seq<string>): (r: seq<string>)
    ensures |r| <= |args|
    ensures forall i | 0 <= i < |args| && Kept(i, args[i]) :: args[i] in r
    ensures forall k | 0 <= k < |r| :: exists i :: 0 <= i < |args| && args[i] == r[k] && Kept(i, r[k])
    decreases |args|
  {
    if |args| == 0 then []
    else
      var n := |args| - 1;
      var before := GetArguments(args[..n]);
      assert forall i | 0 <= i < n :: args[..n][i] == args[i];
      before + (if Kept(n, args[n]) then [args[n]] else [])
  }

  /** The filter keeps the command line's order: the arguments kept from a
      prefix of the command line come first in the result. */
  lemma {:induction false} ArgumentsInOrder(args: seq<string>, j: nat)
    requires j <= |args|
    ensures GetArguments(args[..j]) <= GetArguments(args)
    decreases |args| - j
  {
    if j < |args| {
      ArgumentsInOrder(args, j + 1);
      ArgumentsExtend(args, j);
    } else {
      assert args[..j] == args;
    }
  }

  /** One more argument of the command line adds at most itself to the
      filter's result. */
  lemma ArgumentsExtend(args: seq<string>, j: nat)
    requires j < |args|
    ensures GetArguments(args[..j + 1]) == GetArguments(args[..j]) + (if Kept(j, args[j]) then [args[j]] else [])
  {
    var prefix := args[..j + 1];
    assert prefix[..j] == args[..j];
  }

  /** `add_packet_callback`: an uncallable callback raises TypeError;
      otherwise the callback is registered for the specification, silently
      replacing one registered before. */
  function AddPacketCallback<C, V>(c: Controller<C, V>, specification: string, callback: C, callable: bool): (r: Result<Controller<C, V>>)
    ensures r.Err? <==> !callable
    ensures r.Err? ==> r.error == TypeError
    ensures r.Ok? ==> r.value.viewData == c.viewData
                      && r.value.callbacks.Keys == c.callbacks.Keys + {specification}
                      && r.value.callbacks[specification] == callback
                      && forall s | s in c.callbacks && s != specification :: r.value.callbacks[s] == c.callbacks[s]
  {
    if !callable then Err(TypeError)
    else Ok(c.(callbacks := c.callbacks[specification := callback]))
  }

  /** `remove_packet_callback`: the specification's callback, if any, is
      unregistered; an absent one is not an error. */
  function RemovePacketCallback<C, V>(c: Controller<C, V>, specification: string): (r: Controller<C, V>)
    ensures r.viewData == c.viewData
    ensures specification !in r.callbacks
    ensures r.callbacks.Keys == c.callbacks.Keys - {specification}
    ensures forall s | s in r.callbacks :: r.callbacks[s] == c.callbacks[s]
    ensures specification !in c.callbacks ==> r == c
  {
    if specification in c.callbacks then c.(callbacks := c.callbacks - {specification}) else c
  }

  /** `_receive`: the callback registered for the packet's specification,
      if any, is the one called. */
  function Receive<C, V>(c: Controller<C, V>, p: Packet): (called: Option<C>)
    ensures called.Some? <==> Get(p, SPECIFICATION).VStr? && Get(p, SPECIFICATION).s in c.callbacks
    ensures called.Some? ==> called.value == c.callbacks[Get(p, SPECIFICATION).s]
  {
    match Get(p, SPECIFICATION)
    case VStr(s) => if s in c.callbacks then Some(c.callbacks[s]) else None
    case _ => None
  }

  /** After a callback is added, packets of its specification reach it and
      only it, whatever was registered before, and packets of other
      specifications reach what they reached before. */
  lemma AddedCallbackReceives<C, V>(c: Controller<C, V>, specification: string, callback: C, p: Packet)
    ensures var added := AddPacketCallback(c, specification, callback, true).value;
            (Get(p, SPECIFICATION) == VStr(specification) ==> Receive(added, p) == Some(callback))
            && (Get(p, SPECIFICATION) != VStr(specification) ==> Receive(added, p) == Receive(c, p))
  {
  }

  /** After a callback is removed, packets of its specification reach no
      callback, and packets of other specifications reach what they
      reached before. */
  lemma RemovedCallbackSilent<C, V>(c: Controller<C, V>, specification: string, p: Packet)
    ensures var removed := RemovePacketCallback(c, specification);
            (Get(p, SPECIFICATION) == VStr(specification) ==> Receive(removed, p) == None)
            && (Get(p, SPECIFICATION) != VStr(specification) ==> Receive(removed, p) == Receive(c, p))
  {
  }

  /** Adding a callback for a specification that had none and removing it
      again leaves the controller as it was; removing twice is removing
      once. */
  lemma AddThenRemove<C, V>(c: Controller<C, V>, specification: string, callback: C)
    requires specification !in c.callbacks
    ensures RemovePacketCallback(AddPacketCallback(c, specification, callback, true).value, specification) == c
    ensures RemovePacketCallback(RemovePacketCallback(c, specification), specification)
            == RemovePacketCallback(c, specification)
  {
    var added := AddPacketCallback(c, specification, callback, true).value;
    assert added.callbacks - {specification} == c.callbacks;
  }

  /** `get_view_data`: KeyError for a view the controller does not know and
      for a variable the view has not stored; otherwise the stored value. */
  function GetViewData<C, V>(c: Controller<C, V>, view: View, key: string): (r: Result<V>)
    ensures r.Err? <==> view !in c.viewData || key !in c.viewData[view]
    ensures r.Err? ==> r.error == KeyError
    ensures r.Ok? ==> r.value == c.viewData[view][key]
  {
    if view !in c.viewData then Err(KeyError)
    else if key !in c.viewData[view] then Err(KeyError)
    else Ok(c.viewData[view][key])
  }

  /** `set_view_data`: KeyError for a view the controller does not know;
      otherwise the view's variable holds the value. */
  function SetViewData<C, V>(c: Controller<C, V>, view: View, key: string, value: V): (r: Result<Controller<C, V>>)
    ensures r.Err? <==> view !in c.viewData
    ensures r.Err? ==> r.error == KeyError
    ensures r.Ok? ==> r.value.callbacks == c.callbacks && r.value.viewData.Keys == c.viewData.Keys
  {
    if view !in c.viewData then Err(KeyError)
    else Ok(c.(viewData := c.viewData[view := c.viewData[view][key := value]]))
  }

  /** A value set for a view is what a later get of the same variable
      returns, and every other variable of every view is unchanged. */
  lemma SetThenGet<C, V>(c: Controller<C, V>, view: View, key: string, value: V, view': View, key': string)
    requires SetViewData(c, view, key, value).Ok?
    ensures GetViewData(SetViewData(c, view, key, value).value, view, key) == Ok(value)
    ensures (view', key') != (view, key) ==>
              GetViewData(SetViewData(c, view, key, value).value, view', key') == GetViewData(c, view', key')
  {
  }

  /** On a controller as constructed, exactly the six views accept data,
      and no variable can be read before one is set. */
  lemma ViewsOfNew<C, V>(view: View, key: string, value: V)
    ensures SetViewData(New<C, V>(), view, key, value).Ok? <==> !view.Other?
    ensures GetViewData(New<C, V>(), view, key) == Err(KeyError)
  {
  }
}

=== FILE: coordinator.dfy ===
/** The reconstruction coordinator (reconstruction/Coordinator.py): it keeps
    the RSSI vector and the weight matrix in step, one entry per distinct
    link. The weight matrix is an oracle: `accepts(offered, link)` says
    whether its `update` accepts `link` after the links `offered` before,
    which is all its state depends on. */
module Coordinator {
  import opened Wrappers
  import opened Packets
  import opened Buffers

  /** The weight matrix's decision on a link, given the links offered to
      it before. */
  type Oracle = (seq<Link>, Link) -> bool

  datatype Coordinator = Coordinator(
    /** The RSSI of every link, in the order of the weight matrix's rows. */
    rssi: seq<Value>,
    /** The link of every entry of `rssi`. */
    endpoints: seq<Link>,
    /** Every link offered to the weight matrix, accepted or not. */
    offered: seq<Link>)

  /** The links the weight matrix accepted, in the order of its rows. */
  function Accepted(accepts: Oracle, offered: seq<Link>): (r: seq<Link>)
    ensures |r| <= |offered|
    decreases |offered|
  {
    if |offered| == 0 then []
    else
      var before := offered[..|offered| - 1];
      var link := offered[|offered| - 1];
      Accepted(accepts, before) + (if accepts(before, link) then [link] else [])
  }

  /** The coordinator's invariant: one RSSI value per link, no link twice,
      and a link for every row the weight matrix added. */
  predicate Valid(accepts: Oracle, c: Coordinator) {
    |c.rssi| == |c.endpoints|
    && (forall i, j | 0 <= i < j < |c.endpoints| :: c.endpoints[i] != c.endpoints[j])
    && c.endpoints == Accepted(accepts, c.offered)
  }

  /** The constructor: no links and no RSSI values yet. */
  function New(): (c: Coordinator)
    ensures forall accepts: Oracle :: Valid(accepts, c)
    ensures |c.rssi| == 0 && |c.endpoints| == 0
  {
    Coordinator([], [], [])
  }

  /** `list.index`: the first position of `x` in `xs`. */
  function IndexOf(xs: seq<Link>, x: Link): (i: nat)
    requires x in xs
    ensures i < |xs| && xs[i] == x
    ensures forall j | 0 <= j < i :: xs[j] != x
  {
    if xs[0] == x then 0 else 1 + IndexOf(xs[1..], x)
  }

  /** `update`: a link measured before has its RSSI replaced, and the
      weight matrix is not consulted; a new link the weight matrix accepts
      appends its RSSI and its endpoints; a new link the weight matrix
      rejects changes nothing but the weight matrix's history. The result
      is whether the RSSI vector took the value. */
  function Update(accepts: Oracle, c: Coordinator, p: Packet, rssi: Value): (r: (Coordinator, bool))
    requires |c.rssi| == |c.endpoints|
    ensures r.1 <==> LinkOf(p) in c.endpoints || accepts(c.offered, LinkOf(p))
    ensures LinkOf(p) in c.endpoints ==>
              r.0.endpoints == c.endpoints && r.0.offered == c.offered && |r.0.rssi| == |c.rssi|
              && forall k | 0 <= k < |c.rssi| ::
                   r.0.rssi[k] == if k == IndexOf(c.endpoints, LinkOf(p)) then rssi else c.rssi[k]
    ensures LinkOf(p) !in c.endpoints && accepts(c.offered, LinkOf(p)) ==>
              r.0 == Coordinator(c.rssi + [rssi], c.endpoints + [LinkOf(p)], c.offered + [LinkOf(p)])
    ensures LinkOf(p) !in c.endpoints && !accepts(c.offered, LinkOf(p)) ==>
              r.0 == c.(offered := c.offered + [LinkOf(p)])
    ensures Valid(accepts, c) ==> Valid(accepts, r.0)
  {
    var link := LinkOf(p);
    if link in c.endpoints then
      (c.(rssi := c.rssi[IndexOf(c.endpoints, link) := rssi]), true)
    else if accepts(c.offered, link) then
      var r := Coordinator(c.rssi + [rssi], c.endpoints + [link], c.offered + [link]);
      assert r.offered[..|r.offered| - 1] == c.offered;
      (r, true)
    else
      var r := c.(offered := c.offered + [link]);
      assert r.offered[..|r.offered| - 1] == c.offered;
      (r, false)
  }

  /** `get_rssi_vector`: a copy of the RSSI vector, one value per link of
      the weight matrix's rows. */
  function GetRssiVector(accepts: Oracle, c: Coordinator): (r: seq<Value>)
    requires Valid(accepts, c)
    ensures |r| == |Accepted(accepts, c.offered)|
    ensures forall k | 0 <= k < |r| :: r[k] == c.rssi[k]
  {
    c.rssi
  }

  /** The coordinator after a sequence of packets and their calibrated
      RSSI values. */
  function Run(accepts: Oracle, updates: seq<(Packet, Value)>): (c: Coordinator)
    ensures Valid(accepts, c)
    decreases |updates|
  {
    if |updates| == 0 then New()
    else
      var u := updates[|updates| - 1];
      Update(accepts, Run(accepts, updates[..|updates| - 1]), u.0, u.1).0
  }

  /** The value of the last update that measured `link`, if any. */
  function LastValue(updates: seq<(Packet, Value)>, link: Link): Option<Value>
    decreases |updates|
  {
    if |updates| == 0 then None
    else if LinkOf(updates[|updates| - 1].0) == link then Some(updates[|updates| - 1].1)
    else LastValue(updates[..|updates| - 1], link)
  }

  /** Every entry of the RSSI vector is the latest value measured on its
      link: a value replaced in place is never lost, and an update on one
      link leaves every other link's value alone. */
  lemma {:induction false} RssiIsLatest(accepts: Oracle, updates: seq<(Packet, Value)>, k: int)
    requires 0 <= k < |Run(accepts, updates).rssi|
    ensures LastValue(updates, Run(accepts, updates).endpoints[k]) == Some(Run(accepts, updates).rssi[k])
    decreases |updates|
  {
    var before := updates[..|updates| - 1];
    var c := Run(accepts, before);
    var u := updates[|updates| - 1];
    var link := LinkOf(u.0);
    var c' := Run(accepts, updates);
    assert c' == Update(accepts, c, u.0, u.1).0;
    if k < |c.rssi| && c'.endpoints[k] != link {
      assert c'.endpoints[k] == c.endpoints[k] && c'.rssi[k] == c.rssi[k] by {
        if link in c.endpoints {
          assert k != IndexOf(c.endpoints, link);
        }
      }
      RssiIsLatest(accepts, before, k);
    } else if k < |c.rssi| {
      assert k == IndexOf(c.endpoints, link);
    }
  }

  /** Every link with an entry was measured by some update. */
  lemma {:induction false} EndpointsMeasured(accepts: Oracle, updates: seq<(Packet, Value)>, link: Link)
    requires link in Run(accepts, updates).endpoints
    ensures LastValue(updates, link).Some?
  {
    var c := Run(accepts, updates);
    var k :| 0 <= k < |c.endpoints| && c.endpoints[k] == link;
    RssiIsLatest(accepts, updates, k);
  }
}

=== FILE: dataset_buffer.dfy ===
/** The dataset buffer (reconstruction/Dataset_Buffer.py): measurements
    from a radio tomographic imaging dataset in CSV form. There are 28
    sensors at fixed positions on a 21 by 21 network; every line of a file
    holds a destination sensor's index followed by the RSSI the destination
    received from every sensor. The parsed lines of the two files, as
    integers, are parameters. */
module DatasetBuffer {
  import opened Wrappers
  import opened Packets
  import opened Buffers

  /** A position of the dataset's network as a location. */
  function At(north: int, east: int): Location {
    (VInt(north), VInt(east))
  }

  /** The sensor positions, by sensor index. */
  const POSITIONS: seq<Location> := [
    At(0, 0), At(0, 3), At(0, 6), At(0, 9), At(0, 12), At(0, 15), At(0, 18),
    At(0, 21), At(3, 21), At(6, 21), At(9, 21), At(12, 21), At(15, 21), At(18, 21),
    At(21, 21), At(21, 18), At(21, 15), At(21, 12), At(21, 9), At(21, 6), At(21, 3),
    At(21, 0), At(18, 0), At(15, 0), At(12, 0), At(9, 0), At(6, 0), At(2, 0)]

  const SENSORS := 28

  /** No two sensors share a position. */
  predicate Distinct(positions: seq<Location>) {
    forall i, j | 0 <= i < j < |positions| :: positions[i] != positions[j]
  }

  /** The sensor index of a position on the walk around the network's
      border that the positions follow. */
  function Rank(l: Location): int {
    var (north, east) := (l.0, l.1);
    if !north.VInt? || !east.VInt? then -1
    else if north.i == 0 then east.i / 3
    else if east.i == 21 then 7 + north.i / 3
    else if north.i == 21 then 14 + (21 - east.i) / 3
    else if north.i >= 3 then 21 + (21 - north.i) / 3
    else 27
  }

  /** No two sensors share a position: each position's rank is its index. */
  lemma PositionsDistinct()
    ensures |POSITIONS| == SENSORS && Distinct(POSITIONS)
  {
    forall i | 0 <= i < SENSORS
      ensures Rank(POSITIONS[i]) == i
    {
    }
  }

  /** The buffer and the sensor positions it names links by. */
  datatype Dataset = Dataset(base: Buffer<seq<Cell>>, positions: seq<Location>)

  /** One element of a queued list: a location or a plain value. */
  datatype Cell = Place(location: Location) | Scalar(value: Value)

  /** A measurement of one link: the source and destination locations and
      the RSSI. */
  datatype Measurement = Measurement(source: Location, destination: Location, rssi: int)

  /** The measurements of one line from source index `from` on: every
      source other than the destination, in index order. The destination
      index is a Python index into the positions, so a negative one counts
      from the end; an index outside them, or a line too short for a
      source's column, raises IndexError. */
  function Row(positions: seq<Location>, line: seq<int>, destination: int, from: nat): (r: Result<seq<Measurement>>)
    requires from <= |positions|
    ensures r.Err? ==> r.error == IndexError
    decreases |positions| - from
  {
    if from == |positions| then Ok([])
    else if from == destination then Row(positions, line, destination, from + 1)
    else
      var to :- PyIndex(positions, destination);
      var rssi :- PyIndex(line, from + 1);
      var rest :- Row(positions, line, destination, from + 1);
      Ok([Measurement(positions[from], to, rssi)] + rest)
  }

  /** The measurements of a line; an empty line raises IndexError. */
  function LineMeasurements(positions: seq<Location>, line: seq<int>): (r: Result<seq<Measurement>>)
    ensures r.Err? ==> r.error == IndexError
  {
    if |line| == 0 then Err(IndexError) else Row(positions, line, line[0], 0)
  }

  /** A line with a column for every sensor and a destination among the
      sensors yields one measurement per other sensor, in index order,
      skipping the destination's link to itself. */
  lemma {:induction false} RowSkipsSelf(positions: seq<Location>, line: seq<int>, destination: int, from: nat)
    requires 0 <= destination < |positions| && |line| == |positions| + 1 && from <= |positions|
    ensures var r := Row(positions, line, destination, from);
            r.Ok? && |r.value| == |positions| - from - (if from <= destination then 1 else 0)
            && forall k | 0 <= k < |r.value| ::
                 var s := if from + k < destination || destination < from then from + k else from + k + 1;
                 s < |positions| && r.value[k] == Measurement(positions[s], positions[destination], line[s + 1])
    decreases |positions| - from
  {
    if from < |positions| {
      RowSkipsSelf(positions, line, destination, from + 1);
    }
  }

  /** A measured link never goes from a sensor to itself. */
  lemma NoSelfLink(positions: seq<Location>, line: seq<int>)
    requires Distinct(positions) && |line| == |positions| + 1 && 0 <= line[0] < |positions|
    ensures LineMeasurements(positions, line).Ok?
    ensures |LineMeasurements(positions, line).value| == |positions| - 1
    ensures forall m | m in LineMeasurements(positions, line).value :: m.source != m.destination
  {
    RowSkipsSelf(positions, line, line[0], 0);
    var ms := LineMeasurements(positions, line).value;
    forall m | m in ms
      ensures m.source != m.destination
    {
      var k :| 0 <= k < |ms| && ms[k] == m;
    }
  }

  /** The measurements of all lines, line by line. */
  function AllMeasurements(positions: seq<Location>, lines: seq<seq<int>>): (r: Result<seq<Measurement>>)
    ensures r.Err? ==> r.error == IndexError
    decreases |lines|
  {
    if |lines| == 0 then Ok([])
    else
      var first :- LineMeasurements(positions, lines[0]);
      var rest :- AllMeasurements(positions, lines[1..]);
      Ok(first + rest)
  }

  /** The link of a measurement. */
  function MeasuredLink(m: Measurement): Link {
    (m.source, m.destination)
  }

  /** The calibration table: every measured link takes its RSSI, a later
      measurement of a link replacing an earlier one. */
  function CalibrationOf(cal: map<Link, Value>, ms: seq<Measurement>): (r: map<Link, Value>)
    ensures r.Keys == cal.Keys + set m | m in ms :: MeasuredLink(m)
    decreases |ms|
  {
    if |ms| == 0 then cal
    else CalibrationOf(cal[MeasuredLink(ms[0]) := VInt(ms[0].rssi)], ms[1..])
  }

  /** The last measurement's RSSI is the one a link keeps. */
  lemma {:induction false} LastMeasurementWins(cal: map<Link, Value>, ms: seq<Measurement>, k: int)
    requires 0 <= k < |ms|
    requires forall j | k < j < |ms| :: MeasuredLink(ms[j]) != MeasuredLink(ms[k])
    ensures CalibrationOf(cal, ms)[MeasuredLink(ms[k])] == VInt(ms[k].rssi)
    decreases |ms|
  {
    if k == 0 {
      Untouched(cal[MeasuredLink(ms[0]) := VInt(ms[0].rssi)], ms[1..], MeasuredLink(ms[0]));
    } else {
      LastMeasurementWins(cal[MeasuredLink(ms[0]) := VInt(ms[0].rssi)], ms[1..], k - 1);
    }
  }

  /** A link no measurement names keeps its value. */
  lemma {:induction false} Untouched(cal: map<Link, Value>, ms: seq<Measurement>, link: Link)
    requires link in cal && forall j | 0 <= j < |ms| :: MeasuredLink(ms[j]) != link
    ensures CalibrationOf(cal, ms)[link] == cal[link]
    decreases |ms|
  {
    if |ms| > 0 {
      Untouched(cal[MeasuredLink(ms[0]) := VInt(ms[0].rssi)], ms[1..], link);
    }
  }

  /** The list a measurement is queued as: source, destination, RSSI. */
  function Entry(m: Measurement): seq<Cell> {
    [Place(m.source), Place(m.destination), Scalar(VInt(m.rssi))]
  }

  /** `put`: only a list of three elements is queued; anything else raises
      ValueError. */
  function Put(b: Buffer<seq<Cell>>, o: Offered<seq<Cell>>): (r: Result<Buffer<seq<Cell>>>)
    ensures r.Err? <==> o.Foreign? || |o.item| != 3
    ensures r.Err? ==> r.error == ValueError
    ensures r.Ok? ==> r.value == Enqueue(b, o.item)
  {
    if o.Foreign? || |o.item| != 3 then Err(ValueError) else Ok(Enqueue(b, o.item))
  }

  function Entries(ms: seq<Measurement>): (r: seq<seq<Cell>>)
    ensures |r| == |ms| && forall i | 0 <= i < |ms| :: r[i] == Entry(ms[i])
  {
    seq(|ms|, i requires 0 <= i < |ms| => Entry(ms[i]))
  }

  /** The constructor: the base buffer's settings check, 28 sensors on a
      21 by 21 network, the calibration table from the empty network's
      lines, and one queued entry per measurement of the dataset's lines,
      in order. */
  function New(hasSettings: bool, calibration: seq<seq<int>>, lines: seq<seq<int>>): (r: Result<Dataset>)
    ensures !hasSettings ==> r == Err(ValueError)
    ensures hasSettings && AllMeasurements(POSITIONS, calibration).Ok? && AllMeasurements(POSITIONS, lines).Ok? <==> r.Ok?
    ensures r.Err? && hasSettings ==> r.error == IndexError
    ensures r.Ok? ==> var b := r.value.base;
                      r.value.positions == POSITIONS
                      && b.numberOfSensors == SENSORS && b.size == [VInt(21), VInt(21)] && b.origin == [VInt(0), VInt(0)]
                      && b.calibration == CalibrationOf(map[], AllMeasurements(POSITIONS, calibration).value)
                      && b.queue == Entries(AllMeasurements(POSITIONS, lines).value)
  {
    var base :- Buffers.New(hasSettings);
    var cal :- AllMeasurements(POSITIONS, calibration);
    var ms :- AllMeasurements(POSITIONS, lines);
    Ok(Dataset(base.(numberOfSensors := |POSITIONS|, size := [VInt(21), VInt(21)],
                     calibration := CalibrationOf(map[], cal), queue := Entries(ms)), POSITIONS))
  }

  /** The first index of a location among the positions. */
  function IndexOf(positions: seq<Location>, l: Location, from: nat): (r: Option<nat>)
    requires from <= |positions|
    ensures r.Some? ==> from <= r.value < |positions| && positions[r.value] == l
                        && forall j | from <= j < r.value :: positions[j] != l
    ensures r.None? ==> forall j | from <= j < |positions| :: positions[j] != l
    decreases |positions| - from
  {
    if from == |positions| then None
    else if positions[from] == l then Some(from)
    else IndexOf(positions, l, from + 1)
  }

  /** The packet `get` builds for a measurement of `source` at
      `destination`, the sensor with index `index`. */
  function MeasurementPacket(reg: Registry, index: int, source: Location, destination: Location, rssi: Value): Packet {
    Build(reg, GROUND_STATION, map[
      "sensor_id" := VInt(index + 1),
      "from_latitude" := source.0, "from_longitude" := source.1, "from_valid" := VBool(true),
      "to_latitude" := destination.0, "to_longitude" := destination.1, "to_valid" := VBool(true),
      "rssi" := rssi])
  }

  /** `get`: None when the queue is empty; otherwise the oldest entry
      leaves the queue and becomes a ground station packet whose sensor id
      is one more than the destination's index, returned with its RSSI
      minus its link's calibration RSSI. A destination that is not a
      sensor position raises ValueError, a source that is not a location
      TypeError, a link without calibration KeyError. */
  function Get(reg: Registry, d: Dataset): (r: (Dataset, Result<Option<(Packet, Value)>>))
    ensures Count(d.base) == 0 ==> r == (d, Ok(None))
    ensures Count(d.base) > 0 ==> r.0 == d.(base := Buffers.Get(d.base).0)
    ensures Count(d.base) > 0 && r.1.Ok? ==>
              var e := d.base.queue[0];
              |e| >= 3 && e[0].Place? && e[1].Place? && e[2].Scalar? && IndexOf(d.positions, e[1].location, 0).Some?
              && Calibrated(d.base.calibration, (e[0].location, e[1].location), e[2].value).Ok?
              && r.1 == Ok(Some((MeasurementPacket(reg, IndexOf(d.positions, e[1].location, 0).value,
                                                   e[0].location, e[1].location, e[2].value),
                                 Calibrated(d.base.calibration, (e[0].location, e[1].location), e[2].value).value)))
    ensures Count(d.base) > 0 && |d.base.queue[0]| >= 2
            && (d.base.queue[0][1].Scalar? || IndexOf(d.positions, d.base.queue[0][1].location, 0).None?)
            ==> r.1 == Err(ValueError)
  {
    if |d.base.queue| == 0 then (d, Ok(None))
    else
      var rest := d.(base := d.base.(queue := d.base.queue[1..]));
      (rest, GetEntry(reg, d.positions, d.base.calibration, d.base.queue[0]))
  }

  /** The packet and calibrated RSSI of one queued entry, with the
      exceptions in the order `get` raises them. */
  function GetEntry(reg: Registry, positions: seq<Location>, calibration: map<Link, Value>, e: seq<Cell>)
    : (r: Result<Option<(Packet, Value)>>)
    ensures r.Ok? ==> |e| >= 3 && e[0].Place? && e[1].Place? && e[2].Scalar? && IndexOf(positions, e[1].location, 0).Some?
                      && Calibrated(calibration, (e[0].location, e[1].location), e[2].value).Ok?
                      && r == Ok(Some((MeasurementPacket(reg, IndexOf(positions, e[1].location, 0).value,
                                                         e[0].location, e[1].location, e[2].value),
                                       Calibrated(calibration, (e[0].location, e[1].location), e[2].value).value)))
    ensures |e| >= 2 && (e[1].Scalar? || IndexOf(positions, e[1].location, 0).None?) ==> r == Err(ValueError)
  {
    if |e| < 2 then Err(IndexError)
    else if e[1].Scalar? then Err(ValueError)
    else match IndexOf(positions, e[1].location, 0)
      case None => Err(ValueError)
      case Some(index) =>
        if |e| < 3 then Err(IndexError)
        else if e[0].Scalar? then Err(TypeError)
        else
          var link := (e[0].location, e[1].location);
          if link !in calibration then Err(KeyError)
          else if e[2].Place? then Err(TypeError)
          else
            var v :- Calibrated(calibration, link, e[2].value);
            Ok(Some((MeasurementPacket(reg, index, e[0].location, e[1].location, e[2].value), v)))
  }

  /** A queued measurement between two sensors comes back as the packet
      of its link, named after the destination's sensor, with its
      calibrated RSSI. */
  lemma GetMeasurement(reg: Registry, d: Dataset, m: Measurement, s: int, t: int)
    requires Distinct(d.positions) && 0 <= s < |d.positions| && 0 <= t < |d.positions|
    requires m.source == d.positions[s] && m.destination == d.positions[t]
    requires Count(d.base) > 0 && d.base.queue[0] == Entry(m) && MeasuredLink(m) in d.base.calibration
    requires d.base.calibration[MeasuredLink(m)].VInt?
    ensures Get(reg, d).1 == Ok(Some((MeasurementPacket(reg, t, m.source, m.destination, VInt(m.rssi)),
                                      VInt(m.rssi - d.base.calibration[MeasuredLink(m)].i))))
  {
    IndexOfPosition(d.positions, t);
  }

  /** A sensor's position is found at the sensor's index. */
  lemma IndexOfPosition(positions: seq<Location>, t: int)
    requires Distinct(positions) && 0 <= t < |positions|
    ensures IndexOf(positions, positions[t], 0) == Some(t)
  {
  }
}

=== FILE: decimal.dfy ===
/** Decimal integers as text: Python's `int(s)` on an optionally signed
    run of ASCII digits and `str(i)` on an integer. Python also accepts
    surrounding white space, which this model does not. */
module Decimal {
  import opened Wrappers

  predicate IsDigit(c: char) {
    '0' <= c <= '9'
  }

  predicate AllDigits(s: string) {
    forall k :: 0 <= k < |s| ==> IsDigit(s[k])
  }

  function DigitValue(c: char): (d: nat)
    requires IsDigit(c)
    ensures d < 10
  {
    c as int - '0' as int
  }

  function DigitChar(d: nat): (c: char)
    requires d < 10
    ensures IsDigit(c) && DigitValue(c) == d
  {
    ('0' as int + d) as char
  }

  /** The number a run of digits denotes, most significant first. */
  function DigitsValue(s: string): (n: nat)
    requires AllDigits(s)
  {
    if |s| == 0 then 0 else 10 * DigitsValue(s[..|s| - 1]) + DigitValue(s[|s| - 1])
  }

  /** Text Python's `int` accepts here: an optional sign and at least one
      digit. */
  predicate IsInteger(s: string) {
    if |s| > 0 && (s[0] == '-' || s[0] == '+') then |s| > 1 && AllDigits(s[1..])
    else |s| > 0 && AllDigits(s)
  }

  /** `int(s)`; None where Python raises ValueError. */
  function ParseInt(s: string): (r: Option<int>)
    ensures r.Some? <==> IsInteger(s)
    ensures r.Some? && s[0] == '-' ==> r.value <= 0
    ensures r.Some? && s[0] != '-' ==> r.value >= 0
  {
    if !IsInteger(s) then None
    else if s[0] == '-' then Some(0 - DigitsValue(s[1..]) as int)
    else if s[0] == '+' then Some(DigitsValue(s[1..]))
    else Some(DigitsValue(s))
  }

  /** Python's `int(x)` on a float: the integer part, truncated toward
      zero. */
  function Truncate(x: real): (i: int)
    ensures x >= 0.0 ==> 0 <= i && i as real <= x < i as real + 1.0
    ensures x < 0.0 ==> i <= 0 && i as real - 1.0 < x <= i as real
  {
    if x >= 0.0 then x.Floor else -((-x).Floor)
  }

  /** The digits of `n` without leading zeros. */
  function Digits(n: nat): (s: string)
    ensures |s| >= 1 && AllDigits(s)
    ensures |s| > 1 ==> s[0] != '0'
  {
    if n < 10 then [DigitChar(n)] else Digits(n / 10) + [DigitChar(n % 10)]
  }

  /** `str(i)` for an integer. */
  function DecimalString(i: int): (s: string)
    ensures IsInteger(s) && s[0] != '+'
  {
    if i < 0 then "-" + Digits(-i) else Digits(i)
  }

  lemma {:induction false} DigitsRoundTrip(n: nat)
    ensures DigitsValue(Digits(n)) == n
  {
    if n >= 10 {
      var s := Digits(n);
      assert s[..|s| - 1] == Digits(n / 10);
      DigitsRoundTrip(n / 10);
    }
  }

  /** `int(str(i)) == i`. */
  lemma ParseRoundTrip(i: int)
    ensures ParseInt(DecimalString(i)) == Some(i)
  {
    var s := DecimalString(i);
    if i < 0 {
      assert s[0] == '-' && s[1..] == Digits(-i);
      DigitsRoundTrip(-i);
      assert ParseInt(s) == Some(0 - DigitsValue(s[1..]) as int);
    } else {
      assert s == Digits(i) && IsDigit(s[0]);
      DigitsRoundTrip(i);
      assert ParseInt(s) == Some(DigitsValue(s) as int);
    }
  }
}

=== FILE: delivery.dfy ===
/** The two halves of waypoint delivery together: the ground station's
    sender (control_panel/Control_Panel_RF_Sensor_Sender.py) and a
    vehicle's receiver (mission/Mission_RF_Sensor.py). When no packet is
    lost, each packet the sender sends is answered with an ack that brings
    the sender's index for the vehicle to the receiver's next index, so the
    two stay in step through clear, every add, and done. */
module Delivery {
  import opened Wrappers
  import opened Packets
  import RfSensor
  import Sender
  import MissionRfSensor

  /** The clear message resets the receiver, whose ack moves the sender
      from -1 to index 0: the receiver's next index. */
  lemma ClearInStep<T>(reg: Registry, s: Sender.Sender<T>, m: MissionRfSensor.Mission, v: int, dump: Option<seq<MissionRfSensor.Data>>)
    requires Sender.Invariant(s) && s.started && v in s.data && m.id == v
    requires s.indexes[v] == -1
    requires !Sender.Message(reg, s.config.clearMessage, v).private
    ensures var sent := Sender.SendClear(reg, s, v);
            var p := Sender.Message(reg, s.config.clearMessage, v);
            var received := MissionRfSensor.Clear(m, p, dump);
            sent.sent == [RfSensor.Frame(p, v)]
            && received.ack == Some(0)
            && var acked := Sender.ReceiveAck(sent.s, MissionRfSensor.AckFrame(reg, m.id, received.ack.value).packet);
               acked.indexes[v] == received.m.nextIndex == 0
               && acked.retries[v] == s.config.maxRetries + 1
  {
  }

  /** With the corrected vehicle add, the add packet for the vehicle's
      current index is accepted by a receiver that expects that index, and its ack moves the sender on to
      the receiver's new next index. */
  lemma AddInStep<T>(reg: Registry, s: Sender.Sender<T>, m: MissionRfSensor.Mission, v: int,
                     add: (int, int, T) -> Packet, dump: Option<seq<MissionRfSensor.Data>>)
    requires Sender.Invariant(s) && s.started && v in s.data && m.id == v
    requires 0 <= s.indexes[v] == m.nextIndex < |s.data[v]|
    requires var p := add(v, s.indexes[v], s.data[v][s.indexes[v]]);
             !p.private && Get(p, "to_id") == VInt(v) && Get(p, "index") == VInt(s.indexes[v])
             && MissionRfSensor.HasWaypointKeys(p.contents)
    ensures var i := s.indexes[v];
            var p := add(v, i, s.data[v][i]);
            var sent := Sender.SendOne(reg, s, v, add);
            var received := MissionRfSensor.ReceiveWaypoint(m, p, dump);
            sent.sent == [RfSensor.Frame(p, v)]
            && received.m.waypoints == m.waypoints + [p.contents]
            && received.ack == Some(i + 1)
            && var acked := Sender.ReceiveAck(sent.s, MissionRfSensor.AckFrame(reg, m.id, received.ack.value).packet);
               acked.indexes[v] == received.m.nextIndex == i + 1
  {
    var i := s.indexes[v];
    var p := add(v, i, s.data[v][i]);
    MissionRfSensor.AcceptStep(m, p, dump);
  }

  /** Once every item is acknowledged the done message completes the
      receiver; its ack names one past the item count, so the sender still
      sees the vehicle as done. */
  lemma DoneInStep<T>(reg: Registry, s: Sender.Sender<T>, m: MissionRfSensor.Mission, v: int,
                      add: (int, int, T) -> Packet, dump: Option<seq<MissionRfSensor.Data>>)
    requires Sender.Invariant(s) && s.started && v in s.data && m.id == v
    requires s.indexes[v] == m.nextIndex == |s.data[v]|
    requires !Sender.Message(reg, s.config.doneMessage, v).private
    ensures var p := Sender.Message(reg, s.config.doneMessage, v);
            var sent := Sender.SendOne(reg, s, v, add);
            var received := MissionRfSensor.Complete(m, p, dump);
            sent.sent == [RfSensor.Frame(p, v)]
            && received.m.complete && received.ack == Some(|s.data[v]| + 1)
            && var acked := Sender.ReceiveAck(sent.s, MissionRfSensor.AckFrame(reg, m.id, received.ack.value).packet);
               acked.indexes[v] == received.m.nextIndex && Sender.IsDone(acked, v)
  {
  }
}

=== FILE: dump_buffer.dfy ===
/** The dump buffer (reconstruction/Dump_Buffer.py): measurements read
    from a JSON dump, each a list of the eight `rssi_ground_station` field
    values in order, calibrated against a dump of the empty network. The
    two files' contents are parameters: the calibration packets, and the
    number of sensors, origin, size and packets of the dump. The stream
    buffer reads its calibration file the same way. */
module DumpBuffer {
  import opened Wrappers
  import opened Packets
  import opened Buffers

  /** The link a dumped packet reports: the source at fields 1 and 2, the
      destination at fields 4 and 5. */
  function EntryLink(p: seq<Value>): Link
    requires |p| >= 6
  {
    ((p[1], p[2]), (p[4], p[5]))
  }

  /** A dumped packet whose source and destination locations are both
      valid (fields 3 and 6) and which has its RSSI (field 7). */
  predicate ValidEntry(p: seq<Value>) {
    |p| >= 8 && Truthy(p[3]) && Truthy(p[6])
  }

  /** One calibration packet: a link that is valid on both ends and not
      calibrated yet takes the packet's RSSI. The fields are read as the
      source reads them, so a list too short for a field it reaches raises
      IndexError. */
  function CalibrateOne(cal: map<Link, Value>, p: seq<Value>): (r: Result<map<Link, Value>>)
    ensures r.Err? ==> r.error == IndexError
    ensures |p| >= 8 ==> r.Ok?
    ensures r.Ok? && ValidEntry(p) && EntryLink(p) !in cal ==> r.value == cal[EntryLink(p) := p[7]]
    ensures r.Ok? && !(ValidEntry(p) && EntryLink(p) !in cal) ==> r.value == cal
  {
    if |p| < 6 then Err(IndexError)
    else if !Truthy(p[3]) then Ok(cal)
    else if |p| < 7 then Err(IndexError)
    else if !Truthy(p[6]) then Ok(cal)
    else if EntryLink(p) in cal then Ok(cal)
    else if |p| < 8 then Err(IndexError)
    else Ok(cal[EntryLink(p) := p[7]])
  }

  /** The calibration loop over the packets of a calibration file. */
  function Calibrate(cal: map<Link, Value>, packets: seq<seq<Value>>): (r: Result<map<Link, Value>>)
    ensures r.Err? ==> r.error == IndexError
    ensures (forall i | 0 <= i < |packets| :: |packets[i]| >= 8) ==> r.Ok?
    decreases |packets|
  {
    if |packets| == 0 then Ok(cal)
    else
      var next :- CalibrateOne(cal, packets[0]);
      Calibrate(next, packets[1..])
  }

  /** The RSSI of the first valid packet on `link`, if any. */
  function FirstValid(packets: seq<seq<Value>>, link: Link): Option<Value>
    decreases |packets|
  {
    if |packets| == 0 then None
    else if ValidEntry(packets[0]) && EntryLink(packets[0]) == link then Some(packets[0][7])
    else FirstValid(packets[1..], link)
  }

  /** The calibration table holds the links calibrated before and every
      link some packet measures validly; a link keeps its earlier value
      and otherwise takes the first valid packet's RSSI, so later
      measurements of the same link are ignored. */
  lemma {:induction false} CalibrationIsFirstValid(cal: map<Link, Value>, packets: seq<seq<Value>>, link: Link)
    requires Calibrate(cal, packets).Ok?
    ensures var t := Calibrate(cal, packets).value;
            (link in t <==> link in cal || FirstValid(packets, link).Some?)
            && (link in cal ==> t[link] == cal[link])
            && (link !in cal && link in t ==> t[link] == FirstValid(packets, link).value)
    decreases |packets|
  {
    if |packets| > 0 {
      var next := CalibrateOne(cal, packets[0]).value;
      CalibrationIsFirstValid(next, packets[1..], link);
    }
  }

  /** The contents of a dump file. */
  datatype DumpFile = DumpFile(numberOfSensors: int, origin: seq<Value>, size: seq<Value>,
                               packets: seq<Offered<seq<Value>>>)

  /** `put`: only a list of the eight field values is queued; anything
      else raises ValueError. */
  function Put(b: Buffer<seq<Value>>, o: Offered<seq<Value>>): (r: Result<Buffer<seq<Value>>>)
    ensures r.Err? <==> o.Foreign? || |o.item| != 8
    ensures r.Err? ==> r.error == ValueError
    ensures r.Ok? ==> r.value == Enqueue(b, o.item)
  {
    if o.Foreign? || |o.item| != 8 then Err(ValueError) else Ok(Enqueue(b, o.item))
  }

  /** Puts the dumped packets in turn; the first rejected one ends it. */
  function PutAll(b: Buffer<seq<Value>>, os: seq<Offered<seq<Value>>>): (r: Result<Buffer<seq<Value>>>)
    ensures r.Err? <==> exists i :: 0 <= i < |os| && (os[i].Foreign? || |os[i].item| != 8)
    ensures r.Err? ==> r.error == ValueError
    ensures r.Ok? ==> r.value == b.(queue := r.value.queue) && |r.value.queue| == |b.queue| + |os|
    ensures r.Ok? ==> r.value.queue[..|b.queue|] == b.queue
                      && forall i | 0 <= i < |os| :: r.value.queue[|b.queue| + i] == os[i].item
    decreases |os|
  {
    if |os| == 0 then Ok(b)
    else
      var b' :- Put(b, os[0]);
      var r := PutAll(b', os[1..]);
      assert forall i | 1 <= i < |os| :: os[i] == os[1..][i - 1];
      assert r.Err? ==> exists i :: 1 <= i < |os| && (os[i].Foreign? || |os[i].item| != 8);
      r
  }

  /** The constructor: the base buffer's settings check, the calibration
      table from the calibration file, then the dump's number of sensors,
      origin and size, and its packets queued in order. */
  function New(hasSettings: bool, calibration: seq<seq<Value>>, dump: DumpFile): (r: Result<Buffer<seq<Value>>>)
    ensures !hasSettings ==> r == Err(ValueError)
    ensures r.Ok? ==> Calibrate(map[], calibration).Ok? && r.value.calibration == Calibrate(map[], calibration).value
    ensures r.Ok? ==> r.value.numberOfSensors == dump.numberOfSensors
                      && r.value.origin == dump.origin && r.value.size == dump.size
    ensures r.Ok? ==> |r.value.queue| == |dump.packets|
                      && forall i | 0 <= i < |dump.packets| :: dump.packets[i].Accepted? && r.value.queue[i] == dump.packets[i].item
    ensures hasSettings && (forall i | 0 <= i < |calibration| :: |calibration[i]| >= 8)
            && (forall i | 0 <= i < |dump.packets| :: dump.packets[i].Accepted? && |dump.packets[i].item| == 8)
            ==> r.Ok?
  {
    var base :- Buffers.New(hasSettings);
    var cal :- Calibrate(map[], calibration);
    var b := base.(calibration := cal, numberOfSensors := dump.numberOfSensors, origin := dump.origin, size := dump.size);
    PutAll(b, dump.packets)
  }

  /** A fresh ground station packet. */
  function GroundStationPacket(reg: Registry): Packet {
    Set(reg, NewPacket(), SPECIFICATION, VStr(GROUND_STATION))
  }

  /** `get`: None when the queue is empty; otherwise the oldest dump leaves
      the queue and becomes a ground station packet, returned with its
      RSSI minus the calibration RSSI of its link. A link without
      calibration raises KeyError after the dump has left the queue. */
  function Get(reg: Registry, b: Buffer<seq<Value>>): (r: (Buffer<seq<Value>>, Result<Option<(Packet, Value)>>))
    ensures Count(b) == 0 ==> r == (b, Ok(None))
    ensures Count(b) > 0 ==> r.0 == Buffers.Get(b).0
    ensures Count(b) > 0 && |b.queue[0]| < 8 ==> r.1 == Err(IndexError)
    ensures Count(b) > 0 && |b.queue[0]| >= 8 ==>
              var d := b.queue[0];
              (r.1.Ok? <==> Calibrated(b.calibration, EntryLink(d), d[7]).Ok?)
              && (r.1.Err? ==> r.1 == Err(Calibrated(b.calibration, EntryLink(d), d[7]).error))
              && (r.1.Ok? ==> r.1.value.Some?
                              && (forall k | 0 <= k < 8 :: Packets.Get(r.1.value.value.0, DUMP_FIELDS[k]) == d[k])
                              && r.1.value.value.1 == Calibrated(b.calibration, EntryLink(d), d[7]).value)
  {
    if |b.queue| == 0 then (b, Ok(None))
    else
      var rest := b.(queue := b.queue[1..]);
      var dump := b.queue[0];
      match SetDump(reg, GroundStationPacket(reg), dump)
      case Err(e) => (rest, Err(e))
      case Ok(p) =>
        assert |dump| >= 8 ==> LinkOf(p) == EntryLink(dump) && Packets.Get(p, "rssi") == dump[7] by {
          if |dump| >= 8 {
            assert Packets.Get(p, DUMP_FIELDS[1]) == dump[1];
            assert Packets.Get(p, DUMP_FIELDS[2]) == dump[2];
            assert Packets.Get(p, DUMP_FIELDS[4]) == dump[4];
            assert Packets.Get(p, DUMP_FIELDS[5]) == dump[5];
            assert Packets.Get(p, DUMP_FIELDS[7]) == dump[7];
          }
        }
        match Calibrated(b.calibration, LinkOf(p), Packets.Get(p, "rssi"))
        case Err(e) => (rest, Err(e))
        case Ok(v) => (rest, Ok(Some((p, v))))
  }

  /** What `get` returns is the dump that was put: the packet's dump is
      the eight values of the list, in order. */
  lemma GetReturnsDump(reg: Registry, b: Buffer<seq<Value>>)
    requires GroundStationLayout(reg)
    requires Count(b) > 0 && |b.queue[0]| == 8
    requires Get(reg, b).1.Ok?
    ensures GetDump(reg, Get(reg, b).1.value.value.0) == Ok(b.queue[0])
  {
    var p0 := GroundStationPacket(reg);
    DumpRoundTrip(reg, p0, b.queue[0]);
  }
}

=== FILE: environment.dfy ===
/** The parts of the vehicle's environment (environment/Environment.py)
    that decide when a measurement is valid: the packet actions other
    components register, and the map from RF sensor id to the waypoint
    index at which that sensor last reported a valid location. A vehicle
    waiting at a waypoint may move on once it and every required sensor
    have reported being at least that far. Callbacks are values of a type
    parameter; calling one is returning it. */
module Environment {
  import opened Wrappers
  import opened Packets
  import RfSensor

  datatype Env<C> = Env(
    /** Packet callbacks by specification name. */
    actions: map<string, C>,
    /** The RF sensor's id, if the environment has an RF sensor. */
    rfSensor: Option<int>,
    /** The number of vehicle sensors in the network. */
    numberOfSensors: int,
    /** `_valid_measurements`: sensor id to the waypoint index it reported. */
    valid: map<int, int>,
    /** The sensors whose location must be valid as well. */
    required: set<int>)

  /** `add_packet_action`: the callback must be callable (TypeError) and
      the specification must not have one yet (KeyError). */
  function AddPacketAction<C>(e: Env<C>, action: string, callback: C, callable: bool): (r: Result<Env<C>>)
    ensures !callable ==> r == Err(TypeError)
    ensures callable && action in e.actions ==> r == Err(KeyError)
    ensures r.Ok? <==> callable && action !in e.actions
    ensures r.Ok? ==> r.value == e.(actions := e.actions[action := callback])
  {
    if !callable then Err(TypeError)
    else if action in e.actions then Err(KeyError)
    else Ok(e.(actions := e.actions[action := callback]))
  }

  /** `receive_packet`: the callback registered for the packet's
      specification, if any, is the one called. */
  function ReceivePacket<C>(e: Env<C>, p: Packet): (called: Option<C>)
    ensures called.Some? <==> Get(p, SPECIFICATION).VStr? && Get(p, SPECIFICATION).s in e.actions
    ensures called.Some? ==> called.value == e.actions[Get(p, SPECIFICATION).s]
  {
    match Get(p, SPECIFICATION)
    case VStr(spec) => if spec in e.actions then Some(e.actions[spec]) else None
    case _ => None
  }

  /** A registered action receives exactly the packets of its
      specification; other specifications are not affected. */
  lemma ActionReceivesItsPackets<C>(e: Env<C>, action: string, callback: C, p: Packet)
    requires AddPacketAction(e, action, callback, true).Ok?
    ensures var added := AddPacketAction(e, action, callback, true).value;
            (Get(p, SPECIFICATION) == VStr(action) ==> ReceivePacket(added, p) == Some(callback))
            && (Get(p, SPECIFICATION) != VStr(action) ==> ReceivePacket(added, p) == ReceivePacket(e, p))
  {
  }

  /** `location_valid`: this vehicle's sensor records the vehicle's next
      waypoint index, and another sensor's report is recorded only when
      it says its location is valid; the result is this vehicle's own
      location validity. */
  function LocationValid<C>(e: Env<C>, ownValid: bool, nextWaypoint: int,
                            otherValid: bool, otherId: Option<int>, otherIndex: int): (r: (Env<C>, bool))
    ensures r.1 == ownValid
    ensures r.0 == e.(valid := r.0.valid)
    ensures r.0.valid.Keys == e.valid.Keys
              + (if e.rfSensor.Some? then {e.rfSensor.value} else {})
              + (if otherId.Some? && otherValid then {otherId.value} else {})
    ensures otherId.Some? && otherValid ==> r.0.valid[otherId.value] == otherIndex
    ensures e.rfSensor.Some? && !(otherId == e.rfSensor && otherValid) ==> r.0.valid[e.rfSensor.value] == nextWaypoint
    ensures forall id | id in e.valid && Some(id) != e.rfSensor && !(Some(id) == otherId && otherValid) ::
              r.0.valid[id] == e.valid[id]
  {
    var own := if e.rfSensor.Some? then e.valid[e.rfSensor.value := nextWaypoint] else e.valid;
    var both := if otherId.Some? && otherValid then own[otherId.value := otherIndex] else own;
    (e.(valid := both), ownValid)
  }

  /** `_is_valid`: the sensor reported at least waypoint index `k`. */
  predicate IsValid<C>(e: Env<C>, id: int, k: int) {
    id in e.valid && e.valid[id] >= k
  }

  /** `is_measurement_valid` at the vehicle's next waypoint index: this
      vehicle and every required sensor are valid there. Without an RF
      sensor there is no own id to look up (AttributeError). */
  function IsMeasurementValid<C>(e: Env<C>, index: int): (r: Result<bool>)
    ensures r.Err? <==> e.rfSensor.None?
    ensures r.Err? ==> r.error == AttributeError
    ensures r.Ok? ==> (r.value <==> IsValid(e, e.rfSensor.value, index) && forall id | id in e.required :: IsValid(e, id, index))
  {
    match e.rfSensor
    case None => Err(AttributeError)
    case Some(own) => Ok(IsValid(e, own, index) && forall id | id in e.required :: IsValid(e, id, index))
  }

  /** `invalidate_measurement`: nothing is valid any more; the required
      sensors are the given ones, all vehicle sensors 1..N by default, and
      none without an RF sensor. */
  function InvalidateMeasurement<C>(e: Env<C>, required: Option<set<int>>): (r: Env<C>)
    ensures r.valid == map[]
    ensures e.rfSensor.None? ==> r.required == {}
    ensures e.rfSensor.Some? && required.Some? ==> r.required == required.value
    ensures e.rfSensor.Some? && required.None? ==> forall id :: id in r.required <==> 1 <= id <= e.numberOfSensors
    ensures r == e.(valid := map[], required := r.required)
  {
    if e.rfSensor.None? then e.(valid := map[], required := {})
    else e.(valid := map[], required := if required.Some? then required.value else RfSensor.IdRange(e.numberOfSensors))
  }

  /** One call of the RF sensor's valid callback: another sensor's report. */
  datatype Report = Report(otherValid: bool, otherId: Option<int>, otherIndex: int)

  /** The valid callback called once per report, in order, while this
      vehicle stays at waypoint index `k`. */
  function ReportAll<C>(e: Env<C>, ownValid: bool, k: int, reports: seq<Report>): (r: Env<C>)
    ensures r.rfSensor == e.rfSensor && r.required == e.required
    decreases |reports|
  {
    if |reports| == 0 then e
    else
      var last := reports[|reports| - 1];
      LocationValid(ReportAll(e, ownValid, k, reports[..|reports| - 1]), ownValid, k,
                    last.otherValid, last.otherId, last.otherIndex).0
  }

  /** A sensor other than this vehicle's has a valid report. */
  predicate Reported(reports: seq<Report>, id: int) {
    exists i :: 0 <= i < |reports| && reports[i].otherValid && reports[i].otherId == Some(id)
  }

  /** What the reports leave in a freshly invalidated map: this vehicle's
      sensor and exactly the sensors with a valid report, each at an index
      no lower than `k` when no valid report names a lower one. */
  lemma {:induction false} ReportAllRecords<C>(e: Env<C>, ownValid: bool, k: int, reports: seq<Report>)
    requires e.valid == map[] && e.rfSensor.Some?
    requires forall i :: 0 <= i < |reports| && reports[i].otherValid && reports[i].otherId.Some? ==> reports[i].otherIndex >= k
    ensures var r := ReportAll(e, ownValid, k, reports);
            (|reports| > 0 ==> e.rfSensor.value in r.valid)
            && (forall id | id != e.rfSensor.value :: id in r.valid <==> Reported(reports, id))
            && (forall id | id in r.valid :: r.valid[id] >= k)
    decreases |reports|
  {
    if |reports| > 0 {
      var init := reports[..|reports| - 1];
      var last := reports[|reports| - 1];
      ReportAllRecords(e, ownValid, k, init);
      forall id | id != e.rfSensor.value
        ensures Reported(reports, id) <==> Reported(init, id) || (last.otherValid && last.otherId == Some(id))
      {
        if Reported(init, id) {
          var i :| 0 <= i < |init| && init[i].otherValid && init[i].otherId == Some(id);
          assert reports[i] == init[i];
        }
        if Reported(reports, id) && !(last.otherValid && last.otherId == Some(id)) {
          var i :| 0 <= i < |reports| && reports[i].otherValid && reports[i].otherId == Some(id);
          assert i < |init| && init[i] == reports[i];
        }
      }
    }
  }

  /** The rendezvous rule: after the measurement is invalidated with
      required sensors `required`, the measurement at waypoint index `k`
      becomes valid once this vehicle has reported and every other
      required sensor has a valid report at `k` or beyond, and stays
      invalid while one of them has none. */
  lemma RendezvousValidates<C>(e: Env<C>, required: set<int>, ownValid: bool, k: int, reports: seq<Report>)
    requires e.rfSensor.Some? && |reports| > 0
    requires forall i :: 0 <= i < |reports| && reports[i].otherValid && reports[i].otherId.Some? ==> reports[i].otherIndex >= k
    ensures var r := ReportAll(InvalidateMeasurement(e, Some(required)), ownValid, k, reports);
            IsMeasurementValid(r, k).Ok?
            && (IsMeasurementValid(r, k).value <==>
                  forall id | id in required && id != e.rfSensor.value :: Reported(reports, id))
  {
    var cleared := InvalidateMeasurement(e, Some(required));
    ReportAllRecords(cleared, ownValid, k, reports);
  }

  /** A measurement valid at one waypoint index is valid at every earlier
      one. */
  lemma ValidAtEarlierIndex<C>(e: Env<C>, index: int, earlier: int)
    requires earlier <= index && IsMeasurementValid(e, index) == Ok(true)
    ensures IsMeasurementValid(e, earlier) == Ok(true)
  {
  }
}

=== FILE: greedy.dfy ===
/** The greedy planner (planning/Greedy_Assignment.py). Pairs of
    measurement positions must each be visited by two different vehicles at
    the same moment; the planner repeatedly picks the cheapest combination
    of an ordered vehicle pair and a position pair, sends both vehicles
    there and makes each wait for the other. The result is, per vehicle, a
    list of exported waypoints. The travel cost of one vehicle to one
    position and the collision avoider are parameters; the avoider keeps
    state between its calls, so it answers as a function of all requests
    made to it so far. */
module Greedy {
  import opened Wrappers
  import Grid

  /** A grid position: north and east coordinates. */
  datatype Position = Position(north: int, east: int)

  /** The two measurement positions that two vehicles visit together. */
  type PositionPair = (Position, Position)

  datatype WaypointType = Home | Pass | Wait

  /** An exported waypoint, the list [north, east, altitude, type, wait id,
      wait count, wait waypoint]. The altitude is always 0; for a HOME
      waypoint the wait id slot holds the home direction. */
  datatype Exported = Exported(north: int, east: int, altitude: int, kind: WaypointType,
                               waitId: int, waitCount: int, waitWaypoint: int)

  /** `_add_waypoint` in export mode. */
  function ExportWaypoint(position: Position, kind: WaypointType, waitId: int, waitCount: int,
                          waitWaypoint: int, homeDirection: int): (e: Exported)
    ensures e.altitude == 0 && e.kind == kind && e.waitCount == waitCount && e.waitWaypoint == waitWaypoint
  {
    Exported(position.north, position.east, 0, kind,
             if kind == Home then homeDirection else waitId, waitCount, waitWaypoint)
  }

  /** The first waypoint of every vehicle, with the default wait count and
      wait waypoint. */
  function HomeEntry(home: Position, heading: Grid.Direction): Exported {
    ExportWaypoint(home, Home, 0, 1, -1, Grid.Code(heading))
  }

  /** A waypoint on a detour around other routes. */
  function PassEntry(point: Position): Exported {
    ExportWaypoint(point, WaypointType.Pass, 0, 1, -1, 0)
  }

  /** A measurement waypoint where the vehicle waits once for vehicle
      `other` to reach that vehicle's wait waypoint `waitWaypoint`. */
  function WaitEntry(position: Position, other: int, waitWaypoint: int): Exported {
    ExportWaypoint(position, Wait, other, 1, waitWaypoint, 0)
  }

  /** The exported HOME entry keeps the position, and its shared wait id
      slot gives the home direction back; the other kinds keep their wait
      id there. */
  lemma HomeSlotHoldsDirection(home: Position, heading: Grid.Direction, other: int, waitWaypoint: int)
    ensures var e := HomeEntry(home, heading);
            Position(e.north, e.east) == home && Grid.FromCode(e.waitId) == Some(heading)
    ensures var e := WaitEntry(home, other, waitWaypoint);
            Position(e.north, e.east) == home && e.waitId == other && e.waitWaypoint == waitWaypoint
  {
  }

  // ---------------------------------------------------------------------
  // Vehicle pairs

  /** The pairs (a, b) with b running from `lo` to `n`, skipping a. */
  function RowPairs(a: int, lo: int, n: int): seq<(int, int)>
    decreases n - lo
  {
    if lo > n then [] else (if lo == a then [] else [(a, lo)]) + RowPairs(a, lo + 1, n)
  }

  /** The rows for first vehicles `lo` to `n`. */
  function PairsFrom(lo: int, n: int): seq<(int, int)>
    decreases n - lo
  {
    if lo > n then [] else RowPairs(lo, 1, n) + PairsFrom(lo + 1, n)
  }

  /** Lexicographic order on pairs, the order in which permutations are
      generated. */
  predicate Before(p: (int, int), q: (int, int)) {
    p.0 < q.0 || (p.0 == q.0 && p.1 < q.1)
  }

  predicate Ascending(s: seq<(int, int)>) {
    forall i, j :: 0 <= i < j < |s| ==> Before(s[i], s[j])
  }

  lemma AscendingConcat(s: seq<(int, int)>, t: seq<(int, int)>)
    requires Ascending(s) && Ascending(t)
    requires forall x, y | x in s && y in t :: Before(x, y)
    ensures Ascending(s + t)
  {
    forall i, j | 0 <= i < j < |s + t|
      ensures Before((s + t)[i], (s + t)[j])
    {
      if j < |s| {
      } else if i >= |s| {
        assert (s + t)[i] == t[i - |s|] && (s + t)[j] == t[j - |s|];
      } else {
        assert (s + t)[i] == s[i] && (s + t)[j] == t[j - |s|];
        assert s[i] in s && t[j - |s|] in t;
      }
    }
  }

  lemma {:induction false} RowPairsFacts(a: int, lo: int, n: int)
    requires 1 <= lo <= n + 1
    ensures forall q :: q in RowPairs(a, lo, n) <==> q.0 == a && lo <= q.1 <= n && q.1 != a
    ensures Ascending(RowPairs(a, lo, n))
    ensures |RowPairs(a, lo, n)| == n - lo + 1 - (if lo <= a <= n then 1 else 0)
    decreases n - lo
  {
    if lo <= n {
      RowPairsFacts(a, lo + 1, n);
      var rest := RowPairs(a, lo + 1, n);
      var head: seq<(int, int)> := if lo == a then [] else [(a, lo)];
      assert RowPairs(a, lo, n) == head + rest;
      AscendingConcat(head, rest);
    }
  }

  lemma {:induction false} PairsFromFacts(lo: int, n: int)
    requires 1 <= lo <= n + 1
    ensures forall q :: q in PairsFrom(lo, n) <==> lo <= q.0 <= n && 1 <= q.1 <= n && q.0 != q.1
    ensures Ascending(PairsFrom(lo, n))
    ensures |PairsFrom(lo, n)| == (n - lo + 1) * (n - 1)
    decreases n - lo
  {
    if lo <= n {
      RowPairsFacts(lo, 1, n);
      PairsFromFacts(lo + 1, n);
      AscendingConcat(RowPairs(lo, 1, n), PairsFrom(lo + 1, n));
      assert (n - lo + 1) * (n - 1) == (n - 1) + (n - lo) * (n - 1);
    }
  }

  /** `_vehicle_pairs`: the permutations of length two of the vehicle ids
      1..n, that is every ordered pair of distinct ids, once each, in
      lexicographic order. */
  function VehiclePairs(n: nat): (r: seq<(int, int)>)
    ensures forall q :: q in r <==> 1 <= q.0 <= n && 1 <= q.1 <= n && q.0 != q.1
    ensures Ascending(r)
    ensures |r| == n * (n - 1)
  {
    PairsFromFacts(1, n);
    PairsFrom(1, n)
  }

  /** Ascending pairs are distinct. */
  lemma VehiclePairsDistinct(n: nat, i: int, j: int)
    requires 0 <= i < j < |VehiclePairs(n)|
    ensures VehiclePairs(n)[i] != VehiclePairs(n)[j]
  {
  }

  // ---------------------------------------------------------------------
  // The heading after a move

  /** `_get_new_direction`: the heading of a vehicle facing `current` once
      it has moved `up` north and `right` east. */
  function NewDirection(current: Grid.Direction, up: int, right: int): (d: Grid.Direction)
    ensures up == 0 && right == 0 ==> d == current
    ensures up != 0 || right != 0 ==> Grid.Toward(d, up as real, right as real)
    ensures up != 0 && right != 0 ==>
              (Grid.Vertical(d) <==> Grid.Vertical(current) != Grid.Toward(current, up as real, right as real))
  {
    if up == 0 || (up > 0 && current == Grid.Up) || (up < 0 && current == Grid.Down) then
      if right > 0 then Grid.Right
      else if right < 0 then Grid.Left
      else current
    else if right == 0 || (right > 0 && current == Grid.Right) || (right < 0 && current == Grid.Left) then
      if up > 0 then Grid.Up else Grid.Down
    else
      Grid.Opposite(current)
  }

  /** The heading is the one the vehicle has on the last leg of the route
      it drives: moving off along the heading it has when that leads toward
      the target, turning around first otherwise, and ending on the other
      axis. So it is determined by where the target lies. */
  lemma NewDirectionIsLastLeg(current: Grid.Direction, up: int, right: int, d: Grid.Direction)
    requires up != 0 || right != 0
    requires Grid.Toward(d, up as real, right as real)
    requires up != 0 && right != 0 ==>
               (Grid.Vertical(d) <==> Grid.Vertical(current) != Grid.Toward(current, up as real, right as real))
    ensures NewDirection(current, up, right) == d
  {
  }

  // ---------------------------------------------------------------------
  // Planner state

  /** A request to the collision avoider: the vehicle's next position, the
      vehicle and its partner, the distance so far and the vehicle's
      heading. */
  datatype Request = Request(position: Position, vehicle: int, other: int, distance: real, heading: Grid.Direction)

  /** A distance that may be infinite. */
  datatype Distance = Finite(value: real) | Infinite

  /** The avoider's answer: the detour points before the position, the
      heading it leaves the vehicle in, if it decides one, and the distance
      it computes for the pair. */
  datatype Avoidance = Avoidance(route: seq<Position>, heading: Option<Grid.Direction>, distance: Distance)

  /** The avoider's distance is larger than the distance so far. */
  predicate Exceeds(d: Distance, distance: real) {
    d.Infinite? || d.value > distance
  }

  /** Per vehicle (id minus one): its current position and heading, the
      number of wait waypoints it has, and its waypoint list; plus the
      requests made to the avoider. */
  datatype Planner = Planner(positions: seq<Position>, headings: seq<Grid.Direction>, waits: seq<int>,
                             lists: seq<seq<Exported>>, requests: seq<Request>)

  predicate Shaped(pl: Planner) {
    |pl.headings| == |pl.positions| && |pl.waits| == |pl.positions| && |pl.lists| == |pl.positions|
  }

  /** Ordered pairs of distinct vehicle ids of the planner. */
  predicate ValidPairs(pl: Planner, pairs: seq<(int, int)>) {
    forall q | q in pairs :: 1 <= q.0 <= |pl.positions| && 1 <= q.1 <= |pl.positions| && q.0 != q.1
  }

  /** `after` is `before` followed by detour points and then `entry`. */
  predicate Appended(before: seq<Exported>, after: seq<Exported>, entry: Exported) {
    |after| > |before| && after[..|before|] == before && after[|after| - 1] == entry
    && forall i | |before| <= i < |after| - 1 :: after[i].kind == WaypointType.Pass
  }

  function Passes(route: seq<Position>): (es: seq<Exported>)
    ensures |es| == |route|
    ensures forall i | 0 <= i < |es| :: es[i] == PassEntry(route[i])
  {
    seq(|route|, i requires 0 <= i < |route| => PassEntry(route[i]))
  }

  /** One vehicle's half of `_assign_pair`: ask the avoider, stop with an
      infinite distance, or append the detour and the wait waypoint and
      move the vehicle on. */
  function VehicleStep(pl: Planner, vehicle: int, other: int, target: Position, waitWaypoint: int,
                       distance: real, avoid: seq<Request> -> Avoidance): (r: (Planner, Distance))
    requires Shaped(pl) && 1 <= vehicle <= |pl.positions|
    ensures Shaped(r.0) && |r.0.positions| == |pl.positions|
    ensures r.0.requests == pl.requests + [Request(target, vehicle, other, distance, pl.headings[vehicle - 1])]
    ensures r.1.Infinite? <==> avoid(r.0.requests).distance.Infinite?
    ensures r.1.Finite? ==> r.1.value >= distance
    ensures r.1.Finite? ==>
              var i := vehicle - 1;
              var answer := avoid(r.0.requests);
              r.0.lists == pl.lists[i := r.0.lists[i]]
              && Appended(pl.lists[i], r.0.lists[i], WaitEntry(target, other, waitWaypoint))
              && r.0.waits == pl.waits[i := pl.waits[i] + 1]
              && r.0.positions == pl.positions[i := target]
              && r.0.headings[i] == (if answer.heading.Some? then answer.heading.value
                                     else NewDirection(pl.headings[i], target.north - pl.positions[i].north,
                                                       target.east - pl.positions[i].east))
  {
    var i := vehicle - 1;
    var requests := pl.requests + [Request(target, vehicle, other, distance, pl.headings[i])];
    var answer := avoid(requests);
    var d := if Exceeds(answer.distance, distance) then answer.distance else Finite(distance);
    if d.Infinite? then (pl.(requests := requests), Infinite)
    else
      var heading := if answer.heading.Some? then answer.heading.value
                     else NewDirection(pl.headings[i], target.north - pl.positions[i].north,
                                       target.east - pl.positions[i].east);
      var list := pl.lists[i] + Passes(answer.route) + [WaitEntry(target, other, waitWaypoint)];
      assert list[..|pl.lists[i]|] == pl.lists[i];
      (Planner(pl.positions[i := target], pl.headings[i := heading], pl.waits[i := pl.waits[i] + 1],
               pl.lists[i := list], requests), d)
  }

  /** `_assign_pair`: vehicle `a` goes to the pair's first position and
      waits for `b`, then `b` goes to the second and waits for `a`. Each
      wait names the partner and the partner's wait count from before the
      pair. An infinite avoider distance ends it. */
  function AssignPair(pl: Planner, a: int, b: int, pair: PositionPair, distance: real,
                      avoid: seq<Request> -> Avoidance): (r: (Planner, Distance))
    requires Shaped(pl) && 1 <= a <= |pl.positions| && 1 <= b <= |pl.positions| && a != b
    ensures Shaped(r.0) && |r.0.positions| == |pl.positions|
    ensures r.1.Infinite? ==> avoid(r.0.requests).distance.Infinite?
    ensures (forall h :: avoid(h).distance.Infinite?) ==> r.1.Infinite?
    ensures r.1.Finite? ==>
              r.1.value >= distance && PairExtends(pl, r.0, a, b, pair.0, pair.1)
              && r.0.positions == pl.positions[a - 1 := pair.0][b - 1 := pair.1]
  {
    var first := VehicleStep(pl, a, b, pair.0, pl.waits[b - 1], distance, avoid);
    if first.1.Infinite? then first
    else VehicleStep(first.0, b, a, pair.1, pl.waits[a - 1], first.1.value, avoid)
  }

  // ---------------------------------------------------------------------
  // Choosing the closest pair

  /** The time for vehicle pair `q` to reach position pair `pair`: both
      move at once, so it is the larger of the two travel costs. */
  function PairCost(pl: Planner, q: (int, int), pair: PositionPair,
                    travel: (Position, Grid.Direction, Position) -> real): (r: real)
    requires Shaped(pl) && 1 <= q.0 <= |pl.positions| && 1 <= q.1 <= |pl.positions|
    ensures var x := travel(pl.positions[q.0 - 1], pl.headings[q.0 - 1], pair.0);
            var y := travel(pl.positions[q.1 - 1], pl.headings[q.1 - 1], pair.1);
            r >= x && r >= y && (r == x || r == y)
  {
    var x := travel(pl.positions[q.0 - 1], pl.headings[q.0 - 1], pair.0);
    var y := travel(pl.positions[q.1 - 1], pl.headings[q.1 - 1], pair.1);
    if x >= y then x else y
  }

  /** The cost of vehicle pair `p` and position pair `k`. */
  function Cost(pl: Planner, pairs: seq<(int, int)>, remaining: seq<PositionPair>,
                travel: (Position, Grid.Direction, Position) -> real, p: int, k: int): real
    requires Shaped(pl) && ValidPairs(pl, pairs)
  {
    if 0 <= p < |pairs| && 0 <= k < |remaining| then
      assert pairs[p] in pairs;
      PairCost(pl, pairs[p], remaining[k], travel)
    else 0.0
  }

  /** The row-major scan of `_get_closest_pair` from vehicle pair `p` and
      position pair `k` on, `best` being the first least cost so far. */
  function Scan(pl: Planner, pairs: seq<(int, int)>, remaining: seq<PositionPair>,
                travel: (Position, Grid.Direction, Position) -> real,
                p: int, k: int, best: (int, int, real)): (c: (int, int, real))
    requires Shaped(pl) && ValidPairs(pl, pairs) && |remaining| > 0
    requires 0 <= p <= |pairs| && 0 <= k < |remaining| && (p == |pairs| ==> k == 0)
    requires 0 <= best.0 < |pairs| && 0 <= best.1 < |remaining| && (best.0 < p || (best.0 == p && best.1 < k))
    requires best.2 == Cost(pl, pairs, remaining, travel, best.0, best.1)
    requires forall p', k' | 0 <= k' < |remaining| && 0 <= p' && (p' < p || (p' == p && k' < k)) ::
               best.2 <= Cost(pl, pairs, remaining, travel, p', k')
    requires forall p', k' | 0 <= k' < |remaining| && 0 <= p' && (p' < best.0 || (p' == best.0 && k' < best.1)) ::
               best.2 < Cost(pl, pairs, remaining, travel, p', k')
    ensures 0 <= c.0 < |pairs| && 0 <= c.1 < |remaining|
    ensures c.2 == Cost(pl, pairs, remaining, travel, c.0, c.1)
    ensures forall p', k' | 0 <= p' < |pairs| && 0 <= k' < |remaining| ::
              c.2 <= Cost(pl, pairs, remaining, travel, p', k')
    ensures forall p', k' | 0 <= k' < |remaining| && 0 <= p' && (p' < c.0 || (p' == c.0 && k' < c.1)) ::
              c.2 < Cost(pl, pairs, remaining, travel, p', k')
    decreases |pairs| - p, |remaining| - k
  {
    if p == |pairs| then best
    else
      var cost := Cost(pl, pairs, remaining, travel, p, k);
      var best' := if cost < best.2 then (p, k, cost) else best;
      if k + 1 < |remaining| then Scan(pl, pairs, remaining, travel, p, k + 1, best')
      else Scan(pl, pairs, remaining, travel, p + 1, 0, best')
  }

  /** `_get_closest_pair`: the vehicle pair index and position pair index
      with the least cost, the first in row-major order among equals, and
      that cost. */
  function Closest(pl: Planner, pairs: seq<(int, int)>, remaining: seq<PositionPair>,
                   travel: (Position, Grid.Direction, Position) -> real): (c: (int, int, real))
    requires Shaped(pl) && ValidPairs(pl, pairs) && |pairs| > 0 && |remaining| > 0
    ensures 0 <= c.0 < |pairs| && 0 <= c.1 < |remaining|
    ensures c.2 == Cost(pl, pairs, remaining, travel, c.0, c.1)
    ensures forall p, k | 0 <= p < |pairs| && 0 <= k < |remaining| ::
              c.2 <= Cost(pl, pairs, remaining, travel, p, k)
    ensures forall p, k | 0 <= p < |pairs| && 0 <= k < |remaining| && (p < c.0 || (p == c.0 && k < c.1)) ::
              c.2 < Cost(pl, pairs, remaining, travel, p, k)
  {
    var first := (0, 0, Cost(pl, pairs, remaining, travel, 0, 0));
    if |remaining| > 1 then Scan(pl, pairs, remaining, travel, 0, 1, first)
    else Scan(pl, pairs, remaining, travel, 1, 0, first)
  }

  // ---------------------------------------------------------------------
  // The assignment

  /** The result of `assign`: the empty dictionary with an infinite
      distance on a conflict, or the waypoint list of every vehicle (id
      minus one) and the total distance. */
  datatype Assignment = Conflict | Assigned(lists: seq<seq<Exported>>, total: real)

  /** One round of the `assign` loop: the closest vehicle pair `a`, `b`
      and position pair, the planner after assigning it with its distance,
      and the position pairs left. */
  datatype Round = Round(after: Planner, distance: Distance, a: int, b: int, pair: PositionPair,
                         rest: seq<PositionPair>)

  function NextRound(pl: Planner, pairs: seq<(int, int)>, remaining: seq<PositionPair>,
                     travel: (Position, Grid.Direction, Position) -> real,
                     avoid: seq<Request> -> Avoidance): (n: Round)
    requires Shaped(pl) && ValidPairs(pl, pairs) && |pairs| > 0 && |remaining| > 0
    ensures 1 <= n.a <= |pl.positions| && 1 <= n.b <= |pl.positions| && n.a != n.b
    ensures Shaped(n.after) && |n.after.positions| == |pl.positions| && |n.rest| == |remaining| - 1
    ensures n.distance.Finite? ==> PairExtends(pl, n.after, n.a, n.b, n.pair.0, n.pair.1)
    ensures PairSpots(n.rest) + multiset{n.pair.0, n.pair.1} == PairSpots(remaining)
    ensures n.distance.Infinite? ==> avoid(n.after.requests).distance.Infinite?
    ensures (forall h :: avoid(h).distance.Infinite?) ==> n.distance.Infinite?
  {
    var c := Closest(pl, pairs, remaining, travel);
    var q := pairs[c.0];
    assert q in pairs;
    var step := AssignPair(pl, q.0, q.1, remaining[c.1], c.2, avoid);
    PairSpotsRemove(remaining, c.1);
    Round(step.0, step.1, q.0, q.1, remaining[c.1], remaining[..c.1] + remaining[c.1 + 1..])
  }

  /** The `assign` loop: while position pairs remain, assign the closest
      one and delete it. Without vehicle pairs there is no least cost to
      pick (ValueError). A conflict comes only from the avoider: when it
      never answers an infinite distance the loop completes, and when it
      always does the first pair already conflicts. From a planner whose
      wait counts are right and whose waits are all matched, a completed
      loop only extends the lists, keeps every wait matched and turns every
      remaining position into exactly one wait waypoint. */
  function Plan(pl: Planner, pairs: seq<(int, int)>, remaining: seq<PositionPair>, total: real,
                travel: (Position, Grid.Direction, Position) -> real,
                avoid: seq<Request> -> Avoidance): (r: Result<Assignment>)
    requires Shaped(pl) && ValidPairs(pl, pairs)
    ensures r.Err? <==> |pairs| == 0 && |remaining| > 0
    ensures r.Err? ==> r.error == ValueError
    ensures (forall h :: avoid(h).distance.Finite?) && r.Ok? ==> r.value.Assigned?
    ensures (forall h :: avoid(h).distance.Infinite?) && |pairs| > 0 && |remaining| > 0 ==> r == Ok(Conflict)
    ensures Counted(pl) && Matched(pl.lists) && r.Ok? && r.value.Assigned? ==>
              |r.value.lists| == |pl.lists|
              && (forall v | 0 <= v < |pl.lists| :: pl.lists[v] <= r.value.lists[v])
              && Matched(r.value.lists)
              && WaitSpots(r.value.lists) == WaitSpots(pl.lists) + PairSpots(remaining)
    decreases |remaining|
  {
    if |remaining| == 0 then
      assert PairSpots(remaining) == multiset{};
      Ok(Assigned(pl.lists, total))
    else if |pairs| == 0 then Err(ValueError)
    else
      var n := NextRound(pl, pairs, remaining, travel, avoid);
      if n.distance.Infinite? then Ok(Conflict)
      else
        var r := Plan(n.after, pairs, n.rest, total + n.distance.value, travel, avoid);
        assert Counted(pl) && Matched(pl.lists) && r.Ok? && r.value.Assigned? ==>
                 |r.value.lists| == |pl.lists|
                 && (forall v | 0 <= v < |pl.lists| :: pl.lists[v] <= r.value.lists[v])
                 && Matched(r.value.lists)
                 && WaitSpots(r.value.lists) == WaitSpots(pl.lists) + PairSpots(remaining) by {
          if Counted(pl) && Matched(pl.lists) && r.Ok? && r.value.Assigned? {
            PairExtendsKeeps(pl, n.after, n.a, n.b, n.pair.0, n.pair.1);
            Regroup(WaitSpots(r.value.lists), WaitSpots(pl.lists), WaitSpots(n.after.lists), PairSpots(n.rest),
                    PairSpots(remaining), multiset{n.pair.0, n.pair.1});
            forall v | 0 <= v < |pl.lists|
              ensures pl.lists[v] <= r.value.lists[v]
            {
              assert pl.lists[v] <= n.after.lists[v];
            }
          }
        }
        r
  }

  /** Every home direction is a direction's enumeration value. */
  predicate ValidCodes(codes: seq<int>) {
    forall i | 0 <= i < |codes| :: Grid.FromCode(codes[i]).Some?
  }

  /** The planner before the first pair: every vehicle at home, facing its
      home direction, with its HOME waypoint and no waits. */
  function Start(homes: seq<Position>, codes: seq<int>): (pl: Planner)
    requires ValidCodes(codes) && |codes| >= |homes|
    ensures Shaped(pl) && |pl.positions| == |homes|
  {
    var headings := seq(|homes|, i requires 0 <= i < |homes| => Grid.FromCode(codes[i]).value);
    Planner(homes, headings, seq(|homes|, i => 0),
            seq(|homes|, i requires 0 <= i < |homes| => [HomeEntry(homes[i], headings[i])]), [])
  }

  /** `assign`: an unknown home direction is a ValueError, fewer home
      directions than homes an IndexError; otherwise the loop runs from
      the start over the ordered pairs of the vehicles. */
  function Assign(homes: seq<Position>, codes: seq<int>, positionPairs: seq<PositionPair>,
                  travel: (Position, Grid.Direction, Position) -> real,
                  avoid: seq<Request> -> Avoidance): (r: Result<Assignment>)
    ensures !ValidCodes(codes) ==> r == Err(ValueError)
    ensures ValidCodes(codes) && |codes| < |homes| ==> r == Err(IndexError)
    ensures ValidCodes(codes) && |codes| >= |homes| ==>
              (r.Err? <==> |homes| < 2 && |positionPairs| > 0) && (r.Err? ==> r.error == ValueError)
  {
    if !ValidCodes(codes) then Err(ValueError)
    else if |codes| < |homes| then Err(IndexError)
    else Plan(Start(homes, codes), VehiclePairs(|homes|), positionPairs, 0.0, travel, avoid)
  }

  // ---------------------------------------------------------------------
  // What the assignment guarantees

  /** The wait waypoints of a list, in order. */
  function Waits(list: seq<Exported>): seq<Exported> {
    if |list| == 0 then []
    else Waits(list[..|list| - 1]) + (if list[|list| - 1].kind == Wait then [list[|list| - 1]] else [])
  }

  lemma {:induction false} WaitsSkipPasses(before: seq<Exported>, list: seq<Exported>)
    requires |list| >= |before| && list[..|before|] == before
    requires forall i | |before| <= i < |list| :: list[i].kind == WaypointType.Pass
    ensures Waits(list) == Waits(before)
    decreases |list|
  {
    if |list| > |before| {
      var init := list[..|list| - 1];
      assert init[..|before|] == before;
      WaitsSkipPasses(before, init);
    } else {
      assert list == before;
    }
  }

  lemma WaitsOfAppended(before: seq<Exported>, after: seq<Exported>, entry: Exported)
    requires Appended(before, after, entry) && entry.kind == Wait
    ensures Waits(after) == Waits(before) + [entry]
  {
    var init := after[..|after| - 1];
    assert init[..|before|] == before;
    WaitsSkipPasses(before, init);
  }

  /** The `j`th wait of vehicle `v` (id minus one) names another vehicle
      and that vehicle's wait waypoint, which names it back; the wait
      count is one. */
  predicate Partnered(lists: seq<seq<Exported>>, v: int, j: int)
    requires 0 <= v < |lists| && 0 <= j < |Waits(lists[v])|
  {
    var e := Waits(lists[v])[j];
    var u := e.waitId - 1;
    0 <= u < |lists| && u != v && e.waitCount == 1
    && 0 <= e.waitWaypoint < |Waits(lists[u])|
    && Waits(lists[u])[e.waitWaypoint].waitId == v + 1
    && Waits(lists[u])[e.waitWaypoint].waitWaypoint == j
  }

  /** Every wait waypoint has its partner: the synchronisation the
      waypoint lists describe can be met. */
  predicate Matched(lists: seq<seq<Exported>>) {
    forall v, j | 0 <= v < |lists| && 0 <= j < |Waits(lists[v])| :: Partnered(lists, v, j)
  }

  /** The wait count of every vehicle is the number of its wait waypoints. */
  predicate Counted(pl: Planner)
    requires Shaped(pl)
  {
    forall v | 0 <= v < |pl.lists| :: |Waits(pl.lists[v])| == pl.waits[v]
  }

  lemma MatchedAfterPair(lists: seq<seq<Exported>>, after: seq<seq<Exported>>, a: int, b: int, x: Position, y: Position)
    requires Matched(lists) && |after| == |lists|
    requires 0 <= a < |lists| && 0 <= b < |lists| && a != b
    requires forall v | 0 <= v < |lists| && v != a && v != b :: Waits(after[v]) == Waits(lists[v])
    requires Waits(after[a]) == Waits(lists[a]) + [WaitEntry(x, b + 1, |Waits(lists[b])|)]
    requires Waits(after[b]) == Waits(lists[b]) + [WaitEntry(y, a + 1, |Waits(lists[a])|)]
    ensures Matched(after)
  {
    forall v | 0 <= v < |lists|
      ensures Waits(lists[v]) <= Waits(after[v])
    {
    }
    forall v, j | 0 <= v < |after| && 0 <= j < |Waits(after[v])|
      ensures Partnered(after, v, j)
    {
      if j < |Waits(lists[v])| {
        PartneredKept(lists, after, v, j);
      }
    }
  }

  /** A partnership survives when every vehicle's waits only grow. */
  lemma PartneredKept(lists: seq<seq<Exported>>, after: seq<seq<Exported>>, v: int, j: int)
    requires |after| == |lists| && forall u | 0 <= u < |lists| :: Waits(lists[u]) <= Waits(after[u])
    requires 0 <= v < |lists| && 0 <= j < |Waits(lists[v])| && Partnered(lists, v, j)
    ensures 0 <= j < |Waits(after[v])| && Partnered(after, v, j)
  {
    var e := Waits(lists[v])[j];
    assert Waits(after[v])[j] == e;
    var u := e.waitId - 1;
    assert Waits(after[u])[e.waitWaypoint] == Waits(lists[u])[e.waitWaypoint];
  }

  /** The multiset of positions of a sequence of waypoints. */
  function Spots(ws: seq<Exported>): multiset<Position> {
    if |ws| == 0 then multiset{}
    else Spots(ws[..|ws| - 1]) + multiset{Position(ws[|ws| - 1].north, ws[|ws| - 1].east)}
  }

  /** The positions of all wait waypoints of all vehicles. */
  function WaitSpots(lists: seq<seq<Exported>>): multiset<Position> {
    if |lists| == 0 then multiset{}
    else WaitSpots(lists[..|lists| - 1]) + Spots(Waits(lists[|lists| - 1]))
  }

  /** The positions of all position pairs. */
  function PairSpots(pairs: seq<PositionPair>): multiset<Position> {
    if |pairs| == 0 then multiset{}
    else PairSpots(pairs[..|pairs| - 1]) + multiset{pairs[|pairs| - 1].0, pairs[|pairs| - 1].1}
  }

  lemma {:induction false} WaitSpotsUpdate(lists: seq<seq<Exported>>, i: int, list: seq<Exported>)
    requires 0 <= i < |lists|
    ensures WaitSpots(lists[i := list]) + Spots(Waits(lists[i])) == WaitSpots(lists) + Spots(Waits(list))
    decreases |lists|
  {
    var n := |lists| - 1;
    var updated := lists[i := list];
    assert WaitSpots(updated) == WaitSpots(updated[..n]) + Spots(Waits(updated[n]));
    assert WaitSpots(lists) == WaitSpots(lists[..n]) + Spots(Waits(lists[n]));
    if i < n {
      assert updated[..n] == lists[..n][i := list];
      WaitSpotsUpdate(lists[..n], i, list);
    } else {
      assert updated[..n] == lists[..n];
    }
  }

  lemma {:induction false} PairSpotsConcat(s: seq<PositionPair>, t: seq<PositionPair>)
    ensures PairSpots(s + t) == PairSpots(s) + PairSpots(t)
    decreases |t|
  {
    if |t| == 0 {
      assert s + t == s;
    } else {
      assert (s + t)[..|s + t| - 1] == s + t[..|t| - 1];
      PairSpotsConcat(s, t[..|t| - 1]);
    }
  }

  lemma PairSpotsSingle(x: PositionPair)
    ensures PairSpots([x]) == multiset{x.0, x.1}
  {
    assert [x][..0] == [];
  }

  lemma PairSpotsRemove(pairs: seq<PositionPair>, k: int)
    requires 0 <= k < |pairs|
    ensures PairSpots(pairs[..k] + pairs[k + 1..]) + multiset{pairs[k].0, pairs[k].1} == PairSpots(pairs)
  {
    var front, x, back := pairs[..k], pairs[k], pairs[k + 1..];
    Around(pairs, k);
    PairSpotsSplit(front, x, back);
    PairSpotsJoin(front, back, multiset{x.0, x.1});
  }

  /** A sequence is what comes before its element `k`, the element, and
      what comes after. */
  lemma Around<T>(xs: seq<T>, k: int)
    requires 0 <= k < |xs|
    ensures xs == xs[..k] + ([xs[k]] + xs[k + 1..])
  {
  }

  lemma PairSpotsSplit(front: seq<PositionPair>, x: PositionPair, back: seq<PositionPair>)
    ensures PairSpots(front + ([x] + back)) == PairSpots(front) + (multiset{x.0, x.1} + PairSpots(back))
  {
    PairSpotsConcat(front, [x] + back);
    PairSpotsFirst(x, back);
  }

  lemma PairSpotsFirst(x: PositionPair, back: seq<PositionPair>)
    ensures PairSpots([x] + back) == multiset{x.0, x.1} + PairSpots(back)
  {
    PairSpotsConcat([x], back);
    PairSpotsSingle(x);
  }

  lemma PairSpotsJoin(front: seq<PositionPair>, back: seq<PositionPair>, s: multiset<Position>)
    ensures PairSpots(front + back) + s == PairSpots(front) + (s + PairSpots(back))
  {
    PairSpotsConcat(front, back);
    MoveToEnd(PairSpots(front), s, PairSpots(back));
  }

  lemma MoveToEnd<T>(a: multiset<T>, s: multiset<T>, b: multiset<T>)
    ensures a + b + s == a + (s + b)
  {
    forall z
      ensures (a + b + s)[z] == (a + (s + b))[z]
    {
    }
  }

  /** The lists after a pair: vehicle `a` has gained a wait for `b` at
      `x`, and `b` one for `a` at `y`, each naming the partner's wait count
      from before. */
  predicate PairExtends(pl: Planner, after: Planner, a: int, b: int, x: Position, y: Position)
    requires Shaped(pl) && 1 <= a <= |pl.positions| && 1 <= b <= |pl.positions|
  {
    Shaped(after) && |after.positions| == |pl.positions|
    && after.lists == pl.lists[a - 1 := after.lists[a - 1]][b - 1 := after.lists[b - 1]]
    && Appended(pl.lists[a - 1], after.lists[a - 1], WaitEntry(x, b, pl.waits[b - 1]))
    && Appended(pl.lists[b - 1], after.lists[b - 1], WaitEntry(y, a, pl.waits[a - 1]))
    && after.waits == pl.waits[a - 1 := pl.waits[a - 1] + 1][b - 1 := pl.waits[b - 1] + 1]
  }

  lemma PairExtendsWaits(pl: Planner, after: Planner, a: int, b: int, x: Position, y: Position)
    requires Shaped(pl) && 1 <= a <= |pl.positions| && 1 <= b <= |pl.positions| && a != b
    requires PairExtends(pl, after, a, b, x, y)
    ensures Waits(after.lists[a - 1]) == Waits(pl.lists[a - 1]) + [WaitEntry(x, b, pl.waits[b - 1])]
    ensures Waits(after.lists[b - 1]) == Waits(pl.lists[b - 1]) + [WaitEntry(y, a, pl.waits[a - 1])]
    ensures forall v | 0 <= v < |pl.lists| && v != a - 1 && v != b - 1 :: after.lists[v] == pl.lists[v]
    ensures forall v | 0 <= v < |pl.lists| :: pl.lists[v] <= after.lists[v]
  {
    WaitsOfAppended(pl.lists[a - 1], after.lists[a - 1], WaitEntry(x, b, pl.waits[b - 1]));
    WaitsOfAppended(pl.lists[b - 1], after.lists[b - 1], WaitEntry(y, a, pl.waits[a - 1]));
  }

  lemma SpotsAppend(ws: seq<Exported>, e: Exported)
    ensures Spots(ws + [e]) == Spots(ws) + multiset{Position(e.north, e.east)}
  {
    assert (ws + [e])[..|ws|] == ws;
  }

  lemma PairExtendsCounted(pl: Planner, after: Planner, a: int, b: int, x: Position, y: Position)
    requires Shaped(pl) && 1 <= a <= |pl.positions| && 1 <= b <= |pl.positions| && a != b
    requires Counted(pl) && PairExtends(pl, after, a, b, x, y)
    ensures Counted(after)
  {
    PairExtendsWaits(pl, after, a, b, x, y);
  }

  lemma PairExtendsMatched(pl: Planner, after: Planner, a: int, b: int, x: Position, y: Position)
    requires Shaped(pl) && 1 <= a <= |pl.positions| && 1 <= b <= |pl.positions| && a != b
    requires Counted(pl) && Matched(pl.lists) && PairExtends(pl, after, a, b, x, y)
    ensures Matched(after.lists)
  {
    PairExtendsWaits(pl, after, a, b, x, y);
    assert pl.waits[a - 1] == |Waits(pl.lists[a - 1])| && pl.waits[b - 1] == |Waits(pl.lists[b - 1])|;
    MatchedAfterPair(pl.lists, after.lists, a - 1, b - 1, x, y);
  }

  /** Multiset equations are solved element by element. */
  lemma ShiftTwice<T>(w0: multiset<T>, w1: multiset<T>, w2: multiset<T>,
                      si: multiset<T>, sj: multiset<T>, ti: multiset<T>, tj: multiset<T>)
    requires w1 + si == w0 + ti && w2 + sj == w1 + tj
    ensures w2 + si + sj == w0 + ti + tj
  {
    forall x
      ensures (w2 + si + sj)[x] == (w0 + ti + tj)[x]
    {
      assert (w1 + si)[x] == (w0 + ti)[x];
      assert (w2 + sj)[x] == (w1 + tj)[x];
    }
  }

  lemma CancelTwo<T>(w: multiset<T>, w0: multiset<T>, si: multiset<T>, sj: multiset<T>, x: T, y: T)
    requires w + si + sj == w0 + (si + multiset{x}) + (sj + multiset{y})
    ensures w == w0 + multiset{x, y}
  {
    forall z
      ensures w[z] == (w0 + multiset{x, y})[z]
    {
      assert (w + si + sj)[z] == (w0 + (si + multiset{x}) + (sj + multiset{y}))[z];
    }
  }

  lemma WaitSpotsTwoUpdates(lists: seq<seq<Exported>>, i: int, j: int, li: seq<Exported>, lj: seq<Exported>)
    requires 0 <= i < |lists| && 0 <= j < |lists| && i != j
    ensures WaitSpots(lists[i := li][j := lj]) + Spots(Waits(lists[i])) + Spots(Waits(lists[j]))
            == WaitSpots(lists) + Spots(Waits(li)) + Spots(Waits(lj))
  {
    var mid := lists[i := li];
    WaitSpotsUpdate(lists, i, li);
    WaitSpotsUpdate(mid, j, lj);
    assert mid[j] == lists[j];
    ShiftTwice(WaitSpots(lists), WaitSpots(mid), WaitSpots(mid[j := lj]),
               Spots(Waits(lists[i])), Spots(Waits(lists[j])), Spots(Waits(li)), Spots(Waits(lj)));
  }

  lemma WaitSpotsOfTwoWaits(lists: seq<seq<Exported>>, after: seq<seq<Exported>>, i: int, j: int, ei: Exported, ej: Exported)
    requires 0 <= i < |lists| && 0 <= j < |lists| && i != j && |after| == |lists|
    requires after == lists[i := after[i]][j := after[j]]
    requires Waits(after[i]) == Waits(lists[i]) + [ei] && Waits(after[j]) == Waits(lists[j]) + [ej]
    ensures WaitSpots(after) == WaitSpots(lists) + multiset{Position(ei.north, ei.east), Position(ej.north, ej.east)}
  {
    WaitSpotsTwoUpdates(lists, i, j, after[i], after[j]);
    SpotsAppend(Waits(lists[i]), ei);
    SpotsAppend(Waits(lists[j]), ej);
    CancelTwo(WaitSpots(after), WaitSpots(lists), Spots(Waits(lists[i])), Spots(Waits(lists[j])),
              Position(ei.north, ei.east), Position(ej.north, ej.east));
  }

  lemma PairExtendsSpots(pl: Planner, after: Planner, a: int, b: int, x: Position, y: Position)
    requires Shaped(pl) && 1 <= a <= |pl.positions| && 1 <= b <= |pl.positions| && a != b
    requires PairExtends(pl, after, a, b, x, y)
    ensures WaitSpots(after.lists) == WaitSpots(pl.lists) + multiset{x, y}
  {
    PairExtendsWaits(pl, after, a, b, x, y);
    WaitSpotsOfTwoWaits(pl.lists, after.lists, a - 1, b - 1, WaitEntry(x, b, pl.waits[b - 1]), WaitEntry(y, a, pl.waits[a - 1]));
  }

  /** One assigned pair keeps the wait counts right and every wait
      matched, adds exactly the pair's two positions as wait positions and
      only extends the lists. */
  lemma PairExtendsKeeps(pl: Planner, after: Planner, a: int, b: int, x: Position, y: Position)
    requires Shaped(pl) && 1 <= a <= |pl.positions| && 1 <= b <= |pl.positions| && a != b
    requires Counted(pl) && Matched(pl.lists)
    requires PairExtends(pl, after, a, b, x, y)
    ensures Counted(after) && Matched(after.lists)
    ensures WaitSpots(after.lists) == WaitSpots(pl.lists) + multiset{x, y}
    ensures forall v | 0 <= v < |pl.lists| :: pl.lists[v] <= after.lists[v]
  {
    PairExtendsWaits(pl, after, a, b, x, y);
    PairExtendsCounted(pl, after, a, b, x, y);
    PairExtendsMatched(pl, after, a, b, x, y);
    PairExtendsSpots(pl, after, a, b, x, y);
  }

  lemma Regroup<T>(r: multiset<T>, w0: multiset<T>, w1: multiset<T>, rest: multiset<T>, all: multiset<T>, xy: multiset<T>)
    requires r == w1 + rest && w1 == w0 + xy && rest + xy == all
    ensures r == w0 + all
  {
    forall z
      ensures r[z] == (w0 + all)[z]
    {
      assert (rest + xy)[z] == all[z];
    }
  }

  lemma StartConsistent(homes: seq<Position>, codes: seq<int>)
    requires ValidCodes(codes) && |codes| >= |homes|
    ensures var pl := Start(homes, codes);
            Counted(pl) && Matched(pl.lists) && WaitSpots(pl.lists) == multiset{}
  {
    var pl := Start(homes, codes);
    forall v | 0 <= v < |pl.lists|
      ensures Waits(pl.lists[v]) == []
    {
      assert Waits(pl.lists[v]) == Waits([]) + [];
    }
    StartSpots(pl.lists);
  }

  lemma {:induction false} StartSpots(lists: seq<seq<Exported>>)
    requires forall v | 0 <= v < |lists| :: Waits(lists[v]) == []
    ensures WaitSpots(lists) == multiset{}
    decreases |lists|
  {
    if |lists| > 0 {
      StartSpots(lists[..|lists| - 1]);
    }
  }

  /** A completed assignment has one list per vehicle, starting with its
      HOME waypoint at its home facing its home direction; every wait
      waypoint is matched by the partner's, and the wait waypoints visit
      every position of every pair exactly once. */
  lemma AssignmentSynchronises(homes: seq<Position>, codes: seq<int>, positionPairs: seq<PositionPair>,
                               travel: (Position, Grid.Direction, Position) -> real,
                               avoid: seq<Request> -> Avoidance)
    requires ValidCodes(codes) && |codes| >= |homes|
    ensures var r := Assign(homes, codes, positionPairs, travel, avoid);
            r.Ok? && r.value.Assigned? ==>
              |r.value.lists| == |homes|
              && (forall v | 0 <= v < |homes| ::
                    |r.value.lists[v]| > 0 && r.value.lists[v][0] == HomeEntry(homes[v], Grid.FromCode(codes[v]).value))
              && Matched(r.value.lists)
              && WaitSpots(r.value.lists) == PairSpots(positionPairs)
  {
    var pl := Start(homes, codes);
    StartConsistent(homes, codes);
    var r := Assign(homes, codes, positionPairs, travel, avoid);
    if r.Ok? && r.value.Assigned? {
      forall v | 0 <= v < |homes|
        ensures |r.value.lists[v]| > 0 && r.value.lists[v][0] == HomeEntry(homes[v], Grid.FromCode(codes[v]).value)
      {
        assert pl.lists[v] <= r.value.lists[v];
        assert pl.lists[v] == [HomeEntry(homes[v], Grid.FromCode(codes[v]).value)];
      }
    }
  }

  /** With no position pairs every vehicle only has its HOME waypoint and
      the total is zero. */
  lemma NoPairsOnlyHome(homes: seq<Position>, codes: seq<int>,
                        travel: (Position, Grid.Direction, Position) -> real,
                        avoid: seq<Request> -> Avoidance)
    requires ValidCodes(codes) && |codes| >= |homes|
    ensures var r := Assign(homes, codes, [], travel, avoid);
            r.Ok? && r.value.Assigned? && r.value.total == 0.0 && |r.value.lists| == |homes|
            && forall v | 0 <= v < |homes| :: r.value.lists[v] == [HomeEntry(homes[v], Grid.FromCode(codes[v]).value)]
  {
  }
}

=== FILE: grid.dfy ===
/** The four grid directions a line-following robot can face, and what it
    means for a heading to lead toward a target. North is "up" and east is
    "right", as in the vehicle's local frame. */
module Grid {
  import opened Wrappers

  datatype Direction = Up | Right | Down | Left

  predicate Vertical(d: Direction) {
    d == Up || d == Down
  }

  /** Moving one step in `d` brings the vehicle closer to a target that
      lies `up` north and `right` east of it. */
  predicate Toward(d: Direction, up: real, right: real) {
    match d
    case Up => up > 0.0
    case Right => right > 0.0
    case Down => up < 0.0
    case Left => right < 0.0
  }

  /** The direction facing the other way. */
  function Opposite(d: Direction): (o: Direction)
    ensures o != d && Vertical(o) == Vertical(d)
  {
    match d
    case Up => Down
    case Right => Left
    case Down => Up
    case Left => Right
  }

  /** The direction's enumeration value: UP 0, RIGHT 1, DOWN 2, LEFT 3. */
  function Code(d: Direction): (c: int)
    ensures 0 <= c < 4
  {
    match d
    case Up => 0
    case Right => 1
    case Down => 2
    case Left => 3
  }

  /** The direction with an enumeration value; none for any other value. */
  function FromCode(c: int): (d: Option<Direction>)
    ensures d.Some? <==> 0 <= c < 4
    ensures d.Some? ==> Code(d.value) == c
  {
    if c == 0 then Some(Up)
    else if c == 1 then Some(Right)
    else if c == 2 then Some(Down)
    else if c == 3 then Some(Left)
    else None
  }
}

=== FILE: mission.dfy ===
/** The generic mission (mission/Mission.py): arming and taking off,
    stopping, the distance to the current waypoint, and the reaction to a
    measured distance to an object. The vehicle is the robot vehicle's
    state; what the vehicle backend answers when asked to arm or take off,
    and the environment's distance to a location, are parameters. */
module Mission {
  import opened Wrappers
  import RobotVehicle
  import Environment

  type Robot = RobotVehicle.Robot
  type Point = RobotVehicle.Point

  /** The mission settings that the modelled operations read. */
  datatype Settings = Settings(
    /** Operating altitude in meters. */
    altitude: real,
    /** Speed set after arming. */
    speed: real,
    /** At or below this distance to an object the vehicle is halted. */
    closeness: real,
    /** Below this distance an object is of interest. */
    farness: real,
    /** Whether vehicles synchronize at waypoints. */
    synchronization: bool)

  datatype Mission<C> = Mission(vehicle: Robot, environment: Environment.Env<C>, settings: Settings)

  /** What the vehicle backend answers: whether `add_takeoff` adds a
      takeoff command, whether `check_arming` succeeds and whether
      `simple_takeoff` takes off. The robot vehicle keeps the base class's
      answers: no, yes and no. */
  datatype Backend = Backend(takeoffCommand: bool, armingChecked: bool, takesOff: bool)

  const ROBOT_BACKEND := Backend(false, true, false)

  /** A mission operation's new state and its result or exception. */
  datatype Step<C> = Step(m: Mission<C>, result: Result<bool>)

  /** `distance_to_current_waypoint`: no distance without a current
      waypoint position (before the first one, past the last one, or at a
      wait entry); otherwise the environment's distance to it. */
  function DistanceToCurrentWaypoint<C>(m: Mission<C>, distance: Point -> real): (d: Option<real>)
    ensures d.None? <==> RobotVehicle.GetWaypoint(m.vehicle, -1).None?
    ensures d.Some? ==> d.value == distance(RobotVehicle.GetWaypoint(m.vehicle, -1).value)
  {
    match RobotVehicle.GetWaypoint(m.vehicle, -1)
    case None => None
    case Some(p) => Some(distance(p))
  }

  /** A vehicle waiting at a wait entry has no distance to go. */
  lemma WaitHasNoDistance<C>(m: Mission<C>, distance: Point -> real)
    requires RobotVehicle.IsWait(m.vehicle)
    ensures DistanceToCurrentWaypoint(m, distance).None?
  {
  }

  /** `arm_and_takeoff`: when the backend's arming check fails nothing
      happens and RuntimeError is raised; otherwise the vehicle is armed and
      given the mission speed. The result says whether it waited to reach
      the altitude, which it only does when taking off. */
  function ArmAndTakeoff<C>(m: Mission<C>, backend: Backend): (s: Step<C>)
    ensures !backend.armingChecked ==> s == Step(m, Err(RuntimeError))
    ensures backend.armingChecked ==>
      s.result == Ok(backend.takesOff)
      && s.m.vehicle.armed && s.m.vehicle.moveSpeed == RobotVehicle.SetSpeed(m.vehicle, m.settings.speed).r.moveSpeed
      && s.m == m.(vehicle := s.m.vehicle)
      && s.m.vehicle.(armed := m.vehicle.armed, moveSpeed := m.vehicle.moveSpeed) == m.vehicle
  {
    if !backend.armingChecked then Step(m, Err(RuntimeError))
    else
      var armed := RobotVehicle.SetArmed(m.vehicle, true);
      var moving := RobotVehicle.SetSpeed(armed, m.settings.speed).r;
      Step(m.(vehicle := moving), Ok(backend.takesOff))
  }

  /** On the robot vehicle an unpaused vehicle is armed at the mission
      speed and does not wait for an altitude. */
  lemma RobotArmsWithoutTakeoff<C>(m: Mission<C>)
    requires !m.vehicle.halted && m.settings.speed >= 0.0
    ensures var s := ArmAndTakeoff(m, ROBOT_BACKEND);
            s.result == Ok(false) && RobotVehicle.Armed(s.m.vehicle) && s.m.vehicle.moveSpeed == m.settings.speed
  {
  }

  /** `stop`: the vehicle is disarmed. */
  function Stop<C>(m: Mission<C>): (r: Mission<C>)
    ensures !RobotVehicle.Armed(r.vehicle) && !r.vehicle.armed
    ensures r.vehicle.(armed := m.vehicle.armed) == m.vehicle && r == m.(vehicle := r.vehicle)
  {
    m.(vehicle := RobotVehicle.SetArmed(m.vehicle, false))
  }

  /** `check_sensor_distance`: a distance of zero means the vehicle is
      inside the object and the program exits; at or below closeness the
      vehicle is put in GUIDED mode at speed zero and RuntimeError is
      raised; otherwise the distance is relevant when below farness. */
  function CheckSensorDistance<C>(m: Mission<C>, sensorDistance: real): (s: Step<C>)
    ensures sensorDistance == 0.0 ==> s == Step(m, Err(Exit))
    ensures sensorDistance != 0.0 && sensorDistance <= m.settings.closeness ==>
      s.result == Err(RuntimeError) && s.m.vehicle.mode == "GUIDED" && s.m.vehicle.moveSpeed == 0.0
      && s.m == m.(vehicle := s.m.vehicle)
    ensures sensorDistance != 0.0 && sensorDistance > m.settings.closeness ==>
      s == Step(m, Ok(sensorDistance < m.settings.farness))
  {
    if sensorDistance == 0.0 then Step(m, Err(Exit))
    else if sensorDistance <= m.settings.closeness then
      var guided := RobotVehicle.SetMode(m.vehicle, "GUIDED");
      Step(m.(vehicle := RobotVehicle.SetSpeed(guided, 0.0).r), Err(RuntimeError))
    else Step(m, Ok(sensorDistance < m.settings.farness))
  }

  /** A vehicle halted for being too close to an object stands still: its
      velocity is zero and it keeps its waypoints. A relevant distance stays
      relevant as the object comes closer, until it is too close. */
  lemma TooCloseStandsStill<C>(m: Mission<C>, sensorDistance: real, closer: real)
    ensures sensorDistance != 0.0 && sensorDistance <= m.settings.closeness ==>
      var v := CheckSensorDistance(m, sensorDistance).m.vehicle;
      RobotVehicle.Velocity(v) == [0.0, 0.0, 0.0] && v.waypoints == m.vehicle.waypoints
    ensures CheckSensorDistance(m, sensorDistance) == Step(m, Ok(true)) && m.settings.closeness < closer <= sensorDistance && closer != 0.0
            ==> CheckSensorDistance(m, closer) == Step(m, Ok(true))
  {
  }

  /** The base `check_waypoint`: the mission goes on. */
  function CheckWaypoint<C>(m: Mission<C>): (goOn: bool)
    ensures goOn
  {
    true
  }
}

=== FILE: mission_auto.dfy ===
/** A mission that drives through fixed waypoints in AUTO mode
    (mission/Mission_Auto.py). With synchronization on, every waypoint is
    followed by a wait entry at which the vehicle stays until the
    measurement with the sensors required there is valid; `check_waypoint`
    decides when to move on. Converting a location to the vehicle's frame
    is left out: waypoints are grid positions. */
module MissionAuto {
  import opened Wrappers
  import RobotVehicle
  import Environment
  import Mission

  type Point = RobotVehicle.Point

  datatype Auto<C> = Auto(
    mission: Mission.Mission<C>,
    /** Index of the first waypoint of the mission proper, after a takeoff
        command. */
    firstWaypoint: int,
    /** The sensors required at each waypoint's wait, by waypoint; None
        stands for all vehicles. */
    required: seq<Option<seq<int>>>)

  /** `setup`: the base setup clears the vehicle's waypoints; the first
      waypoint follows a takeoff and no sensors are required yet. */
  function Setup<C>(m: Mission.Mission<C>): (a: Auto<C>)
    ensures a.mission.vehicle.waypoints == [] && a.firstWaypoint == 1 && a.required == []
    ensures a.mission == m.(vehicle := a.mission.vehicle)
    ensures a.mission.vehicle.(waypoints := m.vehicle.waypoints) == m.vehicle
  {
    Auto(m.(vehicle := RobotVehicle.ClearWaypoints(m.vehicle)), 1, [])
  }

  /** `add_takeoff`: a vehicle without a takeoff command operates at
      altitude zero and its mission starts at index 0. */
  function AddTakeoff<C>(a: Auto<C>, backend: Mission.Backend): (b: Auto<C>)
    ensures backend.takeoffCommand ==> b == a
    ensures !backend.takeoffCommand ==>
      b.firstWaypoint == 0 && b.mission.settings.altitude == 0.0
      && b == a.(firstWaypoint := 0, mission := a.mission.(settings := b.mission.settings))
      && b.mission.settings.(altitude := a.mission.settings.altitude) == a.mission.settings
  {
    if backend.takeoffCommand then a
    else a.(mission := a.mission.(settings := a.mission.settings.(altitude := 0.0)), firstWaypoint := 0)
  }

  /** Entries per waypoint: the point, and its wait when synchronizing. */
  function Stride(synchronization: bool): (n: nat)
    ensures 1 <= n <= 2
  {
    if synchronization then 2 else 1
  }

  /** `add_waypoint`: the point is appended; with synchronization a wait
      entry follows it and its required sensors are recorded. */
  function AddWaypoint<C>(a: Auto<C>, p: Point, requiredSensors: Option<seq<int>>): (b: Auto<C>)
    ensures var sync := a.mission.settings.synchronization;
            b.mission.vehicle.waypoints == a.mission.vehicle.waypoints + (if sync then [Some(p), None] else [Some(p)])
            && b.required == a.required + (if sync then [requiredSensors] else [])
    ensures b.mission.vehicle.(waypoints := a.mission.vehicle.waypoints) == a.mission.vehicle
    ensures b == a.(mission := a.mission.(vehicle := b.mission.vehicle), required := b.required)
  {
    var v := RobotVehicle.AddWaypoint(a.mission.vehicle, p);
    if a.mission.settings.synchronization then
      a.(mission := a.mission.(vehicle := RobotVehicle.AddWait(v)), required := a.required + [requiredSensors])
    else a.(mission := a.mission.(vehicle := v))
  }

  /** The loop of `add_commands`: each point added in order, with no
      particular sensors required. */
  function AddAll<C>(a: Auto<C>, points: seq<Point>): (b: Auto<C>)
    ensures b.mission.settings == a.mission.settings && b.firstWaypoint == a.firstWaypoint
    decreases |points|
  {
    if |points| == 0 then a else AddAll(AddWaypoint(a, points[0], None), points[1..])
  }

  /** The list entries a run of points becomes. */
  function Entries(points: seq<Point>, synchronization: bool): (e: seq<Option<Point>>)
    ensures |e| == Stride(synchronization) * |points|
    decreases |points|
  {
    if |points| == 0 then []
    else (if synchronization then [Some(points[0]), None] else [Some(points[0])]) + Entries(points[1..], synchronization)
  }

  /** Point `k` of a run sits at entry `Stride * k`, and with
      synchronization its wait right after it. */
  lemma {:induction false} EntriesLayout(points: seq<Point>, synchronization: bool, k: int)
    requires 0 <= k < |points|
    ensures Entries(points, synchronization)[Stride(synchronization) * k] == Some(points[k])
    ensures synchronization ==> Entries(points, synchronization)[2 * k + 1] == None
    decreases |points|
  {
    var n := Stride(synchronization);
    var head := if synchronization then [Some(points[0]), None] else [Some(points[0])];
    assert Entries(points, synchronization) == head + Entries(points[1..], synchronization);
    if k > 0 {
      EntriesLayout(points[1..], synchronization, k - 1);
      assert n * k == n + n * (k - 1);
    }
  }

  /** `n` required-sensors entries that leave the choice to the default. */
  function NoneRequired(n: nat): (r: seq<Option<seq<int>>>)
    ensures |r| == n && forall i :: 0 <= i < n ==> r[i].None?
  {
    seq(n, _ => None)
  }

  /** Adding a run of points appends its entries, and with
      synchronization one unspecified required-sensors entry per point. */
  lemma AddAllAppends<C>(a: Auto<C>, points: seq<Point>)
    ensures var b := AddAll(a, points);
            var sync := a.mission.settings.synchronization;
            b.mission.vehicle.waypoints == a.mission.vehicle.waypoints + Entries(points, sync)
            && b.required == a.required + (if sync then NoneRequired(|points|) else [])
            && b == a.(mission := a.mission.(vehicle := a.mission.vehicle.(waypoints := b.mission.vehicle.waypoints)),
                       required := b.required)
  {
    AddAllWaypoints(a, points);
    AddAllRequired(a, points);
    AddAllFrame(a, points);
  }

  lemma {:induction false} AddAllWaypoints<C>(a: Auto<C>, points: seq<Point>)
    ensures AddAll(a, points).mission.vehicle.waypoints
            == a.mission.vehicle.waypoints + Entries(points, a.mission.settings.synchronization)
    decreases |points|
  {
    if |points| > 0 {
      var next := AddWaypoint(a, points[0], None);
      AddAllWaypoints(next, points[1..]);
      var sync := a.mission.settings.synchronization;
      var head := if sync then [Some(points[0]), None] else [Some(points[0])];
      assert Entries(points, sync) == head + Entries(points[1..], sync);
      assert a.mission.vehicle.waypoints + head + Entries(points[1..], sync)
          == a.mission.vehicle.waypoints + Entries(points, sync);
    }
  }

  lemma {:induction false} AddAllRequired<C>(a: Auto<C>, points: seq<Point>)
    ensures AddAll(a, points).required
            == a.required + (if a.mission.settings.synchronization then NoneRequired(|points|) else [])
    decreases |points|
  {
    if |points| > 0 {
      var next := AddWaypoint(a, points[0], None);
      AddAllRequired(next, points[1..]);
      if a.mission.settings.synchronization {
        assert [None] + NoneRequired(|points| - 1) == NoneRequired(|points|);
        assert a.required + [None] + NoneRequired(|points| - 1) == a.required + NoneRequired(|points|);
      }
    }
  }

  lemma {:induction false} AddAllFrame<C>(a: Auto<C>, points: seq<Point>)
    ensures var b := AddAll(a, points);
            b.mission.vehicle.(waypoints := a.mission.vehicle.waypoints) == a.mission.vehicle
            && b.mission.(vehicle := a.mission.vehicle) == a.mission
            && b.firstWaypoint == a.firstWaypoint
    decreases |points|
  {
    if |points| > 0 {
      AddAllFrame(AddWaypoint(a, points[0], None), points[1..]);
    }
  }

  /** `add_commands`: the takeoff, then every mission point in order (the
      mission upload is not part of this model). */
  function AddCommands<C>(a: Auto<C>, points: seq<Point>, backend: Mission.Backend): (b: Auto<C>)
    ensures b.firstWaypoint == AddTakeoff(a, backend).firstWaypoint
    ensures b.mission.settings == AddTakeoff(a, backend).mission.settings
  {
    AddAll(AddTakeoff(a, backend), points)
  }

  /** The mission layout: on a cleared vehicle, point `k` becomes entry
      `k`, or entry `2k` with its wait at `2k + 1` when synchronizing, and
      the list holds nothing else. */
  lemma CommandsLayout<C>(a: Auto<C>, points: seq<Point>, backend: Mission.Backend, k: int)
    requires a.mission.vehicle.waypoints == [] && 0 <= k < |points|
    ensures var w := AddCommands(a, points, backend).mission.vehicle.waypoints;
            var sync := a.mission.settings.synchronization;
            |w| == Stride(sync) * |points|
            && (!sync ==> w[k] == Some(points[k]))
            && (sync ==> w[2 * k] == Some(points[k]) && w[2 * k + 1] == None)
  {
    var t := AddTakeoff(a, backend);
    var sync := a.mission.settings.synchronization;
    AddAllWaypoints(t, points);
    assert t.mission.vehicle.waypoints == [] && t.mission.settings.synchronization == sync;
    assert AddCommands(a, points, backend).mission.vehicle.waypoints == Entries(points, sync);
    EntriesLayout(points, sync, k);
  }

  /** `arm_and_takeoff`: the commands are added first, then the base
      class arms and takes off. */
  function ArmAndTakeoff<C>(a: Auto<C>, points: seq<Point>, backend: Mission.Backend): (r: (Auto<C>, Result<bool>))
    ensures var added := AddCommands(a, points, backend);
            var armed := Mission.ArmAndTakeoff(added.mission, backend);
            r == (added.(mission := armed.m), armed.result)
  {
    var added := AddCommands(a, points, backend);
    var armed := Mission.ArmAndTakeoff(added.mission, backend);
    (added.(mission := armed.m), armed.result)
  }

  /** The waypoints are in place even when arming fails. */
  lemma CommandsBeforeArming<C>(a: Auto<C>, points: seq<Point>, backend: Mission.Backend)
    requires !backend.armingChecked
    ensures ArmAndTakeoff(a, points, backend) == (AddCommands(a, points, backend), Err(RuntimeError))
  {
  }

  /** Python's `set(required_sensors)` of an optional list. */
  function AsSet(required: Option<seq<int>>): (s: Option<set<int>>)
    ensures s.None? <==> required.None?
    ensures s.Some? ==> forall id :: id in s.value <==> id in required.value
  {
    match required
    case None => None
    case Some(ids) => Some(set id | id in ids)
  }

  /** A `check_waypoint` call's new state and its result or exception. */
  datatype Step<C> = Step(a: Auto<C>, result: Result<bool>)

  /** The second half of `check_waypoint`: without a known distance the
      mission goes on; near enough to a waypoint of the mission proper it
      skips to the next index; the mission goes on while the index is in
      the list. */
  function Approach<C>(a: Auto<C>, distance: Point -> real): (s: Step<C>)
    ensures s.result.Ok?
    ensures s.a.mission.vehicle.(current := a.mission.vehicle.current) == a.mission.vehicle
    ensures s.a == a.(mission := a.mission.(vehicle := s.a.mission.vehicle))
    ensures var v := a.mission.vehicle;
            var d := Mission.DistanceToCurrentWaypoint(a.mission, distance);
            var skip := d.Some? && v.current >= a.firstWaypoint && d.value < a.mission.settings.farness
                        && d.value <= a.mission.settings.closeness;
            s.a.mission.vehicle.current == (if skip then v.current + 1 else v.current)
            && s.result.value == (d.None? || s.a.mission.vehicle.current < |v.waypoints|)
  {
    var v := a.mission.vehicle;
    var next := v.current;
    match Mission.DistanceToCurrentWaypoint(a.mission, distance)
    case None => Step(a, Ok(true))
    case Some(d) =>
      if next >= a.firstWaypoint && d < a.mission.settings.farness && d <= a.mission.settings.closeness then
        Step(a.(mission := a.mission.(vehicle := RobotVehicle.SetNextWaypoint(v, next + 1))), Ok(next + 1 < |v.waypoints|))
      else Step(a, Ok(next < |v.waypoints|))
  }

  /** `check_waypoint`. At a wait entry, unless synchronizing with a valid
      measurement, the mission goes on unchanged; with one, the vehicle
      moves to the next index and the measurement is invalidated with the
      sensors required at the waypoint that index belongs to (Python 2
      integer division by two), or all vehicles past the recorded ones.
      Checking validity without an RF sensor raises AttributeError. Then
      the approach to the current waypoint is checked. */
  function CheckWaypoint<C>(a: Auto<C>, distance: Point -> real): (s: Step<C>)
    ensures !RobotVehicle.IsWait(a.mission.vehicle) ==> s == Approach(a, distance)
    ensures RobotVehicle.IsWait(a.mission.vehicle) && !a.mission.settings.synchronization ==> s == Step(a, Ok(true))
    ensures RobotVehicle.IsWait(a.mission.vehicle) && a.mission.settings.synchronization ==>
      var valid := Environment.IsMeasurementValid(a.mission.environment, a.mission.vehicle.current);
      (valid.Err? ==> s == Step(a, Err(valid.error)))
      && (valid == Ok(false) ==> s == Step(a, Ok(true)))
      && (valid == Ok(true) ==>
            var v := a.mission.vehicle;
            var index := (v.current + 1) / 2;
            s == Approach(a.(mission := a.mission.(
                   vehicle := v.(current := v.current + 1),
                   environment := Environment.InvalidateMeasurement(a.mission.environment,
                     AsSet(if index < |a.required| then a.required[index] else None)))), distance))
  {
    var v := a.mission.vehicle;
    if !RobotVehicle.IsWait(v) then Approach(a, distance)
    else if !a.mission.settings.synchronization then Step(a, Ok(true))
    else
      match Environment.IsMeasurementValid(a.mission.environment, v.current)
      case Err(e) => Step(a, Err(e))
      case Ok(valid) =>
        if !valid then Step(a, Ok(true))
        else
          var moved := RobotVehicle.SetNextWaypoint(v, -1);
          var index := moved.current / 2;
          var required := if index < |a.required| then a.required[index] else None;
          var env := Environment.InvalidateMeasurement(a.mission.environment, AsSet(required));
          Approach(a.(mission := a.mission.(vehicle := moved, environment := env)), distance)
  }

  /** The rendezvous cycle of a synchronized mission laid out by
      `add_commands`: a vehicle waiting at the wait of point `k` with a
      valid measurement moves to point `k + 1`, and the measurement is
      invalidated with the sensors required at point `k + 1`'s wait; after
      the last point all vehicles are required. */
  lemma WaitAdvancesToNextPoint<C>(a: Auto<C>, distance: Point -> real, k: int)
    requires a.mission.settings.synchronization && 0 <= k
    requires a.mission.vehicle.current == 2 * k + 1 && 2 * k + 1 < |a.mission.vehicle.waypoints|
    requires a.mission.vehicle.waypoints[2 * k + 1].None?
    requires Environment.IsMeasurementValid(a.mission.environment, 2 * k + 1) == Ok(true)
    ensures var s := CheckWaypoint(a, distance);
            s.result.Ok?
            && s.a.mission.vehicle.current >= 2 * k + 2
            && s.a.mission.environment.valid == map[]
            && (k + 1 < |a.required| && a.required[k + 1].Some? ==>
                  forall id :: id in s.a.mission.environment.required <==> id in a.required[k + 1].value)
            && (k + 1 >= |a.required| ==>
                  forall id :: id in s.a.mission.environment.required <==> 1 <= id <= a.mission.environment.numberOfSensors)
  {
    assert (2 * k + 2) / 2 == k + 1;
  }

  /** A vehicle that has not yet received a valid measurement keeps
      waiting, and `check_waypoint` changes nothing. */
  lemma WaitHoldsUntilValid<C>(a: Auto<C>, distance: Point -> real)
    requires RobotVehicle.IsWait(a.mission.vehicle)
    requires !a.mission.settings.synchronization || Environment.IsMeasurementValid(a.mission.environment, a.mission.vehicle.current) == Ok(false)
    ensures CheckWaypoint(a, distance) == Step(a, Ok(true))
  {
  }
}

=== FILE: mission_rf_sensor.dfy ===
/** The receiving side of waypoint delivery (mission/Mission_RF_Sensor.py).
    The ground station sends a clear packet, then `waypoint_add` packets
    numbered from 0, then a done packet, each addressed by `to_id`. The
    vehicle accepts an add only when its index is the one it expects next,
    answers every addressed packet except a foreign one with an ack
    carrying the index it now expects, and keeps the accepted entries in a
    dump so that a restarted vehicle resumes with a complete mission. The
    dump file is a store passed in and out; building the vehicle's commands
    from an entry (the unseen Waypoint classes) is left out. */
module MissionRfSensor {
  import opened Wrappers
  import opened Packets
  import RfSensor

  /** An accepted `waypoint_add` packet's fields (`get_all`). */
  type Data = map<string, Value>

  datatype Mission = Mission(
    id: int,
    waypoints: seq<Data>,
    complete: bool,
    nextIndex: int)

  /** The keys `_add_waypoint` reads, in order. */
  const WAYPOINT_KEYS: seq<string> :=
    ["latitude", "longitude", "altitude", "type", "wait_id", "wait_count", "wait_waypoint"]

  predicate HasWaypointKeys(d: Data) {
    forall k :: 0 <= k < |WAYPOINT_KEYS| ==> WAYPOINT_KEYS[k] in d
  }

  /** `reset`: no entries, not complete, expecting index 0. */
  function Reset(m: Mission): (r: Mission)
    ensures r.waypoints == [] && !r.complete && r.nextIndex == 0 && r.id == m.id
  {
    Mission(m.id, [], false, 0)
  }

  /** `_add_waypoint` as written, for a waypoint whose `get_points`
      yields `points` positions (the Waypoint classes are not part of this
      model). The entry is appended first; a missing key then raises
      KeyError. Each position is passed to `add_waypoint` with `wait`,
      `required_sensors` and `wait_waypoint` keywords, which the AUTO
      mission's `add_waypoint(point, required_sensors=None)` does not
      accept, so the first one raises TypeError before the index moves
      on. */
  function AddWaypointAsWritten(m: Mission, d: Data, points: nat): (r: (Mission, Option<Error>))
    ensures r.0.waypoints == m.waypoints + [d]
    ensures r.1.None? <==> HasWaypointKeys(d) && points == 0
    ensures !HasWaypointKeys(d) ==> r.1 == Some(KeyError)
    ensures HasWaypointKeys(d) && points > 0 ==> r.1 == Some(TypeError)
    ensures r.1.Some? ==> r.0 == m.(waypoints := m.waypoints + [d])
    ensures r.1.None? ==> r.0 == m.(waypoints := m.waypoints + [d], nextIndex := m.nextIndex + 1)
  {
    var appended := m.(waypoints := m.waypoints + [d]);
    if !HasWaypointKeys(d) then (appended, Some(KeyError))
    else if points > 0 then (appended, Some(TypeError))
    else (appended.(nextIndex := m.nextIndex + 1), None)
  }

  /** `_add_waypoint` with the positions passed as the AUTO mission
      accepts them: the entry is appended first; a missing key then
      raises KeyError before the index moves on. */
  function AddWaypoint(m: Mission, d: Data): (r: (Mission, Option<Error>))
    ensures r.0.waypoints == m.waypoints + [d]
    ensures r.1.None? <==> HasWaypointKeys(d)
    ensures r.1.Some? ==> r.1 == Some(KeyError) && r.0 == m.(waypoints := m.waypoints + [d])
    ensures r.1.None? ==> r.0 == m.(waypoints := m.waypoints + [d], nextIndex := m.nextIndex + 1)
  {
    var appended := m.(waypoints := m.waypoints + [d]);
    if HasWaypointKeys(d) then (appended.(nextIndex := m.nextIndex + 1), None)
    else (appended, Some(KeyError))
  }

  /** The ack packet `_send_ack` enqueues for the ground station. */
  function AckFrame(reg: Registry, id: int, nextIndex: int): (f: RfSensor.Frame)
    ensures f.to == 0
    ensures Get(f.packet, SPECIFICATION) == VStr("waypoint_ack")
    ensures Get(f.packet, "next_index") == VInt(nextIndex) && Get(f.packet, "sensor_id") == VInt(id)
  {
    RfSensor.Frame(Build(reg, "waypoint_ack", map["next_index" := VInt(nextIndex), "sensor_id" := VInt(id)]), 0)
  }

  /** One handled packet: the new state, the index acknowledged (if an ack
      was sent), the dump file afterwards, and an escaping error. */
  datatype Step = Step(m: Mission, ack: Option<int>, dump: Option<seq<Data>>, err: Option<Error>)

  predicate ForMe(m: Mission, p: Packet) {
    EqualsInt(Get(p, "to_id"), m.id)
  }

  /** `_clear_waypoints`: a packet for another vehicle changes nothing;
      otherwise the dump is removed (a missing one is fine), the state is
      reset and 0 is acknowledged. */
  function Clear(m: Mission, p: Packet, dump: Option<seq<Data>>): (r: Step)
    ensures !ForMe(m, p) ==> r == Step(m, None, dump, None)
    ensures ForMe(m, p) ==> r == Step(Reset(m), Some(0), None, None)
  {
    if !ForMe(m, p) then Step(m, None, dump, None)
    else Step(Reset(m), Some(0), None, None)
  }

  /** `_receive_waypoint`: a packet for another vehicle changes nothing; an
      index other than the expected one is answered with the expected index
      and ignored; the expected index is accepted and the next one
      acknowledged. */
  function ReceiveWaypoint(m: Mission, p: Packet, dump: Option<seq<Data>>): (r: Step)
    ensures r.dump == dump
    ensures !ForMe(m, p) ==> r == Step(m, None, dump, None)
    ensures ForMe(m, p) && !EqualsInt(Get(p, "index"), m.nextIndex) ==> r == Step(m, Some(m.nextIndex), dump, None)
    ensures ForMe(m, p) && EqualsInt(Get(p, "index"), m.nextIndex) ==>
      r.m.waypoints == m.waypoints + [p.contents]
      && (r.err.None? <==> HasWaypointKeys(p.contents))
      && (r.err.None? ==> r.m.nextIndex == m.nextIndex + 1 && r.ack == Some(m.nextIndex + 1))
      && (r.err.Some? ==> r.m.nextIndex == m.nextIndex && r.ack.None?)
    ensures r.m.(waypoints := m.waypoints, nextIndex := m.nextIndex) == m
  {
    if !ForMe(m, p) then Step(m, None, dump, None)
    else if !EqualsInt(Get(p, "index"), m.nextIndex) then Step(m, Some(m.nextIndex), dump, None)
    else
      var (m', err) := AddWaypoint(m, p.contents);
      if err.Some? then Step(m', None, dump, err) else Step(m', Some(m'.nextIndex), dump, None)
  }

  /** `_receive_waypoint` with `_add_waypoint` as written. */
  function ReceiveWaypointAsWritten(m: Mission, p: Packet, dump: Option<seq<Data>>, points: nat): (r: Step)
    ensures !ForMe(m, p) || !EqualsInt(Get(p, "index"), m.nextIndex) ==> r == ReceiveWaypoint(m, p, dump)
    ensures ForMe(m, p) && EqualsInt(Get(p, "index"), m.nextIndex) ==>
      r.m.waypoints == m.waypoints + [p.contents] && r.dump == dump
      && (r.err.None? <==> HasWaypointKeys(p.contents) && points == 0)
      && (r.err.None? ==> r.m.nextIndex == m.nextIndex + 1 && r.ack == Some(m.nextIndex + 1))
      && (r.err.Some? ==> r.m.nextIndex == m.nextIndex && r.ack.None?)
  {
    if !ForMe(m, p) || !EqualsInt(Get(p, "index"), m.nextIndex) then ReceiveWaypoint(m, p, dump)
    else
      var (m', err) := AddWaypointAsWritten(m, p.contents, points);
      if err.Some? then Step(m', None, dump, err) else Step(m', Some(m'.nextIndex), dump, None)
  }

  /** As written, the expected add of a waypoint with a position is
      appended but neither counted nor acknowledged: the TypeError
      escapes, and the ground station's retransmission of the same packet
      is appended once more. With the positions passed as accepted, the
      add is counted and acknowledged, and the retransmission is only
      re-acknowledged. */
  lemma UnackedAdd(m: Mission, p: Packet, dump: Option<seq<Data>>, points: nat)
    requires ForMe(m, p) && EqualsInt(Get(p, "index"), m.nextIndex) && HasWaypointKeys(p.contents) && points > 0
    ensures var r := ReceiveWaypointAsWritten(m, p, dump, points);
            r.err == Some(TypeError) && r.ack.None? && r.m.nextIndex == m.nextIndex
            && ReceiveWaypointAsWritten(r.m, p, dump, points).m.waypoints == m.waypoints + [p.contents, p.contents]
    ensures var r := ReceiveWaypoint(m, p, dump);
            r.err.None? && r.ack == Some(m.nextIndex + 1)
            && ReceiveWaypoint(r.m, p, dump).m.waypoints == m.waypoints + [p.contents]
  {
    var r := ReceiveWaypointAsWritten(m, p, dump, points);
    assert ForMe(r.m, p) && EqualsInt(Get(p, "index"), r.m.nextIndex);
    assert m.waypoints + [p.contents] + [p.contents] == m.waypoints + [p.contents, p.contents];
    var c := ReceiveWaypoint(m, p, dump);
    assert ForMe(c.m, p);
    assert !EqualsInt(Get(p, "index"), c.m.nextIndex);
  }

  /** `_complete_waypoints`: a packet for another vehicle changes nothing;
      otherwise the mission is complete, the index moves on by one on every
      such packet, that index is acknowledged, and the accepted entries are
      written as the dump. */
  function Complete(m: Mission, p: Packet, dump: Option<seq<Data>>): (r: Step)
    ensures !ForMe(m, p) ==> r == Step(m, None, dump, None)
    ensures ForMe(m, p) ==>
      r.m.complete && r.m.nextIndex == m.nextIndex + 1 && r.m.waypoints == m.waypoints
      && r.ack == Some(m.nextIndex + 1) && r.dump == Some(m.waypoints) && r.err.None?
  {
    if !ForMe(m, p) then Step(m, None, dump, None)
    else
      var m' := m.(complete := true, nextIndex := m.nextIndex + 1);
      Step(m', Some(m'.nextIndex), Some(m.waypoints), None)
  }

  /** Replays entries through the corrected `_add_waypoint` until one
      fails. */
  function Replay(m: Mission, entries: seq<Data>): (r: (Mission, Option<Error>))
    ensures r.1.Some? ==> r.1 == Some(KeyError)
    ensures r.0.complete == m.complete
    decreases |entries|
  {
    if |entries| == 0 then (m, None)
    else
      var (m', err) := AddWaypoint(m, entries[0]);
      if err.Some? then (m', err) else Replay(m', entries[1..])
  }

  /** Replaying well-formed entries appends all of them and moves the
      index on by their number. */
  lemma {:induction false} ReplayAppends(m: Mission, entries: seq<Data>)
    requires forall k :: 0 <= k < |entries| ==> HasWaypointKeys(entries[k])
    ensures Replay(m, entries).1.None?
    ensures Replay(m, entries).0 == m.(waypoints := m.waypoints + entries, nextIndex := m.nextIndex + |entries|)
    decreases |entries|
  {
    if |entries| > 0 {
      var m' := AddWaypoint(m, entries[0]).0;
      ReplayAppends(m', entries[1..]);
      assert m.waypoints + [entries[0]] + entries[1..] == m.waypoints + entries;
    }
  }

  /** The file `_load_dump` reads: missing or not valid JSON (the IOError
      and ValueError it ignores), or a list of entries. */
  datatype DumpFile = Unreadable | Entries(entries: seq<Data>)

  /** `_load_dump` with the corrected `_add_waypoint`: an unreadable dump
      leaves the state alone; otherwise every entry is replayed and the
      mission is complete. A KeyError from an entry escapes. */
  function LoadDump(m: Mission, file: DumpFile): (r: (Mission, Option<Error>))
    ensures file.Unreadable? ==> r == (m, None)
    ensures file.Entries? && r.1.None? ==> r.0.complete
    ensures r.1.Some? ==> r.1 == Some(KeyError) && r.0.complete == m.complete
  {
    match file
    case Unreadable => (m, None)
    case Entries(entries) =>
      var (m', err) := Replay(m, entries);
      if err.Some? then (m', err) else (m'.(complete := true), None)
  }

  /** Replaying a dump of well-formed entries appends them all, sets the
      index to the entry count past the current one, and completes the
      mission. */
  lemma LoadDumpReplays(m: Mission, entries: seq<Data>)
    requires forall k :: 0 <= k < |entries| ==> HasWaypointKeys(entries[k])
    ensures LoadDump(m, Entries(entries))
            == (m.(waypoints := m.waypoints + entries, nextIndex := m.nextIndex + |entries|, complete := true), None)
  {
    ReplayAppends(m, entries);
  }

  /** An entry `_add_waypoint` as written accepts: every waypoint key is
      present and its waypoint yields no position (`points` is the number
      of positions the unseen Waypoint classes yield for it). */
  predicate AcceptedAsWritten(d: Data, points: nat) {
    HasWaypointKeys(d) && points == 0
  }

  /** Replays entries through `_add_waypoint` as written until one fails;
      `points[k]` is the number of positions of entry k. */
  function ReplayAsWritten(m: Mission, entries: seq<Data>, points: seq<nat>): (r: (Mission, Option<Error>))
    requires |points| == |entries|
    ensures r.1.None? <==> forall k :: 0 <= k < |entries| ==> AcceptedAsWritten(entries[k], points[k])
    ensures r.1.Some? ==> r.1 == Some(KeyError) || r.1 == Some(TypeError)
    ensures (forall k :: 0 <= k < |entries| ==> HasWaypointKeys(entries[k])) && r.1.Some? ==> r.1 == Some(TypeError)
    ensures r.1.None? ==> r.0 == m.(waypoints := m.waypoints + entries, nextIndex := m.nextIndex + |entries|)
    ensures r.0.complete == m.complete && r.0.id == m.id
    decreases |entries|
  {
    if |entries| == 0 then (m, None)
    else
      var (m', err) := AddWaypointAsWritten(m, entries[0], points[0]);
      if err.Some? then (m', err)
      else
        var r := ReplayAsWritten(m', entries[1..], points[1..]);
        assert forall k :: 1 <= k < |entries| ==> entries[k] == entries[1..][k - 1] && points[k] == points[1..][k - 1];
        assert m.waypoints + [entries[0]] + entries[1..] == m.waypoints + entries;
        r
  }

  /** The replay as written stops at the first entry it does not accept:
      that entry is already appended, the index counts only the entries
      before it, and its error escapes. */
  lemma {:induction false} ReplayAsWrittenStops(m: Mission, entries: seq<Data>, points: seq<nat>, k: nat)
    requires |points| == |entries|
    requires k < |entries| && !AcceptedAsWritten(entries[k], points[k])
    requires forall j :: 0 <= j < k ==> AcceptedAsWritten(entries[j], points[j])
    ensures ReplayAsWritten(m, entries, points)
            == (m.(waypoints := m.waypoints + entries[..k + 1], nextIndex := m.nextIndex + k),
                Some(if HasWaypointKeys(entries[k]) then TypeError else KeyError))
    decreases k
  {
    if k > 0 {
      var m' := AddWaypointAsWritten(m, entries[0], points[0]).0;
      assert AcceptedAsWritten(entries[0], points[0]);
      forall j | 0 <= j < k - 1 ensures AcceptedAsWritten(entries[1..][j], points[1..][j]) {
        assert entries[1..][j] == entries[j + 1] && points[1..][j] == points[j + 1];
      }
      ReplayAsWrittenStops(m', entries[1..], points[1..], k - 1);
      assert m.waypoints + [entries[0]] + entries[1..][..k] == m.waypoints + entries[..k + 1];
    } else {
      assert entries[..1] == [entries[0]];
    }
  }

  /** `_load_dump` with `_add_waypoint` as written, `points` holding the
      position count of each entry of a readable dump. The TypeError from
      an entry with a position is neither an IOError nor a ValueError, so
      it escapes `_load_dump` like the KeyError, before the mission is
      marked complete. */
  function LoadDumpAsWritten(m: Mission, file: DumpFile, points: seq<nat>): (r: (Mission, Option<Error>))
    requires file.Entries? ==> |points| == |file.entries|
    ensures file.Unreadable? ==> r == (m, None)
    ensures file.Entries? ==>
      (r.1.None? <==> forall k :: 0 <= k < |file.entries| ==> AcceptedAsWritten(file.entries[k], points[k]))
    ensures file.Entries? && r.1.None? ==>
      r.0 == m.(waypoints := m.waypoints + file.entries, nextIndex := m.nextIndex + |file.entries|, complete := true)
    ensures r.1.Some? ==> (r.1 == Some(KeyError) || r.1 == Some(TypeError)) && r.0.complete == m.complete
  {
    match file
    case Unreadable => (m, None)
    case Entries(entries) =>
      var (m', err) := ReplayAsWritten(m, entries, points);
      if err.Some? then (m', err) else (m'.(complete := true), None)
  }

  /** The input that shows it: a vehicle restarted after a done packet
      whose dump holds a waypoint with a position. As written, the replay
      raises TypeError at the first such entry and the mission stays
      incomplete, so `arm_and_takeoff` waits for ever; with the corrected
      add, the restart restores the complete mission. */
  lemma RestartWithPositionLosesMission(m: Mission, p: Packet, dump: Option<seq<Data>>, points: seq<nat>, k: nat)
    requires m.nextIndex == |m.waypoints|
    requires ForMe(m, p)
    requires forall j :: 0 <= j < |m.waypoints| ==> HasWaypointKeys(m.waypoints[j])
    requires |points| == |m.waypoints| && k < |points| && points[k] > 0
    ensures var done := Complete(m, p, dump);
            var restarted := LoadDumpAsWritten(Reset(done.m), Entries(done.dump.value), points);
            restarted.1 == Some(TypeError) && !restarted.0.complete && !MayArm(restarted.0)
    ensures var done := Complete(m, p, dump);
            var restarted := LoadDump(Reset(done.m), Entries(done.dump.value));
            restarted.1.None? && MayArm(restarted.0)
  {
    var done := Complete(m, p, dump);
    assert done.dump.value == m.waypoints;
    assert !AcceptedAsWritten(m.waypoints[k], points[k]);
    LoadDumpReplays(Reset(done.m), m.waypoints);
  }

  /** `arm_and_takeoff` waits until the mission is complete. */
  predicate MayArm(m: Mission) {
    m.complete
  }

  /** The bookkeeping rule of the protocol: adds move the index and the
      entry count together, a done packet moves the index alone, and a clear
      sets both to zero. So, from a clear or reset until the next done, the
      index is the number of accepted entries. */
  lemma IndexCountsEntries(m: Mission, p: Packet, dump: Option<seq<Data>>)
    ensures Clear(m, p, dump).err.None? && (ForMe(m, p) ==> Clear(m, p, dump).m.nextIndex == |Clear(m, p, dump).m.waypoints| == 0)
    ensures var r := ReceiveWaypoint(m, p, dump).m;
            ReceiveWaypoint(m, p, dump).err.None? ==> r.nextIndex - |r.waypoints| == m.nextIndex - |m.waypoints|
    ensures var r := Complete(m, p, dump).m;
            ForMe(m, p) ==> r.nextIndex - |r.waypoints| == m.nextIndex - |m.waypoints| + 1
  {
  }

  /** Add packets for vehicle `id`, numbered on from `start`, each with all
      waypoint keys. */
  predicate Numbered(id: int, start: int, ps: seq<Packet>) {
    forall k :: 0 <= k < |ps| ==>
      EqualsInt(Get(ps[k], "to_id"), id) && Get(ps[k], "index") == VInt(start + k) && HasWaypointKeys(ps[k].contents)
  }

  /** In-order delivery with the corrected add: after a clear, add packets numbered 0, 1, ... are
      each accepted, in that order, and each is acknowledged with the next
      number. */
  lemma {:induction false} InOrderDelivery(m: Mission, ps: seq<Packet>, dump: Option<seq<Data>>)
    requires Numbered(m.id, m.nextIndex, ps)
    ensures Deliver(m, ps, dump).0 == m.(waypoints := m.waypoints + Contents(ps), nextIndex := m.nextIndex + |ps|)
    ensures |Deliver(m, ps, dump).1| == |ps|
    ensures forall k :: 0 <= k < |ps| ==> Deliver(m, ps, dump).1[k] == Some(m.nextIndex + k + 1)
    decreases |ps|
  {
    if |ps| > 0 {
      var next := m.(waypoints := m.waypoints + [ps[0].contents], nextIndex := m.nextIndex + 1);
      NumberedStep(m, ps, dump);
      InOrderDelivery(next, ps[1..], dump);
      CountOn(m.nextIndex, Deliver(next, ps[1..], dump).1, Deliver(m, ps, dump).1);
      AppendContents(m.waypoints, ps);
    }
  }

  /** Acks counting on from `start + 2`, behind an ack of `start + 1`, count
      on from `start + 1`. */
  lemma CountOn(start: int, acks: seq<Option<int>>, all: seq<Option<int>>)
    requires forall k :: 0 <= k < |acks| ==> acks[k] == Some(start + 1 + k + 1)
    requires all == [Some(start + 1)] + acks
    ensures forall k :: 0 <= k < |all| ==> all[k] == Some(start + k + 1)
  {
  }

  /** The contents of a run are those of its first packet followed by
      those of the rest. */
  lemma AppendContents(w: seq<Data>, ps: seq<Packet>)
    requires |ps| > 0
    ensures w + [ps[0].contents] + Contents(ps[1..]) == w + Contents(ps)
  {
    var rest := Contents(ps[1..]);
    assert Contents(ps) == [ps[0].contents] + rest;
    assert w + [ps[0].contents] + rest == w + ([ps[0].contents] + rest);
  }

  /** The first of a numbered run is accepted, and the rest is numbered on
      from the next index. */
  lemma NumberedStep(m: Mission, ps: seq<Packet>, dump: Option<seq<Data>>)
    requires |ps| > 0 && Numbered(m.id, m.nextIndex, ps)
    ensures var next := m.(waypoints := m.waypoints + [ps[0].contents], nextIndex := m.nextIndex + 1);
            Numbered(next.id, next.nextIndex, ps[1..])
            && Deliver(m, ps, dump) == (Deliver(next, ps[1..], dump).0, [Some(m.nextIndex + 1)] + Deliver(next, ps[1..], dump).1)
  {
    AcceptStep(m, ps[0], dump);
    DeliverStep(m, ps, dump);
    var rest := ps[1..];
    forall k | 0 <= k < |rest|
      ensures EqualsInt(Get(rest[k], "to_id"), m.id) && Get(rest[k], "index") == VInt(m.nextIndex + 1 + k)
      ensures HasWaypointKeys(rest[k].contents)
    {
      assert rest[k] == ps[k + 1];
    }
  }

  /** `Deliver` after a first packet that raised nothing. */
  lemma DeliverStep(m: Mission, ps: seq<Packet>, dump: Option<seq<Data>>)
    requires |ps| > 0 && ReceiveWaypoint(m, ps[0], dump).err.None?
    ensures var first := ReceiveWaypoint(m, ps[0], dump);
            Deliver(m, ps, dump) == (Deliver(first.m, ps[1..], dump).0, [first.ack] + Deliver(first.m, ps[1..], dump).1)
  {
  }

  /** With the corrected add, an add packet for this vehicle with the
      expected index and all waypoint keys is accepted. */
  lemma AcceptStep(m: Mission, p: Packet, dump: Option<seq<Data>>)
    requires ForMe(m, p) && Get(p, "index") == VInt(m.nextIndex) && HasWaypointKeys(p.contents)
    ensures ReceiveWaypoint(m, p, dump)
            == Step(m.(waypoints := m.waypoints + [p.contents], nextIndex := m.nextIndex + 1),
                    Some(m.nextIndex + 1), dump, None)
  {
  }

  /** The fields of each packet. */
  function Contents(ps: seq<Packet>): (r: seq<Data>)
    ensures |r| == |ps|
  {
    if |ps| == 0 then [] else [ps[0].contents] + Contents(ps[1..])
  }

  /** Hands add packets to `_receive_waypoint` one after another, collecting
      the acks, until one raises. */
  function Deliver(m: Mission, ps: seq<Packet>, dump: Option<seq<Data>>): (r: (Mission, seq<Option<int>>))
    ensures |r.1| <= |ps|
    decreases |ps|
  {
    if |ps| == 0 then (m, [])
    else
      var s := ReceiveWaypoint(m, ps[0], dump);
      if s.err.Some? then (s.m, [])
      else var (r, acks) := Deliver(s.m, ps[1..], dump); (r, [s.ack] + acks)
  }

  /** A repeated add packet, as after a lost ack, is not added again; it is
      answered with the same index as the first copy. */
  lemma DuplicateAddIgnored(m: Mission, p: Packet, dump: Option<seq<Data>>)
    requires ReceiveWaypoint(m, p, dump).err.None?
    requires ReceiveWaypoint(m, p, dump).m.nextIndex != m.nextIndex
    ensures var first := ReceiveWaypoint(m, p, dump);
            var second := ReceiveWaypoint(first.m, p, dump);
            second.m == first.m && second.ack == first.ack
  {
  }

  /** With the corrected add, a restart after a done packet replays the
      dump into a complete mission with the same entries, but it expects one index less than
      before the restart: the done packet's increment is not in the dump. */
  lemma RestartAfterDone(m: Mission, p: Packet, dump: Option<seq<Data>>)
    requires m.nextIndex == |m.waypoints|
    requires ForMe(m, p)
    requires forall k :: 0 <= k < |m.waypoints| ==> HasWaypointKeys(m.waypoints[k])
    ensures var done := Complete(m, p, dump);
            var restarted := LoadDump(Reset(done.m), Entries(done.dump.value));
            restarted.1.None? && restarted.0.complete
            && restarted.0.waypoints == done.m.waypoints
            && restarted.0.nextIndex == done.m.nextIndex - 1 == |m.waypoints|
  {
    var done := Complete(m, p, dump);
    assert done.dump == Some(m.waypoints) && done.m.waypoints == m.waypoints;
    LoadDumpReplays(Reset(done.m), m.waypoints);
  }
}

=== FILE: mission_xbee.dfy ===
/** The legacy XBee waypoint upload (mission/Mission_XBee.py), an AUTO
    mission whose waypoints arrive as packets: a clear packet, numbered
    `waypoint_add` packets and a done packet, each addressed by `to_id`.
    Adds are accepted strictly in order and answered with an ack carrying
    the index expected next; the done packet only marks the upload
    complete, which arming waits for. The position a packet describes, in
    the vehicle's frame, is a parameter. */
module MissionXBee {
  import opened Wrappers
  import opened Packets
  import RobotVehicle
  import Environment
  import Mission
  import MissionAuto

  type Point = RobotVehicle.Point

  /** The packet actions this mission registers. */
  datatype Handler = ClearWaypoints | AddWaypoint | CompleteWaypoints

  datatype XBee = XBee(
    auto: MissionAuto.Auto<Handler>,
    /** The XBee sensor's id. */
    id: int,
    complete: bool,
    nextIndex: int)

  /** `setup`: the AUTO mission's setup, then the three packet actions are
      registered, which fails with KeyError if one already is. */
  function Setup(m: Mission.Mission<Handler>, id: int): (r: Result<XBee>)
    ensures var actions := m.environment.actions;
            r.Ok? <==> "waypoint_clear" !in actions && "waypoint_add" !in actions && "waypoint_done" !in actions
    ensures r.Err? ==> r.error == KeyError
    ensures r.Ok? ==>
      var x := r.value;
      !x.complete && x.nextIndex == 0 && x.id == id
      && x.auto.mission.vehicle.waypoints == [] && x.auto.required == []
      && x.auto.mission.environment.actions
         == m.environment.actions["waypoint_clear" := ClearWaypoints]["waypoint_add" := AddWaypoint]["waypoint_done" := CompleteWaypoints]
  {
    var a := MissionAuto.Setup(m);
    var env0 := a.mission.environment;
    var env1 :- Environment.AddPacketAction(env0, "waypoint_clear", ClearWaypoints, true);
    var env2 :- Environment.AddPacketAction(env1, "waypoint_add", AddWaypoint, true);
    var env3 :- Environment.AddPacketAction(env2, "waypoint_done", CompleteWaypoints, true);
    Ok(XBee(a.(mission := a.mission.(environment := env3)), id, false, 0))
  }

  /** A handled packet's new state and the index acknowledged, if an ack
      was sent to the ground station. */
  datatype Step = Step(x: XBee, ack: Option<int>)

  predicate ForMe(x: XBee, p: Packet) {
    EqualsInt(Get(p, "to_id"), x.id)
  }

  /** `_complete_waypoints`: a packet for this vehicle marks the upload
      complete, without an ack. */
  function Complete(x: XBee, p: Packet): (s: Step)
    ensures s.ack.None?
    ensures !ForMe(x, p) ==> s.x == x
    ensures ForMe(x, p) ==> s.x == x.(complete := true)
  {
    if !ForMe(x, p) then Step(x, None) else Step(x.(complete := true), None)
  }

  /** `_clear_waypoints` as written: the vehicle's waypoints are cleared,
      the takeoff added again, and index 0 acknowledged, but the AUTO
      mission's list of required sensors per waypoint is kept. */
  function ClearAsWritten(x: XBee, p: Packet, backend: Mission.Backend): (s: Step)
    ensures !ForMe(x, p) ==> s == Step(x, None)
    ensures ForMe(x, p) ==> s.ack == Some(0) && s.x.nextIndex == 0 && s.x.auto.required == x.auto.required
                            && s.x.auto.mission.vehicle.waypoints == []
  {
    if !ForMe(x, p) then Step(x, None)
    else
      var cleared := x.auto.(mission := x.auto.mission.(vehicle := RobotVehicle.ClearWaypoints(x.auto.mission.vehicle)));
      Step(x.(auto := MissionAuto.AddTakeoff(cleared, backend), nextIndex := 0), Some(0))
  }

  /** `_clear_waypoints` with the required sensors cleared along with the
      waypoints they belong to. */
  function Clear(x: XBee, p: Packet, backend: Mission.Backend): (s: Step)
    ensures !ForMe(x, p) ==> s == Step(x, None)
    ensures ForMe(x, p) ==>
      s.ack == Some(0) && s.x.nextIndex == 0 && s.x.auto.required == [] && s.x.auto.mission.vehicle.waypoints == []
      && s.x.complete == x.complete
      && s.x.auto.firstWaypoint == MissionAuto.AddTakeoff(x.auto, backend).firstWaypoint
  {
    var s := ClearAsWritten(x, p, backend);
    if !ForMe(x, p) then s else Step(s.x.(auto := s.x.auto.(required := [])), s.ack)
  }

  /** The required sensors an add packet names: `[wait_id]` for a
      positive id, otherwise the default of all vehicles. */
  function WaitRequired(waitId: Value): (r: Option<seq<int>>)
    ensures r.Some? <==> waitId.VInt? && waitId.i > 0
    ensures r.Some? ==> r.value == [waitId.i]
  {
    if waitId.VInt? && waitId.i > 0 then Some([waitId.i]) else None
  }

  /** `_add_waypoint`: a packet for this vehicle whose index is not the one
      expected is answered with the expected index and ignored; the
      expected one adds its waypoint with its required sensors and the next
      index is acknowledged. */
  function Add(x: XBee, p: Packet, position: Packet -> Point): (s: Step)
    ensures !ForMe(x, p) ==> s == Step(x, None)
    ensures ForMe(x, p) && !EqualsInt(Get(p, "index"), x.nextIndex) ==> s == Step(x, Some(x.nextIndex))
    ensures ForMe(x, p) && EqualsInt(Get(p, "index"), x.nextIndex) ==>
      s.x == x.(auto := MissionAuto.AddWaypoint(x.auto, position(p), WaitRequired(Get(p, "wait_id"))),
                nextIndex := x.nextIndex + 1)
      && s.ack == Some(x.nextIndex + 1)
  {
    if !ForMe(x, p) then Step(x, None)
    else if !EqualsInt(Get(p, "index"), x.nextIndex) then Step(x, Some(x.nextIndex))
    else
      var added := MissionAuto.AddWaypoint(x.auto, position(p), WaitRequired(Get(p, "wait_id")));
      Step(x.(auto := added, nextIndex := x.nextIndex + 1), Some(x.nextIndex + 1))
  }

  /** `receive_packet` on the environment after `setup`: the registered
      action for the packet's specification handles it; any other packet
      changes nothing. */
  function Dispatch(x: XBee, p: Packet, backend: Mission.Backend, position: Packet -> Point): (s: Step)
    ensures Environment.ReceivePacket(x.auto.mission.environment, p).None? ==> s == Step(x, None)
  {
    match Environment.ReceivePacket(x.auto.mission.environment, p)
    case None => Step(x, None)
    case Some(handler) =>
      if handler == ClearWaypoints then ClearAsWritten(x, p, backend)
      else if handler == AddWaypoint then Add(x, p, position)
      else Complete(x, p)
  }

  /** After `setup` each upload packet reaches its own handler, a clear
      the handler as written. */
  lemma SetupRoutesUploads(m: Mission.Mission<Handler>, id: int, p: Packet, backend: Mission.Backend, position: Packet -> Point)
    requires Setup(m, id).Ok?
    ensures var x := Setup(m, id).value;
            (Get(p, SPECIFICATION) == VStr("waypoint_clear") ==> Dispatch(x, p, backend, position) == ClearAsWritten(x, p, backend))
            && (Get(p, SPECIFICATION) == VStr("waypoint_add") ==> Dispatch(x, p, backend, position) == Add(x, p, position))
            && (Get(p, SPECIFICATION) == VStr("waypoint_done") ==> Dispatch(x, p, backend, position) == Complete(x, p))
  {
  }

  /** `arm_and_takeoff`: it waits until the upload is complete (None
      while it would still be waiting), then arms without adding commands,
      since this mission adds them as they arrive. */
  function ArmAndTakeoff(x: XBee, backend: Mission.Backend): (r: Option<(XBee, Result<bool>)>)
    ensures r.Some? <==> x.complete
    ensures r.Some? ==> r.value.0.auto.mission.vehicle.waypoints == x.auto.mission.vehicle.waypoints
    ensures r.Some? ==> r.value.1 == Mission.ArmAndTakeoff(x.auto.mission, backend).result
  {
    if !x.complete then None
    else
      var armed := Mission.ArmAndTakeoff(x.auto.mission, backend);
      Some((x.(auto := x.auto.(mission := armed.m)), armed.result))
  }

  /** Add packets for vehicle `id`, numbered on from `start`. */
  predicate Numbered(id: int, start: int, ps: seq<Packet>) {
    forall k :: 0 <= k < |ps| ==> EqualsInt(Get(ps[k], "to_id"), id) && Get(ps[k], "index") == VInt(start + k)
  }

  /** The required sensors of each of a run of add packets. */
  function WaitsOf(ps: seq<Packet>): (r: seq<Option<seq<int>>>)
    ensures |r| == |ps| && forall k :: 0 <= k < |ps| ==> r[k] == WaitRequired(Get(ps[k], "wait_id"))
  {
    seq(|ps|, k requires 0 <= k < |ps| => WaitRequired(Get(ps[k], "wait_id")))
  }

  /** Add packets handled one after another. */
  function Upload(x: XBee, ps: seq<Packet>, position: Packet -> Point): (r: XBee)
    ensures r.id == x.id && r.complete == x.complete
    decreases |ps|
  {
    if |ps| == 0 then x else Upload(Add(x, ps[0], position).x, ps[1..], position)
  }

  /** An in-order run of adds is accepted whole: the index moves on by
      its length, and with synchronization the required sensors of packet
      `k` are recorded after those already there. */
  lemma {:induction false} UploadRecords(x: XBee, ps: seq<Packet>, position: Packet -> Point)
    requires Numbered(x.id, x.nextIndex, ps)
    ensures Upload(x, ps, position).nextIndex == x.nextIndex + |ps|
    ensures Upload(x, ps, position).auto.required
            == x.auto.required + (if x.auto.mission.settings.synchronization then WaitsOf(ps) else [])
    ensures Upload(x, ps, position).auto.mission.settings == x.auto.mission.settings
    decreases |ps|
  {
    if |ps| > 0 {
      var rest := ps[1..];
      var next := UploadStep(x, ps, position);
      UploadRecords(next, rest, position);
      if x.auto.mission.settings.synchronization {
        WaitsOfFirst(ps);
        AppendAssoc(x.auto.required, [WaitRequired(Get(ps[0], "wait_id"))], WaitsOf(rest));
      }
    } else {
      assert WaitsOf(ps) == [];
    }
  }

  /** An upload is its first add followed by the upload of the rest; the
      first add is accepted. */
  lemma UploadStep(x: XBee, ps: seq<Packet>, position: Packet -> Point) returns (next: XBee)
    requires |ps| > 0 && Numbered(x.id, x.nextIndex, ps)
    ensures Upload(x, ps, position) == Upload(next, ps[1..], position)
    ensures next.nextIndex == x.nextIndex + 1 && next.id == x.id
            && next.auto.mission.settings == x.auto.mission.settings
            && next.auto.required == x.auto.required
               + (if x.auto.mission.settings.synchronization then [WaitRequired(Get(ps[0], "wait_id"))] else [])
            && Numbered(next.id, next.nextIndex, ps[1..])
  {
    next := Add(x, ps[0], position).x;
    AcceptedAdd(x, ps, position);
  }

  lemma AppendAssoc<T>(a: seq<T>, b: seq<T>, c: seq<T>)
    ensures a + b + c == a + (b + c)
  {
  }

  lemma WaitsOfFirst(ps: seq<Packet>)
    requires |ps| > 0
    ensures WaitsOf(ps) == [WaitRequired(Get(ps[0], "wait_id"))] + WaitsOf(ps[1..])
  {
    var w := [WaitRequired(Get(ps[0], "wait_id"))] + WaitsOf(ps[1..]);
    assert |w| == |WaitsOf(ps)|;
    forall k | 0 <= k < |w|
      ensures w[k] == WaitsOf(ps)[k]
    {
      if k > 0 {
        assert ps[1..][k - 1] == ps[k];
      }
    }
  }

  /** The first add of an in-order run is accepted, and the rest is
      numbered on from the new index. */
  lemma AcceptedAdd(x: XBee, ps: seq<Packet>, position: Packet -> Point)
    requires |ps| > 0 && Numbered(x.id, x.nextIndex, ps)
    ensures var next := Add(x, ps[0], position).x;
            next.nextIndex == x.nextIndex + 1 && next.id == x.id
            && next.auto.mission.settings == x.auto.mission.settings
            && next.auto.required == x.auto.required
               + (if x.auto.mission.settings.synchronization then [WaitRequired(Get(ps[0], "wait_id"))] else [])
            && Numbered(next.id, next.nextIndex, ps[1..])
  {
    var rest := ps[1..];
    forall k | 0 <= k < |rest|
      ensures EqualsInt(Get(rest[k], "to_id"), x.id) && Get(rest[k], "index") == VInt(x.nextIndex + 1 + k)
    {
      assert rest[k] == ps[k + 1];
    }
  }

  /** With the corrected clear, a synchronized upload of a new mission
      after a clear records exactly its packets' required sensors, so the
      entry `check_waypoint` reads for waypoint `k` is the one sent with
      waypoint `k`. */
  lemma ClearedUploadAligns(x: XBee, clear: Packet, ps: seq<Packet>, backend: Mission.Backend, position: Packet -> Point)
    requires ForMe(x, clear) && x.auto.mission.settings.synchronization
    requires Numbered(x.id, 0, ps)
    ensures var u := Upload(Clear(x, clear, backend).x, ps, position);
            u.auto.required == WaitsOf(ps) && u.nextIndex == |ps|
  {
    var c := Clear(x, clear, backend).x;
    UploadRecords(c, ps, position);
    assert [] + WaitsOf(ps) == WaitsOf(ps);
  }

  /** With the clear as written, a synchronized upload of a new mission
      after a clear records its packets' required sensors behind those of
      the mission cleared, so the entry `check_waypoint` reads for
      waypoint `k` belongs to the old mission whenever there was one. */
  lemma ClearedUploadAsWritten(x: XBee, clear: Packet, ps: seq<Packet>, backend: Mission.Backend, position: Packet -> Point)
    requires ForMe(x, clear) && x.auto.mission.settings.synchronization
    requires Numbered(x.id, 0, ps)
    ensures var u := Upload(ClearAsWritten(x, clear, backend).x, ps, position);
            u.auto.required == x.auto.required + WaitsOf(ps) && u.nextIndex == |ps|
  {
    var c := ClearAsWritten(x, clear, backend).x;
    UploadRecords(c, ps, position);
  }

  /** With the clear as written, a second mission inherits the first one's
      required sensors: after a mission whose waypoints 0 and 1 required
      vehicles 2 and 3 is cleared and a new waypoint 0 without a wait id is
      added, the vehicle leaving that waypoint's wait (index 1 of the
      AUTO mission's list) waits for vehicle 3 instead of all vehicles. */
  lemma StaleRequiredSensors(x: XBee, clear: Packet, add: Packet, backend: Mission.Backend, position: Packet -> Point)
    requires ForMe(x, clear) && x.auto.mission.settings.synchronization
    requires x.auto.required == [Some([2]), Some([3])]
    requires EqualsInt(Get(add, "to_id"), x.id) && Get(add, "index") == VInt(0) && Get(add, "wait_id") == VInt(0)
    ensures var asWritten := Add(ClearAsWritten(x, clear, backend).x, add, position).x;
            asWritten.auto.required == [Some([2]), Some([3]), None] && asWritten.auto.required[1] == Some([3])
    ensures var corrected := Add(Clear(x, clear, backend).x, add, position).x;
            corrected.auto.required == [None] && |corrected.auto.required| <= 1
  {
  }
}

=== FILE: ntp.dfy ===
/** The four-timestamp clock synchronisation exchange of zigbee/NTP.py,
    after the on-wire protocol of section 8 of RFC 5905. The client stamps
    t1 when sending, the server stamps t2 and t3 on receipt and reply, and
    the client stamps t4 on receipt; the clock offset is
    ((t2 - t1) + (t3 - t4)) / 2. Clock readings are parameters and the
    system clock update is left out. */
module Ntp {
  import opened Wrappers
  import opened Packets

  const NTP := "ntp"
  const T1 := "timestamp_1"
  const T2 := "timestamp_2"
  const T3 := "timestamp_3"
  const T4 := "timestamp_4"
  const SENSOR_ID := "sensor_id"

  /** The number a packet value denotes in Python arithmetic; None for
      values that make `-` raise TypeError. */
  function Numeric(v: Value): (r: Option<real>)
    ensures v.VInt? ==> r == Some(v.i as real)
    ensures v.VReal? ==> r == Some(v.r)
    ensures v.VNone? || v.VStr? || v.VObject? ==> r.None?
  {
    match v
    case VInt(i) => Some(i as real)
    case VReal(x) => Some(x)
    case VBool(b) => Some(if b then 1.0 else 0.0)
    case _ => None
  }

  /** Python's `value == 0`. */
  predicate IsZero(v: Value) {
    Numeric(v) == Some(0.0)
  }

  /** A frame handed to the sensor's `_send_tx_frame`. The destination is
      whatever value the packet carries, so it stays a `Value`. */
  datatype Tx = Tx(packet: Packet, to: Value)

  /** The client's state as far as the exchange touches it. */
  datatype Client = Client(sensorId: int, synchronized: bool)

  /** `start`: the request carries t1 = now and zeros for the others and
      goes to the ground station, id 0. */
  function Start(reg: Registry, c: Client, now: real): (r: Tx)
    ensures r.to == VInt(0)
    ensures Get(r.packet, SPECIFICATION) == VStr(NTP)
    ensures Get(r.packet, SENSOR_ID) == VInt(c.sensorId)
    ensures Get(r.packet, T1) == VReal(now)
    ensures Get(r.packet, T2) == VInt(0) && Get(r.packet, T3) == VInt(0) && Get(r.packet, T4) == VInt(0)
  {
    Tx(Build(reg, NTP, map[SENSOR_ID := VInt(c.sensorId), T1 := VReal(now), T2 := VInt(0),
                           T3 := VInt(0), T4 := VInt(0)]),
       VInt(0))
  }

  /** `finish`: the offset from the four stamps. A stamp that is not a
      number raises TypeError. On success the client is synchronised and
      its clock is set to now + offset. */
  function Finish(c: Client, p: Packet, now: real): (r: Result<(Client, real, real)>)
    ensures r.Ok? <==> (Numeric(Get(p, T1)).Some? && Numeric(Get(p, T2)).Some?
                        && Numeric(Get(p, T3)).Some? && Numeric(Get(p, T4)).Some?)
    ensures r.Err? ==> r.error == TypeError
    ensures r.Ok? ==>
      var t1, t2, t3, t4 := Numeric(Get(p, T1)).value, Numeric(Get(p, T2)).value,
                            Numeric(Get(p, T3)).value, Numeric(Get(p, T4)).value;
      var (c', offset, clock) := r.value;
      2.0 * offset == (t2 - t1) + (t3 - t4)
      && clock - now == offset
      && c'.synchronized && c'.sensorId == c.sensorId
  {
    match (Numeric(Get(p, T1)), Numeric(Get(p, T2)), Numeric(Get(p, T3)), Numeric(Get(p, T4)))
    case (Some(t1), Some(t2), Some(t3), Some(t4)) =>
      var offset := ((t2 - t1) + (t3 - t4)) / 2.0;
      Ok((c.(synchronized := true), offset, now + offset))
    case _ => Err(TypeError)
  }

  /** What `process` does with one packet. */
  datatype Step = Reply(tx: Tx) | Finished(client: Client, offset: real, clock: real)

  /** `process`: a packet whose t2 is still zero is a request, answered
      with t2 = t3 = now to its sender; any other is the answer, stamped
      t4 = now and finished. */
  function Process(reg: Registry, c: Client, p: Packet, now: real): (r: Result<Step>)
    ensures IsZero(Get(p, T2)) ==> r.Ok? && r.value.Reply?
    ensures r.Ok? && r.value.Reply? ==>
      IsZero(Get(p, T2))
      && r.value.tx.to == Get(p, SENSOR_ID)
      && Get(r.value.tx.packet, T2) == VReal(now) && Get(r.value.tx.packet, T3) == VReal(now)
      && forall k :: k != T2 && k != T3 ==> Get(r.value.tx.packet, k) == Get(p, k)
    ensures !IsZero(Get(p, T2)) ==>
      r == (match Finish(c, Set(reg, p, T4, VReal(now)), now)
            case Ok((c', offset, clock)) => Ok(Finished(c', offset, clock))
            case Err(e) => Err(e))
  {
    if IsZero(Get(p, T2)) then
      var q := Set(reg, p, T2, VReal(now));
      var q := Set(reg, q, T3, VReal(now));
      Ok(Reply(Tx(q, Get(q, SENSOR_ID))))
    else
      match Finish(c, Set(reg, p, T4, VReal(now)), now)
      case Ok((c', offset, clock)) => Ok(Finished(c', offset, clock))
      case Err(e) => Err(e)
  }

  /** The example of the NTP test case: stamps (100, 150, 160, 120) give offset 45. */
  lemma OffsetExample(reg: Registry, c: Client, p: Packet, now: real)
    requires Get(p, T1) == VInt(100) && Get(p, T2) == VInt(150)
    requires Get(p, T3) == VInt(160) && Get(p, T4) == VInt(120)
    ensures Finish(c, p, now).Ok? && Finish(c, p, now).value.1 == 45.0
  {
  }

  /** The offset of section 8 of RFC 5905 measures the clock difference:
      with the server `theta` ahead, a request taking `up` seconds, a hold
      of `hold` seconds at the server and a reply taking `down` seconds, the
      computed offset is `theta` up to half the path asymmetry. */
  lemma OffsetMeasuresSkew(c: Client, p: Packet, now: real, t1: real, theta: real, up: real, hold: real, down: real)
    requires Get(p, T1) == VReal(t1) && Get(p, T2) == VReal(t1 + up + theta)
    requires Get(p, T3) == VReal(t1 + up + theta + hold)
    requires Get(p, T4) == VReal(t1 + up + hold + down)
    ensures Finish(c, p, now).Ok?
    ensures Finish(c, p, now).value.1 - theta == (up - down) / 2.0
    ensures up == down ==> Finish(c, p, now).value.1 == theta
  {
  }

  /** The whole exchange: the server answers the client's request at once,
      at a reading `server` other than 0 (a zero reading would make its
      answer look like a fresh request); the client receives the answer at
      `arrival`. The answer goes back to the client's id, and the client
      finishes with the offset computed from t1, `server` and `arrival`. */
  lemma ExchangeFinishes(reg: Registry, c: Client, t1: real, server: real, arrival: real)
    requires server != 0.0
    ensures var answer := Process(reg, Client(0, false), Start(reg, c, t1).packet, server);
            answer.Ok? && answer.value.Reply? && answer.value.tx.to == VInt(c.sensorId)
            && Process(reg, c, answer.value.tx.packet, arrival)
               == Ok(Finished(c.(synchronized := true), ((server - t1) + (server - arrival)) / 2.0,
                              arrival + ((server - t1) + (server - arrival)) / 2.0))
  {
    var req := Start(reg, c, t1);
    var answer := Process(reg, Client(0, false), req.packet, server);
    assert answer.Ok? && answer.value.Reply?;
    var q := answer.value.tx.packet;
    AnswerFinishes(reg, c, q, t1, server, arrival);
  }

  /** The client's half of the exchange: an answer carrying t1 and the
      server's nonzero reading in t2 and t3 finishes at once. */
  lemma AnswerFinishes(reg: Registry, c: Client, q: Packet, t1: real, server: real, arrival: real)
    requires server != 0.0
    requires Get(q, T1) == VReal(t1) && Get(q, T2) == VReal(server) && Get(q, T3) == VReal(server)
    ensures Process(reg, c, q, arrival)
            == Ok(Finished(c.(synchronized := true), ((server - t1) + (server - arrival)) / 2.0,
                           arrival + ((server - t1) + (server - arrival)) / 2.0))
  {
    var q4 := Set(reg, q, T4, VReal(arrival));
    assert Get(q4, T1) == VReal(t1) && Get(q4, T2) == VReal(server);
    assert Get(q4, T3) == VReal(server) && Get(q4, T4) == VReal(arrival);
    var f := Finish(c, q4, arrival);
    assert f == Ok((c.(synchronized := true), ((server - t1) + (server - arrival)) / 2.0,
                    arrival + ((server - t1) + (server - arrival)) / 2.0));
  }
}

=== FILE: octets.dfy ===
/** Octet strings as the radio and serial links carry them.
    A Python 2 `str` is a byte string; the model keeps each byte as an
    `Octet`. The eight bytes of an IEEE 754 double are left abstract: each
    one carries the encoded value and its position, so lengths, padding and
    truncation stay exact while the floating-point layout is not modelled. */
module Octets {
  import opened Wrappers

  newtype byte = x: int | 0 <= x < 256

  datatype Octet = Byte(b: byte) | DoublePart(value: real, part: nat)

  function Pow256(w: nat): (r: nat)
    ensures r >= 1
  {
    if w == 0 then 1 else 256 * Pow256(w - 1)
  }

  /** The `w`-byte little-endian encoding of `n`. */
  function ToLittleEndian(n: nat, w: nat): (r: seq<Octet>)
    requires n < Pow256(w)
    ensures |r| == w
    ensures forall k :: 0 <= k < |r| ==> r[k].Byte?
  {
    if w == 0 then [] else [Byte((n % 256) as byte)] + ToLittleEndian(n / 256, w - 1)
  }

  /** The unsigned number a little-endian run of plain bytes denotes. */
  function FromLittleEndian(bs: seq<Octet>): (r: Option<nat>)
    ensures r.Some? <==> forall k :: 0 <= k < |bs| ==> bs[k].Byte?
    ensures r.Some? ==> r.value < Pow256(|bs|)
  {
    if |bs| == 0 then Some(0)
    else
      match bs[0]
      case DoublePart(_, _) => None
      case Byte(b) =>
        match FromLittleEndian(bs[1..])
        case None => None
        case Some(rest) => Some(b as int + 256 * rest)
  }

  lemma {:induction false} LittleEndianRoundTrip(n: nat, w: nat)
    requires n < Pow256(w)
    ensures FromLittleEndian(ToLittleEndian(n, w)) == Some(n)
  {
    if w > 0 {
      var bs := ToLittleEndian(n, w);
      assert bs[1..] == ToLittleEndian(n / 256, w - 1);
      LittleEndianRoundTrip(n / 256, w - 1);
    }
  }

  /** Two's complement: the unsigned pattern of a signed `w`-byte value. */
  function SignedPattern(i: int, w: nat): (r: nat)
    requires w >= 1 && -(Pow256(w) / 2) <= i < Pow256(w) / 2
    ensures r < Pow256(w)
  {
    if i >= 0 then i else i + Pow256(w)
  }

  function FromSignedPattern(u: nat, w: nat): int
    requires w >= 1
  {
    if u >= Pow256(w) / 2 then u - Pow256(w) else u
  }

  lemma SignedRoundTrip(i: int, w: nat)
    requires w >= 1 && -(Pow256(w) / 2) <= i < Pow256(w) / 2
    ensures FromSignedPattern(SignedPattern(i, w), w) == i
  {
  }

  /** A byte string of a Python 2 `str`: every character is one byte. */
  predicate IsByteString(s: string) {
    forall k :: 0 <= k < |s| ==> s[k] as int < 256
  }

  function StringOctets(s: string): (r: seq<Octet>)
    requires IsByteString(s)
    ensures |r| == |s|
    ensures forall k :: 0 <= k < |r| ==> r[k] == Byte(s[k] as int as byte)
  {
    seq(|s|, k requires 0 <= k < |s| => Byte(s[k] as int as byte))
  }

  /** Reads plain bytes back as characters; None when an octet is part of
      a double. */
  function OctetString(bs: seq<Octet>): (r: Option<string>)
    ensures r.Some? <==> forall k :: 0 <= k < |bs| ==> bs[k].Byte?
    ensures r.Some? ==> |r.value| == |bs| && IsByteString(r.value)
    ensures r.Some? ==> forall k :: 0 <= k < |bs| ==> r.value[k] as int == bs[k].b as int
  {
    if forall k :: 0 <= k < |bs| ==> bs[k].Byte? then
      Some(seq(|bs|, k requires 0 <= k < |bs| => (bs[k].b as int) as char))
    else None
  }

  lemma StringRoundTrip(s: string)
    requires IsByteString(s)
    ensures OctetString(StringOctets(s)) == Some(s)
  {
    var r := OctetString(StringOctets(s));
    assert r.Some?;
    assert r.value == s;
  }

  /** The eight abstract octets of a double. */
  function DoubleOctets(r: real): (o: seq<Octet>)
    ensures |o| == 8
    ensures forall k :: 0 <= k < 8 ==> o[k] == DoublePart(r, k)
  {
    seq(8, k requires 0 <= k => DoublePart(r, k))
  }

  function Zeros(n: nat): (r: seq<Octet>)
    ensures |r| == n
    ensures forall k :: 0 <= k < n ==> r[k] == Byte(0)
  {
    seq(n, k => Byte(0))
  }
}

=== FILE: packet.dfy ===
/** The key/value packet of zigbee/Packet.py and the registry of packet
    specifications it consults. The specification file itself is a
    parameter: a `Registry` lists the specifications in the order the
    loaded JSON object iterates them. */
module Packets {
  import opened Wrappers
  import opened Octets

  /** A Python value stored in a packet. `VObject` stands for any value the
      `@` format has to serialise as compressed JSON (lists, dicts, longs);
      it carries that compressed form. */
  datatype Value =
    | VNone
    | VBool(b: bool)
    | VInt(i: int)
    | VReal(r: real)
    | VStr(s: string)
    | VObject(compressed: seq<byte>)

  /** The `struct` formats a field can declare, plus the special `$`
      (length-prefixed string) and `@` (typed object) formats. */
  datatype Format = Bool | UnsignedByte | SignedByte | Int | Double | Text | Object {
    function Code(): char {
      match this
      case Bool => '?'
      case UnsignedByte => 'B'
      case SignedByte => 'b'
      case Int => 'i'
      case Double => 'd'
      case Text => '$'
      case Object => '@'
    }
  }

  function FormatOfCode(c: byte): (r: Option<Format>)
    ensures r.Some? ==> r.value.Code() as int == c as int
  {
    if c as int == '?' as int then Some(Bool)
    else if c as int == 'B' as int then Some(UnsignedByte)
    else if c as int == 'b' as int then Some(SignedByte)
    else if c as int == 'i' as int then Some(Int)
    else if c as int == 'd' as int then Some(Double)
    else if c as int == '$' as int then Some(Text)
    else if c as int == '@' as int then Some(Object)
    else None
  }

  /** A declared field; `fixed` is the field's constant `value`, if any. */
  datatype Field = Field(name: string, format: Format, fixed: Option<Value>)

  /** A packet specification: its name, the `private` flag its first field
      declares, and its fields in wire order. */
  datatype Spec = Spec(name: string, isPrivate: bool, fields: seq<Field>)

  type Registry = seq<Spec>

  /** The registered specification called `name` (dictionary lookup). */
  function Lookup(reg: Registry, name: string): (r: Option<Spec>)
    ensures r.Some? ==> r.value in reg && r.value.name == name
    ensures r.None? <==> forall k :: 0 <= k < |reg| ==> reg[k].name != name
  {
    if |reg| == 0 then None
    else if reg[0].name == name then Some(reg[0])
    else Lookup(reg[1..], name)
  }

  datatype Packet = Packet(contents: map<string, Value>, private: bool)

  const SPECIFICATION := "specification"
  const GROUND_STATION := "rssi_ground_station"

  /** A new packet is private and empty. */
  function NewPacket(): (p: Packet)
    ensures p.private && |p.contents| == 0
  {
    Packet(map[], true)
  }

  /** `get`: the stored value, or None for a missing key. */
  function Get(p: Packet, key: string): (v: Value)
    ensures key !in p.contents ==> v == VNone
  {
    if key in p.contents then p.contents[key] else VNone
  }

  /** Python's `v == i` for a packet value and an int: numbers compare by
      value (a bool as 0 or 1), anything else is unequal. */
  predicate EqualsInt(v: Value, i: int) {
    match v
    case VInt(j) => j == i
    case VReal(x) => x == i as real
    case VBool(b) => (if b then 1 else 0) == i
    case _ => false
  }

  /** The name of the packet's specification, when it is a registered one. */
  function RegisteredSpec(reg: Registry, p: Packet): Option<Spec> {
    match Get(p, SPECIFICATION)
    case VStr(name) => Lookup(reg, name)
    case _ => None
  }

  /** `set` stores any key. Setting the specification to a registered name
      takes the privacy flag from the registry. */
  function Set(reg: Registry, p: Packet, key: string, value: Value): (r: Packet)
    ensures Get(r, key) == value
    ensures forall k :: k != key ==> Get(r, k) == Get(p, k)
    ensures r.contents.Keys == p.contents.Keys + {key}
    ensures key == SPECIFICATION && value.VStr? && Lookup(reg, value.s).Some?
            ==> r.private == Lookup(reg, value.s).value.isPrivate
    ensures !(key == SPECIFICATION && value.VStr? && Lookup(reg, value.s).Some?)
            ==> r.private == p.private
  {
    var private :=
      if key == SPECIFICATION && value.VStr? && Lookup(reg, value.s).Some?
      then Lookup(reg, value.s).value.isPrivate
      else p.private;
    Packet(p.contents[key := value], private)
  }

  /** `unset` removes a key and leaves a packet without it unchanged. */
  function Unset(p: Packet, key: string): (r: Packet)
    ensures Get(r, key) == VNone && key !in r.contents
    ensures forall k :: k != key ==> Get(r, k) == Get(p, k)
    ensures key !in p.contents ==> r == p
    ensures r.private == p.private
  {
    Packet(p.contents - {key}, p.private)
  }

  /** A new packet whose specification is set first and whose other
      fields are then set one by one under distinct keys: only the
      specification bears on privacy, so the order of the rest is
      immaterial (`BuildIsSets`). */
  function Build(reg: Registry, spec: string, fields: map<string, Value>): (r: Packet)
    requires SPECIFICATION !in fields
    ensures r.contents == fields[SPECIFICATION := VStr(spec)]
    ensures r.private == (Lookup(reg, spec).None? || Lookup(reg, spec).value.isPrivate)
  {
    Packet(fields[SPECIFICATION := VStr(spec)], Lookup(reg, spec).None? || Lookup(reg, spec).value.isPrivate)
  }

  /** Building is setting the specification on a new packet and then
      setting one field after another. */
  lemma BuildIsSets(reg: Registry, spec: string, fields: map<string, Value>, key: string, value: Value)
    requires SPECIFICATION !in fields && key != SPECIFICATION
    ensures Build(reg, spec, map[]) == Set(reg, NewPacket(), SPECIFICATION, VStr(spec))
    ensures Build(reg, spec, fields[key := value]) == Set(reg, Build(reg, spec, fields), key, value)
  {
    assert Build(reg, spec, map[]).contents == Set(reg, NewPacket(), SPECIFICATION, VStr(spec)).contents;
    var a := Build(reg, spec, fields[key := value]);
    var c := Build(reg, spec, fields);
    var b := Set(reg, c, key, value);
    assert b.private == c.private;
    calc {
      b.contents;
      c.contents[key := value];
      fields[SPECIFICATION := VStr(spec)][key := value];
      { MapUpdatesCommute(fields, SPECIFICATION, VStr(spec), key, value); }
      fields[key := value][SPECIFICATION := VStr(spec)];
      a.contents;
    }
  }

  lemma MapUpdatesCommute<K, V>(m: map<K, V>, k1: K, v1: V, k2: K, v2: V)
    requires k1 != k2
    ensures m[k1 := v1][k2 := v2] == m[k2 := v2][k1 := v1]
  {
  }

  /** Whenever the specification names a registered one, the privacy flag
      is the registry's: every packet the model builds keeps this. */
  predicate Consistent(reg: Registry, p: Packet) {
    RegisteredSpec(reg, p).Some? ==> p.private == RegisteredSpec(reg, p).value.isPrivate
  }

  lemma ConsistentPreserved(reg: Registry, p: Packet, key: string, value: Value)
    requires Consistent(reg, p)
    ensures Consistent(reg, NewPacket())
    ensures Consistent(reg, Set(reg, p, key, value))
    ensures Consistent(reg, Unset(p, key))
  {
    var r := Set(reg, p, key, value);
    if key != SPECIFICATION {
      assert Get(r, SPECIFICATION) == Get(p, SPECIFICATION);
      assert RegisteredSpec(reg, r) == RegisteredSpec(reg, p);
    }
    var u := Unset(p, key);
    if key != SPECIFICATION {
      assert Get(u, SPECIFICATION) == Get(p, SPECIFICATION);
    }
  }

  /** The field names of the `rssi_ground_station` dump, in order. */
  const DUMP_FIELDS: seq<string> := [
    "sensor_id", "from_latitude", "from_longitude", "from_valid",
    "to_latitude", "to_longitude", "to_valid", "rssi"]

  /** The names of a specification's fields other than `id`, in order. */
  function DumpNames(fields: seq<Field>): (r: seq<string>)
    ensures |r| <= |fields|
    ensures forall k :: 0 <= k < |r| ==> r[k] != "id"
  {
    if |fields| == 0 then []
    else if fields[0].name == "id" then DumpNames(fields[1..])
    else [fields[0].name] + DumpNames(fields[1..])
  }

  /** `get_dump`: the values of the ground station fields except `id`, in
      registry order; any other specification is a ValueError. */
  function GetDump(reg: Registry, p: Packet): (r: Result<seq<Value>>)
    ensures Get(p, SPECIFICATION) != VStr(GROUND_STATION) ==> r == Err(ValueError)
    ensures Get(p, SPECIFICATION) == VStr(GROUND_STATION) && Lookup(reg, GROUND_STATION).None?
            ==> r == Err(KeyError)
    ensures r.Ok? ==> var names := DumpNames(Lookup(reg, GROUND_STATION).value.fields);
                      |r.value| == |names|
                      && forall k :: 0 <= k < |names| ==> r.value[k] == Get(p, names[k])
  {
    if Get(p, SPECIFICATION) != VStr(GROUND_STATION) then Err(ValueError)
    else match Lookup(reg, GROUND_STATION)
      case None => Err(KeyError)
      case Some(spec) =>
        var names := DumpNames(spec.fields);
        Ok(seq(|names|, k requires 0 <= k < |names| => Get(p, names[k])))
  }

  /** `set_dump`: sets the eight ground station fields from the dump.
      A dump shorter than eight raises IndexError. */
  function SetDump(reg: Registry, p: Packet, dump: seq<Value>): (r: Result<Packet>)
    ensures Get(p, SPECIFICATION) != VStr(GROUND_STATION) ==> r == Err(ValueError)
    ensures Get(p, SPECIFICATION) == VStr(GROUND_STATION) && |dump| < 8 ==> r == Err(IndexError)
    ensures r.Ok? ==> forall k :: 0 <= k < 8 ==> Get(r.value, DUMP_FIELDS[k]) == dump[k]
    ensures r.Ok? ==> forall key :: key !in DUMP_FIELDS ==> Get(r.value, key) == Get(p, key)
    ensures r.Ok? ==> r.value.private == p.private
  {
    if Get(p, SPECIFICATION) != VStr(GROUND_STATION) then Err(ValueError)
    else if |dump| < 8 then Err(IndexError)
    else Ok(SetAll(reg, p, DUMP_FIELDS, dump[..8]))
  }

  /** Sets `names[k]` to `values[k]` in order. */
  function SetAll(reg: Registry, p: Packet, names: seq<string>, values: seq<Value>): (r: Packet)
    requires |names| == |values| && SPECIFICATION !in names
    requires forall i, j :: 0 <= i < j < |names| ==> names[i] != names[j]
    ensures forall k :: 0 <= k < |names| ==> Get(r, names[k]) == values[k]
    ensures forall key :: key !in names ==> Get(r, key) == Get(p, key)
    ensures r.private == p.private
  {
    if |names| == 0 then p
    else
      var q := SetAll(reg, p, names[1..], values[1..]);
      var r := Set(reg, q, names[0], values[0]);
      assert forall k :: 1 <= k < |names| ==> names[k] == names[1..][k - 1];
      r
  }

  /** The dump layout: the ground station specification's fields are `id`
      followed by the eight dump fields. */
  predicate GroundStationLayout(reg: Registry) {
    Lookup(reg, GROUND_STATION).Some? && DumpNames(Lookup(reg, GROUND_STATION).value.fields) == DUMP_FIELDS
  }

  /** `set_dump` of a dump taken by `get_dump` reproduces every dump field,
      and `get_dump` after `set_dump` returns the eight values set. */
  lemma DumpRoundTrip(reg: Registry, p: Packet, dump: seq<Value>)
    requires GroundStationLayout(reg)
    requires Get(p, SPECIFICATION) == VStr(GROUND_STATION)
    requires |dump| == 8
    ensures GetDump(reg, p).Ok? && SetDump(reg, p, GetDump(reg, p).value).Ok?
    ensures forall key :: Get(SetDump(reg, p, GetDump(reg, p).value).value, key) == Get(p, key)
    ensures SetDump(reg, p, dump).Ok? && GetDump(reg, SetDump(reg, p, dump).value) == Ok(dump)
  {
    DumpIsRestored(reg, p);
    DumpReadsBack(reg, p, dump);
  }

  lemma DumpIsRestored(reg: Registry, p: Packet)
    requires GroundStationLayout(reg)
    requires Get(p, SPECIFICATION) == VStr(GROUND_STATION)
    ensures GetDump(reg, p).Ok? && SetDump(reg, p, GetDump(reg, p).value).Ok?
    ensures forall key :: Get(SetDump(reg, p, GetDump(reg, p).value).value, key) == Get(p, key)
  {
    var d := GetDump(reg, p).value;
    assert |d| == 8;
    var q := SetDump(reg, p, d).value;
    forall key
      ensures Get(q, key) == Get(p, key)
    {
      if key in DUMP_FIELDS {
        var k :| 0 <= k < 8 && DUMP_FIELDS[k] == key;
        assert Get(q, key) == d[k];
      }
    }
  }

  lemma DumpReadsBack(reg: Registry, p: Packet, dump: seq<Value>)
    requires GroundStationLayout(reg)
    requires Get(p, SPECIFICATION) == VStr(GROUND_STATION)
    requires |dump| == 8
    ensures SetDump(reg, p, dump).Ok? && GetDump(reg, SetDump(reg, p, dump).value) == Ok(dump)
  {
    var r := SetDump(reg, p, dump).value;
    assert Get(r, SPECIFICATION) == Get(p, SPECIFICATION);
    assert GetDump(reg, r).Ok?;
    var e := GetDump(reg, r).value;
    assert |e| == 8;
    forall k | 0 <= k < 8
      ensures e[k] == dump[k]
    {
      assert e[k] == Get(r, DUMP_FIELDS[k]);
    }
    assert e == dump;
  }
}

=== FILE: packet_codec.dfy ===
/** Serialisation of packets (`serialize`, `_pack_field`, `unserialize`,
    `_read_format` of zigbee/Packet.py). The first byte is the
    specification id; the other fields follow in registry order. */
module PacketCodec {
  import opened Wrappers
  import opened Octets
  import opened Packets

  predicate InRange(v: Value, lo: int, hi: int) {
    v.VInt? && lo <= v.i < hi
  }

  /** The `struct` type code the `@` format records for a packable value. */
  function ObjectFormat(v: Value): Option<Format> {
    match v
    case VBool(_) => Some(Bool)
    case VInt(_) => Some(Int)
    case VReal(_) => Some(Double)
    case VStr(_) => Some(Text)
    case _ => None
  }

  /** `_pack_field`; None stands for the `struct.error` of a value that
      does not fit its format. */
  function PackField(f: Format, v: Value): (r: Option<seq<Octet>>)
    ensures r.Some? ==> |r.value| >= 1
    ensures f == Bool ==> (r.Some? <==> v.VBool?)
    ensures f == UnsignedByte ==> (r.Some? <==> InRange(v, 0, 256))
    ensures f == SignedByte ==> (r.Some? <==> InRange(v, -128, 128))
    ensures f == Int ==> (r.Some? <==> InRange(v, -0x8000_0000, 0x8000_0000)) && (r.Some? ==> |r.value| == 4)
    ensures f == Double ==> (r.Some? <==> v.VReal?)
    ensures f == Text && r.Some? ==> v.VStr? && |v.s| < 256 && |r.value| == |v.s| + 1 && r.value[0] == Byte(|v.s| as byte)
    ensures f == Object && r.Some? ==> r.value[0] == Byte(if ObjectFormat(v).Some? then 1 else 0)
    ensures f == Object && ObjectFormat(v).None? ==> (r.Some? <==> v.VObject? && |v.compressed| < 256)
    decreases f == Object
  {
    match f
    case Bool => if v.VBool? then Some([Byte(if v.b then 1 else 0)]) else None
    case UnsignedByte => if InRange(v, 0, 256) then Some([Byte(v.i as byte)]) else None
    case SignedByte =>
      if InRange(v, -128, 128) then Some([Byte(SignedPattern(v.i, 1) as byte)]) else None
    case Int =>
      if InRange(v, -0x8000_0000, 0x8000_0000) then Some(ToLittleEndian(SignedPattern(v.i, 4), 4))
      else None
    case Double => if v.VReal? then Some(DoubleOctets(v.r)) else None
    case Text =>
      if v.VStr? && |v.s| < 256 && IsByteString(v.s)
      then Some([Byte(|v.s| as byte)] + StringOctets(v.s))
      else None
    case Object =>
      match ObjectFormat(v)
      case Some(inner) =>
        (match PackField(inner, v)
         case Some(packed) => Some([Byte(1), Byte(inner.Code() as int as byte)] + packed)
         case None => None)
      case None =>
        if v.VObject? && |v.compressed| < 256
        then Some([Byte(0), Byte(|v.compressed| as byte)] + BytesOf(v.compressed))
        else None
  }

  function BytesOf(bs: seq<byte>): (r: seq<Octet>)
    ensures |r| == |bs| && forall k :: 0 <= k < |bs| ==> r[k] == Byte(bs[k])
  {
    seq(|bs|, k requires 0 <= k < |bs| => Byte(bs[k]))
  }

  /** `_read_packed("B")`: one plain byte. */
  function ReadByte(bs: seq<Octet>, off: nat): Option<byte> {
    if off < |bs| && bs[off].Byte? then Some(bs[off].b) else None
  }

  /** `_read_format`: the value of format `f` at `off` and the offset after
      it; None stands for a `struct.error` (too few bytes, or an unknown
      type code in an `@` field). */
  function ReadFormat(f: Format, bs: seq<Octet>, off: nat): (r: Option<(Value, nat)>)
    ensures r.Some? ==> off < r.value.1 <= |bs|
    decreases |bs| - off
  {
    match f
    case Bool =>
      if ReadByte(bs, off).Some? then Some((VBool(ReadByte(bs, off).value != 0), off + 1)) else None
    case UnsignedByte =>
      if ReadByte(bs, off).Some? then Some((VInt(ReadByte(bs, off).value as int), off + 1)) else None
    case SignedByte =>
      if ReadByte(bs, off).Some?
      then Some((VInt(FromSignedPattern(ReadByte(bs, off).value as int, 1)), off + 1))
      else None
    case Int =>
      if off + 4 <= |bs| && FromLittleEndian(bs[off..off + 4]).Some?
      then Some((VInt(FromSignedPattern(FromLittleEndian(bs[off..off + 4]).value, 4)), off + 4))
      else None
    case Double =>
      if off + 8 <= |bs| && bs[off].DoublePart?
         && forall k :: 0 <= k < 8 ==> bs[off + k] == DoublePart(bs[off].value, k)
      then Some((VReal(bs[off].value), off + 8))
      else None
    case Text =>
      if ReadByte(bs, off).None? then None
      else
        var len := ReadByte(bs, off).value as int;
        if off + 1 + len <= |bs| && OctetString(bs[off + 1..off + 1 + len]).Some?
        then Some((VStr(OctetString(bs[off + 1..off + 1 + len]).value), off + 1 + len))
        else None
    case Object =>
      if ReadByte(bs, off).None? || ReadByte(bs, off + 1).None? then None
      else
        var flag := ReadByte(bs, off).value;
        var second := ReadByte(bs, off + 1).value;
        if flag != 0 then
          if FormatOfCode(second).Some? then ReadFormat(FormatOfCode(second).value, bs, off + 2) else None
        else if off + 2 + second as int <= |bs|
                && forall k :: off + 2 <= k < off + 2 + second as int ==> bs[k].Byte?
        then Some((VObject(seq(second as int, k requires 0 <= k < second as int => bs[off + 2 + k].b)),
                   off + 2 + second as int))
        else None
  }

  /** Reading a packed value back at any position of a longer string
      yields the value and consumes exactly its encoding. */
  lemma FieldRoundTrip(f: Format, v: Value, pre: seq<Octet>, post: seq<Octet>)
    requires PackField(f, v).Some?
    ensures var enc := PackField(f, v).value;
            ReadFormat(f, pre + enc + post, |pre|) == Some((v, |pre| + |enc|))
  {
    if f == Object {
      ObjectRoundTrip(v, pre, post);
    } else {
      ScalarRoundTrip(f, v, pre, post);
    }
  }

  lemma ScalarRoundTrip(f: Format, v: Value, pre: seq<Octet>, post: seq<Octet>)
    requires f != Object && PackField(f, v).Some?
    ensures var enc := PackField(f, v).value;
            ReadFormat(f, pre + enc + post, |pre|) == Some((v, |pre| + |enc|))
  {
    match f
    case Bool => OneByteRoundTrip(f, v, pre, post);
    case UnsignedByte => OneByteRoundTrip(f, v, pre, post);
    case SignedByte => OneByteRoundTrip(f, v, pre, post);
    case Int => IntRoundTrip(v, pre, post);
    case Double => DoubleRoundTrip(v, pre, post);
    case Text => TextRoundTrip(v, pre, post);
  }

  /** An `@` field: a plain value behind its flag and format code, or an
      object behind its flag and length. */
  lemma ObjectRoundTrip(v: Value, pre: seq<Octet>, post: seq<Octet>)
    requires PackField(Object, v).Some?
    ensures var enc := PackField(Object, v).value;
            ReadFormat(Object, pre + enc + post, |pre|) == Some((v, |pre| + |enc|))
  {
    if ObjectFormat(v).Some? {
      TaggedRoundTrip(v, ObjectFormat(v).value, pre, post);
    } else {
      BlobRoundTrip(v, pre, post);
    }
  }

  /** A plain value in an `@` field: flag 1, its format code, its packing. */
  lemma TaggedRoundTrip(v: Value, inner: Format, pre: seq<Octet>, post: seq<Octet>)
    requires ObjectFormat(v) == Some(inner) && PackField(Object, v).Some?
    ensures var enc := PackField(Object, v).value;
            ReadFormat(Object, pre + enc + post, |pre|) == Some((v, |pre| + |enc|))
  {
    var enc := PackField(Object, v).value;
    var packed := PackField(inner, v).value;
    var code := inner.Code() as int as byte;
    var tag := [Byte(1), Byte(code)];
    assert enc == tag + packed;
    var bs := pre + enc + post;
    var off := |pre|;
    assert bs == (pre + tag) + packed + post;
    assert bs[off] == Byte(1) && bs[off + 1] == Byte(code);
    assert FormatOfCode(code) == Some(inner);
    assert ReadFormat(Object, bs, off) == ReadFormat(inner, bs, off + 2);
    ScalarRoundTrip(inner, v, pre + tag, post);
  }

  lemma OneByteRoundTrip(f: Format, v: Value, pre: seq<Octet>, post: seq<Octet>)
    requires f == Bool || f == UnsignedByte || f == SignedByte
    requires PackField(f, v).Some?
    ensures var enc := PackField(f, v).value;
            ReadFormat(f, pre + enc + post, |pre|) == Some((v, |pre| + |enc|))
  {
    var enc := PackField(f, v).value;
    assert |enc| == 1 && (pre + enc + post)[|pre|] == enc[0];
    if f == SignedByte {
      SignedRoundTrip(v.i, 1);
    }
  }

  lemma IntRoundTrip(v: Value, pre: seq<Octet>, post: seq<Octet>)
    requires PackField(Int, v).Some?
    ensures var enc := PackField(Int, v).value;
            ReadFormat(Int, pre + enc + post, |pre|) == Some((v, |pre| + |enc|))
  {
    var enc := PackField(Int, v).value;
    var bs := pre + enc + post;
    var off := |pre|;
    var u := SignedPattern(v.i, 4);
    assert enc == ToLittleEndian(u, 4);
    assert bs[off..off + 4] == enc;
    LittleEndianRoundTrip(u, 4);
    SignedRoundTrip(v.i, 4);
  }

  lemma DoubleRoundTrip(v: Value, pre: seq<Octet>, post: seq<Octet>)
    requires PackField(Double, v).Some?
    ensures var enc := PackField(Double, v).value;
            ReadFormat(Double, pre + enc + post, |pre|) == Some((v, |pre| + |enc|))
  {
    var enc := PackField(Double, v).value;
    var bs := pre + enc + post;
    assert forall k :: 0 <= k < 8 ==> bs[|pre| + k] == enc[k];
  }

  lemma TextRoundTrip(v: Value, pre: seq<Octet>, post: seq<Octet>)
    requires PackField(Text, v).Some?
    ensures var enc := PackField(Text, v).value;
            ReadFormat(Text, pre + enc + post, |pre|) == Some((v, |pre| + |enc|))
  {
    var enc := PackField(Text, v).value;
    var bs := pre + enc + post;
    var off := |pre|;
    assert enc == [Byte(|v.s| as byte)] + StringOctets(v.s);
    assert bs[off] == Byte(|v.s| as byte);
    assert bs[off + 1..off + 1 + |v.s|] == StringOctets(v.s);
    StringRoundTrip(v.s);
  }

  lemma BlobRoundTrip(v: Value, pre: seq<Octet>, post: seq<Octet>)
    requires ObjectFormat(v).None? && PackField(Object, v).Some?
    ensures var enc := PackField(Object, v).value;
            ReadFormat(Object, pre + enc + post, |pre|) == Some((v, |pre| + |enc|))
  {
    var enc := PackField(Object, v).value;
    var bs := pre + enc + post;
    var off := |pre|;
    var c := v.compressed;
    assert enc == [Byte(0), Byte(|c| as byte)] + BytesOf(c);
    assert forall k :: 0 <= k < |enc| ==> bs[off + k] == enc[k];
    var got := seq(|c|, k requires 0 <= k < |c| => bs[off + 2 + k].b);
    assert got == c;
  }

  /** The value a field contributes: its fixed value, else the contents. */
  function FieldValue(fld: Field, contents: map<string, Value>): Option<Value> {
    if fld.fixed.Some? then fld.fixed
    else if fld.name in contents then Some(contents[fld.name])
    else None
  }

  /** The fields packed in order; a missing field is a KeyError and a
      value its format cannot hold a ValueError, whichever comes first. */
  function PackFields(fields: seq<Field>, contents: map<string, Value>): (r: Result<seq<Octet>>)
    ensures r.Err? ==> r.error == KeyError || r.error == ValueError
    ensures r.Ok? ==> forall k :: 0 <= k < |fields| ==> FieldValue(fields[k], contents).Some?
  {
    if |fields| == 0 then Ok([])
    else
      if FieldValue(fields[0], contents).None? then Err(KeyError)
      else if PackField(fields[0].format, FieldValue(fields[0], contents).value).None? then Err(ValueError)
      else
        var head := PackField(fields[0].format, FieldValue(fields[0], contents).value).value;
        match PackFields(fields[1..], contents)
        case Err(e) => Err(e)
        case Ok(tail) =>
          assert forall k :: 1 <= k < |fields| ==> fields[k] == fields[1..][k - 1];
          Ok(head + tail)
  }

  /** `serialize`. */
  function Serialize(reg: Registry, p: Packet): (r: Result<seq<Octet>>)
    ensures SPECIFICATION !in p.contents ==> r == Err(KeyError)
    ensures RegisteredSpec(reg, p).None? ==> r == Err(KeyError)
    ensures r.Ok? ==> RegisteredSpec(reg, p).Some?
                      && r == PackFields(RegisteredSpec(reg, p).value.fields, p.contents)
  {
    if SPECIFICATION !in p.contents then Err(KeyError)
    else match RegisteredSpec(reg, p)
      case None => Err(KeyError)
      case Some(spec) => PackFields(spec.fields, p.contents)
  }

  /** The specification whose first field's fixed value is `id`, scanning
      the registry in order; a specification without fields or without a
      fixed first value makes the scan fail as the dictionary access does. */
  function FindById(reg: Registry, id: byte): (r: Result<Spec>)
    ensures r.Ok? ==> r.value in reg && |r.value.fields| >= 1 && r.value.fields[0].fixed == Some(VInt(id as int))
  {
    if |reg| == 0 then Err(KeyError)
    else if |reg[0].fields| == 0 then Err(IndexError)
    else if reg[0].fields[0].fixed.None? then Err(KeyError)
    else if reg[0].fields[0].fixed == Some(VInt(id as int)) then Ok(reg[0])
    else FindById(reg[1..], id)
  }

  /** Reads the fields without a fixed value, in order, into `acc`. */
  function ReadFields(fields: seq<Field>, bs: seq<Octet>, off: nat, acc: map<string, Value>)
    : (r: Option<map<string, Value>>)
    ensures r.Some? ==> acc.Keys <= r.value.Keys
    decreases |fields|
  {
    if |fields| == 0 then Some(acc)
    else if fields[0].fixed.Some? then ReadFields(fields[1..], bs, off, acc)
    else
      match ReadFormat(fields[0].format, bs, off)
      case None => None
      case Some((v, next)) => ReadFields(fields[1..], bs, next, acc[fields[0].name := v])
  }

  /** `unserialize` into the packet `p`: an empty string fails before any
      lookup, an unknown id is a KeyError, a short or malformed field a
      ValueError. The fields, the specification name and the privacy flag
      are written over `p`. */
  function Unserialize(reg: Registry, p: Packet, bs: seq<Octet>): (r: Result<Packet>)
    ensures ReadByte(bs, 0).None? ==> r == Err(StructError)
    ensures r.Ok? ==> ReadByte(bs, 0).Some?
                      && (exists spec :: spec in reg && |spec.fields| >= 1
                            && r.value.private == spec.isPrivate
                            && spec.fields[0].fixed == Some(VInt(bs[0].b as int)))
  {
    if ReadByte(bs, 0).None? then Err(StructError)
    else
      match FindById(reg, ReadByte(bs, 0).value)
      case Err(e) => Err(e)
      case Ok(spec) =>
        match ReadFields(spec.fields, bs, 1, p.contents[SPECIFICATION := VStr(spec.name)])
        case None => Err(ValueError)
        case Some(contents) => Ok(Packet(contents, spec.isPrivate))
  }

  /** A well-formed registry: every specification starts with an unsigned
      byte field holding its distinct id, and no other field is fixed
      (`unserialize` skips fixed fields without consuming their bytes). */
  predicate WellFormed(reg: Registry) {
    (forall i :: 0 <= i < |reg| ==>
       |reg[i].fields| >= 1
       && reg[i].fields[0].format == UnsignedByte
       && InRangeId(reg[i].fields[0].fixed)
       && forall k :: 1 <= k < |reg[i].fields| ==> reg[i].fields[k].fixed.None?)
    && forall i, j :: 0 <= i < j < |reg| ==> reg[i].fields[0].fixed != reg[j].fields[0].fixed
  }

  predicate InRangeId(fixed: Option<Value>) {
    fixed.Some? && InRange(fixed.value, 0, 256)
  }

  lemma {:induction false} FindByIdFinds(reg: Registry, i: nat)
    requires WellFormed(reg) && i < |reg|
    ensures FindById(reg, reg[i].fields[0].fixed.value.i as byte) == Ok(reg[i])
  {
    if i > 0 {
      assert WellFormed(reg[1..]) by {
        assert forall k :: 0 <= k < |reg| - 1 ==> reg[1..][k] == reg[k + 1];
      }
      FindByIdFinds(reg[1..], i - 1);
    }
  }

  /** The first byte `serialize` emits is the specification's id: the
      fixed value of its first field, not anything in the contents. */
  lemma SerializeStartsWithId(reg: Registry, p: Packet)
    requires WellFormed(reg)
    requires Serialize(reg, p).Ok?
    ensures var spec := RegisteredSpec(reg, p).value;
            |Serialize(reg, p).value| >= 1
            && Serialize(reg, p).value[0] == Byte(spec.fields[0].fixed.value.i as byte)
  {
    var spec := RegisteredSpec(reg, p).value;
    var i := LookupIndex(reg, Get(p, SPECIFICATION).s);
    assert reg[i] == spec;
    var head := PackField(UnsignedByte, spec.fields[0].fixed.value).value;
    assert head == [Byte(spec.fields[0].fixed.value.i as byte)];
  }

  /** An id byte that no specification of a well-formed registry carries
      makes `unserialize` raise KeyError. */
  lemma {:induction false} UnknownIdIsKeyError(reg: Registry, p: Packet, bs: seq<Octet>)
    requires WellFormed(reg)
    requires ReadByte(bs, 0).Some?
    requires forall i :: 0 <= i < |reg| ==> reg[i].fields[0].fixed != Some(VInt(bs[0].b as int))
    ensures FindById(reg, bs[0].b) == Err(KeyError)
    ensures Unserialize(reg, p, bs) == Err(KeyError)
    decreases |reg|
  {
    if |reg| > 0 {
      assert WellFormed(reg[1..]) by {
        assert forall k :: 0 <= k < |reg| - 1 ==> reg[1..][k] == reg[k + 1];
      }
      UnknownIdIsKeyError(reg[1..], p, bs);
    }
  }

  lemma LookupIndex(reg: Registry, name: string) returns (i: nat)
    requires Lookup(reg, name).Some?
    ensures i < |reg| && reg[i] == Lookup(reg, name).value
  {
    if reg[0].name == name {
      i := 0;
    } else {
      var j := LookupIndex(reg[1..], name);
      i := j + 1;
    }
  }

  /** The names of a run of fields. */
  function Names(fields: seq<Field>): set<string> {
    set k | 0 <= k < |fields| :: fields[k].name
  }

  /** `acc` with each field name bound to its value in `contents`. */
  function Overlay(fields: seq<Field>, contents: map<string, Value>, acc: map<string, Value>)
    : map<string, Value>
    requires forall k :: 0 <= k < |fields| ==> fields[k].name in contents
  {
    if |fields| == 0 then acc
    else Overlay(fields[1..], contents, acc[fields[0].name := contents[fields[0].name]])
  }

  lemma {:induction false} OverlayIsUnion(fields: seq<Field>, contents: map<string, Value>, acc: map<string, Value>)
    requires forall k :: 0 <= k < |fields| ==> fields[k].name in contents
    ensures Overlay(fields, contents, acc)
            == acc + map key | key in Names(fields) && key in contents :: contents[key]
  {
    if |fields| > 0 {
      var n := fields[0].name;
      var rest := fields[1..];
      assert forall k :: 0 <= k < |rest| ==> rest[k] == fields[k + 1];
      OverlayIsUnion(rest, contents, acc[n := contents[n]]);
      assert Names(fields) == {n} + Names(rest) by {
        forall x | x in Names(fields) ensures x in {n} + Names(rest) {
          var k :| 0 <= k < |fields| && fields[k].name == x;
          if k > 0 { assert rest[k - 1] == fields[k]; }
        }
      }
      UnionStep(acc, contents, n, Names(rest));
    } else {
      assert Names(fields) == {};
    }
  }

  /** Binding one more name first is the same as widening the union. */
  lemma UnionStep(acc: map<string, Value>, contents: map<string, Value>, n: string, names: set<string>)
    requires n in contents
    ensures acc[n := contents[n]] + (map key | key in names && key in contents :: contents[key])
            == acc + (map key | key in {n} + names && key in contents :: contents[key])
  {
  }

  /** Reading the packed encoding of non-fixed fields overlays their
      values on the accumulated contents. */
  lemma {:induction false} ReadPackedFields(fields: seq<Field>, contents: map<string, Value>,
                                            pre: seq<Octet>, post: seq<Octet>, acc: map<string, Value>)
    requires forall k :: 0 <= k < |fields| ==> fields[k].fixed.None?
    requires PackFields(fields, contents).Ok?
    ensures forall k :: 0 <= k < |fields| ==> fields[k].name in contents
    ensures ReadFields(fields, pre + PackFields(fields, contents).value + post, |pre|, acc)
            == Some(Overlay(fields, contents, acc))
    decreases |fields|
  {
    assert forall k :: 0 <= k < |fields| ==> FieldValue(fields[k], contents).Some?;
    if |fields| > 0 {
      var f := fields[0];
      var v := contents[f.name];
      var head := PackField(f.format, v).value;
      var rest := fields[1..];
      PackFieldsStep(fields, contents);
      var tail := PackFields(rest, contents).value;
      var bs := pre + head + tail + post;
      assert bs == pre + PackFields(fields, contents).value + post;
      FieldRoundTrip(f.format, v, pre, tail + post);
      assert pre + head + (tail + post) == bs;
      ReadFieldsStep(fields, bs, |pre|, acc, v, |pre + head|);
      assert forall k :: 0 <= k < |rest| ==> rest[k] == fields[k + 1];
      ReadPackedFields(rest, contents, pre + head, post, acc[f.name := v]);
    }
  }

  lemma PackFieldsStep(fields: seq<Field>, contents: map<string, Value>)
    requires |fields| > 0 && fields[0].fixed.None? && PackFields(fields, contents).Ok?
    ensures fields[0].name in contents
    ensures PackField(fields[0].format, contents[fields[0].name]).Some?
    ensures PackFields(fields[1..], contents).Ok?
    ensures PackFields(fields, contents).value
            == PackField(fields[0].format, contents[fields[0].name]).value + PackFields(fields[1..], contents).value
  {
  }

  lemma ReadFieldsStep(fields: seq<Field>, bs: seq<Octet>, off: nat, acc: map<string, Value>, v: Value, next: nat)
    requires |fields| > 0 && fields[0].fixed.None?
    requires ReadFormat(fields[0].format, bs, off) == Some((v, next))
    ensures ReadFields(fields, bs, off, acc) == ReadFields(fields[1..], bs, next, acc[fields[0].name := v])
  {
  }

  /** `unserialize(serialize(p))` restores the specification name, the
      privacy flag and every declared field, and leaves the other keys of
      the receiving packet as they were. */
  lemma SerializeRoundTrip(reg: Registry, p: Packet, q: Packet)
    requires WellFormed(reg)
    requires Serialize(reg, p).Ok?
    ensures var spec := RegisteredSpec(reg, p).value;
            var r := Unserialize(reg, q, Serialize(reg, p).value);
            r.Ok?
            && Get(r.value, SPECIFICATION) == VStr(spec.name)
            && r.value.private == spec.isPrivate
            && (forall k :: 1 <= k < |spec.fields| ==> Get(r.value, spec.fields[k].name) == Get(p, spec.fields[k].name))
            && (forall key :: key != SPECIFICATION && key !in Names(spec.fields[1..]) ==> Get(r.value, key) == Get(q, key))
  {
    var spec := RegisteredSpec(reg, p).value;
    var fields := spec.fields;
    var rest := fields[1..];
    UnserializeSerialized(reg, p, q);
    var r := Unserialize(reg, q, Serialize(reg, p).value);
    forall k | 1 <= k < |fields|
      ensures Get(r.value, fields[k].name) == Get(p, fields[k].name)
    {
      assert rest[k - 1] == fields[k];
    }
  }

  /** The packet `unserialize` rebuilds from a serialization: the
      receiving packet's contents, the specification name, and the values
      of the non-fixed fields laid over them. */
  lemma UnserializeSerialized(reg: Registry, p: Packet, q: Packet)
    requires WellFormed(reg)
    requires Serialize(reg, p).Ok?
    ensures var spec := RegisteredSpec(reg, p).value;
            Unserialize(reg, q, Serialize(reg, p).value)
            == Ok(Packet(q.contents[SPECIFICATION := VStr(spec.name)]
                         + map key | key in Names(spec.fields[1..]) && key in p.contents :: p.contents[key],
                         spec.isPrivate))
  {
    var spec := RegisteredSpec(reg, p).value;
    var i := LookupIndex(reg, Get(p, SPECIFICATION).s);
    var bs := Serialize(reg, p).value;
    var fields := spec.fields;
    var id := fields[0].fixed.value.i as byte;
    var rest := fields[1..];
    var head := PackField(UnsignedByte, fields[0].fixed.value).value;
    var tail := PackFields(rest, p.contents).value;
    assert bs == head + tail;
    assert head == [Byte(id)];
    assert ReadByte(bs, 0) == Some(id);
    FindByIdFinds(reg, i);
    var acc := q.contents[SPECIFICATION := VStr(spec.name)];
    assert forall k :: 0 <= k < |rest| ==> rest[k] == fields[k + 1];
    ReadPackedFields(rest, p.contents, head, [], acc);
    assert head + tail + [] == bs;
    assert ReadFields(fields, bs, 1, acc) == ReadFields(rest, bs, 1, acc);
    OverlayIsUnion(rest, p.contents, acc);
  }
}

=== FILE: physical_xbee.dfy ===
/** The XBee-branded physical sensor (zigbee/RF_Sensor_Physical_XBee.py).
    A received broadcast is kept in a pending map under a frame id until
    the radio answers the matching DB (signal strength) request; `_send`
    relays only the completed packets. AT responses fill in the address,
    the node identifier and the join state. The XBee library, the serial
    port and the random frame id are left out: frames and AT requests are
    outputs, and the frame id is a parameter. The physical base class,
    zigbee/RF_Sensor_Physical.py, is not part of this model: its `_process`
    and `_process_rssi_broadcast_packet` answers are parameters. */
module PhysicalXBee {
  import opened Wrappers
  import opened Octets
  import opened Packets
  import Tdma
  import Decimal
  import PacketCodec
  import RfSensor

  /** A received broadcast's ground-station packet waiting for its RSSI. */
  datatype Pending = Pending(frameId: int, packet: Packet)

  datatype Device = Device(
    base: RfSensor.Sensor,
    pending: seq<Pending>,
    nodeIdentifierSet: bool,
    addressSet: bool)

  predicate Invariant(d: Device) {
    RfSensor.Invariant(d.base)
  }

  /** The pending map in insertion order: a frame id occurs at most once. */
  predicate DistinctIds(ps: seq<Pending>) {
    forall i, j :: 0 <= i < j < |ps| ==> ps[i].frameId != ps[j].frameId
  }

  /** The dictionary lookup `_packets[frame_id]`. */
  function Find(ps: seq<Pending>, frameId: int): (r: Option<Packet>)
    ensures r.None? ==> forall i :: 0 <= i < |ps| ==> ps[i].frameId != frameId
    ensures r.Some? ==> Pending(frameId, r.value) in ps
  {
    if |ps| == 0 then None
    else if ps[0].frameId == frameId then Some(ps[0].packet)
    else
      var r := Find(ps[1..], frameId);
      assert forall i :: 1 <= i < |ps| ==> ps[i] == ps[1..][i - 1];
      r
  }

  /** `_packets[frame_id] = packet`: a known frame id keeps its place, a new
      one goes last. */
  function Store(ps: seq<Pending>, frameId: int, packet: Packet): (r: seq<Pending>)
    ensures Find(r, frameId) == Some(packet)
    ensures forall k :: k != frameId ==> Find(r, k) == Find(ps, k)
    ensures Find(ps, frameId).None? ==> r == ps + [Pending(frameId, packet)]
    ensures Find(ps, frameId).Some? ==> |r| == |ps|
  {
    if |ps| == 0 then [Pending(frameId, packet)]
    else if ps[0].frameId == frameId then [Pending(frameId, packet)] + ps[1..]
    else [ps[0]] + Store(ps[1..], frameId, packet)
  }

  /** Every frame id in the map is found by the lookup. */
  lemma {:induction false} FindsEveryId(ps: seq<Pending>, i: int)
    requires 0 <= i < |ps|
    ensures Find(ps, ps[i].frameId).Some?
  {
    if i > 0 && ps[0].frameId != ps[i].frameId {
      FindsEveryId(ps[1..], i - 1);
    }
  }

  /** Storing keeps the frame ids of the map distinct. */
  lemma {:induction false} StoreKeepsIdsDistinct(ps: seq<Pending>, frameId: int, packet: Packet)
    requires DistinctIds(ps)
    ensures DistinctIds(Store(ps, frameId, packet))
  {
    if |ps| > 0 && ps[0].frameId != frameId {
      var rest := ps[1..];
      assert forall i :: 0 <= i < |rest| ==> rest[i] == ps[i + 1];
      StoreKeepsIdsDistinct(rest, frameId, packet);
      var r := Store(rest, frameId, packet);
      forall k | 0 <= k < |r|
        ensures r[k].frameId != ps[0].frameId
      {
        if r[k].frameId == ps[0].frameId {
          FindsEveryId(r, k);
        }
      }
      assert Store(ps, frameId, packet) == [ps[0]] + r;
    }
  }

  /** A DB response: the packet waiting under `frameId`, if any, gets the
      RSSI (see `SetRssiEffect`). */
  function SetRssi(reg: Registry, ps: seq<Pending>, frameId: int, rssi: int): (r: seq<Pending>)
    ensures |r| == |ps|
  {
    if |ps| == 0 then []
    else
      var head := if ps[0].frameId == frameId then Pending(frameId, Set(reg, ps[0].packet, "rssi", VInt(rssi)))
                  else ps[0];
      [head] + SetRssi(reg, ps[1..], frameId, rssi)
  }

  /** A DB response changes exactly the entries under its frame id, and
      those only by setting the RSSI; an unknown frame id changes nothing. */
  lemma {:induction false} SetRssiEffect(reg: Registry, ps: seq<Pending>, frameId: int, rssi: int)
    ensures var r := SetRssi(reg, ps, frameId, rssi);
            (forall i :: 0 <= i < |ps| && ps[i].frameId != frameId ==> r[i] == ps[i])
            && (forall i :: 0 <= i < |ps| && ps[i].frameId == frameId ==>
                  r[i] == Pending(frameId, Set(reg, ps[i].packet, "rssi", VInt(rssi))))
    ensures Find(ps, frameId).None? ==> SetRssi(reg, ps, frameId, rssi) == ps
  {
    if |ps| > 0 {
      SetRssiEffect(reg, ps[1..], frameId, rssi);
      var r := SetRssi(reg, ps, frameId, rssi);
      assert r[1..] == SetRssi(reg, ps[1..], frameId, rssi);
      assert forall i :: 1 <= i < |ps| ==> ps[i] == ps[1..][i - 1] && r[i] == r[1..][i - 1];
      if Find(ps, frameId).None? {
        assert ps == [ps[0]] + ps[1..];
      }
    }
  }

  /** A pending packet is complete once its RSSI has arrived. */
  predicate Complete(e: Pending) {
    Get(e.packet, "rssi") != VNone
  }

  /** The frames `_send` makes of visited entries: the complete ones, to
      the ground station, in map order. */
  function Reports(ps: seq<Pending>): (r: seq<RfSensor.Frame>)
    ensures forall i :: 0 <= i < |r| ==> r[i].to == 0
  {
    if |ps| == 0 then []
    else
      var last := ps[|ps| - 1];
      Reports(ps[..|ps| - 1]) + (if Complete(last) then [RfSensor.Frame(last.packet, 0)] else [])
  }

  /** The visited entries `_send` keeps: the incomplete ones, in order. */
  function Remaining(ps: seq<Pending>): (r: seq<Pending>)
  {
    if |ps| == 0 then []
    else
      var last := ps[|ps| - 1];
      Remaining(ps[..|ps| - 1]) + (if Complete(last) then [] else [last])
  }

  /** Visiting the pending entries splits them: every complete entry is
      sent to the ground station and dropped, every incomplete one stays,
      and nothing else is sent or kept. */
  lemma {:induction false} ReportsPartition(ps: seq<Pending>)
    ensures |Reports(ps)| + |Remaining(ps)| == |ps|
    ensures forall e :: e in Remaining(ps) <==> e in ps && !Complete(e)
    ensures forall e :: e in ps && Complete(e) ==> RfSensor.Frame(e.packet, 0) in Reports(ps)
    ensures forall f :: f in Reports(ps) ==> exists e :: e in ps && Complete(e) && f == RfSensor.Frame(e.packet, 0)
  {
    if |ps| > 0 {
      var init := ps[..|ps| - 1];
      var last := ps[|ps| - 1];
      assert ps == init + [last];
      ReportsPartition(init);
      forall f | f in Reports(ps)
        ensures exists e :: e in ps && Complete(e) && f == RfSensor.Frame(e.packet, 0)
      {
        if f in Reports(init) {
          var e :| e in init && Complete(e) && f == RfSensor.Frame(e.packet, 0);
          assert e in ps;
        } else {
          assert Complete(last) && f == RfSensor.Frame(last.packet, 0);
        }
      }
    }
  }

  /** `start`: the base `start`, and the pending map is emptied. */
  function Start(d: Device, now: real): (r: Device)
    requires Invariant(d)
    ensures Invariant(r) && r.pending == [] && r.base.started
    ensures r.base == RfSensor.Start(d.base, now)
    ensures r.(base := d.base, pending := d.pending) == d
  {
    d.(base := RfSensor.Start(d.base, now), pending := [])
  }

  /** How many pending entries `_send` visits before its slot ends, when
      `checks` slot checks succeed and the broadcasts used one per id;
      which entries these are depends on the order the map is iterated
      in. */
  function Visited(d: Device, checks: nat): (m: nat)
    ensures m <= |d.pending|
    ensures checks >= RfSensor.Count(d.base.numberOfSensors) + |d.pending| ==> m == |d.pending|
    ensures checks <= RfSensor.Count(d.base.numberOfSensors) ==> m == 0
    ensures checks > RfSensor.Count(d.base.numberOfSensors) + m ==> m == |d.pending|
  {
    var n := RfSensor.Count(d.base.numberOfSensors);
    var spare := if checks > n then checks - n else 0;
    if spare < |d.pending| then spare else |d.pending|
  }

  /** An order in which a copy of the pending map can be iterated: every
      entry exactly once. The dictionary's own order is not insertion
      order, so `_send` takes it as given. */
  predicate IterationOrder(visit: seq<Pending>, pending: seq<Pending>) {
    |visit| == |pending| && multiset(visit) == multiset(pending)
  }

  /** The map after `_send` popped the complete entries among those it
      visited: every other entry stays, in its place. */
  function Keep(ps: seq<Pending>, seen: seq<Pending>): (r: seq<Pending>)
    ensures forall e :: e in r <==> e in ps && !(e in seen && Complete(e))
    ensures |r| <= |ps|
  {
    if |ps| == 0 then []
    else (if ps[0] in seen && Complete(ps[0]) then [] else [ps[0]]) + Keep(ps[1..], seen)
  }

  /** `_send` with a broadcast made for each destination (see Findings in
      the README for the call as written). The broadcasts go out as in the
      base runtime; then the pending entries are visited in the map's
      iteration order `visit`, each costing one slot check, and the
      complete ones go to the ground station and leave the map. On a
      closed connection the first frame raises DisabledException and
      nothing changes. */
  method Send(d: Device, checks: nat, broadcast: int -> Packet, visit: seq<Pending>)
    returns (r: Device, sent: seq<RfSensor.Frame>, err: Option<Error>)
    requires IterationOrder(visit, d.pending)
    ensures d.base.connected ==>
      err.None?
      && sent == RfSensor.Broadcasts(d.base, checks, broadcast) + Reports(visit[..Visited(d, checks)])
      && r == d.(pending := Keep(d.pending, visit[..Visited(d, checks)]))
    ensures !d.base.connected ==> (r == d && sent == [] &&
      (err.None? <==> RfSensor.Broadcasts(d.base, checks, broadcast) + Reports(visit[..Visited(d, checks)]) == []))
    ensures err.Some? ==> err == Some(Disabled)
  {
    var out, left := RfSensor.BroadcastAll(d.base, checks, broadcast);
    var reports, kept, j := [], [], 0;
    if left > 0 {
      reports, kept, j := VisitPending(visit, left);
    }
    assert j == Visited(d, checks);
    if !d.base.connected {
      if |out + reports| > 0 {
        return d, [], Some(Disabled);
      }
      return d, [], None;
    }
    return d.(pending := Keep(d.pending, visit[..j])), out + reports, None;
  }

  /** The relay half of `_send`: each pending entry, in the order given,
      costs one slot check; the complete ones are reported and the
      incomplete ones kept. */
  method VisitPending(pending: seq<Pending>, budget: nat)
    returns (reports: seq<RfSensor.Frame>, kept: seq<Pending>, visited: nat)
    ensures visited == if budget < |pending| then budget else |pending|
    ensures reports == Reports(pending[..visited]) && kept == Remaining(pending[..visited])
  {
    reports, kept, visited := [], [], 0;
    while visited < |pending| && visited < budget
      invariant visited <= |pending| && visited <= budget
      invariant reports == Reports(pending[..visited]) && kept == Remaining(pending[..visited])
    {
      assert pending[..visited + 1][..visited] == pending[..visited];
      var e := pending[visited];
      if Complete(e) {
        reports := reports + [RfSensor.Frame(e.packet, 0)];
      } else {
        kept := kept + [e];
      }
      visited := visited + 1;
    }
  }

  /** A visited entry that is still incomplete leaves nothing behind:
      when no pending packet is complete, `_send` keeps the map as it was. */
  lemma {:induction false} RemainingOfIncomplete(ps: seq<Pending>, seen: seq<Pending>)
    requires forall i :: 0 <= i < |ps| ==> !Complete(ps[i])
    ensures Remaining(ps) == ps && Reports(ps) == []
    ensures Keep(ps, seen) == ps
  {
    if |ps| > 0 {
      assert ps == ps[..|ps| - 1] + [ps[|ps| - 1]];
      RemainingOfIncomplete(ps[..|ps| - 1], seen);
      KeepIncomplete(ps, seen);
    }
  }

  lemma {:induction false} KeepIncomplete(ps: seq<Pending>, seen: seq<Pending>)
    requires forall i :: 0 <= i < |ps| ==> !Complete(ps[i])
    ensures Keep(ps, seen) == ps
  {
    if |ps| > 0 {
      KeepIncomplete(ps[1..], seen);
      assert ps == [ps[0]] + ps[1..];
    }
  }

  /** `_loop_body`: nothing happens until the radio has joined the
      network; then the base step runs with this driver's `_send`. */
  method LoopBody(d: Device, now: real, checks: nat, broadcast: int -> Packet, visit: seq<Pending>)
    returns (r: Device, sent: seq<RfSensor.Frame>, err: Option<Error>)
    requires Invariant(d) && IterationOrder(visit, d.pending)
    ensures Invariant(r)
    ensures !d.base.joined ==> r == d && sent == [] && err.None?
    ensures d.base.joined && !d.base.started ==> r == d.(base := d.base.(custom := r.base.custom))
    ensures d.base.joined && d.base.started && !(d.base.id > 0 && Tdma.InSlot(d.base.scheduler, now)) ==>
      r == d && sent == [] && err.None?
    ensures d.base.joined && d.base.started && d.base.id > 0 && Tdma.InSlot(d.base.scheduler, now)
            && d.base.connected ==>
      err.None?
      && sent == RfSensor.Broadcasts(d.base, checks, broadcast) + Reports(visit[..Visited(d, checks)])
      && r.pending == Keep(d.pending, visit[..Visited(d, checks)])
      && r.base == d.base.(scheduler := Tdma.Update(d.base.scheduler, now))
    ensures err.Some? ==> err == Some(Disabled) && !d.base.connected
  {
    if !d.base.joined {
      return d, [], None;
    }
    if !d.base.started {
      var b;
      b, sent, err := RfSensor.SendCustomPackets(d.base);
      return d.(base := b), sent, err;
    }
    if d.base.id > 0 && Tdma.InSlot(d.base.scheduler, now) {
      r, sent, err := Send(d, checks, broadcast, visit);
      if err.Some? {
        return;
      }
      r := r.(base := r.base.(scheduler := Tdma.Update(d.base.scheduler, now)));
      return;
    }
    return d, [], None;
  }

  /** Calling `_create_rssi_broadcast_packet`, whose one parameter `to_id`
      has no default, with `arguments` positional arguments. */
  function CallCreateBroadcast(arguments: nat): (r: Outcome)
    ensures r == Pass <==> arguments == 1
    ensures r != Pass ==> r == Fail(TypeError)
  {
    if arguments == 1 then Pass else Fail(TypeError)
  }

  /** `_send` as written: it makes its one broadcast packet with no
      argument, so the call raises TypeError before anything is sent. */
  method SendAsWritten(d: Device, checks: nat, broadcast: int -> Packet)
    returns (r: Result<(Device, seq<RfSensor.Frame>)>)
    ensures r == Err(TypeError)
  {
    var call := CallCreateBroadcast(0);
    if call.Fail? {
      return Err(call.error);
    }
    var d', sent, err := Send(d, checks, broadcast, d.pending);
    return Ok((d', sent));
  }

  /** An AT command response from the radio. `Db` carries the one-byte
      parameter whose negation is the RSSI. */
  datatype AtResponse =
    | Db(frameId: int, strength: byte)
    | Sh(part: string)
    | Sl(part: string)
    | Ni(identifier: string)
    | Ai(indicator: string)
    | Nd(nodeIdentifier: string, sourceAddress: Option<seq<byte>>)
    | OtherCommand

  /** The AI parameter of a radio that has joined the network: the single
      character with code 0. */
  const ASSOCIATED: string := [0 as char]

  /** Python's `t in s` on strings. */
  predicate Contains(s: string, t: string) {
    exists i :: 0 <= i <= |s| && OccursAt(s, t, i)
  }

  predicate OccursAt(s: string, t: string, i: int) {
    0 <= i && i + |t| <= |s| && s[i..i + |t|] == t
  }

  /** An SH (serial number high) part: the first part received becomes
      the address; a part not yet in it goes in front and completes it. */
  function High(address: Option<string>, addressSet: bool, part: string): (r: (Option<string>, bool))
    ensures address.None? ==> r == (Some(part), addressSet)
    ensures address.Some? && Contains(address.value, part) ==> r == (address, addressSet)
    ensures address.Some? && !Contains(address.value, part) ==> r == (Some(part + address.value), true)
  {
    if address.None? then (Some(part), addressSet)
    else if !Contains(address.value, part) then (Some(part + address.value), true)
    else (address, addressSet)
  }

  /** An SL (serial number low) part: as SH, but it goes at the end. */
  function Low(address: Option<string>, addressSet: bool, part: string): (r: (Option<string>, bool))
    ensures address.None? ==> r == (Some(part), addressSet)
    ensures address.Some? && Contains(address.value, part) ==> r == (address, addressSet)
    ensures address.Some? && !Contains(address.value, part) ==> r == (Some(address.value + part), true)
  {
    if address.None? then (Some(part), addressSet)
    else if !Contains(address.value, part) then (Some(address.value + part), true)
    else (address, addressSet)
  }

  /** Whichever of the two responses arrives first, an address that
      starts out unknown ends up as the high part followed by the low part,
      and is marked set. Responses repeated afterwards change nothing. */
  lemma AddressAssembly(high: string, low: string, addressSet: bool)
    requires !Contains(high, low) && !Contains(low, high)
    ensures var (a1, s1) := High(None, addressSet, high);
            Low(a1, s1, low) == (Some(high + low), true)
    ensures var (a1, s1) := Low(None, addressSet, low);
            High(a1, s1, high) == (Some(high + low), true)
    ensures High(Some(high + low), true, high) == (Some(high + low), true)
    ensures Low(Some(high + low), true, low) == (Some(high + low), true)
  {
    var a := high + low;
    assert OccursAt(a, high, 0);
    assert OccursAt(a, low, |high|);
  }

  /** An uppercase hexadecimal digit. */
  function HexDigit(d: nat): (c: char)
    requires d < 16
  {
    if d < 10 then ('0' as int + d) as char else ('A' as int + d - 10) as char
  }

  /** The value of an uppercase hexadecimal digit; None for any other
      character. */
  function HexValue(c: char): (r: Option<nat>)
    ensures r.Some? ==> r.value < 16
  {
    if '0' <= c <= '9' then Some(c as int - '0' as int)
    else if 'A' <= c <= 'F' then Some(c as int - 'A' as int + 10)
    else None
  }

  /** `"%02x" % b`, uppercased. */
  function HexByte(b: byte): (s: string)
    ensures |s| == 2
  {
    [HexDigit(b as int / 16), HexDigit(b as int % 16)]
  }

  /** The groups of `bs` joined by ':'. */
  function JoinHex(bs: seq<byte>): (s: string)
    requires |bs| >= 1
    ensures |s| == 3 * |bs| - 1
  {
    if |bs| == 1 then HexByte(bs[0]) else HexByte(bs[0]) + ":" + JoinHex(bs[1..])
  }

  /** `_format_address`: "-" for no address; otherwise the eight bytes as
      two uppercase hexadecimal digits each, joined by ':'. Any other length
      makes `struct.unpack` raise. */
  function FormatAddress(address: Option<seq<byte>>): (r: Result<string>)
    ensures address.None? ==> r == Ok("-")
    ensures address.Some? ==> (r.Ok? <==> |address.value| == 8)
    ensures r.Err? ==> r.error == StructError
    ensures address.Some? && r.Ok? ==> |r.value| == 23
  {
    match address
    case None => Ok("-")
    case Some(a) => if |a| == 8 then Ok(JoinHex(a)) else Err(StructError)
  }

  /** Reads back groups of two hexadecimal digits separated by ':'. */
  function ParseHex(s: string): (r: Option<seq<byte>>)
    decreases |s|
  {
    if |s| < 2 then None
    else match (HexValue(s[0]), HexValue(s[1]))
      case (Some(h), Some(l)) =>
        var b := (16 * h + l) as byte;
        if |s| == 2 then Some([b])
        else if s[2] != ':' then None
        else (match ParseHex(s[3..])
              case Some(rest) => Some([b] + rest)
              case None => None)
      case _ => None
  }

  lemma HexByteRoundTrip(b: byte)
    ensures HexValue(HexByte(b)[0]) == Some(b as int / 16)
    ensures HexValue(HexByte(b)[1]) == Some(b as int % 16)
  {
  }

  lemma {:induction false} JoinHexRoundTrip(bs: seq<byte>)
    requires |bs| >= 1
    ensures ParseHex(JoinHex(bs)) == Some(bs)
  {
    var s := JoinHex(bs);
    HexByteRoundTrip(bs[0]);
    assert s[0] == HexByte(bs[0])[0] && s[1] == HexByte(bs[0])[1];
    assert (16 * (bs[0] as int / 16) + bs[0] as int % 16) as byte == bs[0];
    if |bs| == 1 {
      assert bs == [bs[0]];
    } else {
      assert s[2] == ':' && s[3..] == JoinHex(bs[1..]);
      JoinHexRoundTrip(bs[1..]);
      assert [bs[0]] + bs[1..] == bs;
    }
  }

  /** The printed address determines the address: reading the groups
      back gives the eight bytes. */
  lemma FormatAddressRoundTrip(address: seq<byte>)
    requires |address| == 8
    ensures FormatAddress(Some(address)).Ok?
    ensures ParseHex(FormatAddress(Some(address)).value) == Some(address)
  {
    JoinHexRoundTrip(address);
  }

  /** An NI response: the node identifier, read as a decimal integer,
      becomes the sensor id and the scheduler id. */
  function SetNodeIdentifier(d: Device, identifier: string): (r: Result<Device>)
    requires Invariant(d)
    ensures r.Ok? <==> Decimal.ParseInt(identifier).Some?
    ensures r.Err? ==> r.error == ValueError
    ensures r.Ok? ==> (Invariant(r.value)
      && r.value.base.id == Decimal.ParseInt(identifier).value
      && r.value.base.scheduler.id == r.value.base.id
      && r.value.nodeIdentifierSet
      && r.value == d.(base := d.base.(id := r.value.base.id, scheduler := r.value.base.scheduler),
                       nodeIdentifierSet := true)
      && r.value.base.scheduler.(id := d.base.scheduler.id) == d.base.scheduler)
  {
    match Decimal.ParseInt(identifier)
    case None => Err(ValueError)
    case Some(id) =>
      Ok(d.(base := d.base.(id := id, scheduler := Tdma.SetId(d.base.scheduler, id)), nodeIdentifierSet := true))
  }

  /** An ND response: the discovered node's id, read from its identifier,
      and its printed address. */
  function ReportNode(nodeIdentifier: string, sourceAddress: Option<seq<byte>>): (r: Result<RfSensor.Discovery>)
    ensures Decimal.ParseInt(nodeIdentifier).None? ==> r == Err(ValueError)
    ensures r.Ok? <==> Decimal.ParseInt(nodeIdentifier).Some? && FormatAddress(sourceAddress).Ok?
    ensures r.Ok? ==> r.value.id == Decimal.ParseInt(nodeIdentifier).value
                      && r.value.address == FormatAddress(sourceAddress).value
  {
    match Decimal.ParseInt(nodeIdentifier)
    case None => Err(ValueError)
    case Some(id) =>
      match FormatAddress(sourceAddress)
      case Err(e) => Err(e)
      case Ok(address) => Ok(RfSensor.Discovery(id, address))
  }

  /** `_process_at_response`. DB sets the RSSI of the matching pending
      packet; SH and SL assemble the address; NI sets the identifier; AI
      marks the radio joined for the parameter with code 0; ND reports a
      discovered node. Other commands change nothing. */
  function ProcessAtResponse(reg: Registry, d: Device, at: AtResponse)
    : (r: Result<(Device, Option<RfSensor.Discovery>)>)
    requires Invariant(d)
    ensures r.Ok? ==> Invariant(r.value.0)
    ensures r.Ok? && r.value.1.Some? ==> at.Nd? && r.value.0 == d
    ensures match at
      case Db(frameId, strength) => r == Ok((d.(pending := SetRssi(reg, d.pending, frameId, 0 - strength as int)), None))
      case Sh(part) =>
        var (address, isSet) := High(d.base.address, d.addressSet, part);
        r == Ok((d.(base := d.base.(address := address), addressSet := isSet), None))
      case Sl(part) =>
        var (address, isSet) := Low(d.base.address, d.addressSet, part);
        r == Ok((d.(base := d.base.(address := address), addressSet := isSet), None))
      case Ni(identifier) =>
        (r.Ok? <==> SetNodeIdentifier(d, identifier).Ok?)
        && (r.Ok? ==> r.value == (SetNodeIdentifier(d, identifier).value, None))
      case Ai(indicator) => r == Ok((d.(base := d.base.(joined := d.base.joined || indicator == ASSOCIATED)), None))
      case Nd(nodeIdentifier, sourceAddress) =>
        (r.Ok? <==> ReportNode(nodeIdentifier, sourceAddress).Ok?)
        && (r.Ok? ==> r.value == (d, Some(ReportNode(nodeIdentifier, sourceAddress).value)))
      case OtherCommand => r == Ok((d, None))
  {
    match at
    case Db(frameId, strength) =>
      Ok((d.(pending := SetRssi(reg, d.pending, frameId, 0 - strength as int)), None))
    case Sh(part) =>
      var (address, isSet) := High(d.base.address, d.addressSet, part);
      Ok((d.(base := d.base.(address := address), addressSet := isSet), None))
    case Sl(part) =>
      var (address, isSet) := Low(d.base.address, d.addressSet, part);
      Ok((d.(base := d.base.(address := address), addressSet := isSet), None))
    case Ni(identifier) =>
      (match SetNodeIdentifier(d, identifier)
       case Err(e) => Err(e)
       case Ok(d') => Ok((d', None)))
    case Ai(indicator) =>
      Ok((if indicator == ASSOCIATED then d.(base := d.base.(joined := true)) else d, None))
    case Nd(nodeIdentifier, sourceAddress) =>
      (match ReportNode(nodeIdentifier, sourceAddress)
       case Err(e) => Err(e)
       case Ok(found) => Ok((d, Some(found))))
    case OtherCommand => Ok((d, None))
  }

  /** A frame from the XBee library. */
  datatype ApiFrame = Rx(rfData: seq<Octet>) | AtResponseFrame(response: AtResponse) | OtherFrame

  /** What a received frame makes the driver do besides changing state. */
  datatype Output = Output(discovered: Option<RfSensor.Discovery>, dbRequest: Option<int>)

  /** `_receive`: no frame is a TypeError; an RX frame is unserialized and
      processed, and a broadcast's ground-station packet waits in the
      pending map under `frameId` while a DB request for that frame id goes
      out; an AT response is processed; any other frame is ignored. */
  function Receive(reg: Registry, d: Device, frame: Option<ApiFrame>, answer: RfSensor.BaseAnswer, frameId: int)
    : (r: Result<(Device, Output)>)
    requires Invariant(d)
    ensures frame.None? ==> r == Err(TypeError)
    ensures r.Ok? ==> Invariant(r.value.0)
    ensures frame.Some? && frame.value.OtherFrame? ==> r == Ok((d, Output(None, None)))
    ensures frame.Some? && frame.value.Rx? && PacketCodec.Unserialize(reg, NewPacket(), frame.value.rfData).Err?
            ==> r.Err?
    ensures frame.Some? && frame.value.Rx? && r.Ok? && r.value.1.dbRequest.Some? ==>
      r.value.1.dbRequest == Some(frameId)
      && answer.isBroadcast == Ok(true) && answer.groundStation.Ok?
      && r.value.0 == d.(pending := Store(d.pending, frameId, answer.groundStation.value))
    ensures frame.Some? && frame.value.Rx? && r.Ok? && r.value.1.dbRequest.None? ==> r.value.0 == d
    ensures frame.Some? && frame.value.AtResponseFrame? ==>
      r == (match ProcessAtResponse(reg, d, frame.value.response)
            case Ok((d', found)) => Ok((d', Output(found, None)))
            case Err(e) => Err(e))
  {
    match frame
    case None => Err(TypeError)
    case Some(Rx(data)) =>
      (match PacketCodec.Unserialize(reg, NewPacket(), data)
       case Err(e) => Err(e)
       case Ok(_) =>
         (match answer.isBroadcast
          case Err(e) => Err(e)
          case Ok(false) => Ok((d, Output(None, None)))
          case Ok(true) =>
            (match answer.groundStation
             case Err(e) => Err(e)
             case Ok(g) => Ok((d.(pending := Store(d.pending, frameId, g)), Output(None, Some(frameId)))))))
    case Some(AtResponseFrame(at)) =>
      (match ProcessAtResponse(reg, d, at)
       case Ok((d', found)) => Ok((d', Output(found, None)))
       case Err(e) => Err(e))
    case Some(OtherFrame) => Ok((d, Output(None, None)))
  }

  /** A broadcast's packet, stored on receipt and completed by the DB
      response for its frame id, is found with the RSSI set. */
  lemma StoredThenCompleted(reg: Registry, ps: seq<Pending>, frameId: int, g: Packet, rssi: int)
    ensures Find(SetRssi(reg, Store(ps, frameId, g), frameId, rssi), frameId)
            == Some(Set(reg, g, "rssi", VInt(rssi)))
  {
    FindSetRssi(reg, Store(ps, frameId, g), frameId, rssi);
  }

  /** After a DB response the lookup finds the packet with its RSSI set. */
  lemma {:induction false} FindSetRssi(reg: Registry, ps: seq<Pending>, frameId: int, rssi: int)
    ensures Find(ps, frameId).Some? ==>
      Find(SetRssi(reg, ps, frameId, rssi), frameId) == Some(Set(reg, Find(ps, frameId).value, "rssi", VInt(rssi)))
  {
    if |ps| > 0 && ps[0].frameId != frameId {
      FindSetRssi(reg, ps[1..], frameId, rssi);
      var r := SetRssi(reg, ps, frameId, rssi);
      assert r[1..] == SetRssi(reg, ps[1..], frameId, rssi);
    }
  }
}

=== FILE: rf_sensor.dfy ===
/** The runtime of an RF sensor that every variant shares
    (zigbee/RF_Sensor.py): the activated and started flags, the queue of
    custom packets that `enqueue` fills and the idle loop drains, the queue
    of packets relayed to the ground station, and the arbitration of one
    loop-body step between custom traffic and the scheduled measurement
    slot. Threads, sleeps and the hardware connection are left out: a send
    is a `Frame` appended to the output, the connection is a flag, and the
    clock enters as parameters. */
module RfSensor {
  import opened Wrappers
  import opened Packets
  import Tdma
  import Decimal

  /** A packet handed to `_send_tx_frame` together with its destination. */
  datatype Frame = Frame(packet: Packet, to: int)

  /** The settings the constructor reads: the sensor's own settings and
      those of its TDMA scheduler. */
  datatype Arguments = Arguments(
    id: int,
    numberOfSensors: int,
    schedulerSensors: int,
    sweepDelay: real)

  datatype Sensor = Sensor(
    id: int,
    numberOfSensors: int,
    connected: bool,
    address: Option<string>,
    joined: bool,
    activated: bool,
    started: bool,
    scheduler: Tdma.Scheduler,
    packets: seq<Packet>,
    custom: seq<Frame>,
    setups: nat,
    loops: nat)

  /** What every sensor built by `New` keeps. */
  predicate Invariant(s: Sensor) {
    Tdma.Valid(s.scheduler)
  }

  /** The constructor. Each callback must be callable (TypeError), the
      arguments must be an `Arguments` object (ValueError, `None` here), and
      the scheduler divides its sweep by its sensor count. */
  function New(args: Option<Arguments>, callbacksCallable: seq<bool>): (r: Result<Sensor>)
    requires |callbacksCallable| == 3
    ensures (exists k :: 0 <= k < 3 && !callbacksCallable[k]) ==> r == Err(TypeError)
    ensures (forall k :: 0 <= k < 3 ==> callbacksCallable[k]) && args.None? ==> r == Err(ValueError)
    ensures r.Ok? ==> (args.Some? && Invariant(r.value)
      && r.value.id == args.value.id && r.value.numberOfSensors == args.value.numberOfSensors
      && r.value.scheduler.id == args.value.id && r.value.scheduler.timestamp == 0.0
      && !r.value.connected && r.value.address.None? && !r.value.joined && !r.value.activated && !r.value.started
      && r.value.packets == [] && r.value.custom == [])
  {
    if !(callbacksCallable[0] && callbacksCallable[1] && callbacksCallable[2]) then Err(TypeError)
    else match args
      case None => Err(ValueError)
      case Some(a) =>
        match Tdma.New(a.id, Some((a.schedulerSensors, a.sweepDelay)))
        case Err(e) => Err(e)
        case Ok(scheduler) =>
          Ok(Sensor(a.id, a.numberOfSensors, false, None, false, false, false, scheduler, [], [], 0, 0))
  }

  /** `activate`: only the first call sets the flag, sets the connection
      up when there is none, and spawns one loop. */
  function Activate(s: Sensor): (r: Sensor)
    ensures r.activated
    ensures s.activated ==> r == s
    ensures !s.activated ==> (r.connected && r.loops == s.loops + 1
                              && r.setups == (if s.connected then s.setups else s.setups + 1))
    ensures r.(activated := s.activated, connected := s.connected, setups := s.setups, loops := s.loops) == s
  {
    if s.activated then s
    else
      var s' := s.(activated := true);
      var s' := if s'.connected then s' else s'.(connected := true, setups := s'.setups + 1);
      s'.(loops := s'.loops + 1)
  }

  /** Activating twice is activating once. */
  lemma ActivateIdempotent(s: Sensor)
    ensures Activate(Activate(s)) == Activate(s)
  {
  }

  /** `deactivate`: clears the flag and closes any connection. */
  function Deactivate(s: Sensor): (r: Sensor)
    ensures !r.activated && !r.connected
    ensures r.(activated := s.activated, connected := s.connected) == s
  {
    s.(activated := false, connected := false)
  }

  /** `start`: resynchronise the schedule, drop the relay queue, and start
      measuring. */
  function Start(s: Sensor, now: real): (r: Sensor)
    requires Invariant(s)
    ensures Invariant(r) && r.started && r.packets == []
    ensures r.scheduler == Tdma.Update(s.scheduler, now)
    ensures r.(started := s.started, packets := s.packets, scheduler := s.scheduler) == s
  {
    s.(scheduler := Tdma.Update(s.scheduler, now), packets := [], started := true)
  }

  /** `stop`: stop measuring, and reset the schedule so that the next
      `start` resynchronises it. */
  function Stop(s: Sensor): (r: Sensor)
    requires Invariant(s)
    ensures Invariant(r) && !r.started && r.scheduler.timestamp == 0.0
    ensures r.(started := s.started, scheduler := s.scheduler) == s
  {
    s.(started := false, scheduler := Tdma.SetTimestamp(s.scheduler, 0.0))
  }

  /** `n` when it is positive, else 0: how many ids `xrange(1, n + 1)`
      visits. */
  function Count(n: int): (r: nat)
    ensures r == if n > 0 then n else 0
  {
    if n > 0 then n else 0
  }

  /** The set of ids 1..n. */
  function IdRange(n: int): (r: set<int>)
    ensures forall x :: x in r <==> 1 <= x <= n
    decreases n
  {
    if n < 1 then {} else IdRange(n - 1) + {n}
  }

  /** The ids 1..n other than `self`, ascending. */
  function Targets(n: int, self: int): (r: seq<int>)
    ensures forall x :: x in r <==> 1 <= x <= n && x != self
    ensures forall i, j :: 0 <= i < j < |r| ==> r[i] < r[j]
    ensures forall i :: 0 <= i < |r| ==> r[i] <= n
    decreases n
  {
    if n < 1 then [] else Targets(n - 1, self) + (if n == self then [] else [n])
  }

  /** One copy of `p` for each destination, in order. */
  function Copies(p: Packet, ts: seq<int>): (r: seq<Frame>)
    ensures |r| == |ts| && forall i :: 0 <= i < |ts| ==> r[i] == Frame(p, ts[i])
  {
    seq(|ts|, i requires 0 <= i < |ts| => Frame(p, ts[i]))
  }

  /** The queueing rule of `enqueue`, shared by every sensor class.
      `packet` is None for an object that is not a `Packet` (TypeError); a
      private packet is a ValueError. With a destination exactly one frame
      is queued; without one, a copy goes to every sensor 1..n other than
      `self`, in ascending order. */
  method EnqueueFrames(queue: seq<Frame>, n: int, self: int, packet: Option<Packet>, to: Option<int>)
    returns (r: Result<seq<Frame>>)
    ensures packet.None? ==> r == Err(TypeError)
    ensures packet.Some? && packet.value.private ==> r == Err(ValueError)
    ensures packet.Some? && !packet.value.private ==> r.Ok?
    ensures r.Ok? && to.Some? ==> r.value == queue + [Frame(packet.value, to.value)]
    ensures r.Ok? && to.None? ==> r.value == queue + Copies(packet.value, Targets(n, self))
  {
    if packet.None? {
      return Err(TypeError);
    }
    var p := packet.value;
    if p.private {
      return Err(ValueError);
    }
    if to.Some? {
      return Ok(queue + [Frame(p, to.value)]);
    }
    var q := queue;
    var k := 1;
    while k <= n
      invariant 1 <= k <= Count(n) + 1
      invariant q == queue + Copies(p, Targets(k - 1, self))
    {
      if k != self {
        q := q + [Frame(p, k)];
      }
      k := k + 1;
    }
    assert Targets(k - 1, self) == Targets(n, self);
    return Ok(q);
  }

  /** `enqueue` on the custom-packet queue; nothing else changes. */
  method Enqueue(s: Sensor, packet: Option<Packet>, to: Option<int>) returns (r: Result<Sensor>)
    ensures packet.None? ==> r == Err(TypeError)
    ensures packet.Some? && packet.value.private ==> r == Err(ValueError)
    ensures packet.Some? && !packet.value.private ==> r.Ok?
    ensures r.Ok? && to.Some? ==> r.value == s.(custom := s.custom + [Frame(packet.value, to.value)])
    ensures r.Ok? && to.None? ==>
      r.value == s.(custom := s.custom + Copies(packet.value, Targets(s.numberOfSensors, s.id)))
  {
    var q := EnqueueFrames(s.custom, s.numberOfSensors, s.id, packet, to);
    match q
    case Err(e) => return Err(e);
    case Ok(queue) => return Ok(s.(custom := queue));
  }

  /** `enqueue(packet, to=to)` seen from a handler that sends one packet:
      exactly one frame, unless the packet is private (ValueError). The
      queue it lands on is the caller's business (`Enqueue`). */
  function EnqueueTo(p: Packet, to: int): (r: Result<Frame>)
    ensures r.Ok? <==> !p.private
    ensures r.Ok? ==> r.value == Frame(p, to)
    ensures r.Err? ==> r.error == ValueError
  {
    if p.private then Err(ValueError) else Ok(Frame(p, to))
  }

  /** What a discovery callback receives: a sensor's id and address. */
  datatype Discovery = Discovery(id: int, address: string)

  /** The answers of the physical base class, zigbee/RF_Sensor_Physical.py,
      for one received packet: whether its `_process` found an RSSI
      broadcast, and the ground-station packet its
      `_process_rssi_broadcast_packet` made of it. That class is not part
      of this model, so the drivers built on it take these as parameters. */
  datatype BaseAnswer = BaseAnswer(isBroadcast: Result<bool>, groundStation: Result<Packet>)

  /** The `required_sensors` argument of `discover`. */
  datatype Required = AllSensors | Only(ids: set<int>) | NotASet

  /** `discover`'s argument checks: the callback must be callable, the
      required sensors must be a set of vehicle ids 1..N. */
  function CheckDiscover(s: Sensor, callable: bool, required: Required): (r: Outcome)
    ensures !callable ==> r == Fail(TypeError)
    ensures callable && required.NotASet? ==> r == Fail(TypeError)
    ensures callable && required.AllSensors? ==> r == Pass
    ensures callable && required.Only? ==>
      (r == Pass <==> forall x :: x in required.ids ==> 1 <= x <= s.numberOfSensors)
    ensures r != Pass ==> r == Fail(TypeError) || r == Fail(ValueError)
  {
    if !callable then Fail(TypeError)
    else match required
      case NotASet => Fail(TypeError)
      case AllSensors => Pass
      case Only(ids) =>
        if forall x :: x in ids ==> 1 <= x <= s.numberOfSensors then Pass else Fail(ValueError)
  }

  /** The sensors a discovery must find: the given set, or all vehicles. */
  function RequiredIds(s: Sensor, required: Required): (r: set<int>)
    requires !required.NotASet?
    ensures required.Only? ==> r == required.ids
    ensures required.AllSensors? ==> forall x :: x in r <==> 1 <= x <= s.numberOfSensors
  {
    match required
    case Only(ids) => ids
    case AllSensors => IdRange(s.numberOfSensors)
  }

  /** The base `_send_tx_frame` checks: a closed connection disables the
      sensor, then the packet and the destination must be present. */
  function CheckTxFrame(connected: bool, packet: Option<Packet>, to: Option<int>): (r: Outcome)
    ensures !connected ==> r == Fail(Disabled)
    ensures connected && packet.None? ==> r == Fail(TypeError)
    ensures connected && packet.Some? && to.None? ==> r == Fail(TypeError)
    ensures r == Pass <==> connected && packet.Some? && to.Some?
  {
    if !connected then Fail(Disabled)
    else if packet.None? then Fail(TypeError)
    else if to.None? then Fail(TypeError)
    else Pass
  }

  /** How the sensor thread reacts to an exception escaping the loop body:
      DisabledException ends it quietly, anything else interrupts the
      program. */
  datatype LoopEnd = Quiet | Interrupt

  function LoopEndOf(e: Error): (r: LoopEnd)
    ensures r == Quiet <==> e == Disabled
  {
    if e == Disabled then Quiet else Interrupt
  }

  /** `_send_custom_packets`: every queued custom frame goes out in order.
      On a closed connection the first frame is taken off the queue and
      the sensor is disabled. */
  method SendCustomPackets(s: Sensor) returns (r: Sensor, sent: seq<Frame>, err: Option<Error>)
    ensures r.(custom := s.custom) == s
    ensures s.connected ==> err.None? && sent == s.custom && r.custom == []
    ensures !s.connected && |s.custom| > 0 ==> err == Some(Disabled) && sent == [] && r.custom == s.custom[1..]
    ensures !s.connected && |s.custom| == 0 ==> err.None? && sent == [] && r == s
  {
    var queue := s.custom;
    sent := [];
    while |queue| > 0
      invariant s.connected ==> sent + queue == s.custom
      invariant !s.connected ==> queue == s.custom && sent == []
      decreases |queue|
    {
      var item := queue[0];
      queue := queue[1..];
      if !s.connected {
        return s.(custom := queue), [], Some(Disabled);
      }
      sent := sent + [item];
    }
    return s.(custom := []), sent, None;
  }

  /** The broadcasts `_send` makes when `checks` of its slot checks succeed:
      one per other vehicle among the first `checks` ids. */
  function Broadcasts(s: Sensor, checks: nat, broadcast: int -> Packet): (r: seq<Frame>)
    ensures forall i :: 0 <= i < |r| ==> r[i].packet == broadcast(r[i].to)
  {
    var ts := Targets(if checks < s.numberOfSensors then checks else s.numberOfSensors, s.id);
    seq(|ts|, i requires 0 <= i < |ts| => Frame(broadcast(ts[i]), ts[i]))
  }

  /** How many relay packets `_send` gets out once the broadcasts are done. */
  function Relayed(s: Sensor, checks: nat): (m: nat)
    ensures m <= |s.packets|
    ensures checks <= Count(s.numberOfSensors) ==> m == 0
    ensures checks >= Count(s.numberOfSensors) + |s.packets| ==> m == |s.packets|
    ensures m < |s.packets| ==> m + Count(s.numberOfSensors) == checks || checks < Count(s.numberOfSensors)
  {
    var spare := if checks > Count(s.numberOfSensors) then checks - Count(s.numberOfSensors) else 0;
    if spare < |s.packets| then spare else |s.packets|
  }

  /** `_send` on an open connection. The slot check succeeds `checks`
      times before the slot is over (time only moves forward, so the
      successes come first). Each of the ids 1..N spends one check, and each
      relayed packet one more: the RSSI broadcasts go to the other vehicles
      in ascending order, then the queued packets go to the ground station,
      oldest first, until the slot ends. */
  method Send(s: Sensor, checks: nat, broadcast: int -> Packet) returns (r: Sensor, sent: seq<Frame>)
    requires s.connected
    ensures sent == Broadcasts(s, checks, broadcast)
                    + Copies0(s.packets[..Relayed(s, checks)])
    ensures r == s.(packets := s.packets[Relayed(s, checks)..])
  {
    var out, left := BroadcastAll(s, checks, broadcast);
    var relayed, count := RelayAll(s.packets, left);
    assert count == Relayed(s, checks);
    return s.(packets := s.packets[count..]), out + relayed;
  }

  /** The broadcast half of `_send`: one slot check per id, a frame for
      each other vehicle while the checks last. `left` is what remains of
      the checks once every id has had its turn, and 0 otherwise. */
  method BroadcastAll(s: Sensor, checks: nat, broadcast: int -> Packet)
    returns (out: seq<Frame>, left: nat)
    ensures out == Broadcasts(s, checks, broadcast)
    ensures left == if checks > Count(s.numberOfSensors) then checks - Count(s.numberOfSensors) else 0
  {
    out := [];
    left := checks;
    var k := 1;
    while k <= s.numberOfSensors && left > 0
      invariant 1 <= k <= Count(s.numberOfSensors) + 1
      invariant left == checks - (k - 1)
      invariant out == Broadcasts(s, k - 1, broadcast)
    {
      left := left - 1;
      BroadcastsStep(s, k, broadcast);
      if k != s.id {
        out := out + [Frame(broadcast(k), k)];
      }
      k := k + 1;
    }
    if k - 1 < Count(s.numberOfSensors) {
      left := 0;
    }
  }

  /** The relay half of `_send`: each queued packet costs one slot check
      and goes to the ground station, oldest first, while checks remain. */
  method RelayAll(packets: seq<Packet>, budget: nat) returns (sent: seq<Frame>, count: nat)
    ensures count == if budget < |packets| then budget else |packets|
    ensures sent == Copies0(packets[..count])
  {
    sent := [];
    count := 0;
    while count < |packets| && count < budget
      invariant count <= |packets| && count <= budget
      invariant sent == Copies0(packets[..count])
    {
      assert packets[..count + 1] == packets[..count] + [packets[count]];
      Copies0Append(packets[..count], packets[count]);
      sent := sent + [Frame(packets[count], 0)];
      count := count + 1;
    }
  }

  /** One more id of the broadcast sweep adds a frame unless it is the
      sensor's own. */
  lemma BroadcastsStep(s: Sensor, k: int, broadcast: int -> Packet)
    requires 1 <= k <= s.numberOfSensors
    ensures Broadcasts(s, k, broadcast)
            == Broadcasts(s, k - 1, broadcast) + (if k == s.id then [] else [Frame(broadcast(k), k)])
  {
    var before := Targets(k - 1, s.id);
    assert Targets(k, s.id) == before + (if k == s.id then [] else [k]);
  }

  lemma Copies0Append(ps: seq<Packet>, p: Packet)
    ensures Copies0(ps + [p]) == Copies0(ps) + [Frame(p, 0)]
  {
  }

  /** Frames sending each packet to the ground station, in order. */
  function Copies0(ps: seq<Packet>): (r: seq<Frame>)
    ensures |r| == |ps| && forall i :: 0 <= i < |ps| ==> r[i] == Frame(ps[i], 0)
  {
    seq(|ps|, i requires 0 <= i < |ps| => Frame(ps[i], 0))
  }

  /** One `_loop_body` step at time `now`. Not started: drain the custom
      queue. Started, a vehicle (id > 0) and inside its slot: `_send`, then
      move the schedule on. Otherwise nothing is sent. */
  method LoopBody(s: Sensor, now: real, checks: nat, broadcast: int -> Packet)
    returns (r: Sensor, sent: seq<Frame>, err: Option<Error>)
    requires Invariant(s)
    ensures Invariant(r) && r.connected == s.connected
    ensures !s.started ==> r.(custom := s.custom) == s
    ensures !s.started && s.connected ==> sent == s.custom && r.custom == [] && err.None?
    ensures s.started && !(s.id > 0 && Tdma.InSlot(s.scheduler, now)) ==> r == s && sent == [] && err.None?
    ensures s.started && s.id > 0 && Tdma.InSlot(s.scheduler, now) && s.connected ==>
      err.None?
      && sent == Broadcasts(s, checks, broadcast) + Copies0(s.packets[..Relayed(s, checks)])
      && r == s.(packets := s.packets[Relayed(s, checks)..], scheduler := Tdma.Update(s.scheduler, now))
    ensures s.started && s.id > 0 && Tdma.InSlot(s.scheduler, now) && !s.connected ==>
      sent == []
      && (Broadcasts(s, checks, broadcast) != [] ==> r == s && err == Some(Disabled))
      && (Broadcasts(s, checks, broadcast) == [] && Relayed(s, checks) > 0 ==>
            r == s.(packets := s.packets[1..]) && err == Some(Disabled))
      && (Broadcasts(s, checks, broadcast) == [] && Relayed(s, checks) == 0 ==>
            r == s.(scheduler := Tdma.Update(s.scheduler, now)) && err.None?)
    ensures err.Some? ==> err == Some(Disabled) && !s.connected
  {
    if !s.started {
      r, sent, err := SendCustomPackets(s);
    } else if s.id > 0 && Tdma.InSlot(s.scheduler, now) {
      if !s.connected {
        // The first frame fails; a relayed packet has already left the
        // queue by then.
        if Broadcasts(s, checks, broadcast) != [] {
          r, sent, err := s, [], Some(Disabled);
        } else if Relayed(s, checks) > 0 {
          r, sent, err := s.(packets := s.packets[1..]), [], Some(Disabled);
        } else {
          r, sent, err := s.(scheduler := Tdma.Update(s.scheduler, now)), [], None;
        }
        return;
      }
      r, sent := Send(s, checks, broadcast);
      r := r.(scheduler := Tdma.Update(s.scheduler, now));
      err := None;
    } else {
      r, sent, err := s, [], None;
    }
  }

  /** `_create_rssi_broadcast_packet`: the sensor's location, waypoint
      index and validity, its id and the send time. The location, validity
      and clock are the callbacks' answers, passed in. */
  function CreateBroadcast(reg: Registry, id: int, latitude: Value, longitude: Value,
                           valid: Value, validPair: Value, waypointIndex: Value, now: real): (p: Packet)
    ensures Get(p, SPECIFICATION) == VStr("rssi_broadcast")
    ensures Get(p, "latitude") == latitude && Get(p, "longitude") == longitude
    ensures Get(p, "valid") == valid && Get(p, "valid_pair") == validPair
    ensures Get(p, "waypoint_index") == waypointIndex
    ensures Get(p, "sensor_id") == VInt(id) && Get(p, "timestamp") == VReal(now)
  {
    Build(reg, "rssi_broadcast",
      map["latitude" := latitude, "longitude" := longitude, "valid" := valid, "valid_pair" := validPair,
          "waypoint_index" := waypointIndex, "sensor_id" := VInt(id), "timestamp" := VReal(now)])
  }

  /** `_create_rssi_ground_station_packet`: the `from_*` fields come from
      the received broadcast, the rest from this sensor. The rssi is left
      for the caller. */
  function CreateGroundStation(reg: Registry, id: int, broadcast: Packet,
                               latitude: Value, longitude: Value, toValid: Value): (p: Packet)
    ensures Get(p, SPECIFICATION) == VStr(GROUND_STATION)
    ensures Get(p, "sensor_id") == VInt(id)
    ensures Get(p, "from_latitude") == Get(broadcast, "latitude")
    ensures Get(p, "from_longitude") == Get(broadcast, "longitude")
    ensures Get(p, "from_valid") == Get(broadcast, "valid")
    ensures Get(p, "to_latitude") == latitude && Get(p, "to_longitude") == longitude
    ensures Get(p, "to_valid") == toValid
    ensures Get(p, "rssi") == VNone
  {
    Build(reg, GROUND_STATION,
      map["sensor_id" := VInt(id), "from_latitude" := Get(broadcast, "latitude"),
          "from_longitude" := Get(broadcast, "longitude"), "from_valid" := Get(broadcast, "valid"),
          "to_latitude" := latitude, "to_longitude" := longitude, "to_valid" := toValid])
  }

  /** A ground-station packet made from another vehicle's broadcast
      reports that vehicle's position as the source of the link and this
      vehicle's as its destination. */
  lemma GroundStationReportsLink(reg: Registry, sender: int, receiver: int,
                                 lat1: Value, lon1: Value, valid1: Value, pair1: Value, index1: Value, now: real,
                                 lat2: Value, lon2: Value, valid2: Value)
    ensures var b := CreateBroadcast(reg, sender, lat1, lon1, valid1, pair1, index1, now);
            var g := CreateGroundStation(reg, receiver, b, lat2, lon2, valid2);
            Get(g, "from_latitude") == lat1 && Get(g, "from_longitude") == lon1 && Get(g, "from_valid") == valid1
            && Get(g, "to_latitude") == lat2 && Get(g, "to_longitude") == lon2 && Get(g, "to_valid") == valid2
            && Get(g, "sensor_id") == VInt(receiver) && Get(b, "sensor_id") == VInt(sender)
  {
  }

  /** `str(sensor_id)` for an integer id, as discovery reports it as the
      address; the text of other values is not modelled. */
  function AddressOf(v: Value): (r: Option<string>)
    ensures v.VInt? ==> r.Some? && Decimal.ParseInt(r.value) == Some(v.i)
    ensures !v.VInt? ==> r.None?
  {
    if v.VInt? then
      Decimal.ParseRoundTrip(v.i);
      Some(Decimal.DecimalString(v.i))
    else None
  }

  /** Python's `int(v)` on a packet value: a float is truncated toward
      zero, a bool is 0 or 1, text must be a decimal integer (ValueError
      otherwise), and None or an object raises TypeError. */
  function IntOf(v: Value): (r: Result<int>)
    ensures v.VInt? ==> r == Ok(v.i)
    ensures v.VReal? && v.r >= 0.0 ==> r.Ok? && r.value as real <= v.r < r.value as real + 1.0
    ensures v.VReal? && v.r < 0.0 ==> r.Ok? && r.value as real - 1.0 < v.r <= r.value as real
    ensures v.VStr? ==> (r.Ok? <==> Decimal.ParseInt(v.s).Some?)
    ensures v.VNone? || v.VObject? ==> r == Err(TypeError)
    ensures r.Err? ==> r.error == TypeError || r.error == ValueError
  {
    match v
    case VInt(i) => Ok(i)
    case VReal(x) => Ok(Decimal.Truncate(x))
    case VBool(b) => Ok(if b then 1 else 0)
    case VStr(s) => (match Decimal.ParseInt(s) case Some(i) => Ok(i) case None => Err(ValueError))
    case _ => Err(TypeError)
  }

  /** Python's `float(v)` on a packet value. Text is rejected with
      ValueError: parsing decimal fractions is not modelled. */
  function FloatOf(v: Value): (r: Result<real>)
    ensures v.VInt? ==> r == Ok(v.i as real)
    ensures v.VReal? ==> r == Ok(v.r)
    ensures v.VNone? || v.VObject? ==> r == Err(TypeError)
    ensures v.VStr? ==> r == Err(ValueError)
  {
    match v
    case VInt(i) => Ok(i as real)
    case VReal(x) => Ok(x)
    case VBool(b) => Ok(if b then 1.0 else 0.0)
    case VStr(_) => Err(ValueError)
    case _ => Err(TypeError)
  }

  /** `scheduler.synchronize(packet)`: the sender's id and send time are
      read from the packet and converted before the schedule moves. */
  function SynchronizeWith(s: Tdma.Scheduler, p: Packet): (r: Result<Tdma.Scheduler>)
    ensures IntOf(Get(p, "sensor_id")).Err? ==> r == Err(IntOf(Get(p, "sensor_id")).error)
    ensures IntOf(Get(p, "sensor_id")).Ok? && FloatOf(Get(p, "timestamp")).Err? ==>
      r == Err(FloatOf(Get(p, "timestamp")).error)
    ensures r.Ok? ==>
      r.value.timestamp >= s.timestamp
      && r.value.(timestamp := s.timestamp) == s
      && (r.value.timestamp != s.timestamp ==>
            r.value.timestamp == Tdma.Proposal(s, IntOf(Get(p, "sensor_id")).value, FloatOf(Get(p, "timestamp")).value))
  {
    match IntOf(Get(p, "sensor_id"))
    case Err(e) => Err(e)
    case Ok(from) =>
      match FloatOf(Get(p, "timestamp"))
      case Err(e) => Err(e)
      case Ok(timestamp) => Ok(Tdma.Synchronize(s, from, timestamp))
  }
}

=== FILE: robot_vehicle.dfy ===
/** A robot vehicle that follows the lines of a grid
    (vehicle/Robot_Vehicle.py): its waypoint list with wait entries and a
    current index, the HALT mode that pauses it, the speed and velocity
    setters, and the choice of the grid direction that leads to the next
    waypoint. Motor commands become returned values; the line follower,
    the state thread and the motor pins are left out. */
module RobotVehicle {
  import opened Wrappers
  import opened Grid

  /** A grid position: the first two coordinates of a local location. */
  datatype Point = Point(north: real, east: real)

  datatype State =
    | Intersection
    | Move
    /** Turning on an intersection toward `target`, having started from
        `current`, clockwise (1) or counterclockwise (-1). */
    | Rotate(rotateDirection: int, target: Direction, current: Direction)
    /** Set by the Arduino-controlled subclass after a GOTO command. */
    | Wait

  /** One `set_speeds` call: the two motor speeds and their directions. */
  datatype Speeds = Speeds(left: real, right: real, leftForward: bool, rightForward: bool)

  datatype Robot = Robot(
    /** Grid positions to visit; `None` is a wait entry. */
    waypoints: seq<Option<Point>>,
    /** Index of the current waypoint; -1 before the first one. */
    current: int,
    mode: string,
    /** The mode that `pause` saved. */
    oldMode: string,
    halted: bool,
    /** The vehicle is activated (the `_armed` field). */
    armed: bool,
    home: Point,
    location: Point,
    direction: Direction,
    state: State,
    moveSpeed: real,
    rotateSpeed: real,
    /** A divergence from the line is being corrected, during which the
        speed setter leaves the motors alone. */
    diverged: bool)

  /** A new state and the motor command it issued, if any. */
  datatype Update = Update(r: Robot, speeds: Option<Speeds>)

  const HALT := "HALT"
  const RTL := "RTL"

  /** The constructor: at home, facing the home direction, standing still
      at an intersection with no waypoints. */
  function New(home: Point, homeDirection: Direction, rotateSpeed: real): (r: Robot)
    ensures r.waypoints == [] && r.current == -1 && !IsWaypoint(r, 0)
    ensures r.location == home && r.direction == homeDirection && r.state == Intersection
    ensures !r.halted && !r.armed && r.oldMode == r.mode && r.moveSpeed == 0.0
  {
    Robot([], -1, "PLACEHOLDER", "PLACEHOLDER", false, false, home, home,
          homeDirection, Intersection, 0.0, rotateSpeed, false)
  }

  /** `_is_waypoint(i)`: `i` indexes the waypoint list. */
  predicate IsWaypoint(r: Robot, i: int) {
    0 <= i < |r.waypoints|
  }

  /** The `armed` property: activated and not halted. */
  predicate Armed(r: Robot) {
    r.armed && !r.halted
  }

  function AddWaypoint(r: Robot, p: Point): (s: Robot)
    ensures s.waypoints == r.waypoints + [Some(p)]
    ensures s.(waypoints := r.waypoints) == r
  {
    r.(waypoints := r.waypoints + [Some(p)])
  }

  /** `add_wait`: a wait entry has no position. */
  function AddWait(r: Robot): (s: Robot)
    ensures s.waypoints == r.waypoints + [None]
    ensures s.(waypoints := r.waypoints) == r
  {
    r.(waypoints := r.waypoints + [None])
  }

  /** `clear_waypoints`: the current index is left as it is. */
  function ClearWaypoints(r: Robot): (s: Robot)
    ensures s.waypoints == [] && s.current == r.current
    ensures s.(waypoints := r.waypoints) == r
  {
    r.(waypoints := [])
  }

  /** `is_wait`: the current index is a waypoint and its entry is a wait. */
  predicate IsWait(r: Robot) {
    IsWaypoint(r, r.current) && r.waypoints[r.current].None?
  }

  /** `get_waypoint(w)`, where -1 stands for the current index: the
      position, or None out of range or at a wait entry. */
  function GetWaypoint(r: Robot, w: int): (p: Option<Point>)
    ensures var i := if w == -1 then r.current else w;
            (p.Some? <==> IsWaypoint(r, i) && r.waypoints[i].Some?)
            && (p.Some? ==> Some(p.value) == r.waypoints[i])
  {
    var i := if w == -1 then r.current else w;
    if !IsWaypoint(r, i) then None else r.waypoints[i]
  }

  /** `set_next_waypoint(w)`, where -1 stands for the index after the
      current one. */
  function SetNextWaypoint(r: Robot, w: int): (s: Robot)
    ensures w == -1 ==> s.current == r.current + 1
    ensures w != -1 ==> s.current == w
    ensures s.(current := r.current) == r
  {
    r.(current := if w == -1 then r.current + 1 else w)
  }

  /** `simple_goto`: the list becomes just that position, not yet current. */
  function SimpleGoto(r: Robot, p: Point): (s: Robot)
    ensures s.waypoints == [Some(p)] && s.current == -1
    ensures s.(waypoints := r.waypoints, current := r.current) == r
  {
    AddWaypoint(r.(waypoints := [], current := -1), p)
  }

  /** `pause`: the mode is saved and becomes HALT. */
  function Pause(r: Robot): (s: Robot)
    ensures s.mode == HALT && s.halted && s.oldMode == r.mode && !Armed(s)
    ensures s.(mode := r.mode, oldMode := r.oldMode, halted := r.halted) == r
  {
    r.(oldMode := r.mode, mode := HALT, halted := true)
  }

  /** The mode setter. HALT pauses; any other mode resumes a halted
      vehicle (the `unpause` this calls finds the new mode is not HALT and
      only clears the flag); RTL makes home the only waypoint. Setting HALT
      this way saves HALT itself as the mode to return to. */
  function SetMode(r: Robot, name: string): (s: Robot)
    ensures s.mode == name && s.armed == r.armed
    ensures name == HALT ==> s.halted && !Armed(s) && s.oldMode == HALT
    ensures name != HALT ==> !s.halted && Armed(s) == r.armed && s.oldMode == r.oldMode
    ensures name == RTL ==> s.waypoints == [Some(r.home)] && s.current == -1
    ensures name != RTL ==> s.waypoints == r.waypoints && s.current == r.current
    ensures s.(mode := r.mode, oldMode := r.oldMode, halted := r.halted,
               waypoints := r.waypoints, current := r.current) == r
  {
    var named := r.(mode := name);
    var resumed :=
      if name == HALT then Pause(named)
      else if named.halted then named.(halted := false)
      else named;
    if name == RTL then resumed.(waypoints := [Some(r.home)], current := -1) else resumed
  }

  /** `unpause`: only a halted vehicle can resume (RuntimeError otherwise);
      if it is still in HALT mode, the saved mode is set again. */
  function Unpause(r: Robot): (s: Result<Robot>)
    ensures s.Err? <==> !r.halted
    ensures s.Err? ==> s.error == RuntimeError
    ensures s.Ok? && r.mode != HALT ==> s.value == r.(halted := false)
    ensures s.Ok? && r.mode == HALT ==> s.value.mode == r.oldMode
  {
    if !r.halted then Err(RuntimeError)
    else
      var resumed := r.(halted := false);
      if resumed.mode == HALT then Ok(SetMode(resumed, resumed.oldMode)) else Ok(resumed)
  }

  /** Pausing and unpausing a running vehicle gives back its mode and its
      armed state; only a vehicle in RTL mode also has its waypoints reset
      to home again. */
  lemma PauseUnpauseRestores(r: Robot)
    requires !r.halted && r.mode != HALT
    ensures var s := Unpause(Pause(r));
            s.Ok? && s.value.mode == r.mode && !s.value.halted && Armed(s.value) == r.armed
            && (r.mode != RTL ==> s.value == r.(oldMode := r.mode))
  {
  }

  /** Halting through the mode setter saves HALT as the mode to return
      to, so a later `unpause` sets HALT again and the vehicle stays
      halted; only setting another mode resumes it. */
  lemma HaltModeOutlastsUnpause(r: Robot, other: string)
    requires other != HALT
    ensures var halted := SetMode(r, HALT);
            Unpause(halted).Ok? && Unpause(halted).value.halted && !Armed(Unpause(halted).value)
            && Unpause(halted).value.mode == HALT
            && Armed(SetMode(halted, other)) == r.armed
  {
  }

  /** The `armed` setter (`activate` and `deactivate`): the vehicle is
      activated or deactivated, and reads as armed only when it is also
      not halted. */
  function SetArmed(r: Robot, value: bool): (s: Robot)
    ensures Armed(s) <==> value && !r.halted
    ensures s.(armed := r.armed) == r
  {
    r.(armed := value)
  }

  /** Arming a paused vehicle has no effect that can be seen until it is
      unpaused: then it reads as armed. */
  lemma ArmWhilePaused(r: Robot)
    requires r.mode != HALT
    ensures var s := SetArmed(Pause(r), true);
            !Armed(s) && Unpause(s).Ok? && Armed(Unpause(s).value)
  {
  }

  /** `k` calls of `set_next_waypoint()`. */
  function Advance(r: Robot, k: nat): (s: Robot)
    ensures s.waypoints == r.waypoints
    decreases k
  {
    if k == 0 then r else Advance(SetNextWaypoint(r, -1), k - 1)
  }

  lemma {:induction false} AdvanceCounts(r: Robot, k: nat)
    ensures Advance(r, k) == r.(current := r.current + k)
    decreases k
  {
    if k > 0 {
      AdvanceCounts(SetNextWaypoint(r, -1), k - 1);
    }
  }

  /** Walking a fresh route: after `k` advances from index -1 the current
      waypoint is entry `k - 1` of the list, a wait entry reads as a wait
      with no position, and past the end there is neither. */
  lemma RouteVisitsInOrder(r: Robot, k: nat)
    requires r.current == -1 && k >= 1
    ensures var s := Advance(r, k);
            k <= |r.waypoints| ==>
              GetWaypoint(s, -1) == r.waypoints[k - 1] && (IsWait(s) <==> r.waypoints[k - 1].None?)
    ensures var s := Advance(r, k);
            k > |r.waypoints| ==> GetWaypoint(s, -1).None? && !IsWait(s)
  {
    AdvanceCounts(r, k);
  }

  /** A waypoint set by `simple_goto`, or home after RTL, is the one the
      vehicle heads for next. */
  lemma GotoIsNext(r: Robot, p: Point)
    ensures GetWaypoint(SetNextWaypoint(SimpleGoto(r, p), -1), -1) == Some(p)
    ensures GetWaypoint(SetNextWaypoint(SetMode(r, RTL), -1), -1) == Some(r.home)
  {
  }

  /** The vehicle is driving along a line. */
  predicate IsMoving(r: Robot) {
    Armed(r) && r.state == Move
  }

  /** The speed setter: the magnitude is stored and a negative value means
      driving backward; the motors are only commanded while moving and not
      correcting a divergence. */
  function SetSpeed(r: Robot, value: real): (u: Update)
    ensures u.r.moveSpeed >= 0.0 && (u.r.moveSpeed == value || u.r.moveSpeed == -value)
    ensures u.r == r.(moveSpeed := u.r.moveSpeed)
    ensures u.speeds.Some? <==> IsMoving(r) && !r.diverged
    ensures u.speeds.Some? ==>
      u.speeds.value == Speeds(u.r.moveSpeed, u.r.moveSpeed, value >= 0.0, value >= 0.0)
  {
    var forward := !(value < 0.0);
    var speed := if value < 0.0 then -value else value;
    var s := r.(moveSpeed := speed);
    Update(s, if IsMoving(r) && r.diverged == false then Some(Speeds(speed, speed, forward, forward)) else None)
  }

  /** The direction the vehicle is facing, which changes during rotation. */
  function CurrentDirection(r: Robot): (d: Direction)
    ensures !r.state.Rotate? ==> d == r.direction
  {
    if r.state.Rotate? then r.state.current else r.direction
  }

  /** The velocity getter: the move speed along the axis of the current
      direction, north first, then east, then down. */
  function Velocity(r: Robot): (v: seq<real>)
    ensures |v| == 3 && v[2] == 0.0
    ensures r.moveSpeed > 0.0 ==> Toward(CurrentDirection(r), v[0], v[1])
    ensures Vertical(CurrentDirection(r)) ==> v[1] == 0.0 && (v[0] == r.moveSpeed || v[0] == -r.moveSpeed)
    ensures !Vertical(CurrentDirection(r)) ==> v[0] == 0.0 && (v[1] == r.moveSpeed || v[1] == -r.moveSpeed)
  {
    match CurrentDirection(r)
    case Up => [r.moveSpeed, 0.0, 0.0]
    case Right => [0.0, r.moveSpeed, 0.0]
    case Down => [-r.moveSpeed, 0.0, 0.0]
    case Left => [0.0, -r.moveSpeed, 0.0]
  }

  /** The velocity setter: of the first two components at most one may be
      nonzero (ValueError otherwise), and that one, or 0.0, is set as the
      speed. */
  function SetVelocity(r: Robot, value: seq<real>): (u: Result<Update>)
    ensures u.Err? <==> |value| >= 2 && value[0] != 0.0 && value[1] != 0.0
    ensures u.Err? ==> u.error == ValueError
    ensures u.Ok? ==>
      var speed := if |value| >= 1 && value[0] != 0.0 then value[0]
                   else if |value| >= 2 && value[1] != 0.0 then value[1]
                   else 0.0;
      u.value == SetSpeed(r, speed)
  {
    var first := |value| >= 1 && value[0] != 0.0;
    var second := |value| >= 2 && value[1] != 0.0;
    if first && second then Err(ValueError)
    else if first then Ok(SetSpeed(r, value[0]))
    else if second then Ok(SetSpeed(r, value[1]))
    else Ok(SetSpeed(r, 0.0))
  }

  /** Setting the velocity the getter reports keeps the speed. */
  lemma VelocityRoundTrip(r: Robot)
    requires r.moveSpeed >= 0.0
    ensures SetVelocity(r, Velocity(r)).Ok?
    ensures SetVelocity(r, Velocity(r)).value.r == r
  {
  }

  /** `_next_direction` as written: keep the heading when the target lies
      ahead; otherwise, when the target is straight north or south or the
      vehicle faces east or west, turn north or south; otherwise turn east
      or west. When the vertical difference is zero the first of these
      falls through to keeping the heading. */
  function NextDirectionAsWritten(location: Point, direction: Direction, target: Point): (d: Direction)
    ensures var up := target.north - location.north;
            var right := target.east - location.east;
            (Toward(direction, up, right) ==> d == direction)
            && (!Toward(direction, up, right) && (right == 0.0 || !Vertical(direction)) ==>
                  (up != 0.0 ==> Vertical(d) && Toward(d, up, right)) && (up == 0.0 ==> d == direction))
            && (!Toward(direction, up, right) && right != 0.0 && Vertical(direction) ==>
                  !Vertical(d) && Toward(d, up, right))
  {
    var up := target.north - location.north;
    var right := target.east - location.east;
    if Toward(direction, up, right) then direction
    else if right == 0.0 || direction == Right || direction == Left then
      if up > 0.0 then Up else if up < 0.0 then Down else direction
    else
      if right > 0.0 then Right else if right < 0.0 then Left else direction
  }

  /** A vehicle facing east whose target is one cell west on the same row
      keeps facing east, away from the target. */
  lemma NextDirectionTurnsAway()
    ensures var d := NextDirectionAsWritten(Point(0.0, 0.0), Right, Point(0.0, -1.0));
            d == Right && !Toward(d, 0.0, -1.0)
  {
  }

  /** The direction toward the next waypoint, with the vertical turn taken
      only when there is a vertical difference: the result keeps a heading
      that leads to the target, leads to the target whenever the vehicle
      is not already on it, and prefers the vertical axis when the target
      is straight north or south or the vehicle faces east or west. */
  function NextDirection(location: Point, direction: Direction, target: Point): (d: Direction)
    ensures var up := target.north - location.north;
            var right := target.east - location.east;
            (target != location ==> Toward(d, up, right))
            && (Toward(direction, up, right) || target == location ==> d == direction)
            && (!Toward(direction, up, right) && up != 0.0 && (right == 0.0 || !Vertical(direction)) ==> Vertical(d))
  {
    var up := target.north - location.north;
    var right := target.east - location.east;
    if Toward(direction, up, right) then direction
    else if up != 0.0 && (right == 0.0 || direction == Right || direction == Left) then
      if up > 0.0 then Up else Down
    else
      if right > 0.0 then Right else if right < 0.0 then Left else direction
  }

  /** The two versions differ exactly when the target is on the same row,
      the vehicle faces east or west, and the target is behind it. */
  lemma NextDirectionDiffers(location: Point, direction: Direction, target: Point)
    ensures var up := target.north - location.north;
            var right := target.east - location.east;
            NextDirectionAsWritten(location, direction, target) != NextDirection(location, direction, target)
            <==> up == 0.0 && right != 0.0 && !Vertical(direction) && !Toward(direction, up, right)
  {
  }

  /** `_set_direction` with the rotation direction chosen by the caller,
      0 meaning the quickest, which `quickest` decides: nothing happens
      when the vehicle already faces the target; otherwise it starts
      rotating in place at rotation speed. */
  function SetDirection(r: Robot, target: Direction, rotateDirection: int,
                        quickest: (Direction, Direction) -> int): (u: Update)
    ensures target == r.direction ==> u == Update(r, None)
    ensures target != r.direction ==>
      u.r.state.Rotate? && u.r.state.target == target && u.r.state.current == r.direction
      && u.r == r.(state := u.r.state)
      && u.speeds == Some(Speeds(r.rotateSpeed, r.rotateSpeed, u.r.state.rotateDirection == 1, u.r.state.rotateDirection == -1))
  {
    if target == r.direction then Update(r, None)
    else
      var rotation := if rotateDirection == 0 then quickest(r.direction, target) else rotateDirection;
      Update(r.(state := Rotate(rotation, target, r.direction)),
             Some(Speeds(r.rotateSpeed, r.rotateSpeed, rotation == 1, rotation == -1)))
  }

  /** The outcome of `_goto_waypoint`: the new state, the motor command,
      and whether the vehicle is on its way (so the waypoint becomes the
      current one). */
  datatype Goto = Goto(r: Robot, speeds: Option<Speeds>, onItsWay: bool)

  /** The last step of `_goto_waypoint`, once the direction `d` toward
      the target is chosen: facing it, the vehicle starts moving at its
      move speed; otherwise it first rotates toward it. */
  function Head(r: Robot, d: Direction, quickest: (Direction, Direction) -> int): (g: Goto)
    ensures g.onItsWay <==> d == r.direction
    ensures g.onItsWay ==> g.r == r.(state := Move) && g.speeds == Some(Speeds(r.moveSpeed, r.moveSpeed, true, true))
    ensures !g.onItsWay ==> g.r.state.Rotate? && g.r.state.target == d && g.r.state.current == r.direction
  {
    if d == r.direction then
      Goto(r.(state := Move), Some(Speeds(r.moveSpeed, r.moveSpeed, true, true)), true)
    else
      var u := SetDirection(r, d, 0, quickest);
      Goto(u.r, u.speeds, false)
  }

  /** `_goto_waypoint`, with `_next_direction` as written: a wait entry
      counts as reached; a vehicle already facing the direction the rule
      picks drives on, otherwise it rotates toward that direction. */
  function GotoWaypoint(r: Robot, next: Option<Point>, quickest: (Direction, Direction) -> int): (g: Goto)
    ensures next.None? ==> g == Goto(r, None, true)
    ensures next.Some? ==>
      var d := NextDirectionAsWritten(r.location, r.direction, next.value);
      (g.onItsWay <==> d == r.direction)
      && (g.onItsWay ==> g.r == r.(state := Move) && g.speeds == Some(Speeds(r.moveSpeed, r.moveSpeed, true, true)))
      && (!g.onItsWay ==> g.r.state.Rotate? && g.r.state.target == d && g.r.state.current == r.direction)
  {
    match next
    case None => Goto(r, None, true)
    case Some(p) => Head(r, NextDirectionAsWritten(r.location, r.direction, p), quickest)
  }

  /** A vehicle at (0, 0) facing east, sent to (0, -1), drives off east,
      away from the target, and the waypoint counts as on its way. */
  lemma GotoDrivesAway(r: Robot, quickest: (Direction, Direction) -> int)
    requires r.location == Point(0.0, 0.0) && r.direction == Right
    ensures var g := GotoWaypoint(r, Some(Point(0.0, -1.0)), quickest);
            g.onItsWay && g.r.state == Move && g.r.direction == Right && !Toward(g.r.direction, 0.0, -1.0)
  {
    NextDirectionTurnsAway();
  }

  /** `_goto_waypoint` with the corrected direction rule. */
  function GotoWaypointCorrected(r: Robot, next: Option<Point>, quickest: (Direction, Direction) -> int): (g: Goto)
    ensures next.None? ==> g == Goto(r, None, true)
    ensures next.Some? ==>
      var d := NextDirection(r.location, r.direction, next.value);
      (g.onItsWay <==> d == r.direction)
      && (g.onItsWay ==> g.r == r.(state := Move) && g.speeds == Some(Speeds(r.moveSpeed, r.moveSpeed, true, true)))
      && (!g.onItsWay ==> g.r.state.Rotate? && g.r.state.target == d && g.r.state.current == r.direction)
  {
    match next
    case None => Goto(r, None, true)
    case Some(p) => Head(r, NextDirection(r.location, r.direction, p), quickest)
  }

  /** With the corrected rule, away from the target the vehicle either
      drives in a direction that leads to it or turns to face such a
      direction. */
  lemma GotoHeadsForTarget(r: Robot, p: Point, quickest: (Direction, Direction) -> int)
    requires p != r.location
    ensures var g := GotoWaypointCorrected(r, Some(p), quickest);
            var up := p.north - r.location.north;
            var right := p.east - r.location.east;
            (g.onItsWay ==> g.r.state == Move && Toward(r.direction, up, right))
            && (!g.onItsWay ==> g.r.state.Rotate? && Toward(g.r.state.target, up, right))
  {
  }

  /** The goto as written and the corrected one act alike except when the
      target lies behind a vehicle facing east or west on its own row;
      everywhere else the written goto also heads for the target. */
  lemma GotosAgree(r: Robot, p: Point, quickest: (Direction, Direction) -> int)
    ensures var up := p.north - r.location.north;
            var right := p.east - r.location.east;
            GotoWaypoint(r, Some(p), quickest) != GotoWaypointCorrected(r, Some(p), quickest)
            <==> up == 0.0 && right != 0.0 && !Vertical(r.direction) && !Toward(r.direction, up, right)
  {
    NextDirectionDiffers(r.location, r.direction, p);
  }

  /** `_move_waypoint(w)`: past the list the vehicle stops if it was at a
      waypoint; otherwise it goes to `w`, which becomes the current index
      once the vehicle is on its way. */
  function MoveWaypoint(r: Robot, w: int, quickest: (Direction, Direction) -> int): (u: Update)
    ensures !IsWaypoint(r, w) ==>
      u.r == r && (u.speeds.Some? <==> IsWaypoint(r, r.current))
      && (u.speeds.Some? ==> u.speeds.value.left == 0.0 && u.speeds.value.right == 0.0)
    ensures IsWaypoint(r, w) ==>
      var g := GotoWaypoint(r, r.waypoints[w], quickest);
      u.r.current == (if g.onItsWay then w else r.current) && u.speeds == g.speeds
  {
    if !IsWaypoint(r, w) then
      Update(r, if IsWaypoint(r, r.current) then Some(Speeds(0.0, 0.0, true, true)) else None)
    else
      var g := GotoWaypoint(r, r.waypoints[w], quickest);
      Update(if g.onItsWay then g.r.(current := w) else g.r, g.speeds)
  }

  /** `_at_current_waypoint`: the current index is a waypoint whose
      position is the vehicle's location (a wait entry never is). */
  predicate AtCurrentWaypoint(r: Robot) {
    IsWaypoint(r, r.current) && r.waypoints[r.current] == Some(r.location)
  }

  /** What `_check_intersection` decides at an intersection: nothing, stop
      the motors, or move toward waypoint `w`. */
  datatype Decision = Hold | StopMotors | MoveTo(w: int)

  /** `_check_intersection`: having reached the current waypoint, an AUTO
      vehicle moves on to the next index and any other one stops; at
      another intersection an AUTO or GUIDED vehicle heads for the current
      index, or the first one before it has any. */
  function IntersectionDecision(r: Robot): (d: Decision)
    ensures r.state != Intersection ==> d == Hold
    ensures d.MoveTo? ==> r.mode == "AUTO" || r.mode == "GUIDED"
    ensures d.MoveTo? ==> d.w >= 0
    ensures d.MoveTo? && AtCurrentWaypoint(r) ==> d.w == r.current + 1
    ensures d.MoveTo? && !AtCurrentWaypoint(r) ==> d.w == r.current || (r.current < 0 && d.w == 0)
    ensures d == StopMotors <==> r.state == Intersection && AtCurrentWaypoint(r) && r.mode != "AUTO"
  {
    if r.state != Intersection then Hold
    else if AtCurrentWaypoint(r) then
      if r.mode == "AUTO" then MoveTo(r.current + 1) else StopMotors
    else if r.mode == "AUTO" || r.mode == "GUIDED" then
      MoveTo(if r.current < 0 then 0 else r.current)
    else Hold
  }

  /** `_check_state` of the state loop: a finished rotation leaves the
      vehicle standing at the intersection facing its target; a vehicle
      that has corrected a divergence long enough (`divergenceOver`, the
      clock's verdict) drives on at its move speed; at an intersection the
      decision above is carried out. */
  function CheckState(r: Robot, divergenceOver: bool, quickest: (Direction, Direction) -> int): (u: Update)
    ensures r.state.Rotate? && r.state.current == r.state.target ==>
      u.r == r.(direction := r.state.target, state := Intersection) && u.speeds == Some(Speeds(0.0, 0.0, true, true))
    ensures r.state.Rotate? && r.state.current != r.state.target ==> u == Update(r, None)
    ensures r.state == Move ==> u.r.waypoints == r.waypoints && u.r.current == r.current && u.r.state == Move
    ensures r.state == Move ==> (u.speeds.Some? <==> r.diverged && divergenceOver)
    ensures r.state == Wait ==> u == Update(r, None)
    ensures r.state == Intersection ==> u.r.direction == r.direction && u.r.waypoints == r.waypoints
  {
    match r.state
    case Rotate(_, target, current) =>
      if current == target then Update(r.(direction := current, state := Intersection), Some(Speeds(0.0, 0.0, true, true)))
      else Update(r, None)
    case Move =>
      if r.diverged && divergenceOver then
        Update(r.(diverged := false), Some(Speeds(r.moveSpeed, r.moveSpeed, true, true)))
      else Update(r, None)
    case _ =>
      match IntersectionDecision(r)
      case Hold => Update(r, None)
      case StopMotors => Update(r, Some(Speeds(0.0, 0.0, true, true)))
      case MoveTo(w) => MoveWaypoint(r, w, quickest)
  }

  /** The waypoint after the current one is a position that lies ahead
      of the vehicle. */
  predicate NextAhead(r: Robot) {
    var n := r.current + 1;
    0 <= n < |r.waypoints| && r.waypoints[n].Some?
    && Toward(r.direction, r.waypoints[n].value.north - r.location.north, r.waypoints[n].value.east - r.location.east)
  }

  /** An AUTO vehicle standing on its current waypoint, with the next one
      straight ahead, drives off toward it and makes it current; with no
      next waypoint it stops. */
  lemma AutoDrivesOn(r: Robot, quickest: (Direction, Direction) -> int)
    requires r.state == Intersection && r.mode == "AUTO" && AtCurrentWaypoint(r)
    ensures NextAhead(r) ==> CheckState(r, false, quickest).r.current == r.current + 1
    ensures NextAhead(r) ==> CheckState(r, false, quickest).r.state == Move
    ensures r.current + 1 == |r.waypoints| ==> CheckState(r, false, quickest) == Update(r, Some(Speeds(0.0, 0.0, true, true)))
  {
  }
}

=== FILE: sender.dfy ===
/** The ground station's side of reliable delivery
    (control_panel/Control_Panel_RF_Sensor_Sender.py). For every vehicle it
    keeps the index it believes the vehicle expects next, starting at -1
    ("clear first"), and a retry counter. A single-shot timer per vehicle
    drives the sending: on every timeout the counter goes down and, while it
    stays positive, the clear packet or the current step is sent again. An
    ack from the vehicle sets the index to the one the vehicle names and
    refills the counter. The progress dialog, labels and message boxes are
    reduced to the value shown, an accepted flag and a failure record. */
module Sender {
  import opened Wrappers
  import opened Packets
  import RfSensor

  /** The protocol's packet names and retry limit. */
  datatype Config = Config(
    name: string,
    clearMessage: string,
    doneMessage: string,
    ackMessage: string,
    maxRetries: int)

  /** Which vehicle ran out of retries, and at which index. */
  datatype Failure = Failure(vehicle: int, index: int)

  datatype Sender<T> = Sender(
    config: Config,
    /** The keys of `data`, in the dictionary's iteration order. */
    vehicles: seq<int>,
    data: map<int, seq<T>>,
    total: int,
    indexes: map<int, int>,
    retries: map<int, int>,
    /** The timers exist (set up by `start`); acks are only recognised then. */
    started: bool,
    /** The vehicles whose single-shot timer is counting down. */
    running: set<int>,
    /** The ack callback is registered with the controller. */
    listening: bool,
    /** The last value given to the progress dialog. */
    progress: Option<int>,
    accepted: bool,
    canceled: bool,
    failure: Option<Failure>)

  /** `vehicles` lists every key of `data` exactly once. */
  predicate Enumerates<T>(vehicles: seq<int>, data: map<int, seq<T>>) {
    (forall i, j :: 0 <= i < j < |vehicles| ==> vehicles[i] != vehicles[j])
    && (forall v :: v in data ==> v in vehicles)
    && (forall k :: 0 <= k < |vehicles| ==> vehicles[k] in data)
  }

  /** The configuration and the data, which no handler changes. */
  ghost predicate SameSetup<T>(a: Sender<T>, b: Sender<T>) {
    a.config == b.config && a.vehicles == b.vehicles && a.data == b.data && a.total == b.total
  }

  predicate Invariant<T>(s: Sender<T>) {
    Enumerates(s.vehicles, s.data)
    && s.indexes.Keys == s.data.Keys && s.retries.Keys == s.data.Keys
    && s.running <= s.data.Keys
  }

  /** The constructor: every vehicle starts at index -1 with the maximum
      number of retries; nothing is sent and no timer exists yet. */
  function New<T>(config: Config, vehicles: seq<int>, data: map<int, seq<T>>, total: int): (r: Sender<T>)
    requires Enumerates(vehicles, data)
    ensures Invariant(r)
    ensures r.config == config && r.vehicles == vehicles && r.data == data && r.total == total
    ensures forall v :: v in data ==> r.indexes[v] == -1 && r.retries[v] == config.maxRetries
    ensures !r.started && !r.listening && r.running == {} && r.progress.None?
    ensures !r.accepted && !r.canceled && r.failure.None?
  {
    Sender(config, vehicles, data, total,
           map v | v in data :: -1, map v | v in data :: config.maxRetries,
           false, {}, false, None, false, false, None)
  }

  /** The sum of the indexes of `vs`. */
  function SumIndexes(vs: seq<int>, indexes: map<int, int>): int
    requires forall k :: 0 <= k < |vs| ==> vs[k] in indexes
  {
    if |vs| == 0 then 0 else SumIndexes(vs[..|vs| - 1], indexes) + indexes[vs[|vs| - 1]]
  }

  /** The value shown by the progress dialog: the sum of the indexes,
      clamped to the range 0..total. */
  function Progress<T>(s: Sender<T>): (r: int)
    requires Invariant(s)
    ensures s.total >= 0 ==> 0 <= r <= s.total
    ensures 0 <= SumIndexes(s.vehicles, s.indexes) <= s.total ==> r == SumIndexes(s.vehicles, s.indexes)
    ensures SumIndexes(s.vehicles, s.indexes) < 0 ==> r == 0
  {
    var sum := SumIndexes(s.vehicles, s.indexes);
    var capped := if s.total < sum then s.total else sum;
    if 0 < capped then capped else 0
  }

  /** Changing one vehicle's index changes the sum by the difference and
      by nothing else. */
  lemma {:induction false} SumAfterUpdate(vs: seq<int>, indexes: map<int, int>, v: int, x: int)
    requires forall k :: 0 <= k < |vs| ==> vs[k] in indexes
    requires forall i, j :: 0 <= i < j < |vs| ==> vs[i] != vs[j]
    requires v in vs
    ensures SumIndexes(vs, indexes[v := x]) == SumIndexes(vs, indexes) - indexes[v] + x
    decreases |vs|
  {
    var init := vs[..|vs| - 1];
    var last := vs[|vs| - 1];
    if last == v {
      assert v !in init;
      SumUnrelated(init, indexes, v, x);
    } else {
      assert v in init;
      SumAfterUpdate(init, indexes, v, x);
    }
  }

  /** The sum over ids that do not include `v` ignores `v`'s index. */
  lemma {:induction false} SumUnrelated(vs: seq<int>, indexes: map<int, int>, v: int, x: int)
    requires forall k :: 0 <= k < |vs| ==> vs[k] in indexes
    requires v !in vs
    ensures SumIndexes(vs, indexes[v := x]) == SumIndexes(vs, indexes)
    decreases |vs|
  {
    if |vs| > 0 {
      SumUnrelated(vs[..|vs| - 1], indexes, v, x);
    }
  }

  /** `_is_done`: every item has been acknowledged. */
  predicate IsDone<T>(s: Sender<T>, v: int)
    requires v in s.data && v in s.indexes
  {
    |s.data[v]| <= s.indexes[v]
  }

  predicate AllDone<T>(s: Sender<T>)
    requires Invariant(s)
  {
    forall v :: v in s.indexes ==> IsDone(s, v)
  }

  /** The packet a protocol message consists of: its name and the vehicle it
      is meant for. */
  function Message(reg: Registry, spec: string, vehicle: int): (p: Packet)
    ensures Get(p, SPECIFICATION) == VStr(spec) && Get(p, "to_id") == VInt(vehicle)
    ensures p.contents.Keys == {SPECIFICATION, "to_id"}
  {
    Build(reg, spec, map["to_id" := VInt(vehicle)])
  }

  /** What a handler leaves behind: the new state, the frames enqueued on
      the radio, and an exception that escaped. */
  datatype Step<T> = Step(s: Sender<T>, sent: seq<RfSensor.Frame>, err: Option<Error>)

  /** `_send_clear`: the clear message to the vehicle, then its timer is
      started and the progress value refreshed. */
  function SendClear<T>(reg: Registry, s: Sender<T>, v: int): (r: Step<T>)
    requires Invariant(s) && v in s.data
    ensures Invariant(r.s) && SameSetup(r.s, s)
    ensures r.s.indexes == s.indexes && r.s.retries == s.retries && r.s.canceled == s.canceled
    ensures r.s.accepted == s.accepted && r.s.listening == s.listening
    ensures r.err.None? <==> !Message(reg, s.config.clearMessage, v).private
    ensures r.err.None? ==>
      r.sent == [RfSensor.Frame(Message(reg, s.config.clearMessage, v), v)]
      && r.s.running == s.running + {v} && r.s.progress == Some(Progress(s))
    ensures r.err.Some? ==> r.s == s && r.sent == [] && r.err == Some(ValueError)
  {
    match RfSensor.EnqueueTo(Message(reg, s.config.clearMessage, v), v)
    case Err(e) => Step(s, [], Some(e))
    case Ok(f) => Step(s.(running := s.running + {v}, progress := Some(Progress(s))), [f], None)
  }

  /** `_send_one` for a vehicle that is done: the done message, the
      progress refreshed, and the dialog accepted once every vehicle is
      done; the vehicle's timer is not restarted. */
  function SendDone<T>(reg: Registry, s: Sender<T>, v: int): (r: Step<T>)
    requires Invariant(s) && v in s.data
    ensures Invariant(r.s) && SameSetup(r.s, s)
    ensures r.s.indexes == s.indexes && r.s.retries == s.retries && r.s.canceled == s.canceled
    ensures r.s.listening == s.listening && r.s.failure == s.failure && r.s.running == s.running
    ensures r.err.None? <==> !Message(reg, s.config.doneMessage, v).private
    ensures r.err.None? ==>
      r.sent == [RfSensor.Frame(Message(reg, s.config.doneMessage, v), v)]
      && r.s.progress == Some(Progress(s)) && (r.s.accepted <==> s.accepted || AllDone(s))
    ensures r.err.Some? ==> r == Step(s, [], Some(ValueError))
  {
    match RfSensor.EnqueueTo(Message(reg, s.config.doneMessage, v), v)
    case Err(e) => Step(s, [], Some(e))
    case Ok(f) =>
      var shown := s.(progress := Some(Progress(s)));
      Step(if AllDone(s) then shown.(accepted := true) else shown, [f], None)
  }

  /** `_send_one` for a vehicle that is not done: the packet the add
      callback makes from the item at the vehicle's index goes out and its
      timer starts. */
  function SendStep<T>(reg: Registry, s: Sender<T>, v: int, add: (int, int, T) -> Packet): (r: Step<T>)
    requires Invariant(s) && v in s.data
    ensures Invariant(r.s) && SameSetup(r.s, s)
    ensures r.s.indexes == s.indexes && r.s.retries == s.retries && r.s.canceled == s.canceled
    ensures r.s.listening == s.listening && r.s.failure == s.failure && r.s.accepted == s.accepted
    ensures PyIndex(s.data[v], s.indexes[v]).Err? ==> r == Step(s, [], Some(IndexError))
    ensures PyIndex(s.data[v], s.indexes[v]).Ok? ==>
      var p := add(v, s.indexes[v], PyIndex(s.data[v], s.indexes[v]).value);
      (r.err.None? <==> !p.private)
      && (r.err.None? ==>
            r.sent == [RfSensor.Frame(p, v)] && r.s.running == s.running + {v}
            && r.s.progress == Some(Progress(s)))
      && (r.err.Some? ==> r == Step(s, [], Some(ValueError)))
  {
    match PyIndex(s.data[v], s.indexes[v])
    case Err(e) => Step(s, [], Some(e))
    case Ok(item) =>
      match RfSensor.EnqueueTo(add(v, s.indexes[v], item), v)
      case Err(e) => Step(s, [], Some(e))
      case Ok(f) => Step(s.(running := s.running + {v}, progress := Some(Progress(s))), [f], None)
  }

  /** `_send_one`: the done message once the vehicle is done, its current
      step otherwise. */
  function SendOne<T>(reg: Registry, s: Sender<T>, v: int, add: (int, int, T) -> Packet): (r: Step<T>)
    requires Invariant(s) && v in s.data
    ensures Invariant(r.s) && SameSetup(r.s, s)
    ensures r.s.indexes == s.indexes && r.s.retries == s.retries && r.s.canceled == s.canceled
    ensures IsDone(s, v) ==> r == SendDone(reg, s, v)
    ensures !IsDone(s, v) ==> r == SendStep(reg, s, v, add)
  {
    if IsDone(s, v) then SendDone(reg, s, v) else SendStep(reg, s, v, add)
  }

  /** `start`: the ack callback is registered, a timer is made for every
      vehicle, and every vehicle is sent the clear message, in order. */
  method Start<T>(reg: Registry, s: Sender<T>) returns (r: Step<T>)
    requires Invariant(s)
    ensures Invariant(r.s) && SameSetup(r.s, s)
    ensures r.s.started && r.s.listening
    ensures r.s.indexes == s.indexes && r.s.retries == s.retries
    ensures r.err.None? ==>
      |r.sent| == |s.vehicles|
      && (forall k :: 0 <= k < |s.vehicles| ==>
            r.sent[k] == RfSensor.Frame(Message(reg, s.config.clearMessage, s.vehicles[k]), s.vehicles[k]))
      && r.s.running == s.running + s.data.Keys
    ensures |s.vehicles| > 0 ==> (r.err.None? <==> !Message(reg, s.config.clearMessage, 0).private)
  {
    var t := s.(started := true, listening := true);
    var sent: seq<RfSensor.Frame> := [];
    var k := 0;
    while k < |s.vehicles|
      invariant 0 <= k <= |s.vehicles|
      invariant Invariant(t) && t.started && t.listening
      invariant t.indexes == s.indexes && t.retries == s.retries
      invariant SameSetup(t, s)
      invariant |sent| == k
      invariant forall i :: 0 <= i < k ==>
        sent[i] == RfSensor.Frame(Message(reg, s.config.clearMessage, s.vehicles[i]), s.vehicles[i])
      invariant s.running <= t.running <= s.running + s.data.Keys
      invariant forall i :: 0 <= i < k ==> s.vehicles[i] in t.running
      invariant k > 0 ==> !Message(reg, s.config.clearMessage, s.vehicles[0]).private
    {
      var step := SendClear(reg, t, s.vehicles[k]);
      if step.err.Some? {
        PrivacyIgnoresVehicle(reg, s.config.clearMessage, s.vehicles[k], 0);
        return Step(step.s, sent, step.err);
      }
      ClearSent(reg, s, t, sent, k, step);
      t, sent := step.s, sent + step.sent;
      k := k + 1;
    }
    EnumeratedCovered(s.vehicles, s.data, t.running);
    if |s.vehicles| > 0 {
      PrivacyIgnoresVehicle(reg, s.config.clearMessage, s.vehicles[0], 0);
    }
    return Step(t, sent, None);
  }

  /** One round of `start`'s loop: the clear frame for vehicle `k` is
      appended and its timer runs. */
  lemma ClearSent<T>(reg: Registry, s: Sender<T>, t: Sender<T>, sent: seq<RfSensor.Frame>, k: int, step: Step<T>)
    requires 0 <= k < |s.vehicles| && Invariant(t) && SameSetup(t, s)
    requires |sent| == k
    requires forall i :: 0 <= i < k ==>
               sent[i] == RfSensor.Frame(Message(reg, s.config.clearMessage, s.vehicles[i]), s.vehicles[i])
    requires s.running <= t.running <= s.running + s.data.Keys
    requires forall i :: 0 <= i < k ==> s.vehicles[i] in t.running
    requires step == SendClear(reg, t, s.vehicles[k]) && step.err.None?
    ensures |sent + step.sent| == k + 1
    ensures forall i :: 0 <= i < k + 1 ==>
              (sent + step.sent)[i] == RfSensor.Frame(Message(reg, s.config.clearMessage, s.vehicles[i]), s.vehicles[i])
    ensures s.running <= step.s.running <= s.running + s.data.Keys
    ensures forall i :: 0 <= i < k + 1 ==> s.vehicles[i] in step.s.running
  {
  }

  /** A set holding every enumerated vehicle holds every vehicle with
      data. */
  lemma EnumeratedCovered<T>(vehicles: seq<int>, data: map<int, seq<T>>, running: set<int>)
    requires Enumerates(vehicles, data)
    requires forall i :: 0 <= i < |vehicles| ==> vehicles[i] in running
    ensures data.Keys <= running
  {
    forall v | v in data
      ensures v in running
    {
      var i :| 0 <= i < |vehicles| && vehicles[i] == v;
    }
  }

  /** Whether a message is private depends on its name only. */
  lemma PrivacyIgnoresVehicle(reg: Registry, spec: string, v: int, w: int)
    ensures Message(reg, spec, v).private == Message(reg, spec, w).private
  {
  }

  /** `_receive_ack`: an ack from a vehicle without a timer is ignored;
      otherwise the vehicle's index becomes the one it names and its
      counter is refilled to one above the maximum. The ack's fields are
      read as ints; an ack whose fields are not ints is ignored. */
  function ReceiveAck<T>(s: Sender<T>, p: Packet): (r: Sender<T>)
    requires Invariant(s)
    ensures Invariant(r) && SameSetup(r, s)
    ensures (Get(p, "sensor_id").VInt? && s.started && Get(p, "sensor_id").i in s.data && Get(p, "next_index").VInt?) ==>
      var v := Get(p, "sensor_id").i;
      r == s.(indexes := s.indexes[v := Get(p, "next_index").i], retries := s.retries[v := s.config.maxRetries + 1])
    ensures !(Get(p, "sensor_id").VInt? && s.started && Get(p, "sensor_id").i in s.data && Get(p, "next_index").VInt?) ==>
      r == s
  {
    match (Get(p, "sensor_id"), Get(p, "next_index"))
    case (VInt(v), VInt(index)) =>
      if s.started && v in s.data
      then s.(indexes := s.indexes[v := index], retries := s.retries[v := s.config.maxRetries + 1])
      else s
    case _ => s
  }

  /** `_cancel`: the ack callback is removed, every timer stops, the dialog
      is canceled, and the failure (if any) is reported. */
  function Cancel<T>(s: Sender<T>, failure: Option<Failure>): (r: Sender<T>)
    requires Invariant(s)
    ensures Invariant(r) && SameSetup(r, s)
    ensures !r.listening && r.running == {} && r.canceled && r.failure == failure
    ensures r.indexes == s.indexes && r.retries == s.retries && r.accepted == s.accepted
  {
    s.(listening := false, running := {}, canceled := true, failure := failure)
  }

  /** `_retry`, run when a vehicle's timer fires: the counter goes down by
      one; while it stays positive the clear message (index -1) or the
      current step is sent again, and once it reaches 0 the whole send is
      canceled. */
  function Retry<T>(reg: Registry, s: Sender<T>, v: int, add: (int, int, T) -> Packet): (r: Step<T>)
    requires Invariant(s) && v in s.data
    ensures Invariant(r.s) && SameSetup(r.s, s)
    ensures r.s.retries == s.retries[v := s.retries[v] - 1] && r.s.indexes == s.indexes
    ensures r.s.canceled <==> s.canceled || s.retries[v] - 1 <= 0
    ensures s.retries[v] - 1 <= 0 ==>
      r == Step(Cancel(s.(retries := s.retries[v := s.retries[v] - 1], running := s.running - {v}),
                       Some(Failure(v, s.indexes[v]))), [], None)
    ensures s.retries[v] - 1 > 0 ==>
      var counted := s.(retries := s.retries[v := s.retries[v] - 1], running := s.running - {v});
      r == (if s.indexes[v] == -1 then SendClear(reg, counted, v) else SendOne(reg, counted, v, add))
  {
    var counted := s.(retries := s.retries[v := s.retries[v] - 1], running := s.running - {v});
    if counted.retries[v] > 0 then
      if counted.indexes[v] == -1 then SendClear(reg, counted, v) else SendOne(reg, counted, v, add)
    else Step(Cancel(counted, Some(Failure(v, s.indexes[v]))), [], None)
  }

  /** `k` timeouts of a vehicle's timer with no ack in between, stopping
      once the send is canceled. */
  function Timeouts<T>(reg: Registry, s: Sender<T>, v: int, add: (int, int, T) -> Packet, k: nat): (r: Sender<T>)
    requires Invariant(s) && v in s.data
    ensures Invariant(r) && SameSetup(r, s)
    decreases k
  {
    if k == 0 || s.canceled then s else Timeouts(reg, Retry(reg, s, v, add).s, v, add, k - 1)
  }

  /** With no ack, a vehicle with `c` retries left survives `c - 1`
      timeouts and the `c`-th cancels the send: the counter counts the
      timeouts. */
  lemma {:induction false} TimeoutsExhaust<T>(reg: Registry, s: Sender<T>, v: int, add: (int, int, T) -> Packet, k: nat)
    requires Invariant(s) && v in s.data && !s.canceled
    requires k <= s.retries[v]
    ensures Timeouts(reg, s, v, add, k).retries[v] == s.retries[v] - k
    ensures Timeouts(reg, s, v, add, k).canceled <==> 0 < k == s.retries[v]
    ensures Timeouts(reg, s, v, add, k).indexes == s.indexes
    decreases k
  {
    if k > 0 {
      var next := Retry(reg, s, v, add).s;
      assert Timeouts(reg, s, v, add, k) == Timeouts(reg, next, v, add, k - 1);
      assert next.retries[v] == s.retries[v] - 1;
      if k == 1 {
        assert Timeouts(reg, next, v, add, 0) == next;
      } else {
        assert !next.canceled;
        TimeoutsExhaust(reg, next, v, add, k - 1);
      }
    }
  }

  /** After an ack the next timeout always sends again when the maximum is
      positive: the refilled counter leaves exactly `maxRetries` attempts. */
  lemma AckRefills<T>(reg: Registry, s: Sender<T>, p: Packet, add: (int, int, T) -> Packet)
    requires Invariant(s) && s.started && !s.canceled && s.config.maxRetries >= 1
    requires Get(p, "sensor_id").VInt? && Get(p, "sensor_id").i in s.data && Get(p, "next_index").VInt?
    ensures var v := Get(p, "sensor_id").i;
            var acked := ReceiveAck(s, p);
            acked.retries[v] == s.config.maxRetries + 1
            && !Retry(reg, acked, v, add).s.canceled
            && Retry(reg, acked, v, add).s.retries[v] == s.config.maxRetries
  {
  }
}

=== FILE: settings_receiver.dfy ===
/** The settings protocol on a vehicle (zigbee/Settings_Receiver.py). The
    ground station clears, adds key/value pairs and says done; each
    clear and add addressed to this sensor is acked to the ground station
    with the index after the packet's, and done writes the collected
    settings to the settings file and interrupts the sensor so that the
    program restarts with them. Unlike waypoint delivery there is no
    ordering check: every add for this sensor is stored, a later value
    overwriting an earlier one. The settings file and the two global
    caches are state of the model; the JSON layout of the file is left
    out. */
module SettingsReceiver {
  import opened Wrappers
  import opened Packets
  import RfSensor

  datatype Receiver = Receiver(
    /** The RF sensor's id. */
    id: int,
    /** `_new_settings`: the pairs received since the last clear. */
    pending: map<Value, Value>,
    /** The global `Settings.settings_files` cache. */
    settingsFiles: map<string, Value>,
    /** The arguments' `groups` cache. */
    groups: map<string, Value>,
    /** The settings file, once written. */
    file: Option<map<Value, Value>>,
    /** The sensor thread has been interrupted. */
    interrupted: bool)

  /** One handled packet: the new state, the ack enqueued (if any) and an
      exception that escaped. */
  datatype Step = Step(r: Receiver, ack: Option<RfSensor.Frame>, err: Option<Error>)

  /** The constructor: nothing pending. */
  function New(id: int, settingsFiles: map<string, Value>, groups: map<string, Value>, file: Option<map<Value, Value>>): (r: Receiver)
    ensures r.pending == map[] && r.id == id && !r.interrupted && r.file == file
  {
    Receiver(id, map[], settingsFiles, groups, file, false)
  }

  /** `_cleanup`: both caches and the pending settings are emptied. */
  function Cleanup(r: Receiver): (c: Receiver)
    ensures c.pending == map[] && c.settingsFiles == map[] && c.groups == map[]
    ensures c.(pending := r.pending, settingsFiles := r.settingsFiles, groups := r.groups) == r
  {
    r.(pending := map[], settingsFiles := map[], groups := map[])
  }

  /** `index + 1` in Python: ints, booleans and floats add, anything else
      raises TypeError. */
  function Successor(index: Value): (r: Result<Value>)
    ensures index.VInt? ==> r == Ok(VInt(index.i + 1))
    ensures index.VReal? ==> r == Ok(VReal(index.r + 1.0))
    ensures index.VBool? ==> r == Ok(VInt(if index.b then 2 else 1))
    ensures r.Err? <==> !(index.VInt? || index.VReal? || index.VBool?)
    ensures r.Err? ==> r.error == TypeError
  {
    match index
    case VInt(i) => Ok(VInt(i + 1))
    case VReal(x) => Ok(VReal(x + 1.0))
    case VBool(b) => Ok(VInt(if b then 2 else 1))
    case _ => Err(TypeError)
  }

  /** The ack packet: the index after `index` and this sensor's id. */
  function AckPacket(reg: Registry, id: int, next: Value): (p: Packet)
    ensures Get(p, SPECIFICATION) == VStr("setting_ack")
    ensures Get(p, "next_index") == next && Get(p, "sensor_id") == VInt(id)
  {
    Build(reg, "setting_ack", map["next_index" := next, "sensor_id" := VInt(id)])
  }

  /** `_send_ack(index)`: the ack goes to the ground station (id 0). */
  function SendAck(reg: Registry, id: int, index: Value): (r: Result<RfSensor.Frame>)
    ensures Successor(index).Err? ==> r == Err(TypeError)
    ensures Successor(index).Ok? ==>
      r == RfSensor.EnqueueTo(AckPacket(reg, id, Successor(index).value), 0)
    ensures r.Ok? ==> r.value.to == 0 && Get(r.value.packet, "next_index") == Successor(index).value
  {
    match Successor(index)
    case Err(e) => Err(e)
    case Ok(next) => RfSensor.EnqueueTo(AckPacket(reg, id, next), 0)
  }

  predicate ForMe(r: Receiver, p: Packet) {
    EqualsInt(Get(p, "to_id"), r.id)
  }

  /** `_clear`: a packet for another sensor is ignored; otherwise
      everything is cleaned up and 0 is acked. */
  function Clear(reg: Registry, r: Receiver, p: Packet): (s: Step)
    ensures !ForMe(r, p) ==> s == Step(r, None, None)
    ensures ForMe(r, p) ==>
      s.r == Cleanup(r)
      && (s.err.None? ==> s.ack.Some? && s.ack.value.to == 0 && Get(s.ack.value.packet, "next_index") == VInt(0))
      && (s.err.Some? ==> s.err == Some(ValueError) && s.ack.None?)
  {
    if !ForMe(r, p) then Step(r, None, None)
    else
      match SendAck(reg, r.id, VInt(-1))
      case Err(e) => Step(Cleanup(r), None, Some(e))
      case Ok(f) => Step(Cleanup(r), Some(f), None)
  }

  /** `_add`: a packet for another sensor is ignored; otherwise the value
      is stored under the key, whatever its index, and the index after the
      packet's is acked. The value is stored before the ack is made, so an
      index that cannot be incremented leaves it stored. */
  function Add(reg: Registry, r: Receiver, p: Packet): (s: Step)
    ensures !ForMe(r, p) ==> s == Step(r, None, None)
    ensures ForMe(r, p) ==>
      s.r == r.(pending := r.pending[Get(p, "key") := Get(p, "value")])
      && (s.ack.Some? <==> s.err.None?)
      && (s.ack.Some? ==> SendAck(reg, r.id, Get(p, "index")).Ok? && s.ack == Some(SendAck(reg, r.id, Get(p, "index")).value))
      && (Get(p, "index").VInt? && s.ack.Some? ==> Get(s.ack.value.packet, "next_index") == VInt(Get(p, "index").i + 1))
  {
    if !ForMe(r, p) then Step(r, None, None)
    else
      var stored := r.(pending := r.pending[Get(p, "key") := Get(p, "value")]);
      match SendAck(reg, r.id, Get(p, "index"))
      case Err(e) => Step(stored, None, Some(e))
      case Ok(f) => Step(stored, Some(f), None)
  }

  /** `_done`: a packet for another sensor is ignored; otherwise the
      pending settings are written to the file, everything is cleaned up
      and the sensor is interrupted. No ack is sent. */
  function Done(r: Receiver, p: Packet): (s: Step)
    ensures s.ack.None? && s.err.None?
    ensures !ForMe(r, p) ==> s.r == r
    ensures ForMe(r, p) ==>
      s.r.file == Some(r.pending) && s.r.interrupted
      && s.r.pending == map[] && s.r.settingsFiles == map[] && s.r.groups == map[]
  {
    if !ForMe(r, p) then Step(r, None, None)
    else Step(Cleanup(r).(file := Some(r.pending), interrupted := true), None, None)
  }

  /** The pending settings after storing `entries` one after another. */
  function Store(pending: map<Value, Value>, entries: seq<(Value, Value)>): map<Value, Value>
    decreases |entries|
  {
    if |entries| == 0 then pending
    else Store(pending[entries[0].0 := entries[0].1], entries[1..])
  }

  /** Handing the add packets `ps` to `Add` one after another. */
  function AddAll(reg: Registry, r: Receiver, ps: seq<Packet>): (s: Receiver)
    ensures s.id == r.id && s.file == r.file && s.interrupted == r.interrupted
    decreases |ps|
  {
    if |ps| == 0 then r else AddAll(reg, Add(reg, r, ps[0]).r, ps[1..])
  }

  /** The key/value pair an add packet carries. */
  function Entry(p: Packet): (e: (Value, Value))
  {
    (Get(p, "key"), Get(p, "value"))
  }

  /** The value of the last entry with key `k`, if any. */
  function LastValue(entries: seq<(Value, Value)>, k: Value): (r: Option<Value>)
    ensures r.None? <==> forall i :: 0 <= i < |entries| ==> entries[i].0 != k
    ensures r.Some? ==> exists i :: 0 <= i < |entries| && entries[i] == (k, r.value)
    decreases |entries|
  {
    if |entries| == 0 then None
    else if entries[|entries| - 1].0 == k then Some(entries[|entries| - 1].1)
    else LastValue(entries[..|entries| - 1], k)
  }

  /** After storing entries, a key holds the last value stored under it,
      and a key never stored keeps its earlier value. */
  lemma {:induction false} StoreKeepsLast(pending: map<Value, Value>, entries: seq<(Value, Value)>, k: Value)
    ensures LastValue(entries, k).Some? ==> k in Store(pending, entries) && Store(pending, entries)[k] == LastValue(entries, k).value
    ensures LastValue(entries, k).None? ==> (k in Store(pending, entries) <==> k in pending)
    ensures LastValue(entries, k).None? && k in pending ==> Store(pending, entries)[k] == pending[k]
    decreases |entries|
  {
    if |entries| > 0 {
      var init := entries[..|entries| - 1];
      var last := entries[|entries| - 1];
      assert entries == init + [last];
      StoreSnoc(pending, init, last);
      StoreKeepsLast(pending, init, k);
    }
  }

  /** Storing one more entry at the end is one more update. */
  lemma {:induction false} StoreSnoc(pending: map<Value, Value>, entries: seq<(Value, Value)>, e: (Value, Value))
    ensures Store(pending, entries + [e]) == Store(pending, entries)[e.0 := e.1]
    decreases |entries|
  {
    if |entries| == 0 {
      assert Store(pending, [e]) == Store(pending[e.0 := e.1], []);
    } else {
      assert (entries + [e])[1..] == entries[1..] + [e];
      StoreSnoc(pending[entries[0].0 := entries[0].1], entries[1..], e);
    }
  }

  /** The entries of a sequence of packets. */
  function Entries(ps: seq<Packet>): (r: seq<(Value, Value)>)
    ensures |r| == |ps|
    decreases |ps|
  {
    if |ps| == 0 then [] else [Entry(ps[0])] + Entries(ps[1..])
  }

  /** Add packets for this sensor store their pairs in order, whatever
      their indexes, as long as every index can be incremented. */
  lemma {:induction false} AddAllStores(reg: Registry, r: Receiver, ps: seq<Packet>)
    requires forall i :: 0 <= i < |ps| ==> ForMe(r, ps[i])
    ensures AddAll(reg, r, ps).pending == Store(r.pending, Entries(ps))
    decreases |ps|
  {
    if |ps| > 0 {
      var next := Add(reg, r, ps[0]).r;
      assert next.id == r.id;
      forall i | 0 <= i < |ps[1..]|
        ensures ForMe(next, ps[1..][i])
      {
        assert ps[1..][i] == ps[i + 1];
      }
      AddAllStores(reg, next, ps[1..]);
    }
  }

  /** The whole exchange: after a clear, adds for this sensor and a done,
      the settings file holds, for each key, the value of the last add
      that named it, and nothing for any other key. */
  lemma SessionWritesLastValues(reg: Registry, r: Receiver, clear: Packet, ps: seq<Packet>, done: Packet, k: Value)
    requires ForMe(r, clear) && ForMe(r, done)
    requires forall i :: 0 <= i < |ps| ==> ForMe(r, ps[i])
    ensures var cleared := Clear(reg, r, clear).r;
            var finished := Done(AddAll(reg, cleared, ps), done).r;
            finished.file.Some? && finished.interrupted
            && (LastValue(Entries(ps), k).Some? <==> k in finished.file.value)
            && (LastValue(Entries(ps), k).Some? ==> finished.file.value[k] == LastValue(Entries(ps), k).value)
  {
    var cleared := Clear(reg, r, clear).r;
    AddAllStores(reg, cleared, ps);
    StoreKeepsLast(map[], Entries(ps), k);
  }
}

=== FILE: simulator.dfy ===
/** The simulated RF sensor (zigbee/RF_Sensor_Simulator.py). Each sensor
    listens on a UDP port, the base port plus its id, so addressing a frame
    is arithmetic on ports. It joins at once, discovers the sensors whose
    ports are taken, shows every received packet to the receive callback,
    and on a vehicle turns every received packet into a ground-station
    packet with a random RSSI. Sockets are left out: whether a port is in
    use, the datagram read and the random draw are parameters. */
module Simulator {
  import opened Wrappers
  import opened Octets
  import opened Packets
  import Tdma
  import Decimal
  import PacketCodec
  import RfSensor

  datatype Sim = Sim(base: RfSensor.Sensor, ip: string, port: int, hasBuffer: bool)

  predicate Invariant(s: Sim) {
    RfSensor.Invariant(s.base)
  }

  /** `"{}:{}".format(ip, port)`. */
  function Address(ip: string, port: int): (r: string)
    ensures r == ip + ":" + Decimal.DecimalString(port)
  {
    ip + ":" + Decimal.DecimalString(port)
  }

  /** The constructor's own part: the sensor joins the virtual network at
      once and its address is the IP with the port it listens on. */
  function New(s: RfSensor.Sensor, ip: string, port: int): (r: Sim)
    requires RfSensor.Invariant(s)
    ensures Invariant(r)
    ensures r.base == s.(joined := true, address := Some(Address(ip, port + s.id)))
    ensures r.base.joined && r.ip == ip && r.port == port && !r.hasBuffer
  {
    Sim(s.(joined := true, address := Some(Address(ip, port + s.id))), ip, port, false)
  }

  /** The port a sensor with id `id` listens on; the listening ports of
      distinct ids are distinct. */
  function ListeningPort(s: Sim, id: int): (r: int)
    ensures r - s.port == id
  {
    s.port + id
  }

  /** `discover`: after the base checks, the required sensors (all
      vehicles by default) whose port is already bound by another socket are
      reported with their address. `used` says whether a port is taken. */
  function Discover(s: Sim, callable: bool, required: RfSensor.Required, used: int -> bool)
    : (r: Result<set<RfSensor.Discovery>>)
    ensures RfSensor.CheckDiscover(s.base, callable, required).Fail? ==>
      r == Err(RfSensor.CheckDiscover(s.base, callable, required).error)
    ensures RfSensor.CheckDiscover(s.base, callable, required) == Pass ==> r.Ok?
    ensures r.Ok? ==> RfSensor.CheckDiscover(s.base, callable, required) == Pass
    ensures r.Ok? ==> forall d :: d in r.value <==>
      d.id in RfSensor.RequiredIds(s.base, required) && used(ListeningPort(s, d.id))
      && d.address == Address(s.ip, ListeningPort(s, d.id))
  {
    match RfSensor.CheckDiscover(s.base, callable, required)
    case Fail(e) => Err(e)
    case Pass =>
      Ok(set i | i in RfSensor.RequiredIds(s.base, required) && used(s.port + i)
               :: RfSensor.Discovery(i, Address(s.ip, s.port + i)))
  }

  /** A datagram handed to the socket. */
  datatype Datagram = Datagram(bytes: seq<Octet>, ip: string, port: int)

  /** `_send_tx_frame`: the base checks, then the serialized packet goes to
      the addressee's port. */
  function SendTxFrame(reg: Registry, s: Sim, packet: Option<Packet>, to: Option<int>): (r: Result<Datagram>)
    ensures RfSensor.CheckTxFrame(s.base.connected, packet, to).Fail? ==>
      r == Err(RfSensor.CheckTxFrame(s.base.connected, packet, to).error)
    ensures r.Ok? <==> RfSensor.CheckTxFrame(s.base.connected, packet, to) == Pass
                       && PacketCodec.Serialize(reg, packet.value).Ok?
    ensures r.Ok? ==>
      r.value.ip == s.ip && r.value.port == ListeningPort(s, to.value)
      && r.value.bytes == PacketCodec.Serialize(reg, packet.value).value
  {
    match RfSensor.CheckTxFrame(s.base.connected, packet, to)
    case Fail(e) => Err(e)
    case Pass =>
      match PacketCodec.Serialize(reg, packet.value)
      case Err(e) => Err(e)
      case Ok(bytes) => Ok(Datagram(bytes, s.ip, s.port + to.value))
  }

  /** A frame sent by one simulated sensor arrives at the one whose id it
      names, and at no other sharing the base port, and unserializes there
      to a packet of the same specification with the same declared fields. */
  lemma FrameReachesAddressee(reg: Registry, s: Sim, other: Sim, p: Packet, to: int)
    requires PacketCodec.WellFormed(reg)
    requires SendTxFrame(reg, s, Some(p), Some(to)).Ok?
    requires other.ip == s.ip && other.port == s.port
    ensures var d := SendTxFrame(reg, s, Some(p), Some(to)).value;
            (d.port == ListeningPort(other, other.base.id) <==> other.base.id == to)
            && var q := PacketCodec.Unserialize(reg, NewPacket(), d.bytes);
               q.Ok? && Get(q.value, SPECIFICATION) == Get(p, SPECIFICATION)
               && var spec := RegisteredSpec(reg, p).value;
                  forall k :: 1 <= k < |spec.fields| ==> Get(q.value, spec.fields[k].name) == Get(p, spec.fields[k].name)
  {
    PacketCodec.SerializeRoundTrip(reg, p, NewPacket());
    var spec := RegisteredSpec(reg, p).value;
    assert Get(p, SPECIFICATION) == VStr(spec.name) by {
      assert Get(p, SPECIFICATION).VStr?;
      LookupName(reg, Get(p, SPECIFICATION).s);
    }
  }

  /** A registered specification is found under its own name. */
  lemma LookupName(reg: Registry, name: string)
    requires Lookup(reg, name).Some?
    ensures Lookup(reg, name).value.name == name
  {
  }

  /** What `_receive` hands on besides the new state: the packet shown to
      the receive callback and the packet put in the buffer, if any. */
  datatype Received = Received(sim: Sim, shown: Packet, buffered: Option<Packet>)

  /** `_receive`. A missing packet raises TypeError. Every packet is shown
      to the receive callback. A vehicle synchronises its schedule from it
      when started, and queues a ground-station packet whose RSSI is minus
      the random draw (between 30 and 70); the ground station instead puts
      it in the buffer when one is set. */
  function Receive(reg: Registry, s: Sim, packet: Option<Packet>, draw: int,
                   latitude: Value, longitude: Value, toValid: Value): (r: Result<Received>)
    requires 30 <= draw <= 70
    requires Invariant(s)
    ensures packet.None? ==> r == Err(TypeError)
    ensures r.Ok? ==> packet.Some? && r.value.shown == packet.value && Invariant(r.value.sim)
    ensures r.Ok? ==> r.value.sim.(base := s.base) == s
    ensures packet.Some? && s.base.id > 0 ==>
      (r.Ok? <==> !s.base.started || RfSensor.SynchronizeWith(s.base.scheduler, packet.value).Ok?)
    ensures r.Ok? && s.base.id > 0 ==>
      var g := RfSensor.CreateGroundStation(reg, s.base.id, packet.value, latitude, longitude, toValid);
      r.value.buffered.None?
      && r.value.sim.base.packets == s.base.packets + [Set(reg, g, "rssi", VInt(-draw))]
      && -70 <= -draw <= -30
      && r.value.sim.base.scheduler
         == (if s.base.started then RfSensor.SynchronizeWith(s.base.scheduler, packet.value).value
             else s.base.scheduler)
      && r.value.sim.base.(packets := s.base.packets, scheduler := s.base.scheduler) == s.base
    ensures packet.Some? && s.base.id <= 0 ==>
      r == Ok(Received(s, packet.value, if s.hasBuffer then Some(packet.value) else None))
  {
    match packet
    case None => Err(TypeError)
    case Some(p) =>
      if s.base.id > 0 then
        var scheduler :=
          if s.base.started then RfSensor.SynchronizeWith(s.base.scheduler, p) else Ok(s.base.scheduler);
        match scheduler
        case Err(e) => Err(e)
        case Ok(scheduler) =>
          var g := RfSensor.CreateGroundStation(reg, s.base.id, p, latitude, longitude, toValid);
          var base := s.base.(scheduler := scheduler, packets := s.base.packets + [Set(reg, g, "rssi", VInt(-draw))]);
          Ok(Received(s.(base := base), p, None))
      else Ok(Received(s, p, if s.hasBuffer then Some(p) else None))
  }

  /** What the non-blocking socket read gives: nothing waiting (a socket
      error, ignored) or a datagram. */
  datatype Incoming = NoData | Data(bytes: seq<Octet>)

  /** The `except AttributeError: raise DisabledException` of the loop
      body. */
  function Disabling(e: Error): (r: Error)
    ensures r != AttributeError
    ensures e != AttributeError ==> r == e
    ensures e == AttributeError ==> r == Disabled
  {
    if e == AttributeError then Disabled else e
  }

  /** The receive half of `_loop_body`. Without a connection the read
      raises AttributeError, which, like any AttributeError in this half,
      becomes DisabledException; a socket error ends the step quietly. */
  function Listen(reg: Registry, s: Sim, incoming: Incoming, draw: int,
                  latitude: Value, longitude: Value, toValid: Value): (r: (Sim, Option<Packet>, Option<Packet>, Option<Error>))
    requires 30 <= draw <= 70
    requires Invariant(s)
    ensures Invariant(r.0)
    ensures !s.base.connected ==> r == (s, None, None, Some(Disabled))
    ensures s.base.connected && incoming.NoData? ==> r == (s, None, None, None)
    ensures r.3 != Some(AttributeError)
    ensures s.base.connected && incoming.Data? ==>
      var p := PacketCodec.Unserialize(reg, NewPacket(), incoming.bytes);
      (p.Err? ==> r == (s, None, None, Some(Disabling(p.error))))
      && (p.Ok? ==>
            var received := Receive(reg, s, Some(p.value), draw, latitude, longitude, toValid);
            (received.Ok? ==> r == (received.value.sim, Some(p.value), received.value.buffered, None))
            && (received.Err? ==> r.0 == s && r.1.None? && r.3.Some?))
  {
    if !s.base.connected then (s, None, None, Some(Disabled))
    else match incoming
      case NoData => (s, None, None, None)
      case Data(bytes) =>
        match PacketCodec.Unserialize(reg, NewPacket(), bytes)
        case Err(e) => (s, None, None, Some(Disabling(e)))
        case Ok(p) =>
          match Receive(reg, s, Some(p), draw, latitude, longitude, toValid)
          case Err(e) => (s, None, None, Some(Disabling(e)))
          case Ok(Received(s', shown, buffered)) => (s', Some(shown), buffered, None)
  }

  /** `_loop_body`: the base step, then the receive half. An error from
      the base step ends the step before anything is read. */
  method LoopBody(reg: Registry, s: Sim, now: real, checks: nat, broadcast: int -> Packet,
                  incoming: Incoming, draw: int, latitude: Value, longitude: Value, toValid: Value)
    returns (r: Sim, sent: seq<RfSensor.Frame>, shown: Option<Packet>, buffered: Option<Packet>, err: Option<Error>)
    requires 30 <= draw <= 70
    requires Invariant(s)
    ensures Invariant(r)
    ensures !s.base.connected ==> err == Some(Disabled) && shown.None?
    ensures err != Some(AttributeError)
    ensures s.base.connected && incoming.NoData? ==> err.None? && shown.None? && buffered.None?
  {
    var b;
    b, sent, err := RfSensor.LoopBody(s.base, now, checks, broadcast);
    r := s.(base := b);
    shown, buffered := None, None;
    if err.Some? {
      return;
    }
    var (r', shown', buffered', err') := Listen(reg, r, incoming, draw, latitude, longitude, toValid);
    r, shown, buffered, err := r', shown', buffered', err';
  }
}

=== FILE: stream_buffer.dfy ===
/** The stream buffer (reconstruction/Stream_Buffer.py): ground station
    packets from a live RF sensor. In calibration mode the raw RSSI is
    returned; otherwise a calibration file, read like a dump's
    calibration file, is mandatory. The file's contents are a parameter. */
module StreamBuffer {
  import opened Wrappers
  import opened Packets
  import opened Buffers
  import DumpBuffer

  /** The settings the stream buffer reads: the network's origin and size,
      calibration mode, and the packets of the calibration file, if one is
      given. */
  datatype Settings = Settings(origin: seq<Value>, size: seq<Value>, calibrate: bool,
                               calibrationFile: Option<seq<seq<Value>>>)

  datatype Stream = Stream(base: Buffer<Packet>, calibrate: bool)

  /** The constructor: no settings raise ValueError (the base buffer's
      check), and so does leaving calibration mode without a calibration
      file; otherwise the calibration table comes from that file, and it
      stays empty in calibration mode. */
  function New(settings: Option<Settings>): (r: Result<Stream>)
    ensures settings.None? ==> r == Err(ValueError)
    ensures settings.Some? && !settings.value.calibrate && settings.value.calibrationFile.None? ==> r == Err(ValueError)
    ensures r.Ok? ==> var s := settings.value;
                      r.value.calibrate == s.calibrate && Count(r.value.base) == 0 && r.value.base.numberOfSensors == 0
                      && r.value.base.origin == s.origin && r.value.base.size == s.size
    ensures r.Ok? && settings.value.calibrate ==> r.value.base.calibration == map[]
    ensures r.Ok? && !settings.value.calibrate ==>
              DumpBuffer.Calibrate(map[], settings.value.calibrationFile.value) == Ok(r.value.base.calibration)
    ensures settings.Some? && settings.value.calibrate ==> r.Ok?
  {
    var base :- Buffers.New(settings.Some?);
    var s := settings.value;
    var b := base.(origin := s.origin, size := s.size);
    if s.calibrate then Ok(Stream(b, true))
    else if s.calibrationFile.None? then Err(ValueError)
    else
      var cal :- DumpBuffer.Calibrate(map[], s.calibrationFile.value);
      Ok(Stream(b.(calibration := cal), false))
  }

  /** `register_rf_sensor`: the buffer takes the RF sensor's number of
      sensors; nothing else changes. */
  function RegisterRfSensor(s: Stream, numberOfSensors: int): (r: Stream)
    ensures r.base.numberOfSensors == numberOfSensors
    ensures r == s.(base := s.base.(numberOfSensors := numberOfSensors))
  {
    s.(base := s.base.(numberOfSensors := numberOfSensors))
  }

  /** `get`: None when the queue is empty; otherwise the oldest packet
      leaves the queue and is returned with its RSSI, raw in calibration
      mode and minus its link's calibration RSSI otherwise (KeyError for a
      link without one). */
  function Get(s: Stream): (r: (Stream, Result<Option<(Packet, Value)>>))
    ensures Count(s.base) == 0 ==> r == (s, Ok(None))
    ensures Count(s.base) > 0 ==>
              var p := s.base.queue[0];
              r.0 == s.(base := Buffers.Get(s.base).0)
              && (s.calibrate ==> r.1 == Ok(Some((p, Packets.Get(p, "rssi")))))
              && (!s.calibrate ==> (r.1.Ok? <==> Calibrated(s.base.calibration, LinkOf(p), Packets.Get(p, "rssi")).Ok?))
              && (!s.calibrate && r.1.Ok? ==>
                    r.1 == Ok(Some((p, Calibrated(s.base.calibration, LinkOf(p), Packets.Get(p, "rssi")).value))))
  {
    var (b, packet) := Buffers.Get(s.base);
    var s' := s.(base := b);
    match packet
    case None => (s', Ok(None))
    case Some(p) =>
      if s.calibrate then (s', Ok(Some((p, Packets.Get(p, "rssi")))))
      else match Calibrated(s.base.calibration, LinkOf(p), Packets.Get(p, "rssi"))
        case Err(e) => (s', Err(e))
        case Ok(v) => (s', Ok(Some((p, v))))
  }

  /** A stream with the calibration of a dump file calibrates a packet
      exactly as the dump buffer calibrates that packet's dump. */
  lemma AgreesWithDump(reg: Registry, s: Stream, d: Buffer<seq<Value>>)
    requires !s.calibrate && s.base.calibration == d.calibration
    requires Count(s.base) > 0 && Count(d) > 0 && |d.queue[0]| == 8
    requires SetDump(reg, DumpBuffer.GroundStationPacket(reg), d.queue[0]) == Ok(s.base.queue[0])
    ensures Get(s).1 == DumpBuffer.Get(reg, d).1
  {
    var p := s.base.queue[0];
    var e := d.queue[0];
    assert Packets.Get(p, DUMP_FIELDS[1]) == e[1] && Packets.Get(p, DUMP_FIELDS[2]) == e[2];
    assert Packets.Get(p, DUMP_FIELDS[4]) == e[4] && Packets.Get(p, DUMP_FIELDS[5]) == e[5];
    assert Packets.Get(p, DUMP_FIELDS[7]) == e[7];
  }
}

=== FILE: tdma.dfy ===
/** The time-division channel access schedule of one RF sensor
    (zigbee/TDMA_Scheduler.py). A sweep of `sweepDelay` seconds is cut into
    `numberOfSensors` slots; the sensor may transmit while the current time
    lies in the slot that starts at `timestamp`. Time is a parameter. */
module Tdma {
  import opened Wrappers

  datatype Scheduler = Scheduler(
    id: int,
    numberOfSensors: int,
    sweepDelay: real,
    timestamp: real,
    slotTime: real)

  /** The relation between the settings and the slot length that every
      scheduler keeps. */
  predicate Valid(s: Scheduler) {
    s.numberOfSensors != 0 && s.slotTime * (s.numberOfSensors as real) == s.sweepDelay
  }

  /** Construction. `settings` is None when the argument is not an
      `Arguments` object; a zero sensor count divides by zero. */
  function New(id: int, settings: Option<(int, real)>): (r: Result<Scheduler>)
    ensures settings.None? ==> r == Err(TypeError)
    ensures settings.Some? && settings.value.0 == 0 ==> r == Err(ZeroDivisionError)
    ensures r.Ok? ==> Valid(r.value) && r.value.timestamp == 0.0 && r.value.id == id
    ensures r.Ok? ==> r.value.numberOfSensors == settings.value.0
                      && r.value.sweepDelay == settings.value.1
  {
    match settings
    case None => Err(TypeError)
    case Some((n, sweep)) =>
      if n == 0 then Err(ZeroDivisionError)
      else Ok(Scheduler(id, n, sweep, 0.0, sweep / (n as real)))
  }

  /** The `id` setter. */
  function SetId(s: Scheduler, id: int): (r: Scheduler)
    ensures r.id == id && r.timestamp == s.timestamp
    ensures Valid(s) ==> Valid(r)
  {
    s.(id := id)
  }

  /** The `timestamp` setter stores its argument verbatim; 0 means that the
      next `Update` resynchronises from the clock. */
  function SetTimestamp(s: Scheduler, value: real): (r: Scheduler)
    ensures r.timestamp == value && r.id == s.id && r.slotTime == s.slotTime
    ensures Valid(s) ==> Valid(r)
  {
    s.(timestamp := value)
  }

  /** Whether `now` lies in the closed slot window. */
  predicate InSlot(s: Scheduler, now: real) {
    s.timestamp <= now <= s.timestamp + s.slotTime
  }

  /** The start of this sensor's first slot after a resynchronisation at
      `now`: vehicle i starts i slots into the sweep. */
  function FirstSlot(s: Scheduler, now: real): real
    requires s.numberOfSensors != 0
  {
    now + ((s.id as real) / (s.numberOfSensors as real)) * s.sweepDelay
  }

  function Update(s: Scheduler, now: real): (r: Scheduler)
    requires Valid(s)
    ensures Valid(r) && r.id == s.id && r.slotTime == s.slotTime
    ensures s.timestamp == 0.0 ==> r.timestamp == now + (s.id as real) * s.slotTime
    ensures s.timestamp != 0.0 ==> r.timestamp == s.timestamp + s.sweepDelay
  {
    if s.timestamp == 0.0 then
      SlotOffset(s);
      s.(timestamp := FirstSlot(s, now))
    else
      s.(timestamp := s.timestamp + s.sweepDelay)
  }

  /** `(id / N) * sweep` is `id` slots. */
  lemma SlotOffset(s: Scheduler)
    requires Valid(s)
    ensures ((s.id as real) / (s.numberOfSensors as real)) * s.sweepDelay == (s.id as real) * s.slotTime
  {
    var n := s.numberOfSensors as real;
    calc {
      ((s.id as real) / n) * s.sweepDelay;
      ((s.id as real) / n) * (s.slotTime * n);
      (s.id as real) * s.slotTime;
    }
  }

  /** The slot start that a packet stamped `timestamp` by sensor `from`
      proposes for this sensor. */
  function Proposal(s: Scheduler, from: int, timestamp: real): real {
    if from < s.id then
      timestamp + ((s.id - from) as real) * s.slotTime
    else
      timestamp + ((s.numberOfSensors - from + 1) as real) * s.slotTime
        + ((s.id - 1) as real) * s.slotTime
  }

  /** Adopts the proposal of a received packet only when it lies strictly
      in the future of the current schedule. */
  function Synchronize(s: Scheduler, from: int, timestamp: real): (r: Scheduler)
    ensures r.timestamp >= s.timestamp
    ensures r.timestamp == s.timestamp || r.timestamp == Proposal(s, from, timestamp)
    ensures Proposal(s, from, timestamp) > s.timestamp <==> r.timestamp != s.timestamp
    ensures r.(timestamp := s.timestamp) == s
  {
    var proposed := Proposal(s, from, timestamp);
    if proposed > s.timestamp then s.(timestamp := proposed) else s
  }

  function Shift(s: Scheduler, seconds: real): (r: Scheduler)
    ensures r.timestamp - s.timestamp == seconds
    ensures r.(timestamp := s.timestamp) == s
  {
    s.(timestamp := s.timestamp + seconds)
  }

  /** A proposal is the sender's stamp moved by the id difference in slots,
      possibly one full sweep later; a packet from this sensor's own id
      proposes exactly one sweep later. */
  lemma ProposalIsSlotDistance(s: Scheduler, from: int, timestamp: real)
    requires Valid(s)
    ensures var d := Proposal(s, from, timestamp) - timestamp - ((s.id - from) as real) * s.slotTime;
            d == 0.0 || d == s.sweepDelay
    ensures from < s.id ==> Proposal(s, from, timestamp) == timestamp + ((s.id - from) as real) * s.slotTime
    ensures from == s.id ==> Proposal(s, from, timestamp) == timestamp + s.sweepDelay
  {
    if from >= s.id {
      calc {
        Proposal(s, from, timestamp);
        timestamp + ((s.numberOfSensors - from + 1) as real) * s.slotTime + ((s.id - 1) as real) * s.slotTime;
        timestamp + ((s.numberOfSensors + s.id - from) as real) * s.slotTime;
        timestamp + (s.numberOfSensors as real) * s.slotTime + ((s.id - from) as real) * s.slotTime;
      }
    }
  }

  /** Two distinct vehicles 1..N synchronised by the same packet obtain
      slot starts at least one slot apart, so their windows can overlap
      only at an end point. */
  lemma SynchronizedSlotsDisjoint(a: Scheduler, b: Scheduler, from: int, timestamp: real)
    requires Valid(a) && Valid(b)
    requires a.numberOfSensors == b.numberOfSensors && a.slotTime == b.slotTime
    requires a.slotTime > 0.0
    requires 1 <= a.id < b.id <= a.numberOfSensors
    requires 1 <= from <= a.numberOfSensors
    ensures var pa := Proposal(a, from, timestamp);
            var pb := Proposal(b, from, timestamp);
            pb - pa >= a.slotTime || pa - pb >= a.slotTime
  {
    var t := a.slotTime;
    var oa := SlotsAhead(a, from);
    var ob := SlotsAhead(b, from);
    var pa := Proposal(a, from, timestamp);
    var pb := Proposal(b, from, timestamp);
    ProposalInSlots(a, from, timestamp);
    ProposalInSlots(b, from, timestamp);
    assert oa != ob;
    SlotStartsApart(oa, ob, t, timestamp, pa, pb);
  }

  /** How many slots after the sender's stamp a proposal lies. */
  function SlotsAhead(s: Scheduler, from: int): int {
    if from < s.id then s.id - from else s.numberOfSensors - from + s.id
  }

  /** A proposal lies a whole number of slots after the sender's stamp. */
  lemma ProposalInSlots(s: Scheduler, from: int, timestamp: real)
    ensures Proposal(s, from, timestamp) == timestamp + (SlotsAhead(s, from) as real) * s.slotTime
  {
    if from >= s.id {
      SlotsTogether(s.numberOfSensors - from + 1, s.id - 1, s.slotTime);
    }
  }

  /** Starting two vehicles at the same instant gives them slots exactly
      their id difference apart; `Update` then moves each by whole sweeps. */
  lemma FirstSlotsDisjoint(a: Scheduler, b: Scheduler, now: real)
    requires Valid(a) && Valid(b) && a.timestamp == 0.0 && b.timestamp == 0.0
    requires a.slotTime == b.slotTime && a.slotTime > 0.0 && a.id < b.id
    ensures Update(b, now).timestamp - Update(a, now).timestamp == ((b.id - a.id) as real) * a.slotTime
    ensures Update(b, now).timestamp - Update(a, now).timestamp >= a.slotTime
  {
    var t := a.slotTime;
    SlotStartsApart(a.id, b.id, t, now, Update(a, now).timestamp, Update(b, now).timestamp);
  }

  /** Two starts a whole, different number of slots after a common
      instant lie that difference of slots apart, so at least one slot. */
  lemma SlotStartsApart(oa: int, ob: int, t: real, from: real, pa: real, pb: real)
    requires oa != ob && t > 0.0
    requires pa == from + (oa as real) * t && pb == from + (ob as real) * t
    ensures ob > oa ==> pb - pa == ((ob - oa) as real) * t && pb - pa >= t
    ensures oa > ob ==> pa - pb == ((oa - ob) as real) * t && pa - pb >= t
  {
    if ob > oa {
      SlotsApart(ob, oa, t);
      AtLeastOneSlot(ob - oa, t);
    } else {
      SlotsApart(oa, ob, t);
      AtLeastOneSlot(oa - ob, t);
    }
  }

  /** A whole number of slots, at least one, spans at least one slot. */
  lemma AtLeastOneSlot(k: int, t: real)
    requires k >= 1 && t > 0.0
    ensures (k as real) * t >= t
  {
    assert (k as real) * t - t == ((k - 1) as real) * t;
  }

  lemma SlotsApart(k: int, m: int, t: real)
    ensures (k as real) * t - (m as real) * t == ((k - m) as real) * t
  {
    Distribute(k as real, m as real, t);
  }

  lemma SlotsTogether(k: int, m: int, t: real)
    ensures (k as real) * t + (m as real) * t == ((k + m) as real) * t
  {
  }

  lemma Distribute(x: real, y: real, t: real)
    ensures (x - y) * t == x * t - y * t
  {
  }
}

=== FILE: text.dfy ===
/** The string operations the serial protocol and the argument filter
    use: Python's `str.split(sep)` with an explicit separator, its
    inverse `sep.join`, stripping a character from the left and
    white space from the right, and `startswith`. */
module Text {
  /** `s.split(sep)`: the pieces between separators, empty pieces
      included, so there is always at least one. */
  function Split(s: string, sep: char): (parts: seq<string>)
    ensures |parts| >= 1
    ensures forall i, k :: 0 <= i < |parts| && 0 <= k < |parts[i]| ==> parts[i][k] != sep
    decreases |s|
  {
    if |s| == 0 then [""]
    else
      var rest := Split(s[1..], sep);
      if s[0] == sep then [""] + rest
      else [[s[0]] + rest[0]] + rest[1..]
  }

  /** `sep.join(parts)`. */
  function Join(parts: seq<string>, sep: char): (s: string)
    requires |parts| >= 1
    decreases |parts|
  {
    if |parts| == 1 then parts[0] else parts[0] + [sep] + Join(parts[1..], sep)
  }

  /** Splitting and joining again gives the text back. */
  lemma {:induction false} JoinSplit(s: string, sep: char)
    ensures Join(Split(s, sep), sep) == s
    decreases |s|
  {
    if |s| > 0 {
      var rest := Split(s[1..], sep);
      JoinSplit(s[1..], sep);
      if s[0] == sep {
        assert Split(s, sep)[1..] == rest;
        assert s == [s[0]] + s[1..];
      } else if |rest| == 1 {
        assert s == [s[0]] + rest[0];
      } else {
        var parts := Split(s, sep);
        assert parts[1..] == rest[1..];
        assert Join(rest, sep) == rest[0] + [sep] + Join(rest[1..], sep);
        assert s == [s[0]] + s[1..];
      }
    }
  }

  /** Splitting joined pieces that hold no separator gives them back. */
  lemma {:induction false} SplitJoin(parts: seq<string>, sep: char)
    requires |parts| >= 1
    requires forall i, k :: 0 <= i < |parts| && 0 <= k < |parts[i]| ==> parts[i][k] != sep
    ensures Split(Join(parts, sep), sep) == parts
    decreases |parts|, |parts[0]|
  {
    if |parts| == 1 {
      SplitWord(parts[0], sep, []);
      assert parts[0] + [] == parts[0];
    } else {
      SplitJoin(parts[1..], sep);
      var tail := [sep] + Join(parts[1..], sep);
      assert Join(parts, sep) == parts[0] + tail;
      SplitWord(parts[0], sep, tail);
      assert Split(tail, sep) == [""] + Split(Join(parts[1..], sep), sep) by {
        assert tail[1..] == Join(parts[1..], sep);
      }
      var pieces := Split(tail, sep);
      assert pieces[0] == "" && pieces[1..] == parts[1..];
      assert parts[0] + pieces[0] == parts[0];
      assert parts == [parts[0]] + parts[1..];
    }
  }

  /** A word without separators in front of `rest` joins the first piece
      of `rest`. */
  lemma {:induction false} SplitWord(w: string, sep: char, rest: string)
    requires forall k :: 0 <= k < |w| ==> w[k] != sep
    ensures Split(w + rest, sep) == [w + Split(rest, sep)[0]] + Split(rest, sep)[1..]
    decreases |w|
  {
    if |w| > 0 {
      SplitWord(w[1..], sep, rest);
      assert (w + rest)[1..] == w[1..] + rest;
      assert [w[0]] + (w[1..] + Split(rest, sep)[0]) == w + Split(rest, sep)[0];
    } else {
      var pieces := Split(rest, sep);
      assert w + rest == rest && w + pieces[0] == pieces[0];
      assert pieces == [pieces[0]] + pieces[1..];
    }
  }

  /** Python's default white space for `strip`, in ASCII. */
  predicate IsSpace(c: char) {
    c == ' ' || c == '\t' || c == '\n' || c == '\r' || c == 11 as char || c == 12 as char
  }

  /** `s.lstrip(c)`. */
  function StripLeft(s: string, c: char): (r: string)
    ensures |r| <= |s| && r == s[|s| - |r|..]
    ensures |r| > 0 ==> r[0] != c
    ensures forall k :: 0 <= k < |s| - |r| ==> s[k] == c
    decreases |s|
  {
    if |s| > 0 && s[0] == c then StripLeft(s[1..], c) else s
  }

  /** `s.rstrip()`. */
  function StripRight(s: string): (r: string)
    ensures |r| <= |s| && r == s[..|r|]
    ensures |r| > 0 ==> !IsSpace(r[|r| - 1])
    ensures forall k :: |r| <= k < |s| ==> IsSpace(s[k])
    decreases |s|
  {
    if |s| > 0 && IsSpace(s[|s| - 1]) then StripRight(s[..|s| - 1]) else s
  }

  /** `s.startswith(prefix)`. */
  predicate StartsWith(s: string, prefix: string) {
    |prefix| <= |s| && s[..|prefix|] == prefix
  }
}

=== FILE: ti_sensor.dfy ===
/** The Texas Instruments physical sensor
    (zigbee/RF_Sensor_Physical_Texas_Instruments.py): a CC2530 radio on a
    vehicle or a CC2531 stick at the ground station, spoken to over a UART
    in the frames of module Uart. The sensor takes its id from the host
    name, discovers others by ping/pong, shifts its schedule when it has
    heard nothing for a while, and queues a ground-station packet with the
    measured RSSI for every broadcast it receives. Pins, the serial port,
    the host name lookup, the clock and the random shift are parameters or
    left out. The physical base class, zigbee/RF_Sensor_Physical.py, is not
    part of this model: its answers come in as `RfSensor.BaseAnswer`. */
module TexasInstruments {
  import opened Wrappers
  import opened Octets
  import opened Packets
  import Tdma
  import Decimal
  import PacketCodec
  import Uart
  import RfSensor

  const PING_PONG := "ping_pong"

  datatype Ti = Ti(
    base: RfSensor.Sensor,
    pollingTime: real,
    packetLength: nat,
    pollingDelay: real)

  predicate Invariant(t: Ti) {
    RfSensor.Invariant(t.base)
  }

  /** `split("-")[-1]`: the text after the last '-', or all of it when
      there is none. */
  function LastField(s: string): (r: string)
    ensures '-' !in r
    ensures |r| <= |s| && r == s[|s| - |r|..]
    ensures |r| < |s| ==> s[|s| - |r| - 1] == '-'
  {
    if |s| == 0 then ""
    else if s[|s| - 1] == '-' then ""
    else LastField(s[..|s| - 1]) + [s[|s| - 1]]
  }

  /** `_identify`: a sensor still at the default id 0 takes the number
      after the last '-' of its host name as its id and its scheduler's
      id; a host name without such a number leaves it at 0 (the
      ValueError is caught). Any other id is kept. */
  function Identify(s: RfSensor.Sensor, hostName: string): (r: RfSensor.Sensor)
    requires RfSensor.Invariant(s)
    ensures RfSensor.Invariant(r)
    ensures s.id != 0 ==> r == s
    ensures s.id == 0 && Decimal.ParseInt(LastField(hostName)).None? ==> r == s
    ensures s.id == 0 && Decimal.ParseInt(LastField(hostName)).Some? ==>
      r == s.(id := Decimal.ParseInt(LastField(hostName)).value,
              scheduler := Tdma.SetId(s.scheduler, Decimal.ParseInt(LastField(hostName)).value))
  {
    if s.id != 0 then s
    else match Decimal.ParseInt(LastField(hostName))
      case None => s
      case Some(id) => s.(id := id, scheduler := Tdma.SetId(s.scheduler, id))
  }

  /** A host name ending in "-" and a decimal number names the sensor with
      that number. */
  lemma IdentifyFromHostName(s: RfSensor.Sensor, prefix: string, n: nat)
    requires RfSensor.Invariant(s) && s.id == 0
    ensures Identify(s, prefix + "-" + Decimal.DecimalString(n)).id == n
    ensures Identify(s, prefix + "-" + Decimal.DecimalString(n)).scheduler.id == n
  {
    var digits := Decimal.DecimalString(n);
    assert '-' !in digits by {
      assert digits == Decimal.Digits(n) && Decimal.AllDigits(digits);
    }
    LastFieldOfSuffix(prefix, digits);
    Decimal.ParseRoundTrip(n);
  }

  /** The last field of a name ending in "-" and a dash-free suffix is
      that suffix. */
  lemma {:induction false} LastFieldOfSuffix(prefix: string, suffix: string)
    requires '-' !in suffix
    ensures LastField(prefix + "-" + suffix) == suffix
    decreases |suffix|
  {
    var s := prefix + "-" + suffix;
    if |suffix| > 0 {
      var init := suffix[..|suffix| - 1];
      assert s[..|s| - 1] == prefix + "-" + init;
      assert '-' !in init by {
        forall k | 0 <= k < |init| ensures init[k] != '-' { assert init[k] == suffix[k]; }
      }
      LastFieldOfSuffix(prefix, init);
      assert init + [suffix[|suffix| - 1]] == suffix;
    } else {
      assert s[|s| - 1] == '-';
    }
  }

  /** The constructor's own part, after the base constructor: identify,
      take the id as the address, count as joined and clear the polling
      time. */
  function New(s: RfSensor.Sensor, hostName: string, packetLength: nat, pollingDelay: real): (r: Ti)
    requires RfSensor.Invariant(s)
    ensures Invariant(r)
    ensures r.base.id == Identify(s, hostName).id
    ensures r.base.address == Some(Decimal.DecimalString(r.base.id))
    ensures r.base.joined && r.pollingTime == 0.0
    ensures r.packetLength == packetLength && r.pollingDelay == pollingDelay
  {
    var b := Identify(s, hostName);
    Ti(b.(address := Some(Decimal.DecimalString(b.id)), joined := true), 0.0, packetLength, pollingDelay)
  }

  /** `start`: note the time, then the base `start`. */
  function Start(t: Ti, now: real): (r: Ti)
    requires Invariant(t)
    ensures Invariant(r) && r.pollingTime == now
    ensures r.base == RfSensor.Start(t.base, now)
    ensures r.(base := t.base, pollingTime := t.pollingTime) == t
  {
    t.(base := RfSensor.Start(t.base, now), pollingTime := now)
  }

  /** The ping/pong packet `discover` sends to sensor `index`. */
  function PingPong(reg: Registry, index: int): (p: Packet)
    ensures Get(p, SPECIFICATION) == VStr(PING_PONG) && Get(p, "sensor_id") == VInt(index)
  {
    Build(reg, PING_PONG, map["sensor_id" := VInt(index)])
  }

  /** `discover`: after the base checks, one ping/pong to each required
      sensor (all vehicles by default) carrying that sensor's id. The set is
      visited in no particular order, so the frames are a set. On a closed
      connection the first frame raises DisabledException. */
  function Discover(reg: Registry, t: Ti, callable: bool, required: RfSensor.Required)
    : (r: Result<set<RfSensor.Frame>>)
    ensures RfSensor.CheckDiscover(t.base, callable, required).Fail? ==>
      r == Err(RfSensor.CheckDiscover(t.base, callable, required).error)
    ensures r.Ok? ==> RfSensor.CheckDiscover(t.base, callable, required) == Pass
    ensures r.Ok? ==>
      (forall f :: f in r.value <==> f.to in RfSensor.RequiredIds(t.base, required) && f.packet == PingPong(reg, f.to))
    ensures RfSensor.CheckDiscover(t.base, callable, required) == Pass && !t.base.connected ==>
      (r.Err? <==> RfSensor.RequiredIds(t.base, required) != {})
    ensures r.Err? && RfSensor.CheckDiscover(t.base, callable, required) == Pass ==> r.error == Disabled
  {
    match RfSensor.CheckDiscover(t.base, callable, required)
    case Fail(e) => Err(e)
    case Pass =>
      var ids := RfSensor.RequiredIds(t.base, required);
      if !t.base.connected && ids != {} then Err(Disabled)
      else Ok(set i | i in ids :: RfSensor.Frame(PingPong(reg, i), i))
  }

  /** The schedule rule of `_loop_body`: a started vehicle that has heard
      nothing for longer than the polling delay shifts its schedule by
      `shift` seconds (drawn at random between the configured bounds),
      moves it on, and restarts the wait. */
  function Poll(t: Ti, now: real, shift: real): (r: Ti)
    requires Invariant(t)
    ensures Invariant(r)
    ensures t.base.started && t.base.id > 0 && now - t.pollingTime > t.pollingDelay ==>
      r.pollingTime == now
      && r.base.scheduler == Tdma.Update(Tdma.Shift(t.base.scheduler, shift), now)
      && r.(base := t.base, pollingTime := t.pollingTime) == t
      && r.base.(scheduler := t.base.scheduler) == t.base
    ensures !(t.base.started && t.base.id > 0 && now - t.pollingTime > t.pollingDelay) ==> r == t
  {
    if t.base.started && t.base.id > 0 && now - t.pollingTime > t.pollingDelay then
      t.(base := t.base.(scheduler := Tdma.Update(Tdma.Shift(t.base.scheduler, shift), now)), pollingTime := now)
    else t
  }

  /** What processing a packet asks of the outside world. */
  datatype Action =
    | NoAction
    | Discovered(id: Value, address: Option<string>)
    | Echo(frame: RfSensor.Frame)

  /** `_process_rssi_broadcast_packet`: the base class's ground-station
      packet, with the RSSI set, joins the relay queue. */
  function ProcessBroadcast(reg: Registry, t: Ti, rssi: Option<int>, groundStation: Result<Packet>)
    : (r: Result<Ti>)
    ensures rssi.None? ==> r == Err(TypeError)
    ensures rssi.Some? && groundStation.Err? ==> r == Err(groundStation.error)
    ensures r.Ok? <==> rssi.Some? && groundStation.Ok?
    ensures r.Ok? && Invariant(t) ==> Invariant(r.value)
    ensures r.Ok? ==>
      var queued := Set(reg, groundStation.value, "rssi", VInt(rssi.value));
      r.value == t.(base := t.base.(packets := t.base.packets + [queued]))
      && Get(queued, "rssi") == VInt(rssi.value)
  {
    if rssi.None? then Err(TypeError)
    else match groundStation
      case Err(e) => Err(e)
      case Ok(g) => Ok(t.(base := t.base.(packets := t.base.packets + [Set(reg, g, "rssi", VInt(rssi.value))])))
  }

  /** `_process`: an RSSI is required. At the ground station a ping/pong
      reports the sensor it came from; on a vehicle it is echoed to the
      ground station. Anything else goes to the base class, and a broadcast
      then to `ProcessBroadcast`. */
  function Process(reg: Registry, t: Ti, p: Packet, rssi: Option<int>, answer: RfSensor.BaseAnswer)
    : (r: Result<(Ti, Action)>)
    ensures rssi.None? ==> r == Err(TypeError)
    ensures r.Ok? && Invariant(t) ==> Invariant(r.value.0)
    ensures r.Ok? ==> r.value.0.pollingTime == t.pollingTime
    ensures rssi.Some? && Get(p, SPECIFICATION) == VStr(PING_PONG) && t.base.id == 0 ==>
      r == Ok((t, Discovered(Get(p, "sensor_id"), RfSensor.AddressOf(Get(p, "sensor_id")))))
    ensures rssi.Some? && Get(p, SPECIFICATION) == VStr(PING_PONG) && t.base.id != 0 ==>
      r == (if t.base.connected then Ok((t, Echo(RfSensor.Frame(p, 0)))) else Err(Disabled))
    ensures rssi.Some? && Get(p, SPECIFICATION) != VStr(PING_PONG) ==>
      (r.Ok? <==> answer.isBroadcast == Ok(false)
                  || (answer.isBroadcast == Ok(true) && answer.groundStation.Ok?))
      && (r.Ok? ==> r.value.1 == NoAction)
      && (answer.isBroadcast == Ok(false) ==> r == Ok((t, NoAction)))
      && (answer.isBroadcast == Ok(true) && r.Ok? ==> r.value.0 == ProcessBroadcast(reg, t, rssi, answer.groundStation).value)
  {
    if rssi.None? then Err(TypeError)
    else if Get(p, SPECIFICATION) == VStr(PING_PONG) then
      if t.base.id == 0 then Ok((t, Discovered(Get(p, "sensor_id"), RfSensor.AddressOf(Get(p, "sensor_id")))))
      else if t.base.connected then Ok((t, Echo(RfSensor.Frame(p, 0))))
      else Err(Disabled)
    else match answer.isBroadcast
      case Err(e) => Err(e)
      case Ok(false) => Ok((t, NoAction))
      case Ok(true) =>
        match ProcessBroadcast(reg, t, rssi, answer.groundStation)
        case Err(e) => Err(e)
        case Ok(t') => Ok((t', NoAction))
  }

  /** `_receive`: nothing happens until a whole UART frame is waiting.
      Then the frame is taken, its data unserialized (errors there escape),
      the polling time noted, and the packet processed with the frame's
      RSSI. A ValueError from processing is logged and swallowed: the frame
      is consumed and the state is as after noting the polling time. */
  function Receive(reg: Registry, t: Ti, waiting: seq<Octet>, now: real, answer: RfSensor.BaseAnswer)
    : (r: Result<(Ti, seq<Octet>, Action)>)
    ensures |waiting| < t.packetLength + 2 ==> r == Ok((t, waiting, NoAction))
    ensures r.Ok? && Invariant(t) ==> Invariant(r.value.0)
    ensures r.Ok? && |waiting| >= t.packetLength + 2 ==>
      r.value.1 == waiting[t.packetLength + 2..] && r.value.0.pollingTime == now
    ensures Uart.ReadFrame(waiting, t.packetLength).Ok? && Uart.ReadFrame(waiting, t.packetLength).value.Some? ==>
      var (frame, rest) := Uart.ReadFrame(waiting, t.packetLength).value.value;
      var p := PacketCodec.Unserialize(reg, NewPacket(), frame.data);
      var noted := t.(pollingTime := now);
      (p.Err? ==> r == Err(p.error))
      && (p.Ok? && Process(reg, noted, p.value, Some(frame.rssi), answer).Ok? ==>
            r == Ok((Process(reg, noted, p.value, Some(frame.rssi), answer).value.0, rest,
                     Process(reg, noted, p.value, Some(frame.rssi), answer).value.1)))
      && (p.Ok? && Process(reg, noted, p.value, Some(frame.rssi), answer) == Err(ValueError) ==>
            r == Ok((noted, rest, NoAction)))
  {
    match Uart.ReadFrame(waiting, t.packetLength)
    case Err(e) => Err(e)
    case Ok(None) => Ok((t, waiting, NoAction))
    case Ok(Some((frame, rest))) =>
      match PacketCodec.Unserialize(reg, NewPacket(), frame.data)
      case Err(e) => Err(e)
      case Ok(p) =>
        var noted := t.(pollingTime := now);
        match Process(reg, noted, p, Some(frame.rssi), answer)
        case Ok((t', action)) => Ok((t', rest, action))
        case Err(ValueError) => Ok((noted, rest, NoAction))
        case Err(e) => Err(e)
  }

  /** A step that takes a frame notes the time, so the polling rule that
      follows it in the same step never shifts the schedule. */
  lemma ReceiveSuppressesShift(reg: Registry, t: Ti, waiting: seq<Octet>, now: real, shift: real,
                               answer: RfSensor.BaseAnswer)
    requires Invariant(t) && t.pollingDelay >= 0.0
    requires |waiting| >= t.packetLength + 2
    requires Receive(reg, t, waiting, now, answer).Ok?
    ensures Poll(Receive(reg, t, waiting, now, answer).value.0, now, shift)
            == Receive(reg, t, waiting, now, answer).value.0
  {
  }

  /** `_loop_body`: receive, apply the polling rule, then the base loop
      body. An exception from receiving ends the step before anything is
      sent. */
  method LoopBody(reg: Registry, t: Ti, waiting: seq<Octet>, now: real, shift: real,
                  answer: RfSensor.BaseAnswer, checks: nat, broadcast: int -> Packet)
    returns (r: Ti, rest: seq<Octet>, action: Action, sent: seq<RfSensor.Frame>, err: Option<Error>)
    requires Invariant(t)
    ensures Invariant(r)
    ensures Receive(reg, t, waiting, now, answer).Err? ==>
      r == t && rest == waiting && action == NoAction && sent == []
      && err == Some(Receive(reg, t, waiting, now, answer).error)
    ensures Receive(reg, t, waiting, now, answer).Ok? ==>
      var (received, left, taken) := Receive(reg, t, waiting, now, answer).value;
      rest == left && action == taken
      && r.pollingTime == Poll(received, now, shift).pollingTime
      && (!received.base.started && received.base.connected ==>
            sent == received.base.custom && r.base.custom == [] && err.None?)
    ensures err.Some? && Receive(reg, t, waiting, now, answer).Ok? ==> err == Some(Disabled)
  {
    match Receive(reg, t, waiting, now, answer)
    case Err(e) =>
      r, rest, action, sent, err := t, waiting, NoAction, [], Some(e);
    case Ok((received, left, taken)) =>
      rest, action := left, taken;
      var polled := Poll(received, now, shift);
      var b;
      b, sent, err := RfSensor.LoopBody(polled.base, now, checks, broadcast);
      r := polled.(base := b);
  }
}

=== FILE: uart.dfy ===
/** The UART frames exchanged with a CC2530/CC2531 radio, shared by
    zigbee/RF_Sensor_Physical_Texas_Instruments.py and
    zigbee/XBee_CC2530_Sensor_Physical.py. A transmit frame is the packet
    type byte 2, the destination, the serialized length and the serialized
    packet in a field of `packet_length` bytes (`struct` format
    `<BBB{n}s`, which pads with zero bytes or truncates). A received frame
    is a length byte, the `packet_length`-byte field and a signed RSSI byte
    (`<B{n}sb`). */
module Uart {
  import opened Wrappers
  import opened Octets

  const TX: byte := 2
  const CONFIGURATION: byte := 1

  /** `struct`'s `{n}s`: the string cut or zero-padded to `n` bytes. */
  function Fit(data: seq<Octet>, n: nat): (r: seq<Octet>)
    ensures |r| == n
    ensures |data| >= n ==> r == data[..n]
    ensures |data| < n ==> r[..|data|] == data && forall k :: |data| <= k < n ==> r[k] == Byte(0)
  {
    if |data| >= n then data[..n] else data + Zeros(n - |data|)
  }

  /** `_send_tx_frame`'s payload. A destination or length outside 0..255
      makes `struct.pack` raise. */
  function TxFrame(to: int, data: seq<Octet>, packetLength: nat): (r: Result<seq<Octet>>)
    ensures r.Ok? <==> 0 <= to < 256 && |data| < 256
    ensures r.Err? ==> r.error == StructError
    ensures r.Ok? ==> (|r.value| == packetLength + 3
      && r.value[0] == Byte(TX) && r.value[1] == Byte(to as byte)
      && r.value[2] == Byte(|data| as byte)
      && r.value[3..] == Fit(data, packetLength))
  {
    if 0 <= to < 256 && |data| < 256 then
      Ok([Byte(TX), Byte(to as byte), Byte(|data| as byte)] + Fit(data, packetLength))
    else Err(StructError)
  }

  /** A frame read from the radio. */
  datatype Received = Received(data: seq<Octet>, rssi: int)

  /** `_receive`'s read: nothing happens until `packet_length + 2` bytes
      are waiting; then one frame is taken, its data cut to the length
      byte and its last byte read as a signed RSSI. The remaining bytes
      stay waiting. An abstract double octet in the length or RSSI position
      has no byte value and is reported as a struct error. */
  function ReadFrame(waiting: seq<Octet>, packetLength: nat): (r: Result<Option<(Received, seq<Octet>)>>)
    ensures |waiting| < packetLength + 2 ==> r == Ok(None)
    ensures r.Ok? && r.value.Some? ==>
      var (frame, rest) := r.value.value;
      |waiting| >= packetLength + 2
      && waiting[0].Byte? && waiting[packetLength + 1].Byte?
      && rest == waiting[packetLength + 2..]
      && |frame.data| == (if waiting[0].b as int <= packetLength then waiting[0].b as int else packetLength)
      && frame.data == waiting[1..1 + |frame.data|]
      && -128 <= frame.rssi < 128
      && SignedPattern(frame.rssi, 1) == waiting[packetLength + 1].b as int
    ensures |waiting| >= packetLength + 2 && waiting[0].Byte? && waiting[packetLength + 1].Byte? ==> r.Ok? && r.value.Some?
  {
    if |waiting| < packetLength + 2 then Ok(None)
    else if !waiting[0].Byte? || !waiting[packetLength + 1].Byte? then Err(StructError)
    else
      var length := waiting[0].b as int;
      var field := waiting[1..packetLength + 1];
      var data := if length <= packetLength then field[..length] else field;
      var rssi := FromSignedPattern(waiting[packetLength + 1].b as nat, 1);
      Ok(Some((Received(data, rssi), waiting[packetLength + 2..])))
  }

  /** What one radio hands the other: the receiver sees the transmit
      frame without its type and destination bytes, followed by the RSSI it
      measured. A packet that fits in `packet_length` arrives intact; a
      longer one arrives cut to `packet_length` bytes. */
  lemma FrameRoundTrip(to: int, data: seq<Octet>, packetLength: nat, rssi: int, rest: seq<Octet>)
    requires 0 <= to < 256 && |data| < 256
    requires -128 <= rssi < 128
    ensures var frame := TxFrame(to, data, packetLength).value;
            var r := ReadFrame(frame[2..] + [Byte(SignedPattern(rssi, 1) as byte)] + rest, packetLength);
            r.Ok? && r.value.Some? && r.value.value.1 == rest && r.value.value.0.rssi == rssi
            && r.value.value.0.data == (if |data| <= packetLength then data else data[..packetLength])
  {
    var frame := TxFrame(to, data, packetLength).value;
    var rssiByte := SignedPattern(rssi, 1);
    var waiting := frame[2..] + [Byte(rssiByte as byte)] + rest;
    assert waiting[0] == Byte(|data| as byte);
    assert waiting[1..packetLength + 1] == Fit(data, packetLength);
    assert waiting[packetLength + 1] == Byte(rssiByte as byte);
    assert waiting[packetLength + 2..] == rest;
    SignedRoundTrip(rssi, 1);
  }
}

=== FILE: vehicle.dfy ===
/** The vehicle base class (vehicle/Vehicle.py): attribute listeners that
    are notified when the home location or the servo values change, and
    the validity check of a location. Listeners are values of a type
    parameter and a notification is the list of calls made, in order. */
module Vehicle {
  import opened Wrappers

  /** The location kinds of the flight library: a local frame, and global
      frames with a relative or an absolute altitude; a field is None until
      the vehicle knows it. Anything else is some other object. */
  datatype Location =
    | Local(north: Option<real>, east: Option<real>, down: Option<real>)
    | GlobalRelative(lat: Option<real>, lon: Option<real>, alt: Option<real>)
    | Global(lat: Option<real>, lon: Option<real>, alt: Option<real>)
    | OtherObject

  /** `is_location_valid`: a local location needs its north field, a
      global one its latitude and altitude; any other object is a
      TypeError. */
  function IsLocationValid(location: Location): (r: Result<bool>)
    ensures r.Err? <==> location.OtherObject?
    ensures r.Err? ==> r.error == TypeError
    ensures location.Local? ==> r == Ok(location.north.Some?)
    ensures location.GlobalRelative? || location.Global? ==> r == Ok(location.lat.Some? && location.alt.Some?)
  {
    match location
    case Local(north, _, _) => Ok(north.Some?)
    case GlobalRelative(lat, _, alt) => Ok(lat.Some? && alt.Some?)
    case Global(lat, _, alt) => Ok(lat.Some? && alt.Some?)
    case OtherObject => Err(TypeError)
  }

  /** What a listener is told. */
  datatype AttributeValue = HomeValue(location: Location) | ServosValue(pwms: map<int, int>)

  /** One listener call `fn(vehicle, attribute, value)`. */
  datatype Call<L> = Call(listener: L, attribute: string, value: AttributeValue)

  datatype Attributes<L> = Attributes(
    home: Option<Location>,
    /** Last known PWM value per servo pin. */
    servos: map<int, int>,
    /** Listeners per attribute name, in registration order. */
    listeners: map<string, seq<L>>)

  function New<L>(): (a: Attributes<L>)
    ensures a.home.None? && a.servos == map[] && a.listeners == map[]
  {
    Attributes(None, map[], map[])
  }

  /** The listeners of an attribute; none when it has no entry. */
  function ListenersOf<L>(a: Attributes<L>, attribute: string): seq<L> {
    if attribute in a.listeners then a.listeners[attribute] else []
  }

  /** Each registered attribute has a listener and no listener twice. */
  ghost predicate Invariant<L>(a: Attributes<L>) {
    forall attribute | attribute in a.listeners ::
      |a.listeners[attribute]| > 0 && Distinct(a.listeners[attribute])
  }

  predicate Distinct<L(==)>(xs: seq<L>) {
    forall i, j :: 0 <= i < j < |xs| ==> xs[i] != xs[j]
  }

  /** `add_attribute_listener` as written. Its duplicate guard asks
      whether the listener is one of the attribute NAMES, which a callable
      never is, so the listener is always appended. */
  function AddListenerAsWritten<L>(a: Attributes<L>, attribute: string, listener: L): (b: Attributes<L>)
    ensures ListenersOf(b, attribute) == ListenersOf(a, attribute) + [listener]
    ensures b.listeners.Keys == a.listeners.Keys + {attribute}
  {
    a.(listeners := a.listeners[attribute := ListenersOf(a, attribute) + [listener]])
  }

  /** Adding a listener twice with the version as written makes every
      notification call it twice. */
  lemma ReaddedListenerCalledTwice<L>(a: Attributes<L>, attribute: string, listener: L, value: AttributeValue)
    requires attribute !in a.listeners
    ensures var twice := AddListenerAsWritten(AddListenerAsWritten(a, attribute, listener), attribute, listener);
            Notify(twice, attribute, value) == [Call(listener, attribute, value), Call(listener, attribute, value)]
  {
  }

  /** `add_attribute_listener` with the guard testing the attribute's own
      list: a listener already registered is not added again. */
  function AddListener<L(==)>(a: Attributes<L>, attribute: string, listener: L): (b: Attributes<L>)
    ensures listener in ListenersOf(a, attribute) ==> ListenersOf(b, attribute) == ListenersOf(a, attribute)
    ensures listener !in ListenersOf(a, attribute) ==> ListenersOf(b, attribute) == ListenersOf(a, attribute) + [listener]
    ensures b.listeners.Keys == a.listeners.Keys + {attribute}
    ensures forall other | other != attribute :: ListenersOf(b, other) == ListenersOf(a, other)
    ensures b.home == a.home && b.servos == a.servos
  {
    var current := ListenersOf(a, attribute);
    if listener in current then a.(listeners := a.listeners[attribute := current])
    else a.(listeners := a.listeners[attribute := current + [listener]])
  }

  /** `remove_attribute_listener`: KeyError when the attribute has no
      entry, ValueError when the listener is not in it; the first
      occurrence is removed, and an emptied entry is deleted. */
  function RemoveListener<L(==)>(a: Attributes<L>, attribute: string, listener: L): (r: Result<Attributes<L>>)
    ensures attribute !in a.listeners ==> r == Err(KeyError)
    ensures attribute in a.listeners && listener !in a.listeners[attribute] ==> r == Err(ValueError)
    ensures r.Ok? ==>
      var before := a.listeners[attribute];
      var after := ListenersOf(r.value, attribute);
      listener in before
      && (exists i :: 0 <= i < |before| && before[i] == listener && listener !in before[..i] && after == before[..i] + before[i + 1..])
      && (attribute in r.value.listeners <==> |before| > 1)
      && forall other | other != attribute :: ListenersOf(r.value, other) == ListenersOf(a, other)
  {
    if attribute !in a.listeners then Err(KeyError)
    else
      var before := a.listeners[attribute];
      if listener !in before then Err(ValueError)
      else
        var i := FirstIndex(before, listener);
        var after := before[..i] + before[i + 1..];
        if |after| == 0 then Ok(a.(listeners := a.listeners - {attribute}))
        else Ok(a.(listeners := a.listeners[attribute := after]))
  }

  /** The position of the first occurrence of `x`. */
  function FirstIndex<L(==)>(xs: seq<L>, x: L): (i: nat)
    requires x in xs
    ensures i < |xs| && xs[i] == x && x !in xs[..i]
  {
    if xs[0] == x then 0
    else
      var i := FirstIndex(xs[1..], x);
      assert xs[..i + 1] == [xs[0]] + xs[1..][..i];
      i + 1
  }

  /** Both operations keep every entry non-empty and duplicate-free. */
  lemma ListenerOpsKeepInvariant<L>(a: Attributes<L>, attribute: string, listener: L)
    requires Invariant(a)
    ensures Invariant(AddListener(a, attribute, listener))
    ensures RemoveListener(a, attribute, listener).Ok? ==> Invariant(RemoveListener(a, attribute, listener).value)
  {
    AddKeepsInvariant(a, attribute, listener);
    RemoveKeepsInvariant(a, attribute, listener);
  }

  lemma AddKeepsInvariant<L>(a: Attributes<L>, attribute: string, listener: L)
    requires Invariant(a)
    ensures Invariant(AddListener(a, attribute, listener))
  {
    var b := AddListener(a, attribute, listener);
    forall other | other in b.listeners
      ensures |b.listeners[other]| > 0 && Distinct(b.listeners[other])
    {
      if other != attribute {
        assert b.listeners[other] == ListenersOf(a, other);
      } else if listener !in ListenersOf(a, attribute) {
        var xs := ListenersOf(a, attribute);
        assert b.listeners[other] == xs + [listener];
      }
    }
  }

  lemma RemoveKeepsInvariant<L>(a: Attributes<L>, attribute: string, listener: L)
    requires Invariant(a)
    ensures RemoveListener(a, attribute, listener).Ok? ==> Invariant(RemoveListener(a, attribute, listener).value)
  {
    var r := RemoveListener(a, attribute, listener);
    if r.Ok? {
      var before := a.listeners[attribute];
      var i := FirstIndex(before, listener);
      var after := before[..i] + before[i + 1..];
      DropKeepsDistinct(before, i);
      forall other | other in r.value.listeners
        ensures |r.value.listeners[other]| > 0 && Distinct(r.value.listeners[other])
      {
        if other == attribute {
          assert r.value.listeners[other] == after;
        }
      }
    }
  }

  /** Dropping one element of a duplicate-free sequence leaves it
      duplicate-free. */
  lemma DropKeepsDistinct<L>(xs: seq<L>, i: nat)
    requires Distinct(xs) && i < |xs|
    ensures Distinct(xs[..i] + xs[i + 1..])
  {
    var ys := xs[..i] + xs[i + 1..];
    forall p, q | 0 <= p < q < |ys|
      ensures ys[p] != ys[q]
    {
      var p' := if p < i then p else p + 1;
      var q' := if q < i then q else q + 1;
      assert ys[p] == xs[p'] && ys[q] == xs[q'];
    }
  }

  /** Adding a new listener and removing it again gives the listeners
      back. */
  lemma AddThenRemove<L>(a: Attributes<L>, attribute: string, listener: L)
    requires Invariant(a)
    requires listener !in ListenersOf(a, attribute)
    ensures RemoveListener(AddListener(a, attribute, listener), attribute, listener) == Ok(a)
  {
    var b := AddListener(a, attribute, listener);
    var before := ListenersOf(a, attribute);
    var xs := before + [listener];
    assert b.listeners[attribute] == xs;
    assert xs[..|before|] == before;
    assert FirstIndex(xs, listener) == |before|;
    assert xs[..|before|] + xs[|before| + 1..] == before;
    if attribute in a.listeners {
      assert |before| > 0;
      assert b.listeners[attribute := before] == a.listeners;
    } else {
      assert b.listeners - {attribute} == a.listeners;
    }
  }

  /** `notify_attribute_listeners`: each listener of the attribute is
      called with it and the value, in registration order. */
  function Notify<L>(a: Attributes<L>, attribute: string, value: AttributeValue): (calls: seq<Call<L>>)
    ensures |calls| == |ListenersOf(a, attribute)|
    ensures forall i :: 0 <= i < |calls| ==> calls[i] == Call(ListenersOf(a, attribute)[i], attribute, value)
  {
    var ls := ListenersOf(a, attribute);
    seq(|ls|, i requires 0 <= i < |ls| => Call(ls[i], attribute, value))
  }

  /** The `home_location` setter: a copy is stored and the listeners of
      "home_location" are told the new value. */
  function SetHome<L>(a: Attributes<L>, position: Location): (r: (Attributes<L>, seq<Call<L>>))
    ensures r.0 == a.(home := Some(position))
    ensures r.1 == Notify(a, "home_location", HomeValue(position))
  {
    (a.(home := Some(position)), Notify(a, "home_location", HomeValue(position)))
  }

  /** `_set_servos`: the new values overlay the old ones and the listeners
      of "servos" are told the merged map. */
  function SetServos<L>(a: Attributes<L>, pwms: map<int, int>): (r: (Attributes<L>, seq<Call<L>>))
    ensures r.0.servos.Keys == a.servos.Keys + pwms.Keys
    ensures forall pin | pin in pwms :: r.0.servos[pin] == pwms[pin]
    ensures forall pin | pin in a.servos && pin !in pwms :: r.0.servos[pin] == a.servos[pin]
    ensures r.0 == a.(servos := r.0.servos)
    ensures r.1 == Notify(a, "servos", ServosValue(r.0.servos))
  {
    var merged := a.servos + pwms;
    (a.(servos := merged), Notify(a, "servos", ServosValue(merged)))
  }
}

=== FILE: waypoints_view.dfy ===
/** The pure helpers of the control panel's waypoints view
    (control_panel/Control_Panel_Waypoints_View.py): formatting a table row,
    the wait helpers that number the synchronisation points of a vehicle,
    the consistency check of a wait waypoint against the vehicle it waits
    for, the conversion of imported waypoints and the `waypoint_add`
    packet of a row. The Qt tables are parameters: a row's cells and its
    emptiness, and the table's cast of a cell. The numeric codes of the
    `Waypoint_Type` enumeration (waypoint/Waypoint.py is not part of this
    model) are a parameter as well. */
module WaypointsView {
  import opened Wrappers
  import opened Packets
  import Buffers
  import Greedy
  import MissionRfSensor

  // ---------------------------------------------------------------------
  // Formatting a table row

  /** The columns of a waypoints table, in order. */
  const NORTH := 0
  const EAST := 1
  const ALTITUDE := 2
  const TYPE := 3
  const WAIT_ID := 4
  const WAIT_COUNT := 5
  const WAIT_WAYPOINT := 6
  const COLUMNS := 7

  /** The integers the type widget gives for HOME and WAIT. */
  datatype TypeCodes = TypeCodes(home: int, wait: int)

  /** The column defaults: north and east are required, the type is WAIT,
      a wait waits for the default vehicle, once, at the default wait
      waypoint. */
  function Defaults(codes: TypeCodes): (d: seq<Value>)
    ensures |d| == COLUMNS
  {
    [VNone, VNone, VReal(0.0), VInt(codes.wait), VInt(0), VInt(1), VInt(-1)]
  }

  /** The column minimums: at least vehicle 0, one wait, wait waypoint -1. */
  const MINIMA: seq<Option<int>> := [None, None, None, None, Some(0), Some(1), Some(-1)]

  /** Python 2's `v < min` for a cell value and an int: numbers compare by
      value, None is below every number, and any other object above. */
  predicate Below(v: Value, min: int) {
    v.VNone? || (Buffers.Number(v).Some? && Buffers.Number(v).value < min as real)
  }

  /** The table's `cast_cell` of a filled cell in a column: None where it
      raises ValueError. */
  type Cast = (int, Value) -> Option<Value>

  /** A table row as read from the table, with the formatted row before it
      (the column defaults for the first row). */
  datatype RowInput = RowInput(data: seq<Value>, empty: bool, previous: seq<Value>)

  predicate WellShaped(input: RowInput) {
    |input.data| == COLUMNS && |input.previous| == COLUMNS
  }

  /** The value column `i` takes: an empty cell repeats the previous row
      when `repeat` is on and the column default is falsy, and takes the
      default otherwise; a filled cell is cast, and keeps its raw value
      where the cast fails. */
  function Filled(codes: TypeCodes, input: RowInput, repeat: bool, cast: Cast, i: int): Value
    requires WellShaped(input) && 0 <= i < COLUMNS
  {
    var default := Defaults(codes)[i];
    if input.data[i] == VNone then
      (if repeat && !Buffers.Truthy(default) then input.previous[i] else default)
    else match cast(i, input.data[i])
      case Some(v) => v
      case None => input.data[i]
  }

  /** Column `i` makes formatting with errors raise: its cell does not
      cast, or its value is below the column's minimum. */
  predicate Faulty(codes: TypeCodes, input: RowInput, repeat: bool, cast: Cast, i: int)
    requires WellShaped(input) && 0 <= i < COLUMNS
  {
    (input.data[i] != VNone && cast(i, input.data[i]).None?)
    || (MINIMA[i].Some? && Below(Filled(codes, input, repeat, cast, i), MINIMA[i].value))
  }

  /** A column whose cell is empty with nothing before it either. */
  predicate Missing(input: RowInput, i: int)
    requires WellShaped(input) && 0 <= i < COLUMNS
  {
    input.data[i] == VNone && input.previous[i] == VNone
  }

  /** `_format_row_data`: an empty row with nothing before it is dropped
      as []; otherwise every column takes its value, and with `errors` on a
      missing required value, an uncastable cell, a value below its
      column's minimum or a HOME waypoint after the first row raises. */
  function FormatRowData(codes: TypeCodes, row: int, input: RowInput, repeat: bool, errors: bool, cast: Cast)
    : (r: Result<seq<Value>>)
    requires WellShaped(input)
    ensures input.empty && input.previous == Defaults(codes) ==> r == Ok([])
    ensures !errors ==> r.Ok?
    ensures r.Err? ==> r.error == ValueError
    ensures !(input.empty && input.previous == Defaults(codes)) ==>
              (r.Ok? ==> |r.value| == COLUMNS
                         && forall k | 0 <= k < COLUMNS :: r.value[k] == Filled(codes, input, repeat, cast, k))
              && (errors ==>
                    (r.Err? <==> (exists k | 0 <= k < COLUMNS :: Missing(input, k))
                                 || (exists k | 0 <= k < COLUMNS :: Faulty(codes, input, repeat, cast, k))
                                 || (row > 0 && EqualsInt(Filled(codes, input, repeat, cast, TYPE), codes.home))))
  {
    if input.empty && input.previous == Defaults(codes) then Ok([])
    else if errors && exists k | 0 <= k < COLUMNS :: Missing(input, k) then Err(ValueError)
    else if errors && exists k | 0 <= k < COLUMNS :: Faulty(codes, input, repeat, cast, k) then Err(ValueError)
    else
      var cells := seq(COLUMNS, k requires 0 <= k < COLUMNS => Filled(codes, input, repeat, cast, k));
      if errors && row > 0 && EqualsInt(cells[TYPE], codes.home) then Err(ValueError)
      else Ok(cells)
  }

  /** Which empty cells repeat the previous row: with `repeat` on, north,
      east, altitude and the wait vehicle do; the type, the wait count and
      the wait waypoint never do and take their defaults. */
  lemma {:induction false} RepeatedColumns(codes: TypeCodes, row: int, input: RowInput, errors: bool, cast: Cast, k: int)
    requires WellShaped(input) && 0 <= k < COLUMNS && codes.wait != 0
    requires input.data[k] == VNone && !(input.empty && input.previous == Defaults(codes))
    ensures var r := FormatRowData(codes, row, input, true, errors, cast);
            r.Ok? ==> r.value[k] == if k in {TYPE, WAIT_COUNT, WAIT_WAYPOINT} then Defaults(codes)[k] else input.previous[k]
    ensures var r := FormatRowData(codes, row, input, false, errors, cast);
            r.Ok? ==> r.value[k] == Defaults(codes)[k]
  {
    assert Defaults(codes)[k] == [VNone, VNone, VReal(0.0), VInt(codes.wait), VInt(0), VInt(1), VInt(-1)][k];
  }

  /** A row formatted with errors on meets every column minimum, is HOME
      only in the first row, and has a value in every column when `repeat`
      is on and no cast yields None. */
  lemma {:induction false} FormattedRowIsValid(codes: TypeCodes, row: int, input: RowInput, repeat: bool, cast: Cast)
    requires WellShaped(input)
    requires FormatRowData(codes, row, input, repeat, true, cast).Ok?
    requires FormatRowData(codes, row, input, repeat, true, cast).value != []
    ensures var cells := FormatRowData(codes, row, input, repeat, true, cast).value;
            (forall k | 0 <= k < COLUMNS && MINIMA[k].Some? :: !Below(cells[k], MINIMA[k].value))
            && (row > 0 ==> !EqualsInt(cells[TYPE], codes.home))
            && (repeat && (forall i, v :: cast(i, v) != Some(VNone)) ==> forall k | 0 <= k < COLUMNS :: cells[k] != VNone)
  {
    var cells := FormatRowData(codes, row, input, repeat, true, cast).value;
    forall k | 0 <= k < COLUMNS && MINIMA[k].Some?
      ensures !Below(cells[k], MINIMA[k].value)
    {
      assert !Faulty(codes, input, repeat, cast, k);
    }
    if repeat && (forall i, v :: cast(i, v) != Some(VNone)) {
      forall k | 0 <= k < COLUMNS
        ensures cells[k] != VNone
      {
        assert !Missing(input, k);
        assert !Faulty(codes, input, repeat, cast, k);
        assert Defaults(codes)[k] == [VNone, VNone, VReal(0.0), VInt(codes.wait), VInt(0), VInt(1), VInt(-1)][k];
      }
    }
  }

  // ---------------------------------------------------------------------
  // Wait helpers

  /** A formatted waypoint whose type and wait columns hold integers. */
  datatype Waypoint = Waypoint(north: Value, east: Value, altitude: Value, kind: Greedy.WaypointType,
                               waitId: int, waitCount: int, waitWaypoint: int)

  /** `_get_wait_id`: 0 for a waypoint that is not a wait; with exactly
      two vehicles the default 0 means the other vehicle; otherwise the
      stated vehicle. */
  function WaitId(vehicle: int, w: Waypoint, numberOfSensors: int): (r: int)
    ensures w.kind != Greedy.Wait ==> r == 0
    ensures w.kind == Greedy.Wait && numberOfSensors == 2 && w.waitId == 0 ==> r == vehicle % 2 + 1
    ensures w.kind == Greedy.Wait && !(numberOfSensors == 2 && w.waitId == 0) ==> r == w.waitId
  {
    if w.kind != Greedy.Wait then 0
    else if numberOfSensors == 2 && w.waitId == 0 then vehicle % numberOfSensors + 1
    else w.waitId
  }

  /** With two vehicles, default waits pair the vehicles with each other:
      each waits for the other, and the other's default wait names it
      back. */
  lemma DefaultWaitsPair(vehicle: int, w: Waypoint, w': Waypoint)
    requires vehicle in {1, 2}
    requires w.kind == Greedy.Wait && w.waitId == 0 && w'.kind == Greedy.Wait && w'.waitId == 0
    ensures WaitId(vehicle, w, 2) != vehicle && WaitId(vehicle, w, 2) in {1, 2}
    ensures WaitId(WaitId(vehicle, w, 2), w', 2) == vehicle
  {
  }

  /** The wait slots a waypoint takes: its wait count if it is a wait. */
  function Slots(w: Waypoint): int {
    if w.kind == Greedy.Wait then w.waitCount else 0
  }

  /** The wait slots of a run of waypoints. */
  function WaitSlots(rows: seq<Waypoint>): int
    decreases |rows|
  {
    if |rows| == 0 then 0 else WaitSlots(rows[..|rows| - 1]) + Slots(rows[|rows| - 1])
  }

  lemma {:induction false} WaitSlotsConcat(a: seq<Waypoint>, b: seq<Waypoint>)
    ensures WaitSlots(a + b) == WaitSlots(a) + WaitSlots(b)
    decreases |b|
  {
    if |b| > 0 {
      assert (a + b)[..|a + b| - 1] == a + b[..|b| - 1];
      WaitSlotsConcat(a, b[..|b| - 1]);
    } else {
      assert a + b == a;
    }
  }

  /** The stop of the Python slice `xs[:index]` of a sequence of length
      `n`; no index means the whole sequence. */
  function SliceEnd(n: nat, index: Option<int>): (e: nat)
    ensures e <= n
    ensures index.Some? && 0 <= index.value <= n ==> e == index.value
    ensures index.Some? && -(n as int) <= index.value < 0 ==> e as int == n as int + index.value
  {
    match index
    case None => n
    case Some(i) => if i < -(n as int) then 0 else if i < 0 then (n + i) as nat else if i > n then n else i
  }

  /** `_count_wait_waypoints`: the sum of the wait counts of the wait
      waypoints before `index`, or of all of them, in the order the
      generator visits them. */
  function CountWaitWaypoints(rows: seq<Waypoint>, index: Option<int>): (r: int)
    ensures r == WaitSlots(rows[..SliceEnd(|rows|, index)])
  {
    var end := SliceEnd(|rows|, index);
    SumFrom(rows[..end], 0)
  }

  /** The generator's sum from row `i` on. */
  function SumFrom(rows: seq<Waypoint>, i: nat): (r: int)
    requires i <= |rows|
    ensures WaitSlots(rows[..i]) + r == WaitSlots(rows)
    decreases |rows| - i
  {
    if i == |rows| then
      assert rows[..i] == rows;
      0
    else
      assert rows[..i + 1][..i] == rows[..i];
      Slots(rows[i]) + SumFrom(rows, i + 1)
  }

  /** With wait counts of at least one, each wait waypoint takes more wait
      slots than the rows before it. */
  lemma {:induction false} WaitSlotsGrow(rows: seq<Waypoint>, i: int, j: int)
    requires forall k | 0 <= k < |rows| :: Slots(rows[k]) >= 0
    requires 0 <= i < j <= |rows|
    ensures WaitSlots(rows[..j]) >= WaitSlots(rows[..i]) + Slots(rows[i])
    decreases j - i
  {
    if j == i + 1 {
      assert rows[..j][..i] == rows[..i];
    } else {
      WaitSlotsGrow(rows, i, j - 1);
      assert rows[..j][..j - 1] == rows[..j - 1];
    }
  }

  /** `_get_wait_waypoint`: -1 for a waypoint that is not a wait; the
      default -1 becomes the number of wait slots before the waypoint, so
      that it waits at its own wait index; otherwise the stated value. An
      index outside the list raises IndexError. */
  function GetWaitWaypoint(rows: seq<Waypoint>, index: int): (r: Result<int>)
    ensures r.Ok? <==> -|rows| <= index < |rows|
    ensures r.Err? ==> r.error == IndexError
    ensures r.Ok? ==> var p := if index < 0 then |rows| + index else index;
                      var w := rows[p];
                      r.value == if w.kind != Greedy.Wait then -1
                                 else if w.waitWaypoint == -1 then WaitSlots(rows[..p])
                                 else w.waitWaypoint
  {
    var w :- PyIndex(rows, index);
    if w.kind != Greedy.Wait then Ok(-1)
    else if w.waitWaypoint == -1 then Ok(CountWaitWaypoints(rows, Some(index)))
    else Ok(w.waitWaypoint)
  }

  /** `_wait_index_in_range`: wait index `w` lies in the run of `count`
      wait slots starting at `start`. */
  predicate InRange(w: int, start: int, count: int) {
    start <= w < start + count
  }

  /** The search of the referenced wait waypoint's row: the first wait
      waypoint, from row `i` on, whose wait slots hold `w`. */
  function FindWaitRow(rows: seq<Waypoint>, w: int, i: nat, start: int): (r: Option<nat>)
    requires i <= |rows| && start == WaitSlots(rows[..i])
    ensures r.Some? ==> i <= r.value < |rows| && rows[r.value].kind == Greedy.Wait
                        && InRange(w, WaitSlots(rows[..r.value]), rows[r.value].waitCount)
    ensures r.Some? ==> forall k | i <= k < r.value && rows[k].kind == Greedy.Wait ::
                          !InRange(w, WaitSlots(rows[..k]), rows[k].waitCount)
    ensures r.None? ==> forall k | i <= k < |rows| && rows[k].kind == Greedy.Wait ::
                          !InRange(w, WaitSlots(rows[..k]), rows[k].waitCount)
    decreases |rows| - i
  {
    if i == |rows| then None
    else
      assert rows[..i + 1][..i] == rows[..i];
      if rows[i].kind != Greedy.Wait then FindWaitRow(rows, w, i + 1, start)
      else if InRange(w, start, rows[i].waitCount) then Some(i)
      else FindWaitRow(rows, w, i + 1, start + rows[i].waitCount)
  }

  /** With wait counts of at least one, the wait slots of the wait
      waypoints partition the wait indices: every index below the total
      lies in the slots of exactly one wait waypoint, which the search
      finds. */
  lemma {:induction false} WaitRowFound(rows: seq<Waypoint>, w: int, i: nat)
    requires forall k | 0 <= k < |rows| :: rows[k].kind == Greedy.Wait ==> rows[k].waitCount >= 1
    requires i <= |rows| && WaitSlots(rows[..i]) <= w < WaitSlots(rows)
    ensures FindWaitRow(rows, w, i, WaitSlots(rows[..i])).Some?
    decreases |rows| - i
  {
    if i < |rows| {
      var start := WaitSlots(rows[..i]);
      assert rows[..i + 1][..i] == rows[..i];
      assert WaitSlots(rows[..i + 1]) == start + Slots(rows[i]);
      if rows[i].kind != Greedy.Wait {
        WaitRowFound(rows, w, i + 1);
        assert FindWaitRow(rows, w, i, start) == FindWaitRow(rows, w, i + 1, start);
      } else if !InRange(w, start, rows[i].waitCount) {
        WaitRowFound(rows, w, i + 1);
        assert FindWaitRow(rows, w, i, start) == FindWaitRow(rows, w, i + 1, start + rows[i].waitCount);
      }
    } else {
      WholeSlice(rows);
    }
  }

  lemma WholeSlice<T>(s: seq<T>)
    ensures s[..|s|] == s
  {
  }

  lemma WaitRangesDisjoint(rows: seq<Waypoint>, w: int, i: int, j: int)
    requires forall k | 0 <= k < |rows| :: rows[k].kind == Greedy.Wait ==> rows[k].waitCount >= 1
    requires 0 <= i < j < |rows| && rows[i].kind == Greedy.Wait && rows[j].kind == Greedy.Wait
    requires InRange(w, WaitSlots(rows[..i]), rows[i].waitCount)
    ensures !InRange(w, WaitSlots(rows[..j]), rows[j].waitCount)
  {
    WaitSlotsGrow(rows, i, j);
  }

  // ---------------------------------------------------------------------
  // Consistency of wait waypoints

  /** Why a wait waypoint is inconsistent: the vehicle it waits for has no
      waypoints, the wait waypoint it names does not exist, waits for
      another vehicle, or names a wait index outside this waypoint's
      slots, or an earlier wait of the other vehicle waits for a later
      wait of this one, which deadlocks. */
  datatype Reason = NoWaypoints | Nonexistent | WrongVehicle | WrongIndex | Deadlock

  /** An earlier wait waypoint `d` of vehicle `waitId` that waits for
      `vehicle` at a wait index past `waitIndex`. */
  predicate WaitsLater(numberOfSensors: int, vehicle: int, waitIndex: int, waitId: int, d: Waypoint) {
    WaitId(waitId, d, numberOfSensors) == vehicle && d.waitWaypoint > waitIndex
  }

  /** `_validate_wait_waypoint` for the wait waypoint of `vehicle` whose
      wait slots start at `waitIndex`, which waits for vehicle `waitId` at
      its wait waypoint `waitWaypoint`. `partnerWaits` are the wait
      waypoints of vehicle `waitId` as `_get_wait_waypoints` lists them.
      Ok(None) is consistent, Ok(Some(reason)) raises the table's
      ValueError; a wait waypoint below minus the number of partner waits
      raises IndexError. */
  function ValidateWaitWaypoint(vehicles: set<int>, numberOfSensors: int, vehicle: int, waitIndex: int,
                                waitCount: int, waitId: int, waitWaypoint: int, partnerWaits: seq<Waypoint>)
    : (r: Result<Option<Reason>>)
    ensures waitId !in vehicles ==> r == Ok(Some(NoWaypoints))
    ensures waitId in vehicles && waitWaypoint >= |partnerWaits| ==> r == Ok(Some(Nonexistent))
    ensures waitId in vehicles && waitWaypoint < -|partnerWaits| ==> r == Err(IndexError)
    ensures waitId in vehicles && 0 <= waitWaypoint < |partnerWaits| ==>
              (r == Ok(None) <==>
                 WaitId(waitId, partnerWaits[waitWaypoint], numberOfSensors) == vehicle
                 && InRange(if partnerWaits[waitWaypoint].waitWaypoint == -1 then waitWaypoint
                            else partnerWaits[waitWaypoint].waitWaypoint, waitIndex, waitCount)
                 && forall k | 0 <= k < waitWaypoint :: !WaitsLater(numberOfSensors, vehicle, waitIndex, waitId, partnerWaits[k]))
    ensures r.Ok? && r.value.Some? && r.value.value == Deadlock ==>
              exists k | 0 <= k < |partnerWaits| :: WaitsLater(numberOfSensors, vehicle, waitIndex, waitId, partnerWaits[k])
  {
    if waitId !in vehicles then Ok(Some(NoWaypoints))
    else if waitWaypoint >= |partnerWaits| then Ok(Some(Nonexistent))
    else
      var target :- PyIndex(partnerWaits, waitWaypoint);
      if WaitId(waitId, target, numberOfSensors) != vehicle then Ok(Some(WrongVehicle))
      else
        var otherIndex := if target.waitWaypoint == -1 then waitWaypoint else target.waitWaypoint;
        if !InRange(otherIndex, waitIndex, waitCount) then Ok(Some(WrongIndex))
        else
          var earlier := partnerWaits[..SliceEnd(|partnerWaits|, Some(waitWaypoint))];
          if exists k | 0 <= k < |earlier| :: WaitsLater(numberOfSensors, vehicle, waitIndex, waitId, earlier[k])
          then Ok(Some(Deadlock))
          else Ok(None)
  }

  /** A wait waypoint is rejected when an earlier wait of the vehicle it
      waits for waits for a later wait of this vehicle: the two vehicles
      would each wait for the other forever. */
  lemma DeadlockRejected(vehicles: set<int>, numberOfSensors: int, vehicle: int, waitIndex: int,
                         waitCount: int, waitId: int, waitWaypoint: int, partnerWaits: seq<Waypoint>, k: int)
    requires waitId in vehicles && 0 <= k < waitWaypoint < |partnerWaits|
    requires WaitsLater(numberOfSensors, vehicle, waitIndex, waitId, partnerWaits[k])
    ensures ValidateWaitWaypoint(vehicles, numberOfSensors, vehicle, waitIndex, waitCount, waitId, waitWaypoint, partnerWaits)
            != Ok(None)
  {
  }

  /** The wait waypoints of a vehicle as `_get_wait_waypoints` lists them
      for a wait vehicle and wait waypoint (uncompressing needs geometry,
      which is not part of this model). */
  type PartnerWaits = (int, int) -> seq<Waypoint>

  /** The check a wait row of `vehicle` needs, with its wait slots
      starting at `waitIndex`: Ok(None) when it waits for nobody, for
      itself or at the default wait waypoint. */
  function CheckRow(vehicles: set<int>, numberOfSensors: int, waitsOf: PartnerWaits, vehicle: int,
                    w: Waypoint, waitIndex: int): Result<Option<Reason>>
  {
    var waitId := WaitId(vehicle, w, numberOfSensors);
    if w.kind == Greedy.Wait && waitId > 0 && waitId != vehicle && w.waitWaypoint != -1 then
      ValidateWaitWaypoint(vehicles, numberOfSensors, vehicle, waitIndex, w.waitCount, waitId, w.waitWaypoint,
                           waitsOf(waitId, w.waitWaypoint))
    else Ok(None)
  }

  /** The loop of `_validate_waypoints` over the rows of one vehicle from
      row `i` on, with the running wait index. */
  function ValidateRows(vehicles: set<int>, numberOfSensors: int, waitsOf: PartnerWaits, vehicle: int,
                        rows: seq<Waypoint>, i: nat, waitIndex: int): (r: Result<Option<Reason>>)
    requires i <= |rows| && waitIndex == WaitSlots(rows[..i])
    ensures r == Ok(None) <==>
              forall k | i <= k < |rows| ::
                CheckRow(vehicles, numberOfSensors, waitsOf, vehicle, rows[k], WaitSlots(rows[..k])) == Ok(None)
    decreases |rows| - i
  {
    if i == |rows| then Ok(None)
    else
      assert rows[..i + 1][..i] == rows[..i];
      var w := rows[i];
      var checked := CheckRow(vehicles, numberOfSensors, waitsOf, vehicle, w, waitIndex);
      if checked != Ok(None) then checked
      else ValidateRows(vehicles, numberOfSensors, waitsOf, vehicle, rows, i + 1, waitIndex + Slots(w))
  }

  /** `_validate_waypoints`: every wait row of every vehicle, visited in
      the dictionary's order `order`, is checked with its wait index, the
      wait slots of the rows before it; the first inconsistency is
      raised. */
  function ValidateWaypoints(waypoints: map<int, seq<Waypoint>>, order: seq<int>, numberOfSensors: int,
                             waitsOf: PartnerWaits): (r: Result<Option<Reason>>)
    requires forall k | 0 <= k < |order| :: order[k] in waypoints
    ensures r == Ok(None) <==>
              forall k, i | 0 <= k < |order| && 0 <= i < |waypoints[order[k]]| ::
                CheckRow(waypoints.Keys, numberOfSensors, waitsOf, order[k], waypoints[order[k]][i],
                         WaitSlots(waypoints[order[k]][..i])) == Ok(None)
    decreases |order|
  {
    if |order| == 0 then Ok(None)
    else
      var rows := waypoints[order[0]];
      assert rows[..0] == [];
      var first := ValidateRows(waypoints.Keys, numberOfSensors, waitsOf, order[0], rows, 0, 0);
      if first != Ok(None) then first
      else
        var rest := ValidateWaypoints(waypoints, order[1..], numberOfSensors, waitsOf);
        assert forall k | 1 <= k < |order| :: order[k] == order[1..][k - 1];
        rest
  }

  /** The wait index the validation gives a wait row is the wait waypoint
      the row defaults to: a row with the default wait waypoint waits at
      its own wait index. */
  lemma DefaultIsOwnWaitIndex(rows: seq<Waypoint>, i: int)
    requires 0 <= i < |rows| && rows[i].kind == Greedy.Wait && rows[i].waitWaypoint == -1
    ensures GetWaitWaypoint(rows, i) == Ok(WaitSlots(rows[..i]))
  {
  }

  // ---------------------------------------------------------------------
  // Imported waypoints

  /** A value loaded from a JSON file. */
  datatype Json =
    | JNull
    | JBool(b: bool)
    | JNumber(x: real)
    | JString(s: string)
    | JArray(items: seq<Json>)
    | JObject(fields: map<string, Json>)

  /** Python's `j[i]` for a small non-negative index: a list or a string
      past its end raises IndexError, a dict KeyError (its keys are
      strings), anything else TypeError. */
  function Item(j: Json, i: nat): (r: Result<Json>)
    ensures r.Err? ==> r.error in {IndexError, KeyError, TypeError}
  {
    match j
    case JArray(items) => if i < |items| then Ok(items[i]) else Err(IndexError)
    case JString(s) => if i < |s| then Ok(JString([s[i]])) else Err(IndexError)
    case JObject(_) => Err(KeyError)
    case _ => Err(TypeError)
  }

  /** `[pair[i] for pair in pairs]`: the first failing item raises. */
  function Column(pairs: seq<Json>, i: nat): (r: Result<seq<Json>>)
    ensures r.Err? ==> r.error in {IndexError, KeyError, TypeError}
    ensures r.Ok? <==> forall k | 0 <= k < |pairs| :: Item(pairs[k], i).Ok?
    ensures r.Ok? ==> |r.value| == |pairs| && forall k | 0 <= k < |pairs| :: r.value[k] == Item(pairs[k], i).value
    decreases |pairs|
  {
    if |pairs| == 0 then Ok([])
    else
      var first :- Item(pairs[0], i);
      var rest :- Column(pairs[1..], i);
      assert forall k | 1 <= k < |pairs| :: pairs[k] == pairs[1..][k - 1];
      Ok([first] + rest)
  }

  /** `_convert_waypoints` without reassignment: a dict is already the
      waypoints per vehicle; a list of sensor pairs gives vehicle "1" the
      first and vehicle "2" the second sensor of every pair, and a pair too
      short raises ValueError; any other value raises ValueError. */
  function ConvertWaypoints(waypoints: Json): (r: Result<Json>)
    ensures waypoints.JObject? ==> r == Ok(waypoints)
    ensures !waypoints.JObject? && !waypoints.JArray? ==> r == Err(ValueError)
    ensures r.Ok? ==> r.value.JObject?
    ensures waypoints.JArray? && (forall k | 0 <= k < |waypoints.items| :: waypoints.items[k].JArray? && |waypoints.items[k].items| >= 2)
            ==> r.Ok?
    ensures waypoints.JArray? && r.Ok? ==>
              r.value.fields.Keys == {"1", "2"}
              && r.value.fields["1"].JArray? && r.value.fields["2"].JArray?
              && |r.value.fields["1"].items| == |r.value.fields["2"].items| == |waypoints.items|
  {
    match waypoints
    case JObject(_) => Ok(waypoints)
    case JArray(pairs) =>
      (match Column(pairs, 0)
       case Err(e) => Err(if e == IndexError then ValueError else e)
       case Ok(firsts) =>
         match Column(pairs, 1)
         case Err(e) => Err(if e == IndexError then ValueError else e)
         case Ok(seconds) => Ok(JObject(map["1" := JArray(firsts), "2" := JArray(seconds)])))
    case _ => Err(ValueError)
  }

  /** Converting is idempotent: converted waypoints convert to themselves. */
  lemma ConvertIdempotent(waypoints: Json)
    requires ConvertWaypoints(waypoints).Ok?
    ensures ConvertWaypoints(ConvertWaypoints(waypoints).value) == ConvertWaypoints(waypoints)
  {
  }

  /** Splitting loses nothing: the two vehicles' lists zip back into the
      imported pairs. */
  lemma SplitPairsZip(waypoints: Json, k: int)
    requires waypoints.JArray? && 0 <= k < |waypoints.items|
    requires forall i | 0 <= i < |waypoints.items| :: waypoints.items[i].JArray? && |waypoints.items[i].items| == 2
    ensures var r := ConvertWaypoints(waypoints).value.fields;
            JArray([r["1"].items[k], r["2"].items[k]]) == waypoints.items[k]
  {
    var pair := waypoints.items[k];
    assert pair.items == [pair.items[0], pair.items[1]];
  }

  // ---------------------------------------------------------------------
  // Sending

  /** `_make_add_waypoint_packet`: a `waypoint_add` packet with the row's
      seven columns, the index and the receiving vehicle. A row shorter
      than seven columns raises IndexError. */
  function MakeAddWaypointPacket(reg: Registry, vehicle: int, index: int, waypoint: seq<Value>): (r: Result<Packet>)
    ensures r.Err? <==> |waypoint| < COLUMNS
    ensures r.Err? ==> r.error == IndexError
    ensures r.Ok? ==> Get(r.value, SPECIFICATION) == VStr("waypoint_add")
                      && Get(r.value, "index") == VInt(index) && Get(r.value, "to_id") == VInt(vehicle)
                      && forall k | 0 <= k < COLUMNS :: Get(r.value, MissionRfSensor.WAYPOINT_KEYS[k]) == waypoint[k]
  {
    if |waypoint| < COLUMNS then Err(IndexError)
    else
      Ok(Build(reg, "waypoint_add", map[
        "latitude" := waypoint[NORTH], "longitude" := waypoint[EAST], "altitude" := waypoint[ALTITUDE],
        "type" := waypoint[TYPE], "wait_id" := waypoint[WAIT_ID], "wait_count" := waypoint[WAIT_COUNT],
        "wait_waypoint" := waypoint[WAIT_WAYPOINT], "index" := VInt(index), "to_id" := VInt(vehicle)]))
  }

  /** The add packets of a vehicle's rows, numbered on from `start`. */
  function AddPackets(reg: Registry, vehicle: int, start: int, rows: seq<seq<Value>>): (ps: seq<Packet>)
    requires forall k | 0 <= k < |rows| :: |rows[k]| == COLUMNS
    ensures |ps| == |rows|
    ensures forall k | 0 <= k < |rows| :: Ok(ps[k]) == MakeAddWaypointPacket(reg, vehicle, start + k, rows[k])
  {
    seq(|rows|, k requires 0 <= k < |rows| => MakeAddWaypointPacket(reg, vehicle, start + k, rows[k]).value)
  }

  /** The vehicle accepts the add packets of its rows, sent in order after
      a clear: it stores every row, with each column under the key it
      reads, expects the next index after the last, and acknowledges each
      packet with the index after it. */
  lemma RowsArrive(reg: Registry, m: MissionRfSensor.Mission, rows: seq<seq<Value>>, dump: Option<seq<MissionRfSensor.Data>>)
    requires forall k | 0 <= k < |rows| :: |rows[k]| == COLUMNS
    ensures var ps := AddPackets(reg, m.id, m.nextIndex, rows);
            var (m', acks) := MissionRfSensor.Deliver(m, ps, dump);
            m'.id == m.id && m'.complete == m.complete && m'.nextIndex == m.nextIndex + |rows|
            && |m'.waypoints| == |m.waypoints| + |rows| && m'.waypoints[..|m.waypoints|] == m.waypoints
            && (forall k, c | 0 <= k < |rows| && 0 <= c < COLUMNS ::
                  MissionRfSensor.WAYPOINT_KEYS[c] in m'.waypoints[|m.waypoints| + k] &&
                  m'.waypoints[|m.waypoints| + k][MissionRfSensor.WAYPOINT_KEYS[c]] == rows[k][c])
            && |acks| == |rows| && forall k | 0 <= k < |rows| :: acks[k] == Some(m.nextIndex + k + 1)
  {
    var ps := AddPackets(reg, m.id, m.nextIndex, rows);
    forall k | 0 <= k < |ps|
      ensures EqualsInt(Get(ps[k], "to_id"), m.id) && Get(ps[k], "index") == VInt(m.nextIndex + k)
      ensures MissionRfSensor.HasWaypointKeys(ps[k].contents)
      ensures forall c | 0 <= c < COLUMNS :: ps[k].contents[MissionRfSensor.WAYPOINT_KEYS[c]] == rows[k][c]
    {
      forall c | 0 <= c < COLUMNS
        ensures MissionRfSensor.WAYPOINT_KEYS[c] in ps[k].contents
        ensures ps[k].contents[MissionRfSensor.WAYPOINT_KEYS[c]] == rows[k][c]
      {
        assert Get(ps[k], MissionRfSensor.WAYPOINT_KEYS[c]) == rows[k][c];
      }
    }
    assert MissionRfSensor.Numbered(m.id, m.nextIndex, ps);
    MissionRfSensor.InOrderDelivery(m, ps, dump);
    var m' := MissionRfSensor.Deliver(m, ps, dump).0;
    var contents := MissionRfSensor.Contents(ps);
    assert m'.waypoints == m.waypoints + contents;
    ContentsAt(ps);
  }

  lemma {:induction false} ContentsAt(ps: seq<Packet>)
    ensures forall k | 0 <= k < |ps| :: MissionRfSensor.Contents(ps)[k] == ps[k].contents
    decreases |ps|
  {
    if |ps| > 0 {
      ContentsAt(ps[1..]);
    }
  }
}

=== FILE: wrappers.dfy ===
/** Failure-compatible wrappers shared by every module of the model.
    Python exceptions raised by the modelled code become `Err` values that
    name the exception class, so each error path of the source is a
    visible branch of the model rather than a precondition. */
module Wrappers {

  /** The exception classes the modelled code raises or catches. */
  datatype Error =
    | TypeError
    | ValueError
    | KeyError
    | IndexError
    | RuntimeError
    | ZeroDivisionError
    /** A `struct.error` that the source lets escape unconverted. */
    | StructError
    /** The `DisabledException` raised when the radio connection is closed. */
    | Disabled
    /** A `socket.error` of the simulated network. */
    | SocketError
    /** An `AttributeError` (the simulator's socket has been closed). */
    | AttributeError
    /** `sys.exit(1)`. */
    | Exit

  datatype Option<+T> = None | Some(value: T) {
    function GetOr(default: T): T {
      match this
      case Some(v) => v
      case None => default
    }
  }

  datatype Result<+T> = Ok(value: T) | Err(error: Error) {
    predicate IsFailure() {
      Err?
    }

    function PropagateFailure<U>(): Result<U>
      requires Err?
    {
      Err(error)
    }

    function Extract(): T
      requires Ok?
    {
      value
    }
  }

  /** The outcome of a handler that returns nothing but may raise. */
  datatype Outcome = Pass | Fail(error: Error) {
    predicate IsFailure() {
      Fail?
    }

    function PropagateFailure(): Outcome
      requires Fail?
    {
      this
    }
  }

  /** `xs[i]` with Python's indexing: a negative index counts from the
      end, and an index outside the list is an IndexError. */
  function PyIndex<T>(xs: seq<T>, i: int): (r: Result<T>)
    ensures r.Ok? <==> -|xs| <= i < |xs|
    ensures 0 <= i < |xs| ==> r == Ok(xs[i])
    ensures -|xs| <= i < 0 ==> r == Ok(xs[|xs| + i])
    ensures r.Err? ==> r.error == IndexError
  {
    if 0 <= i < |xs| then Ok(xs[i])
    else if -|xs| <= i < 0 then Ok(xs[|xs| + i])
    else Err(IndexError)
  }
}

=== FILE: xbee_sensor.dfy ===
/** The older XBee sensor base (zigbee/XBee_Sensor.py). It keeps the same
    enqueue rule and ground-station packet as the RF sensor runtime, but
    `start` and `stop` only flip a flag, `_send_tx_frame` reports bad
    arguments as ValueError, and received packets pass through
    `_check_receive`. */
module XBeeSensor {
  import opened Wrappers
  import opened Packets
  import Tdma
  import RfSensor

  datatype XBee = XBee(
    id: int,
    numberOfSensors: int,
    active: bool,
    joined: bool,
    started: bool,
    scheduler: Tdma.Scheduler,
    queue: seq<RfSensor.Frame>)

  /** The constructor checks the location, receive and valid callbacks in
      that order (TypeError each), then the arguments (ValueError). */
  function New(args: Option<RfSensor.Arguments>, locationCallable: bool, receiveCallable: bool,
               validCallable: bool): (r: Result<XBee>)
    ensures !locationCallable || !receiveCallable || !validCallable ==> r == Err(TypeError)
    ensures locationCallable && receiveCallable && validCallable && args.None? ==> r == Err(ValueError)
    ensures r.Ok? ==> (args.Some? && Tdma.Valid(r.value.scheduler)
      && r.value.id == args.value.id && r.value.numberOfSensors == args.value.numberOfSensors
      && !r.value.active && !r.value.joined && !r.value.started && r.value.queue == [])
  {
    if !locationCallable || !receiveCallable || !validCallable then Err(TypeError)
    else match args
      case None => Err(ValueError)
      case Some(a) =>
        match Tdma.New(a.id, Some((a.schedulerSensors, a.sweepDelay)))
        case Err(e) => Err(e)
        case Ok(scheduler) => Ok(XBee(a.id, a.numberOfSensors, false, false, false, scheduler, []))
  }

  /** `start` and `stop` change the started flag and nothing else. */
  function SetStarted(x: XBee, started: bool): (r: XBee)
    ensures r.started == started
    ensures r.(started := x.started) == x
  {
    x.(started := started)
  }

  method Enqueue(x: XBee, packet: Option<Packet>, to: Option<int>) returns (r: Result<XBee>)
    ensures packet.None? ==> r == Err(TypeError)
    ensures packet.Some? && packet.value.private ==> r == Err(ValueError)
    ensures packet.Some? && !packet.value.private ==> r.Ok?
    ensures r.Ok? && to.Some? ==> r.value == x.(queue := x.queue + [RfSensor.Frame(packet.value, to.value)])
    ensures r.Ok? && to.None? ==>
      r.value == x.(queue := x.queue + RfSensor.Copies(packet.value, RfSensor.Targets(x.numberOfSensors, x.id)))
  {
    var q := RfSensor.EnqueueFrames(x.queue, x.numberOfSensors, x.id, packet, to);
    match q
    case Err(e) => return Err(e);
    case Ok(queue) => return Ok(x.(queue := queue));
  }

  /** `_send_tx_frame`'s checks: a missing packet or destination is a
      ValueError. */
  function CheckTxFrame(packet: Option<Packet>, to: Option<int>): (r: Outcome)
    ensures r == Pass <==> packet.Some? && to.Some?
    ensures r != Pass ==> r == Fail(ValueError)
  {
    if packet.None? then Fail(ValueError)
    else if to.None? then Fail(ValueError)
    else Pass
  }

  /** `_check_receive`: a public packet goes to the receive callback (the
      packets handed to it are returned) and is handled; a private packet
      is left for the sensor. */
  function CheckReceive(p: Packet): (r: (bool, seq<Packet>))
    ensures r.0 <==> !p.private
    ensures r.1 == (if p.private then [] else [p])
  {
    if !p.private then (true, [p]) else (false, [])
  }

  /** `_make_rssi_broadcast_packet`: the sensor's location, validity and
      waypoint index (the callbacks' answers), its id and the send time.
      Unlike the newer runtime there is no `valid_pair` field. */
  function MakeBroadcast(reg: Registry, x: XBee, latitude: Value, longitude: Value, valid: Value,
                         waypointIndex: Value, now: real): (p: Packet)
    ensures Get(p, SPECIFICATION) == VStr("rssi_broadcast")
    ensures Get(p, "latitude") == latitude && Get(p, "longitude") == longitude
    ensures Get(p, "valid") == valid && Get(p, "waypoint_index") == waypointIndex
    ensures Get(p, "sensor_id") == VInt(x.id) && Get(p, "timestamp") == VReal(now)
    ensures Get(p, "valid_pair") == VNone
  {
    Build(reg, "rssi_broadcast",
      map["latitude" := latitude, "longitude" := longitude, "valid" := valid,
          "waypoint_index" := waypointIndex, "sensor_id" := VInt(x.id), "timestamp" := VReal(now)])
  }

  /** `_make_rssi_ground_station_packet`: the same layout as the newer
      runtime's, with the `from_*` fields taken from the received broadcast
      and the `to_*` fields from this sensor; the rssi is left unset. */
  function MakeGroundStation(reg: Registry, x: XBee, broadcast: Packet,
                             latitude: Value, longitude: Value, toValid: Value): (p: Packet)
    ensures Get(p, SPECIFICATION) == VStr(GROUND_STATION) && Get(p, "sensor_id") == VInt(x.id)
    ensures Get(p, "from_latitude") == Get(broadcast, "latitude")
    ensures Get(p, "from_longitude") == Get(broadcast, "longitude")
    ensures Get(p, "from_valid") == Get(broadcast, "valid")
    ensures Get(p, "to_latitude") == latitude && Get(p, "to_longitude") == longitude
    ensures Get(p, "to_valid") == toValid && Get(p, "rssi") == VNone
  {
    RfSensor.CreateGroundStation(reg, x.id, broadcast, latitude, longitude, toValid)
  }
}
